=== FILE: README.md ===
# Portfolio build system: the metadata pipeline

The portfolio site is built from one Markdown file per project. Each file has a
YAML frontmatter. The build system reads these files, validates and enriches
the frontmatter, and scans the body for headings, links, images and code
blocks. It then derives word counts, reading times and a complexity score,
aggregates every project into a JSON index, and emits a sitemap, structured
data, social metadata and an SEO report. It also builds the tag filters,
colours and CSS, prepares the data each project page is rendered with, and
ships two scripts. The first checks every project against a rule set. The
second migrates the older single-file layout to one folder per project.

This project models that pipeline in Dafny and proves its properties. Modules:

- `Js` holds the JavaScript values the pipeline works on and the string and
  list built-ins it relies on:
  - a frontmatter `Record` with one `Value` per known key, plus `others` for any
    other key;
  - `Value` is `undefined`, `null`, a boolean, a number, a string, an array of
    strings or a YAML date;
  - `trim`, `split`, `toLowerCase`, `indexOf`, `replace`, `Set` insertion.
- `Words`: the two word counters and the reading time.
- `Sorting`: the stable `Array.prototype.sort` and the default string order.
- `Tally`: occurrence maps.
- `ContentScan`: the line and regular-expression scanners over the body.
- `MarkdownParser`: `build-system/lib/markdown-parser.js`.
- `IndexGenerator`: `build-system/lib/index-generator.js`.
- `SeoOptimizer`: `build-system/lib/seo-optimizer.js`.
- `TagManager`: `build-system/lib/tag-manager.js`.
- `TemplateEngine`: `build-system/lib/template-engine.js`.
- `ValidateProjects`: `build-system/scripts/validate-projects.js`.
- `MigrateProjects`: `build-system/scripts/migrate-projects.js`.

## How the code is modelled

Code that is one expression is written as functions:

- frontmatter enrichment;
- the excerpt and SEO text caps;
- schema inference;
- the sitemap entry list;
- the social and structured-data objects;
- the migration's field mapping.

Each function comes with lemmas that state what it promises.

Code that works step by step becomes methods with loops, proved against those
functions:

- the scanners' `exec` loops;
- the collect-all-errors validation;
- the hash loop;
- the button and CSS builders;
- the recommendation and distribution builders;
- the keyword set;
- the validator's and the migration's loops.

The objects whose fields the source updates become classes with the same
fields and `modifies` clauses on their methods:

- `IndexGenerator.IndexGenerator` (`projects`, `stats`);
- `TagManager.TagManager` (its three sets and three count maps);
- `TemplateEngine.TemplateEngine` (`templateCache`);
- `ValidateProjects.ProjectValidator` (`errors`, `warnings`, `suggestions`, `validatedProjects`);
- `MigrateProjects.ProjectMigrator` (`existingIndex`, `migratedProjects`).

A JavaScript `Set` is a duplicate-free sequence in insertion order. A thrown
exception is the `Err` case of a `Result`, with the message the source or V8
gives.

Foreign libraries are parameters the model never looks inside:

- `slugify`;
- `Date.parse` (as a validity test on text);
- markdown-it's `render`;
- Handlebars' compile;
- `localeCompare` (as a total preorder);
- the date order used by `sortProjects` (as a key into the integers);
- the clock, as a `today`/`now` string.

gray-matter's parse is represented by its result: a `Record`, a body and, as a parameter, the excerpt it splits off at `<!-- more -->`. A frontmatter gray-matter rejects is an `Unparseable` case carrying the YAML error's message, in the parser's folders and the migration's files; the validator's `Unreadable` entry plays the same part.

Where the specification and the code disagree, the model follows the code:

- The excerpt is cut mid-word, not at a word boundary.
- The default category is `Général`.
- A link is external when its URL starts with `http`, not when it is absolute.
- The parser's word count is never 0, so the reading time is never "under 1 minute".
- Schema inference has a `WebSite` tier, and its keyword lists are the code's.
- A production index keeps only published projects, so it drops archived ones as well as drafts.
- `validate` never returns `printSummary`'s verdict. No exit code derives from it.

The two defects under "## Findings" are modelled twice: once as written, with a
lemma that exhibits the failing input, and once corrected. The members that
build on them (the sitemap, the SEO report and the validator's frontmatter
checks) use the corrected reading; each is named under "## Left out".

Strings are sequences of Unicode characters. Where JavaScript's answer depends
on UTF-16, the model converts with `Js.CodeUnits`: the default `sort()` order
and the colour hash's `charCodeAt` loop.

## Model

| member | source | states |
|---|---|---|
| Words.SplitWs | build-system/scripts/validate-projects.js:332-334 | `split(/\s+/)` always yields at least one piece |
| Words.NonEmpty | build-system/scripts/validate-projects.js:332-334 | the filter keeps only non-empty pieces and never adds any |
| Words.NonEmptySplitCountsWords | build-system/scripts/validate-projects.js:332-334 | dropping the empty pieces of the split leaves one piece per word of the text |
| Words.SplitCountsWords | build-system/lib/markdown-parser.js:326-328 | on text without white space at either end, every piece of the split is a word |
| Words.TrimKeepsWords | build-system/lib/markdown-parser.js:326-328 | trimming never changes the number of words |
| Words.CountTokensIsWordCount | build-system/scripts/validate-projects.js:332-334 | the validator's count is the number of words, and is 0 exactly for blank text |
| Words.CountWordsIsWordCount | build-system/lib/markdown-parser.js:326-328 | the parser's count equals the validator's on text with a word in it and is 1 on blank text, so it is never 0 |
| Words.MinutesFor | build-system/lib/markdown-parser.js:333 | `ceil(words / 200)`: the least number of minutes covering the words at 200 per minute |
| Words.MinutesForMonotone | build-system/lib/markdown-parser.js:330-335 | more words never give a shorter reading time |
| Words.EstimateReadingTime | build-system/lib/markdown-parser.js:330-335 | the reading time is at least one minute and is the ceiling of words / 200 |
| Sorting.SortBySorted | build-system/lib/index-generator.js:194-201 | the stable sort's output is ordered by the comparator |
| Sorting.SortByNoDups | build-system/lib/index-generator.js:225-227 | sorting a duplicate-free list keeps it duplicate-free |
| Sorting.LexLeTotalPreorder | build-system/lib/index-generator.js:225-227 | the default `sort()` order, by UTF-16 code unit, is a total preorder |
| Sorting.LexLeAntisymmetric | build-system/lib/index-generator.js:225-227 | two strings that each sort before the other are equal, since distinct strings have distinct code units |
| Sorting.SurrogatesSortLow | build-system/lib/index-generator.js:225-227 | a character beyond U+FFFF sorts before U+FFFD, as its high surrogate is compared |
| Sorting.SortStringsSpec | build-system/lib/index-generator.js:225-227 | `Array.from(set).sort()` holds exactly the set's members, each once, in strictly increasing order |
| Tally.Bump | build-system/lib/tag-manager.js:86-89 | `m[k] = (m[k] \|\| 0) + 1` adds `k` to the keys, increments its count and leaves every other count alone |
| Tally.TallyCounts | build-system/lib/tag-manager.js:86-89 | every element counted is a key, and its count is its number of occurrences |
| Tally.TallySum | build-system/lib/index-generator.js:272-281 | a distribution's counts add up to the number of elements counted |
| Js.AddEach | build-system/lib/tag-manager.js:56-77 | adding a list to a set one element at a time gives `AddAll`: the union, with the old members in front and no duplicate |
| Js.AddAllSpec | build-system/lib/index-generator.js:186-188 | adding a list to a set gives the union, keeps the old members in front and stays duplicate-free |
| ContentScan.SplitLines | build-system/lib/markdown-parser.js:264 | `split('\n')` gives at least one piece, none holding a newline |
| ContentScan.SplitLinesJoin | build-system/lib/markdown-parser.js:264 | joining the lines back with '\n' gives the text |
| ContentScan.JoinSplitLines | build-system/lib/markdown-parser.js:264 | splitting joined newline-free lines gives the lines back |
| ContentScan.MatchHeading | build-system/lib/markdown-parser.js:267-273 | `/^(#{1,6})\s+(.+)/`: a heading has level 1..6 and non-empty text without a line terminator |
| ContentScan.MatchHeadingText | build-system/lib/markdown-parser.js:267-273 | the `\s+(.+)` part: a match keeps the level it is given, with non-empty one-line text and that text's slug |
| ContentScan.MatchHeadingLine | build-system/lib/markdown-parser.js:267-273 | a heading line reads back its own level and text |
| ContentScan.MatchHeadingTextOf | build-system/lib/markdown-parser.js:267-273 | after the hashes, one space and a one-line text are read back as that text |
| ContentScan.MatchedLinesAll | build-system/lib/markdown-parser.js:266-275 | lines that each match give one result each, in line order |
| ContentScan.HeadingsOf | build-system/lib/markdown-parser.js:266-275 | at most one heading per line |
| ContentScan.ExtractHeadings | build-system/lib/markdown-parser.js:262-278 | `extractHeadings` yields the headings of the body's lines in line order |
| ContentScan.HeadingsOfHeadingLines | build-system/lib/markdown-parser.js:262-278 | a document made only of heading lines yields exactly those headings, in order |
| ContentScan.ExtractHeadingsOfDocument | build-system/lib/markdown-parser.js:262-278 | scanning the rendered headings joined by '\n' finds exactly the headings |
| ContentScan.NextMatch | build-system/lib/markdown-parser.js:285 | `exec` from `lastIndex`: a match ends past `lastIndex` and within the text |
| ContentScan.AllMatches | build-system/lib/markdown-parser.js:285-291 | the matches `exec` returns from `lastIndex` on: at most one per remaining character |
| ContentScan.ExecAll | build-system/lib/markdown-parser.js:285-291 | the `while (exec)` loop collects exactly `AllMatches` from index 0 |
| ContentScan.NextMatchShift | build-system/lib/markdown-parser.js:285 | matching only looks forward: the text before `lastIndex` is irrelevant |
| ContentScan.AllMatchesAfterPrefix | build-system/lib/markdown-parser.js:285-291 | a match at the very start is found first, and scanning resumes after it |
| ContentScan.NoMatchFrom | build-system/lib/markdown-parser.js:285 | with no match from `lastIndex` on, `exec` returns null at once |
| ContentScan.MatchLink | build-system/lib/markdown-parser.js:281 | `/\[([^\]]+)\]\(([^)]+)\)/` at the start of the text: a match consumes at least one character and no more than the text |
| ContentScan.ExtractLinks | build-system/lib/markdown-parser.js:280-294 | `extractLinks` yields every link `exec` finds, in order |
| ContentScan.LinksOfRenderedLinks | build-system/lib/markdown-parser.js:280-294 | links written back to back are all found, in order |
| ContentScan.LinksWellFormed | build-system/lib/markdown-parser.js:286-290 | every link found has non-empty text and URL and is external exactly when its URL starts with "http" |
| ContentScan.MatchImage | build-system/lib/markdown-parser.js:297 | `/!\[([^\]]*)\]\(([^)]+)\)/` at the start of the text: a match consumes at least one character and no more than the text |
| ContentScan.ExtractImages | build-system/lib/markdown-parser.js:296-309 | `extractImages` yields every image `exec` finds, in order |
| ContentScan.MatchRenderedImage | build-system/lib/markdown-parser.js:302-305 | an image is read back as written, and a missing alt text gives "" |
| ContentScan.ImageWithAltIsAlsoALink | build-system/lib/markdown-parser.js:281 | the link pattern also matches inside an image with alt text: the image counts as a link whose text is the alt |
| ContentScan.ImageWithoutAltIsNoLink | build-system/lib/markdown-parser.js:281 | an image without alt text is not a link |
| ContentScan.MatchCodeBlock | build-system/lib/markdown-parser.js:312 | the fenced-block pattern at the start of the text: a match consumes part of the text and always has a language |
| ContentScan.MatchCodeBody | build-system/lib/markdown-parser.js:312 | after the opening line: a match ends past that line and always has a language |
| ContentScan.ExtractCodeBlocks | build-system/lib/markdown-parser.js:311-324 | `extractCodeBlocks` yields every block `exec` finds, in order |
| ContentScan.BodyEndsAtClosingFence | build-system/lib/markdown-parser.js:312 | the body holds no "\n```", so it ends at the first closing fence |
| ContentScan.MatchCodeBlockOfParts | build-system/lib/markdown-parser.js:312-319 | a fence, info word, '\n', body and closing fence is matched with that word and body |
| ContentScan.MatchRenderedCodeBlock | build-system/lib/markdown-parser.js:316-320 | a fenced block reads back its info word as language, or "text" when there is none, and its body |
| MarkdownParser.NewParserEnv | build-system/lib/markdown-parser.js:18-42 | the base URL and language are the options' when given, else the defaults |
| MarkdownParser.Messages | build-system/lib/markdown-parser.js:115-117 | one message per error |
| MarkdownParser.ValidateFrontmatter | build-system/lib/markdown-parser.js:92-118 | validation succeeds exactly when no check fails; otherwise it throws with the messages of every failing check |
| MarkdownParser.MissingFieldsSpec | build-system/lib/markdown-parser.js:95-99 | an error for each required field that is missing and for nothing else |
| MarkdownParser.FrontmatterErrorsSpec | build-system/lib/markdown-parser.js:92-113 | each check's error is present exactly when that check fails: missing title/description/date, invalid date, unknown status, categories not a non-empty array |
| MarkdownParser.CapWithEllipsisSpec | build-system/lib/markdown-parser.js:229-231 | the capped text fits: unchanged when short, else its first `max - 3` characters and "..." |
| MarkdownParser.StripMarkupSpec | build-system/lib/markdown-parser.js:228 | removing `#`, `*` and backticks removes exactly those characters |
| MarkdownParser.GenerateExcerptSpec | build-system/lib/markdown-parser.js:226-232 | the excerpt has at most 120 characters, no markup and no leading white space; the cleaned text when it fits, else 117 characters and "..." |
| MarkdownParser.GenerateSEOTitleSpec | build-system/lib/markdown-parser.js:234-238 | the SEO title has at most 60 characters and is the title when it fits |
| MarkdownParser.GenerateSEODescriptionSpec | build-system/lib/markdown-parser.js:240-245 | the SEO description has at most 160 characters and is the description when it fits |
| MarkdownParser.AnyInLowerAll | build-system/lib/markdown-parser.js:248-250 | lower-casing the list and then testing is testing each lower-cased category |
| MarkdownParser.MaxRankSpec | build-system/lib/markdown-parser.js:247-260 | the rank is the maximum of the categories' ranks |
| MarkdownParser.InferSchemaTypeIsMaxRank | build-system/lib/markdown-parser.js:247-260 | the inferred type is the highest-priority one any category calls for: SoftwareApplication > Dataset > WebSite > CreativeWork |
| MarkdownParser.InferSchemaTypeIgnoresCase | build-system/lib/markdown-parser.js:248 | inference ignores letter case |
| MarkdownParser.MaxRankConcat | build-system/lib/markdown-parser.js:247-260 | adding categories never lowers the inferred priority |
| MarkdownParser.ValidIsEnhanceable | build-system/lib/markdown-parser.js:61-71 | a frontmatter that passed validation has the title and description enrichment reads |
| MarkdownParser.EnhanceFrontmatter | build-system/lib/markdown-parser.js:123-180 | the step-by-step updates give `Enrich`, the whole enriched record at once |
| MarkdownParser.EnrichKeepsSupplied | build-system/lib/markdown-parser.js:127-172 | a truthy value the author gave for a key enrichment fills is never replaced |
| MarkdownParser.EnrichKeepsOthers | build-system/lib/markdown-parser.js:124 | every key enrichment does not set keeps the author's value |
| MarkdownParser.EnrichDefaults | build-system/lib/markdown-parser.js:138-171 | the defaults: published, not featured, priority 5, the language, ["Général"], empty tags/tech/keywords, "article", "summary_large_image", team size 1, "Personnel", case study true |
| MarkdownParser.EnrichDerived | build-system/lib/markdown-parser.js:126-177 | last_updated is always the build date; the slug comes from the title; canonical_url is base + "/projets/" + slug; og/twitter images fall back to hero_image; hero_alt only with a hero image |
| MarkdownParser.EnrichTextBounds | build-system/lib/markdown-parser.js:132-151 | the generated excerpt, SEO title and SEO description respect 120/60/160 characters |
| MarkdownParser.EnrichedStatusIsKnown | build-system/lib/markdown-parser.js:106-108 | after validation and enrichment the status is draft, published or archived |
| MarkdownParser.EnrichIdempotent | build-system/lib/markdown-parser.js:123-180 | enriching twice gives what enriching once gives |
| MarkdownParser.ExternalLinks | build-system/lib/markdown-parser.js:355 | the filter keeps exactly the external links |
| MarkdownParser.CappedCeiling | build-system/lib/markdown-parser.js:358 | `min(ceil(tenths / 10), 10)` on integer tenths: at most 10, the ceiling of tenths / 10 when below 10, and 10 only for more than 90 tenths |
| MarkdownParser.AssessComplexity | build-system/lib/markdown-parser.js:337-359 | the score built step by step equals the complexity formula |
| MarkdownParser.ComplexitySpec | build-system/lib/markdown-parser.js:337-359 | the score is from 1 to 10, and is 1 exactly when no factor adds anything |
| MarkdownParser.ParseContentStatus | build-system/lib/markdown-parser.js:61-87 | parsing fails exactly when validation does; the parsed status is "draft" exactly when the frontmatter's is |
| MarkdownParser.ParseContentExcerpt | build-system/lib/markdown-parser.js:62-83 | the excerpt is gray-matter's when there is one, otherwise generated from the body: at most 120 characters, the whole plain text when it fits |
| IndexGenerator.ResolveImagePathSpec | build-system/lib/index-generator.js:152-167 | falsy gives null; "../images/" paths are kept; "images/X" becomes "../images/projets/<slug>/X"; other strings are kept; a non-string throws |
| IndexGenerator.Pushed | build-system/lib/index-generator.js:46-56 | a processed folder pushes at most one entry |
| IndexGenerator.Built | build-system/lib/index-generator.js:46-56 | the entries pushed, in folder order: a folder that throws or is skipped adds none |
| IndexGenerator.BuiltPrefix | build-system/lib/index-generator.js:46-56 | one more folder adds its own entry, if any, after the others |
| IndexGenerator.ProcessedSkips | build-system/lib/index-generator.js:84-103 | a draft never reaches a production index; a folder with no index.md, a frontmatter gray-matter rejects or one that fails validation never reaches any index, the last two failing with `parseFile`'s rewrapped message |
| IndexGenerator.CountedSpec | build-system/lib/index-generator.js:172-189 | `updateStats` adds one to the total and to at most one of published and draft; unions the categories, tags and technologies into the sets, each list only when the ones before it were arrays; the sets stay duplicate-free |
| IndexGenerator.CountedAllAppend | build-system/lib/index-generator.js:172-189 | counting two runs one after the other counts both |
| IndexGenerator.NewerFirstTotalPreorder | build-system/lib/index-generator.js:195-200 | the newest-first comparator is a total preorder |
| IndexGenerator.SortedNewestFirst | build-system/lib/index-generator.js:194-201 | sorting gives the same projects, newest first |
| IndexGenerator.PublishedOnly | build-system/lib/index-generator.js:209 | the filter keeps only published projects |
| IndexGenerator.PublishedOnlySpec | build-system/lib/index-generator.js:209 | the filter keeps exactly the published projects, in their relative order |
| IndexGenerator.RoundedMean | build-system/lib/index-generator.js:266 | `Math.round(total / n)`: the nearest integer, halves up |
| IndexGenerator.AverageReadingTime | build-system/lib/index-generator.js:262-267 | 0 for no projects, else the rounded mean of the reading times |
| IndexGenerator.ComplexityKeys | build-system/lib/index-generator.js:276 | one key per project: its complexity, or 1 when that is falsy |
| IndexGenerator.ComplexityHistogramTotal | build-system/lib/index-generator.js:272-281 | the histogram's counts add up to the number of projects |
| IndexGenerator.SimpleIndex | build-system/lib/index-generator.js:244-250 | one five-field entry per project, same order, each field copied from the project |
| IndexGenerator.IndexGenerator.constructor | build-system/lib/index-generator.js:17-33 | no projects and zeroed stats, the projects directory as given |
| IndexGenerator.IndexGenerator.ProcessProject | build-system/lib/index-generator.js:84-103 | the folder's outcome is `Processed`: an entry, a skip (null) or a thrown error, a parse or validation failure carrying `parseFile`'s "Failed to parse file <folder>/index.md: " prefix (markdown-parser.js:47-55) |
| IndexGenerator.IndexGenerator.UpdateStats | build-system/lib/index-generator.js:172-189 | the stats become `Counted` of the old stats; succeeds exactly when the lists are arrays; a throw comes after the counters moved; the projects are untouched |
| IndexGenerator.IndexGenerator.SortProjects | build-system/lib/index-generator.js:194-201 | the projects become their stable newest-first sort |
| IndexGenerator.IndexGenerator.ComplexityDistribution | build-system/lib/index-generator.js:272-281 | the histogram is the tally of the complexity keys |
| IndexGenerator.IndexGenerator.GenerateIndexData | build-system/lib/index-generator.js:206-234 | production shows only published projects; the filter lists are sorted and duplicate-free and hold exactly the sets' members; average and histogram as defined |
| IndexGenerator.IndexGenerator.AddFolder | build-system/lib/index-generator.js:46-56 | one folder's entry is pushed and counted; an error is dropped |
| IndexGenerator.IndexGenerator.AddFolders | build-system/lib/index-generator.js:46-56 | every folder is processed; a folder that throws does not stop the rest |
| IndexGenerator.IndexGenerator.Generate | build-system/lib/index-generator.js:38-69 | the entries are collected and counted, sorted newest first, and the index is built from them with every promise of `generateIndexData`: visible projects, totals, sorted duplicate-free filter lists holding exactly the sets, average and histogram |
| SeoOptimizer.ProjectUrlSpec | build-system/lib/seo-optimizer.js:104-113 | featured: monthly, 0.8; others: yearly, 0.6; loc is base + "/projets/" + (slug or url); an image only when the entry's resolved `image` is set, with its first "../" removed (corrected reading of line 111) |
| SeoOptimizer.SitemapUrlsDefined | build-system/lib/seo-optimizer.js:71-113 | the list only fails on a published project whose `image` is truthy but not a string (corrected reading of line 111) |
| SeoOptimizer.SitemapUrlsSpec | build-system/lib/seo-optimizer.js:71-113 | four fixed entries, then one per published project, in order (its image from the corrected reading of line 111) |
| SeoOptimizer.IndexEntryImageLostAsWritten | build-system/lib/seo-optimizer.js:111 | as written, an index entry never gets a sitemap image and always counts as missing one |
| SeoOptimizer.IndexEntryImageKept | build-system/lib/index-generator.js:115 | reading `image`, an index entry gets a sitemap image exactly when its resolved image is set |
| SeoOptimizer.SitemapDeclaresImages | build-system/lib/seo-optimizer.js:134-165 | the document declares the image namespace exactly when some entry has an image |
| SeoOptimizer.UrlElementImage | build-system/lib/seo-optimizer.js:146-158 | an entry's element holds an `<image:image>` child exactly when the entry has an image |
| SeoOptimizer.GenerateSitemapXml | build-system/lib/seo-optimizer.js:134-165 | the header, one element per entry in order, then the closing tag |
| SeoOptimizer.GenerateSitemap | build-system/lib/seo-optimizer.js:68-129 | fails exactly when the list does; otherwise the count and XML of that list |
| SeoOptimizer.EscapeXmlRoundTrip | build-system/lib/seo-optimizer.js:491-501 | unescaping the escaped text gives the text back |
| SeoOptimizer.EscapeCharSpec | build-system/lib/seo-optimizer.js:493-500 | a character's replacement has no markup, and a leading `&` starts an entity |
| SeoOptimizer.EscapeXmlNoMarkup | build-system/lib/seo-optimizer.js:491-501 | the escaped text has no `<`, `>`, `'` or `"` |
| SeoOptimizer.EscapeXmlEntities | build-system/lib/seo-optimizer.js:491-501 | every `&` in the escaped text begins one of the five entities |
| SeoOptimizer.EscapeXmlPlain | build-system/lib/seo-optimizer.js:491-501 | text without the five characters is returned unchanged |
| SeoOptimizer.PortfolioList | build-system/lib/seo-optimizer.js:273-283 | numberOfItems is the published count; the elements are the first min(10, published) published projects at positions 1..k |
| SeoOptimizer.SocialOfSpec | build-system/lib/seo-optimizer.js:304-359 | article tags are categories then tags; Open Graph and Twitter titles fall back to the title |
| SeoOptimizer.SocialProjectsSpec | build-system/lib/seo-optimizer.js:304-359 | one social entry per published project, in order |
| SeoOptimizer.CountWhere | build-system/lib/seo-optimizer.js:382-400 | the number of projects passing a test, never more than there are |
| SeoOptimizer.PositiveSpec | build-system/lib/seo-optimizer.js:422-470 | keeping positive counts keeps exactly those, in rank order |
| SeoOptimizer.RecommendationsSpec | build-system/lib/seo-optimizer.js:422-470 | a recommendation exactly for each check some project fails, with that count, in the fixed order (the image check on the corrected `image` reading of line 437) |
| SeoOptimizer.GenerateRecommendations | build-system/lib/seo-optimizer.js:422-470 | the pushes give `Recommendations` (corrected image check) |
| SeoOptimizer.FieldValues | build-system/lib/seo-optimizer.js:476 | one value per item, in order |
| SeoOptimizer.CalculateAverage | build-system/lib/seo-optimizer.js:475-478 | 0 when no value is truthy, else the rounded mean of the truthy values |
| SeoOptimizer.AverageIgnoresFalsy | build-system/lib/seo-optimizer.js:476 | an item with a falsy value does not move the average |
| SeoOptimizer.DistributionTotal | build-system/lib/seo-optimizer.js:480-489 | the counts add up to the number of list entries; a value is a key exactly when some list holds it |
| SeoOptimizer.GetDistribution | build-system/lib/seo-optimizer.js:480-489 | the nested loop gives `Distribution`, and throws where `forEach` would |
| SeoOptimizer.GenerateReport | build-system/lib/seo-optimizer.js:364-417 | the report built is `Report` |
| SeoOptimizer.ReportMatchesSitemap | build-system/lib/seo-optimizer.js:382 | the sitemap size the report states is the size of the sitemap generated |
| SeoOptimizer.ReportBounds | build-system/lib/seo-optimizer.js:364-417 | featured ≤ published ≤ total, and every recommendation's count is between 1 and the published count |
| TagManager.ConsistentAdd | build-system/lib/tag-manager.js:56-89 | adding a label to a set and bumping its count keeps set and map in step |
| TagManager.ExtractedFromNothing | build-system/lib/tag-manager.js:51-81 | from nothing, each set holds every label once, in first-appearance order, and each count is its number of occurrences |
| TagManager.AccumulatedStep | build-system/lib/tag-manager.js:51-81 | the projects so far and then the next project give the projects so far plus one |
| TagManager.PopularSpec | build-system/lib/tag-manager.js:96-104 | a technology is popular exactly when counted at least twice |
| TagManager.FilterLeTotalPreorder | build-system/lib/tag-manager.js:107-116 | count-descending then `localeCompare` is a total preorder |
| TagManager.FilterConfigSpec | build-system/lib/tag-manager.js:94-129 | filters are exactly the categories and popular technologies, once each, by count then name; the three lists sorted and duplicate-free |
| TagManager.ToInt32 | build-system/lib/tag-manager.js:226 | `hash << 5` first wraps the hash: the result is in the signed 32-bit range and congruent to it modulo 2^32 |
| TagManager.UnitsHashBound | build-system/lib/tag-manager.js:223-235 | the hash stays below 2^53, where doubles are exact, for strings of up to four million UTF-16 code units |
| TagManager.ToInt32Congruent | build-system/lib/tag-manager.js:226 | congruent values wrap to the same 32-bit value |
| TagManager.ShiftStep | build-system/lib/tag-manager.js:226 | `(hash << 5) - hash` is 31 times the hash modulo 2^32 |
| TagManager.UnitsHashIsPolynomial | build-system/lib/tag-manager.js:223-235 | the hash agrees with the polynomial hash over the code units modulo 2^32 |
| TagManager.HslOf | build-system/lib/tag-manager.js:230-234 | hue is `abs(hash) % 360`; hue in [0, 360), saturation in [60, 90), lightness in [45, 65) |
| TagManager.GenerateColorFromString | build-system/lib/tag-manager.js:223-235 | the `charCodeAt` loop over the string's UTF-16 code units gives the colour of the string's hash |
| TagManager.TagColorSpec | build-system/lib/tag-manager.js:208-218 | the predefined colour of the label's slug when there is one, else the hash colour |
| TagManager.FilterButtonsSpec | build-system/lib/tag-manager.js:164-173 | the active "all" button first, then one button per filter, in order |
| TagManager.GenerateFilterButtonsHtml | build-system/lib/tag-manager.js:164-173 | the buttons appended in the loop give `FilterButtons` |
| TagManager.StylesSpec | build-system/lib/tag-manager.js:191-193 | each label is styled with its slug and its `getTagColor` colour |
| TagManager.RulesAppend | build-system/lib/tag-manager.js:191-200 | the rules of two lists one after the other |
| TagManager.RuleAt | build-system/lib/tag-manager.js:195-199 | lines 5i..5i+4 are the rule of the i-th style |
| TagManager.CssLinesSpec | build-system/lib/tag-manager.js:185-203 | a header line, then five lines per category and technology, in order |
| TagManager.CssStep | build-system/lib/tag-manager.js:191-200 | one loop turn adds the next label's five lines |
| TagManager.MetadataSpec | build-system/lib/tag-manager.js:282-328 | one record per label and per filter, in order; a filter is a "category" exactly when it is one, and counts category plus tech uses |
| TagManager.TagManager.constructor | build-system/lib/tag-manager.js:15-46 | empty sets and maps, predefined colours |
| TagManager.TagManager.AddItems | build-system/lib/tag-manager.js:56-77 | one kind's set gains the labels and its map counts them; other kinds untouched |
| TagManager.TagManager.AddListOf | build-system/lib/tag-manager.js:56-77 | a falsy list is skipped, an array is added, anything else throws |
| TagManager.TagManager.ExtractProject | build-system/lib/tag-manager.js:54-79 | a project's three lists added and counted |
| TagManager.TagManager.ExtractTagsFromProjects | build-system/lib/tag-manager.js:51-81 | succeeds exactly when every project's lists are arrays or falsy; then every set and map extended by all projects' labels |
| TagManager.TagManager.GenerateFilterConfig | build-system/lib/tag-manager.js:94-129 | the configuration is `FilterConfig` of the fields |
| TagManager.TagManager.GetTagColor | build-system/lib/tag-manager.js:208-218 | the colour is `TagColor` |
| TagManager.TagManager.GenerateTagCss | build-system/lib/tag-manager.js:185-203 | the pushed lines joined give `CssLines` |
| TagManager.TagManager.ManageTagsFromProjects | build-system/lib/tag-manager.js:333-363 | succeeds exactly when every project's lists can be read; then each set and counter is the old one plus the projects' entries, and the configuration, metadata and summary are computed from them |
| TemplateEngine.ReadingTimeLabelSpec | build-system/lib/template-engine.js:96-99 | "Moins d'1 min" below one minute, "1 min" for 1, "N min" otherwise |
| TemplateEngine.TruncateSpec | build-system/lib/template-engine.js:73-76 | unchanged within the length, else exactly `length` characters and "..."; falsy gives "" |
| TemplateEngine.CapitalizeSpec | build-system/lib/template-engine.js:84-87 | only the first character changes; capitalizing twice is capitalizing once |
| TemplateEngine.GenerateKeywords | build-system/lib/template-engine.js:206-230 | the set built list by list is `Keywords` |
| TemplateEngine.AddFixedSpec | build-system/lib/template-engine.js:225-227 | the fixed keywords are added after what was there |
| TemplateEngine.KeywordSetSpec | build-system/lib/template-engine.js:206-230 | no duplicate; a word is in the set exactly when it is explicit, a lower-cased category or technology, or fixed; explicit ones first |
| TemplateEngine.KeywordsSpec | build-system/lib/template-engine.js:206-230 | fails exactly when a list is truthy but not an array; otherwise the keyword set |
| TemplateEngine.ResolveSocialImageSpec | build-system/lib/template-engine.js:235-254 | falsy null, "http" kept, "images/X" and "../images/..." and other paths made absolute as the code does, non-strings throw |
| TemplateEngine.ProjectImagesFolderIsImplied | build-system/lib/template-engine.js:244-253 | "images/X" and "X" give the same URL |
| TemplateEngine.SocialImageMatchesIndexImage | build-system/lib/template-engine.js:235-254 | the social URL of a project image is the site root followed by the index's path |
| TemplateEngine.PrepareTemplateDataOverrides | build-system/lib/template-engine.js:169-201 | fails exactly when keywords or an image throws; otherwise keywords, hero_alt, images, language, reading_time and word_count are set |
| TemplateEngine.PrepareTemplateDataKeeps | build-system/lib/template-engine.js:169-201 | every other frontmatter key reaches the template unchanged |
| TemplateEngine.PageOutcomeSkips | build-system/lib/template-engine.js:126-141 | skipped exactly for a valid draft in production; no index.md is an error, and a rejected frontmatter throws the parser's rewrapped message |
| TemplateEngine.PartitionAppend | build-system/lib/template-engine.js:259-291 | two runs' lists are the first run's followed by the second's |
| TemplateEngine.PartitionSize | build-system/lib/template-engine.js:259-291 | every attempt lands in exactly one list |
| TemplateEngine.PartitionEntry | build-system/lib/template-engine.js:268-287 | the i-th attempt sits in the list its outcome names, after the earlier ones |
| TemplateEngine.TemplateEngine.constructor | build-system/lib/template-engine.js:17-28 | base URL defaulted, parser built with it, empty cache |
| TemplateEngine.TemplateEngine.LoadTemplate | build-system/lib/template-engine.js:105-121 | a cache hit returns the cached template without reading; a load is cached; a missing template throws and leaves the cache |
| TemplateEngine.TemplateEngine.ClearCache | build-system/lib/template-engine.js:327-330 | the cache is empty |
| TemplateEngine.TemplateEngine.GenerateProjectPage | build-system/lib/template-engine.js:126-164 | the outcome is `PageOutcome`; the cache gains the project template exactly when the page gets past the draft check and the template exists |
| TemplateEngine.TemplateEngine.GenerateAllPages | build-system/lib/template-engine.js:259-291 | the results are the partition of every folder's attempt; the cache is the old one after each folder's page |
| TemplateEngine.AnyReachesLoadSpec | build-system/lib/template-engine.js:259-291 | some folder of the run reaches the template load exactly when one of them does |
| TemplateEngine.CacheAfterPagesSpec | build-system/lib/template-engine.js:259-291 | a run caches the project template, and nothing else, exactly when some folder reaches the load and the template exists |
| ValidateProjects.MissingIssuesSpec | build-system/scripts/validate-projects.js:122-145 | one entry per missing field and nothing else |
| ValidateProjects.MissingCountAll | build-system/scripts/validate-projects.js:239-264 | all fields missing exactly when the count reaches the number of fields; none exactly when 0 |
| ValidateProjects.YamlDateRejectedAsWritten | build-system/scripts/validate-projects.js:336-339 | a YAML date is rejected as written and accepted by the parser and the corrected check |
| ValidateProjects.IsValidDateAgreesWithParser | build-system/lib/markdown-parser.js:212-224 | the corrected check agrees with the parser's on everything but an array |
| ValidateProjects.DescriptionIssuesSpec | build-system/scripts/validate-projects.js:166-184 | a warning exactly when shorter than 50 or longer than 160, at most one |
| ValidateProjects.FrontmatterIssueCount | build-system/scripts/validate-projects.js:118-194 | errors: one per missing required field, one for an invalid date (corrected date test), one for an unknown status |
| ValidateProjects.LocalLinkSuggestionsSpec | build-system/scripts/validate-projects.js:208-220 | a suggestion for every local link and nothing else |
| ValidateProjects.MissingAltWarningsSpec | build-system/scripts/validate-projects.js:223-234 | a warning for every image with blank alt text and nothing else |
| ValidateProjects.ShortContentSpec | build-system/scripts/validate-projects.js:197-205 | blank content draws the warning with 0 words; 100 words or more never do |
| ValidateProjects.LinksInDocumentSuggested | build-system/scripts/validate-projects.js:196-235 | in a document of well-formed links, every local one draws a suggestion and nothing else does |
| ValidateProjects.ThreeMissing | build-system/scripts/validate-projects.js:239-264 | all three of three fields are missing exactly when each is |
| ValidateProjects.SeoSuggestionsCount | build-system/scripts/validate-projects.js:248-272 | each suggestion exactly when its count is 3; at most two |
| ValidateProjects.SeoSuggestionsSpec | build-system/scripts/validate-projects.js:237-288 | the SEO suggestion exactly when all three SEO fields are missing, likewise social |
| ValidateProjects.CategoryWarningsSpec | build-system/scripts/validate-projects.js:275-287 | at most one warning, exactly for missing, empty or more than five categories |
| ValidateProjects.FolderLogs | build-system/scripts/validate-projects.js:40-53 | one log per folder |
| ValidateProjects.ParsedErrors | build-system/scripts/validate-projects.js:73-116 | a parsed project's errors are the frontmatter's then the image check's |
| ValidateProjects.FrontmatterPasses | build-system/scripts/validate-projects.js:118-194 | no error exactly with a title, a description, a valid date, and no or a valid status |
| ValidateProjects.FolderPasses | build-system/scripts/validate-projects.js:73-116 | no error exactly when index.md was read, the frontmatter passes and the hero image is fine |
| ValidateProjects.RunPasses | build-system/scripts/validate-projects.js:26-65 | no error in a run exactly when no folder adds one |
| ValidateProjects.RunValidatedSpec | build-system/scripts/validate-projects.js:26-65 | every listed project comes from a folder that parsed, in folder order |
| ValidateProjects.Summarize | build-system/scripts/validate-projects.js:350-360 | a project's summary: name, status, words, hero image, category and description counts |
| ValidateProjects.ProjectValidator.constructor | build-system/scripts/validate-projects.js:18-24 | empty lists |
| ValidateProjects.ProjectValidator.ValidateFrontmatter | build-system/scripts/validate-projects.js:118-194 | appends the frontmatter issues and nothing else |
| ValidateProjects.ProjectValidator.SuggestLocalLinks | build-system/scripts/validate-projects.js:208-220 | appends the link suggestions |
| ValidateProjects.ProjectValidator.WarnMissingAlts | build-system/scripts/validate-projects.js:223-234 | appends the alt warnings |
| ValidateProjects.ProjectValidator.ValidateContent | build-system/scripts/validate-projects.js:196-235 | appends the content issues |
| ValidateProjects.ProjectValidator.ValidateSeo | build-system/scripts/validate-projects.js:237-288 | counts the missing fields and appends the suggestions and warning |
| ValidateProjects.ProjectValidator.ValidateImages | build-system/scripts/validate-projects.js:290-330 | appends the image issues, or throws for a non-string hero image |
| ValidateProjects.ProjectValidator.ValidateParsed | build-system/scripts/validate-projects.js:86-115 | the checks in order; a throw of the image check caught as a parse error (corrected date test) |
| ValidateProjects.ProjectValidator.ValidateProject | build-system/scripts/validate-projects.js:73-116 | throws only when the existence check throws (corrected date test) |
| ValidateProjects.ProjectValidator.ValidateFolder | build-system/scripts/validate-projects.js:40-53 | a throw is recorded as a critical error (corrected date test) |
| ValidateProjects.ProjectValidator.GenerateReport | build-system/scripts/validate-projects.js:341-371 | summary counts equal the lengths of the lists |
| ValidateProjects.ProjectValidator.PrintSummary | build-system/scripts/validate-projects.js:373-427 | true exactly when there are no errors |
| ValidateProjects.ProjectValidator.Validate | build-system/scripts/validate-projects.js:26-65 | every folder validated in turn, a throw recorded as critical and the loop going on; the lists only grow; resolves to the report only when there is no folder |
| MigrateProjects.ProjectFilesSpec | build-system/scripts/migrate-projects.js:101-109 | the kept names are exactly the ".md" files other than template, README and index, in order |
| MigrateProjects.FindProjectFiles | build-system/scripts/migrate-projects.js:98-117 | an unreadable directory gives no files |
| MigrateProjects.ExcludedNeverMigrated | build-system/scripts/migrate-projects.js:101-109 | template, README and index are never migrated |
| MigrateProjects.LoadedIndex | build-system/scripts/migrate-projects.js:86-96 | an array is the index, an object gives its projects, a missing file an empty index; a malformed file and `null` throw |
| MigrateProjects.EntryMatchesSpec | build-system/scripts/migrate-projects.js:132-136 | a matching URL wins whatever the title; otherwise the title decides, and must be a string |
| MigrateProjects.FindEntrySpec | build-system/scripts/migrate-projects.js:132-136 | the first match, or the first throw, or nothing |
| MigrateProjects.FindEntryByUrl | build-system/scripts/migrate-projects.js:132-136 | an entry whose URL names the file is found unless an earlier one matches or throws |
| MigrateProjects.GenerateExcerptSpec | build-system/scripts/migrate-projects.js:209-214 | "" for a falsy description; unchanged within 120; else 117 characters and "..." |
| MigrateProjects.InferSchemaTypeSpec | build-system/scripts/migrate-projects.js:216-226 | software first, then data, else CreativeWork; missing categories count as none |
| MigrateProjects.InferSchemaTypeAgreesOnSoftware | build-system/scripts/migrate-projects.js:216-226 | where the migration infers SoftwareApplication the parser does too |
| MigrateProjects.InferSchemaTypeMissesData | build-system/scripts/migrate-projects.js:219-224 | the two disagree: "data" is a Dataset for the parser only |
| MigrateProjects.PreserveCustomFieldsSpec | build-system/scripts/migrate-projects.js:199-203 | every non-rebuilt key takes the existing value when present |
| MigrateProjects.PreserveCustomOthersSpec | build-system/scripts/migrate-projects.js:199-203 | the same for the other keys |
| MigrateProjects.EnhanceFrontmatterErrors | build-system/scripts/migrate-projects.js:160-207 | fails only for a long array description or truthy non-array categories |
| MigrateProjects.EnhanceFrontmatterFallbacks | build-system/scripts/migrate-projects.js:163-177 | title, description, date, categories and hero image fall back from the file to the index to a default |
| MigrateProjects.EnhanceFrontmatterKeepsExisting | build-system/scripts/migrate-projects.js:160-207 | an existing key survives; slug, canonical URL, status and others take the computed value only when missing |
| MigrateProjects.EnhanceFrontmatterDerived | build-system/scripts/migrate-projects.js:166-186 | the excerpt and schema type: the file's own, or generated from the description and inferred from the categories |
| MigrateProjects.MigrateOneSpec | build-system/scripts/migrate-projects.js:119-158 | lands in slug/index.md, keeps the body, records a non-empty title |
| MigrateProjects.MigrateOneFails | build-system/scripts/migrate-projects.js:119-122 | a missing file fails with ENOENT and a rejected frontmatter with gray-matter's error, before the index is consulted |
| MigrateProjects.Outcomes | build-system/scripts/migrate-projects.js:51-55 | one outcome per file |
| MigrateProjects.OutcomesAt | build-system/scripts/migrate-projects.js:51-55 | the i-th outcome is migrating the i-th file |
| MigrateProjects.MigrateFilesSpec | build-system/scripts/migrate-projects.js:51-55 | files migrated in order, stopping at the first failure |
| MigrateProjects.FailureIsFinal | build-system/scripts/migrate-projects.js:51-55 | once a run fails, more files change nothing |
| MigrateProjects.Entries | build-system/scripts/migrate-projects.js:150-155 | one entry per step |
| MigrateProjects.Pages | build-system/scripts/migrate-projects.js:141-145 | one page per step |
| MigrateProjects.ProjectMigrator.constructor | build-system/scripts/migrate-projects.js:27-32 | no index, no migrated projects |
| MigrateProjects.ProjectMigrator.LoadExistingIndex | build-system/scripts/migrate-projects.js:86-96 | the loaded index, or the parse error |
| MigrateProjects.ProjectMigrator.MigrateProject | build-system/scripts/migrate-projects.js:119-158 | the page, recording the project; nothing recorded when it throws |
| MigrateProjects.ProjectMigrator.Migrate | build-system/scripts/migrate-projects.js:34-74 | loads the index, which it then holds, and migrates the project files one by one; an error ends it |
| MigrateProjects.ProjectMigrator.MigrateEach | build-system/scripts/migrate-projects.js:51-55 | the loop gives `MigrateFiles` of the outcomes: pages and entries of the steps, and the first failure |

## Left out

- File system, console and process: every read and write; glob and `readdir`; spinners and colours; the `print*` routines.
- Not modelled: `createBackup`, `copyProjectImages`, `validateMigration`, `updateMainSiteFilters` and `updateCSS` (rewrites of files on disk), `generateRobotsTxt` and `writeIndex`'s file output.
- The validator's CLI exit code is not modelled. `validate` never returns `printSummary`'s verdict.
- gray-matter, markdown-it, Handlebars, `slugify`, `Date.parse`, `localeCompare` and date-fns `format` are parameters. Nothing is proved about them beyond what the model assumes of `localeCompare` and the date key: a total preorder.
- The clock is a `today`/`now` parameter.
- Floating point:
  - Complexity is computed in integer tenths, so float rounding at exact-integer sums is not modelled.
  - `Math.round` is integer round-half-up.
  - Numbers are integers.
- `toLowerCase` and `toUpperCase` act on ASCII letters only.
- Arrays in frontmatter hold strings only. Nested objects are not modelled.
- Values other than a string, array, number, boolean, null or YAML date are not modelled.
- Paths are joined as `dir + "/" + name`, without normalisation.
- The validator's file-system answers come in as `ImageFacts`: whether the hero image exists and how many files the images folder holds.
- `MigrateProjects.LoadedIndex`: an object index whose `projects` key is truthy but not an array is read as no index.
- MarkdownParser.Enrich: a title, description or slug that is not a string is read as "". JavaScript would coerce or throw there. The enrichment lemmas assume `WellTyped`, which excludes such values.
- TagManager.UnitsHashBound: the bound is proved for strings of up to four million code units. Beyond that, double precision is not modelled.
- Lengths, caps and cuts count characters, not UTF-16 code units: description and title lengths in the validator, `characterCount`, the 120-character excerpt and the other `substring` and `slice` cuts. They differ from JavaScript on text with characters beyond U+FFFF.
- Js.Interpolate: a YAML date interpolated into text shows as its `YYYY-MM-DD` day. JavaScript shows `Date.prototype.toString`, which depends on the time zone. This reaches the sitemap's `lastmod` (seo-optimizer.js:149).
- SeoOptimizer.ProjectUrlSpec: states the corrected reading of seo-optimizer.js:111, the entry's `image`. As written, the code reads `hero_image`, which index entries do not carry, so no entry gets an image (see Findings).
- SeoOptimizer.SitemapUrlsDefined: the throw is stated for a truthy non-string `image`, the corrected reading. As written, it is for `hero_image`.
- SeoOptimizer.GenerateSitemap: builds on the corrected `image` reading. The as-written sitemap is `SeoOptimizer.IndexEntryImageLostAsWritten`'s subject.
- SeoOptimizer.GenerateReport: the missing-image count and the image recommendation use the corrected `image` reading, not `hero_image`.
- SeoOptimizer.SitemapUrlsSpec: each project entry is `ProjectUrl`, which reads the corrected `image`. As written, line 111 reads `hero_image`, so no project entry has an image.
- SeoOptimizer.RecommendationsSpec: the image count is `MissingImage`, which tests `image`. As written, line 437 tests `hero_image`, so every index entry counts as missing an image (`MissingImageAsWritten`).
- SeoOptimizer.GenerateRecommendations: pushes on the corrected `MissingImage`, not on `!p.hero_image` as line 437 does.
- ValidateProjects.FrontmatterPasses: an unquoted YAML date passes, the corrected reading of validate-projects.js:336-339. As written, the code flags it as an invalid date (see Findings).
- ValidateProjects.ProjectValidator.ValidateFrontmatter: appends no date error for an unquoted YAML date, the corrected reading. As written, the code appends one.
- ValidateProjects.FolderPasses: builds on the corrected date reading, as does `ValidateProjects.RunPasses`.
- ValidateProjects.RunPasses: builds on the corrected date reading.
- ValidateProjects.FrontmatterIssueCount: counts an invalid-date error only for a date the corrected test rejects. As written, validate-projects.js:146-153 also counts one for an unquoted YAML date.
- ValidateProjects.ParsedErrors: the frontmatter's errors are those of the corrected date test.
- ValidateProjects.ProjectValidator.ValidateParsed: its log is `ParsedIssues`, on the corrected date test. As written, it also appends an `invalid_format` error for an unquoted YAML date.
- ValidateProjects.ProjectValidator.ValidateProject: its log rests on the corrected date test, unlike validate-projects.js:146-153.
- ValidateProjects.ProjectValidator.ValidateFolder: its log rests on the corrected date test, unlike validate-projects.js:146-153.
- ValidateProjects.ProjectValidator.Validate: builds on the corrected date reading.

## Findings

| source | as written | input that shows it | evidently intended | confidence | as-written member | corrected member |
|---|---|---|---|---|---|---|
| build-system/lib/seo-optimizer.js:111 | sitemap entries, the missing-image count (398) and the image recommendation (437) read `hero_image`; the index entries they receive carry the resolved path under `image` (index-generator.js:115) | any published project with `hero_image: images/hero.png`, built into the index and passed on | read the entry's `image` | not executed | `SeoOptimizer.IndexEntryImageLostAsWritten` | `SeoOptimizer.IndexEntryImageKept` |
| build-system/scripts/validate-projects.js:336-339 | `isValidDate` tests the regex on the value, which for an unquoted YAML date is a Date object whose text never matches | frontmatter `date: 2024-01-15`, unquoted | accept a valid Date object as the parser does (markdown-parser.js:214-216) | not executed | `ValidateProjects.YamlDateRejectedAsWritten` | `ValidateProjects.IsValidDateAgreesWithParser` |

=== FILE: content_scan.dfy ===
/** The regular-expression scanners that run over a project's Markdown body
    (build-system/lib/markdown-parser.js, also reused by
    build-system/scripts/validate-projects.js):

      headings     /^(#{1,6})\s+(.+)/ on each line of split('\n')
      links        /\[([^\]]+)\]\(([^)]+)\)/g
      images       /!\[([^\]]*)\]\(([^)]+)\)/g
      code blocks  /```(\w+)?\n([\s\S]*?)\n```/g

    Each pattern is written out as a matcher with the regex engine's
    backtracking resolved, and the `while ((match = re.exec(s)) !== null)`
    loops are methods proved against the list of all matches. */
module ContentScan {
  import opened Js

  datatype Heading = Heading(level: nat, text: string, slug: string)
  datatype Link = Link(text: string, url: string, isExternal: bool)
  datatype Image = Image(alt: string, src: string)
  datatype CodeBlock = CodeBlock(language: string, code: string)

  // === Character classes ===

  /** The characters `.` does not match. */
  predicate IsLineTerminator(c: char) {
    c == '\n' || c == '\r' || c == '\U{2028}' || c == '\U{2029}'
  }

  predicate NotLineTerminator(c: char) { !IsLineTerminator(c) }

  /** `\w` */
  predicate IsWordChar(c: char) {
    ('a' <= c <= 'z') || ('A' <= c <= 'Z') || ('0' <= c <= '9') || c == '_'
  }

  predicate IsHash(c: char) { c == '#' }
  predicate NotCloseBracket(c: char) { c != ']' }
  predicate NotCloseParen(c: char) { c != ')' }

  // === Lines ===

  /** `s.split('\n')` */
  function SplitLines(s: string): (lines: seq<string>)
    ensures |lines| >= 1
    ensures forall i :: 0 <= i < |lines| ==> '\n' !in lines[i]
    decreases |s|
  {
    match IndexOfChar(s, '\n', 0)
    case None => [s]
    case Some(i) => [s[..i]] + SplitLines(s[i + 1..])
  }

  /** Splitting on '\n' loses nothing: joining the lines back gives the text. */
  lemma {:induction false} SplitLinesJoin(s: string)
    ensures Join(SplitLines(s), "\n") == s
    decreases |s|
  {
    match IndexOfChar(s, '\n', 0)
    case None =>
    case Some(i) =>
      var rest := SplitLines(s[i + 1..]);
      var lines := [s[..i]] + rest;
      assert SplitLines(s) == lines;
      assert lines[1..] == rest;
      assert Join(lines, "\n") == s[..i] + "\n" + Join(rest, "\n");
      SplitLinesJoin(s[i + 1..]);
      assert s == s[..i] + "\n" + s[i + 1..];
  }

  /** Joining lines that hold no '\n' and splitting again gives the lines back. */
  lemma {:induction false} JoinSplitLines(lines: seq<string>)
    requires |lines| >= 1
    requires forall i :: 0 <= i < |lines| ==> '\n' !in lines[i]
    ensures SplitLines(Join(lines, "\n")) == lines
  {
    var s := Join(lines, "\n");
    if |lines| == 1 {
      assert IndexOfChar(s, '\n', 0).None?;
    } else {
      var rest := Join(lines[1..], "\n");
      assert s == lines[0] + "\n" + rest;
      var first := IndexOfChar(s, '\n', 0);
      assert s[|lines[0]|] == '\n';
      assert first == Some(|lines[0]|) by {
        forall k | 0 <= k < |lines[0]| ensures s[k] != '\n' {
          assert s[k] == lines[0][k];
        }
      }
      assert s[..|lines[0]|] == lines[0];
      assert s[|lines[0]| + 1..] == rest;
      JoinSplitLines(lines[1..]);
    }
  }

  // === Headings ===

  /** The last index in [lo, hi) whose character satisfies `p`. */
  function LastWhere(s: string, lo: nat, hi: nat, p: char -> bool): (r: Option<nat>)
    requires lo <= hi <= |s|
    ensures r.Some? ==> lo <= r.value < hi && p(s[r.value])
    ensures r.Some? ==> forall k :: r.value < k < hi ==> !p(s[k])
    ensures r.None? ==> forall k :: lo <= k < hi ==> !p(s[k])
    decreases hi - lo
  {
    if lo == hi then None
    else if p(s[hi - 1]) then Some(hi - 1)
    else LastWhere(s, lo, hi - 1, p)
  }

  /** `line.match(/^(#{1,6})\s+(.+)/)`. `#{1,6}` takes as many hashes as it can
      (more never help, since the next character must be white space); `\s+`
      gives back white space only when the line ends in it, so that `.+` gets
      the last white-space character that is not a line terminator. */
  function MatchHeading(line: string, slugify: string -> string): (h: Option<Heading>)
    ensures h.Some? ==> 1 <= h.value.level <= 6
    ensures h.Some? ==> h.value.level < |line| && IsSpace(line[h.value.level])
    ensures h.Some? ==> forall k :: 0 <= k < h.value.level ==> line[k] == '#'
    ensures h.Some? ==> h.value.text != []
    ensures h.Some? ==> forall k :: 0 <= k < |h.value.text| ==> NotLineTerminator(h.value.text[k])
    ensures h.Some? ==> h.value.slug == slugify(h.value.text)
  {
    var hashes := RunEnd(line, 0, IsHash);
    var level := if hashes < 6 then hashes else 6;
    if level == 0 || level == |line| || !IsSpace(line[level]) then None
    else MatchHeadingText(line, level, slugify)
  }

  /** The `\s+(.+)` part of the heading pattern, after `level` hashes. */
  function MatchHeadingText(line: string, level: nat, slugify: string -> string): (h: Option<Heading>)
    requires level < |line|
    ensures h.Some? ==> h.value.level == level
    ensures h.Some? ==> h.value.text != []
    ensures h.Some? ==> forall k :: 0 <= k < |h.value.text| ==> NotLineTerminator(h.value.text[k])
    ensures h.Some? ==> h.value.slug == slugify(h.value.text)
  {
    var spaces := RunEnd(line, level, IsSpace);
    var hi := if spaces < |line| then spaces + 1 else |line|;
    match LastWhere(line, level + 1, hi, NotLineTerminator)
    case None => None
    case Some(q) =>
      var text := line[q..RunEnd(line, q, NotLineTerminator)];
      assert q < |line| && line[q] == text[0];
      Some(Heading(level, text, slugify(text)))
  }

  function Repeat(c: char, n: nat): (r: string)
    ensures |r| == n
    ensures forall k :: 0 <= k < n ==> r[k] == c
  {
    if n == 0 then [] else [c] + Repeat(c, n - 1)
  }

  /** The Markdown line `## text` for a heading of the given level. */
  function HeadingLine(level: nat, text: string): string {
    Repeat('#', level) + " " + text
  }

  /** A heading the scanner can produce: a level in 1..6 and a one-line text
      that does not start with white space. */
  predicate WellFormedHeading(h: Heading, slugify: string -> string) {
    1 <= h.level <= 6 && h.text != [] && !IsSpace(h.text[0])
    && (forall k :: 0 <= k < |h.text| ==> NotLineTerminator(h.text[k]))
    && h.slug == slugify(h.text)
  }

  /** The heading matcher reads back the level and text of a heading line. */
  lemma MatchHeadingLine(h: Heading, slugify: string -> string)
    requires WellFormedHeading(h, slugify)
    ensures MatchHeading(HeadingLine(h.level, h.text), slugify) == Some(h)
  {
    var line := HeadingLine(h.level, h.text);
    assert line[h.level] == ' ';
    assert forall k :: 0 <= k < h.level ==> line[k] == '#';
    RunEndAt(line, 0, IsHash, h.level);
    assert line[h.level + 1..] == h.text;
    MatchHeadingTextOf(line, h.level, h.text, slugify);
  }

  /** After the hashes, one space and a one-line text are read back as that text. */
  lemma MatchHeadingTextOf(line: string, level: nat, text: string, slugify: string -> string)
    requires level + 1 < |line| && line[level] == ' ' && line[level + 1..] == text
    requires text != [] && !IsSpace(text[0])
    requires forall k :: 0 <= k < |text| ==> NotLineTerminator(text[k])
    ensures MatchHeadingText(line, level, slugify) == Some(Heading(level, text, slugify(text)))
  {
    assert line[level + 1] == text[0];
    RunEndAt(line, level, IsSpace, level + 1);
    assert LastWhere(line, level + 1, level + 2, NotLineTerminator) == Some(level + 1);
    assert forall k :: level + 1 <= k < |line| ==> line[k] == text[k - level - 1];
    RunEndAt(line, level + 1, NotLineTerminator, |line|);
    assert line[level + 1..|line|] == text;
  }

  /** The results of a per-line matcher on the lines it matches, in line order. */
  function MatchedLines<T>(lines: seq<string>, m: string -> Option<T>): (xs: seq<T>)
    ensures |xs| <= |lines|
  {
    if lines == [] then []
    else
      var init := MatchedLines(lines[..|lines| - 1], m);
      match m(lines[|lines| - 1])
      case None => init
      case Some(x) => init + [x]
  }

  /** Lines that each match give one result each, in order. */
  lemma {:induction false} MatchedLinesAll<T>(lines: seq<string>, xs: seq<T>, m: string -> Option<T>)
    requires |lines| == |xs|
    requires forall i :: 0 <= i < |lines| ==> m(lines[i]) == Some(xs[i])
    ensures MatchedLines(lines, m) == xs
  {
    if lines != [] {
      var n := |lines| - 1;
      var init := lines[..n];
      assert forall i :: 0 <= i < n ==> init[i] == lines[i];
      MatchedLinesAll(init, xs[..n], m);
      assert m(lines[n]) == Some(xs[n]);
      assert xs == xs[..n] + [xs[n]];
    }
  }

  /** The headings of a list of lines, in line order. */
  function HeadingsOf(lines: seq<string>, slugify: string -> string): (hs: seq<Heading>)
    ensures |hs| <= |lines|
  {
    MatchedLines(lines, line => MatchHeading(line, slugify))
  }

  /** `extractHeadings`: one heading per matching line, in line order. */
  method ExtractHeadings(markdown: string, slugify: string -> string) returns (headings: seq<Heading>)
    ensures headings == HeadingsOf(SplitLines(markdown), slugify)
  {
    var lines := SplitLines(markdown);
    headings := [];
    for i := 0 to |lines|
      invariant headings == HeadingsOf(lines[..i], slugify)
    {
      assert lines[..i + 1][..i] == lines[..i];
      var m := MatchHeading(lines[i], slugify);
      if m.Some? {
        headings := headings + [m.value];
      }
    }
    assert lines[..|lines|] == lines;
  }

  /** One heading line per heading. */
  function HeadingLines(hs: seq<Heading>): (lines: seq<string>)
    ensures |lines| == |hs|
    ensures forall i :: 0 <= i < |hs| ==> lines[i] == HeadingLine(hs[i].level, hs[i].text)
  {
    seq(|hs|, i requires 0 <= i < |hs| => HeadingLine(hs[i].level, hs[i].text))
  }

  /** A document made only of heading lines yields exactly those headings, in order. */
  lemma HeadingsOfHeadingLines(hs: seq<Heading>, slugify: string -> string)
    requires forall i :: 0 <= i < |hs| ==> WellFormedHeading(hs[i], slugify)
    ensures HeadingsOf(HeadingLines(hs), slugify) == hs
  {
    var lines := HeadingLines(hs);
    forall i | 0 <= i < |lines| ensures MatchHeading(lines[i], slugify) == Some(hs[i]) {
      MatchHeadingLine(hs[i], slugify);
    }
    MatchedLinesAll(lines, hs, line => MatchHeading(line, slugify));
  }

  lemma HeadingLinesHaveNoNewline(hs: seq<Heading>, slugify: string -> string)
    requires forall i :: 0 <= i < |hs| ==> WellFormedHeading(hs[i], slugify)
    ensures forall i :: 0 <= i < |hs| ==> '\n' !in HeadingLines(hs)[i]
  {
    forall i | 0 <= i < |hs| ensures '\n' !in HeadingLines(hs)[i] {
      var h := hs[i];
      var line := HeadingLine(h.level, h.text);
      forall k | 0 <= k < |line| ensures line[k] != '\n' {
        if k > h.level {
          assert line[k] == h.text[k - h.level - 1];
        }
      }
    }
  }

  /** Scanning the Markdown `HeadingLines(hs)` joined with '\n' finds exactly `hs`. */
  lemma ExtractHeadingsOfDocument(hs: seq<Heading>, slugify: string -> string)
    requires |hs| >= 1
    requires forall i :: 0 <= i < |hs| ==> WellFormedHeading(hs[i], slugify)
    ensures HeadingsOf(SplitLines(Join(HeadingLines(hs), "\n")), slugify) == hs
  {
    HeadingLinesHaveNoNewline(hs, slugify);
    JoinSplitLines(HeadingLines(hs));
    HeadingsOfHeadingLines(hs, slugify);
  }

  // === Global regex scanning ===

  /** A matcher reads a match at the start of its argument and says how many
      characters it spans; every pattern here spans at least one. */
  ghost predicate Consumes<T(!new)>(m: string -> Option<(T, nat)>) {
    forall t :: m(t).Some? ==> 0 < m(t).value.1 <= |t|
  }

  /** `re.exec(s)` with `re.lastIndex == from`: the first match starting at or
      after `from`, with the new `lastIndex` just past it. */
  function NextMatch<T(!new)>(s: string, from: nat, m: string -> Option<(T, nat)>): (r: Option<(T, nat)>)
    requires from <= |s| && Consumes(m)
    ensures r.Some? ==> from < r.value.1 <= |s|
    decreases |s| - from
  {
    if from == |s| then None
    else
      match m(s[from..])
      case Some(found) => Some((found.0, from + found.1))
      case None => NextMatch(s, from + 1, m)
  }

  /** Every match `exec` returns, starting from `lastIndex == from`. */
  function AllMatches<T(!new)>(s: string, from: nat, m: string -> Option<(T, nat)>): (xs: seq<T>)
    requires from <= |s| && Consumes(m)
    ensures |xs| <= |s| - from
    decreases |s| - from
  {
    match NextMatch(s, from, m)
    case None => []
    case Some(found) => [found.0] + AllMatches(s, found.1, m)
  }

  /** `while ((match = re.exec(s)) !== null) results.push(...)` */
  method ExecAll<T(!new)>(s: string, m: string -> Option<(T, nat)>) returns (results: seq<T>)
    requires Consumes(m)
    ensures results == AllMatches(s, 0, m)
  {
    results := [];
    var lastIndex := 0;
    while true
      invariant lastIndex <= |s|
      invariant results + AllMatches(s, lastIndex, m) == AllMatches(s, 0, m)
      decreases |s| - lastIndex
    {
      var found := NextMatch(s, lastIndex, m);
      if found.None? {
        break;
      }
      results := results + [found.value.0];
      lastIndex := found.value.1;
    }
  }

  /** Matching only looks forward: text in front of `lastIndex` is irrelevant. */
  lemma {:induction false} NextMatchShift<T(!new)>(p: string, s: string, j: nat, m: string -> Option<(T, nat)>)
    requires j <= |s| && Consumes(m)
    ensures NextMatch(p + s, |p| + j, m) ==
      match NextMatch(s, j, m)
      case None => None
      case Some(found) => Some((found.0, |p| + found.1))
    decreases |s| - j
  {
    if j < |s| {
      assert (p + s)[|p| + j..] == s[j..];
      if m(s[j..]).None? {
        NextMatchShift(p, s, j + 1, m);
      }
    }
  }

  lemma {:induction false} AllMatchesShift<T(!new)>(p: string, s: string, j: nat, m: string -> Option<(T, nat)>)
    requires j <= |s| && Consumes(m)
    ensures AllMatches(p + s, |p| + j, m) == AllMatches(s, j, m)
    decreases |s| - j
  {
    NextMatchShift(p, s, j, m);
    match NextMatch(s, j, m)
    case None =>
    case Some(found) =>
      AllMatchesShift(p, s, found.1, m);
  }

  /** A match at the very start is found first, and scanning resumes after it. */
  lemma AllMatchesAfterPrefix<T(!new)>(p: string, rest: string, x: T, m: string -> Option<(T, nat)>)
    requires Consumes(m)
    requires m(p + rest) == Some((x, |p|))
    ensures AllMatches(p + rest, 0, m) == [x] + AllMatches(rest, 0, m)
  {
    assert (p + rest)[0..] == p + rest;
    AllMatchesShift(p, rest, 0, m);
  }

  lemma AllMatchesSkips<T(!new)>(s: string, from: nat, m: string -> Option<(T, nat)>)
    requires from < |s| && Consumes(m)
    requires m(s[from..]).None?
    ensures AllMatches(s, from, m) == AllMatches(s, from + 1, m)
  {
  }

  lemma AllMatchesHere<T(!new)>(s: string, from: nat, m: string -> Option<(T, nat)>)
    requires from < |s| && Consumes(m)
    requires m(s[from..]).Some?
    ensures from + m(s[from..]).value.1 <= |s|
    ensures AllMatches(s, from, m)
      == [m(s[from..]).value.0] + AllMatches(s, from + m(s[from..]).value.1, m)
  {
  }

  /** No match anywhere from `from` on means `exec` returns null at once. */
  lemma {:induction false} NoMatchFrom<T(!new)>(s: string, from: nat, m: string -> Option<(T, nat)>)
    requires from <= |s| && Consumes(m)
    requires forall i :: from <= i < |s| ==> m(s[i..]).None?
    ensures AllMatches(s, from, m) == []
    decreases |s| - from
  {
    if from < |s| {
      NoMatchFrom(s, from + 1, m);
    }
  }

  // === Links ===

  /** `/\[([^\]]+)\]\(([^)]+)\)/` at the start of `t`. `[^\]]+` cannot stop
      short of the first ']' and `[^)]+` cannot stop short of the first ')',
      so no backtracking is possible. */
  function MatchLink(t: string): (m: Option<(Link, nat)>)
    ensures m.Some? ==> 0 < m.value.1 <= |t|
  {
    if |t| == 0 || t[0] != '[' then None
    else
      var close := RunEnd(t, 1, NotCloseBracket);
      if close == 1 || close + 1 >= |t| || t[close + 1] != '(' then None
      else
        var paren := RunEnd(t, close + 2, NotCloseParen);
        if paren == close + 2 || paren == |t| then None
        else
          var url := t[close + 2..paren];
          Some((Link(t[1..close], url, StartsWith(url, "http")), paren + 1))
  }

  lemma MatchLinkConsumes()
    ensures Consumes(MatchLink)
  {
  }

  /** `extractLinks` */
  method ExtractLinks(markdown: string) returns (links: seq<Link>)
    ensures links == AllMatches(markdown, 0, MatchLink)
  {
    MatchLinkConsumes();
    links := ExecAll(markdown, MatchLink);
  }

  /** A link the pattern can produce, with `isExternal` as the parser sets it. */
  predicate WellFormedLink(l: Link) {
    l.text != [] && ']' !in l.text && l.url != [] && ')' !in l.url
    && (l.isExternal <==> StartsWith(l.url, "http"))
  }

  /** The Markdown syntax `[text](target)`. */
  function Bracketed(text: string, target: string): string {
    "[" + text + "](" + target + ")"
  }

  function RenderLink(l: Link): string {
    Bracketed(l.text, l.url)
  }

  lemma MatchRenderedLink(l: Link, rest: string)
    requires WellFormedLink(l)
    ensures MatchLink(RenderLink(l) + rest) == Some((l, |RenderLink(l)|))
  {
    var t := RenderLink(l) + rest;
    var close := 1 + |l.text|;
    assert forall k :: 1 <= k < close ==> t[k] == l.text[k - 1];
    assert t[close] == ']';
    assert RunEnd(t, 1, NotCloseBracket) == close;
    assert t[close + 1] == '(';
    var paren := close + 2 + |l.url|;
    assert forall k :: close + 2 <= k < paren ==> t[k] == l.url[k - close - 2];
    assert t[paren] == ')';
    assert RunEnd(t, close + 2, NotCloseParen) == paren;
    assert t[1..close] == l.text;
    assert t[close + 2..paren] == l.url;
  }

  function RenderLinks(ls: seq<Link>): string {
    if ls == [] then "" else RenderLink(ls[0]) + RenderLinks(ls[1..])
  }

  /** Links written back to back are all found, in order. */
  lemma {:induction false} LinksOfRenderedLinks(ls: seq<Link>)
    requires forall i :: 0 <= i < |ls| ==> WellFormedLink(ls[i])
    ensures AllMatches(RenderLinks(ls), 0, MatchLink) == ls
  {
    MatchLinkConsumes();
    if ls == [] {
      NoMatchFrom("", 0, MatchLink);
    } else {
      MatchRenderedLink(ls[0], RenderLinks(ls[1..]));
      AllMatchesAfterPrefix(RenderLink(ls[0]), RenderLinks(ls[1..]), ls[0], MatchLink);
      LinksOfRenderedLinks(ls[1..]);
    }
  }

  /** Every link found has non-empty text and URL, and is external exactly when
      its URL starts with "http". */
  lemma {:induction false} LinksWellFormed(s: string, from: nat)
    requires from <= |s|
    ensures Consumes(MatchLink)
    ensures forall l :: l in AllMatches(s, from, MatchLink) ==> WellFormedLink(l)
    decreases |s| - from
  {
    MatchLinkConsumes();
    match NextMatch(s, from, MatchLink)
    case None =>
    case Some(found) =>
      NextMatchLinkWellFormed(s, from);
      LinksWellFormed(s, found.1);
  }

  lemma {:induction false} NextMatchLinkWellFormed(s: string, from: nat)
    requires from <= |s|
    requires Consumes(MatchLink)
    ensures NextMatch(s, from, MatchLink).Some? ==> WellFormedLink(NextMatch(s, from, MatchLink).value.0)
    decreases |s| - from
  {
    if from < |s| {
      var t := s[from..];
      match MatchLink(t)
      case Some(found) =>
        var close := RunEnd(t, 1, NotCloseBracket);
        var paren := RunEnd(t, close + 2, NotCloseParen);
        assert found.0.text == t[1..close];
        assert found.0.url == t[close + 2..paren];
      case None =>
        NextMatchLinkWellFormed(s, from + 1);
    }
  }

  // === Images ===

  /** `/!\[([^\]]*)\]\(([^)]+)\)/` at the start of `t`. */
  function MatchImage(t: string): (m: Option<(Image, nat)>)
    ensures m.Some? ==> 0 < m.value.1 <= |t|
  {
    if |t| < 2 || t[0] != '!' || t[1] != '[' then None
    else
      var close := RunEnd(t, 2, NotCloseBracket);
      if close + 1 >= |t| || t[close + 1] != '(' then None
      else
        var paren := RunEnd(t, close + 2, NotCloseParen);
        if paren == close + 2 || paren == |t| then None
        else Some((Image.Image(t[2..close], t[close + 2..paren]), paren + 1))
  }

  lemma MatchImageConsumes()
    ensures Consumes(MatchImage)
  {
  }

  /** `extractImages` */
  method ExtractImages(markdown: string) returns (images: seq<Image>)
    ensures images == AllMatches(markdown, 0, MatchImage)
  {
    MatchImageConsumes();
    images := ExecAll(markdown, MatchImage);
  }

  predicate WellFormedImage(img: Image) {
    ']' !in img.alt && img.src != [] && ')' !in img.src
  }

  function RenderImage(img: Image): string {
    "!" + Bracketed(img.alt, img.src)
  }

  /** An image written with or without alt text is read back as written: a
      missing alt text gives "". */
  lemma MatchRenderedImage(img: Image, rest: string)
    requires WellFormedImage(img)
    ensures MatchImage(RenderImage(img) + rest) == Some((img, |RenderImage(img)|))
  {
    var t := RenderImage(img) + rest;
    var close := 2 + |img.alt|;
    assert forall k :: 2 <= k < close ==> t[k] == img.alt[k - 2];
    assert t[close] == ']';
    assert RunEnd(t, 2, NotCloseBracket) == close;
    assert t[close + 1] == '(';
    var paren := close + 2 + |img.src|;
    assert forall k :: close + 2 <= k < paren ==> t[k] == img.src[k - close - 2];
    assert t[paren] == ')';
    assert RunEnd(t, close + 2, NotCloseParen) == paren;
    assert t[2..close] == img.alt;
    assert t[close + 2..paren] == img.src;
  }

  /** The link pattern also matches inside an image with alt text: such an image
      is counted as a link whose text is the alt text. */
  lemma ImageWithAltIsAlsoALink(img: Image)
    requires WellFormedImage(img) && img.alt != []
    ensures AllMatches(RenderImage(img), 0, MatchLink)
      == [Link(img.alt, img.src, StartsWith(img.src, "http"))]
  {
    MatchLinkConsumes();
    var t := RenderImage(img);
    var l := Link(img.alt, img.src, StartsWith(img.src, "http"));
    var link := RenderLink(l);
    assert t[1..] == link + "";
    MatchRenderedLink(l, "");
    assert t[0..][0] == '!';
    assert MatchLink(t[0..]).None?;
    AllMatchesSkips(t, 0, MatchLink);
    AllMatchesHere(t, 1, MatchLink);
    assert 1 + |link| == |t|;
    NoMatchFrom(t, |t|, MatchLink);
  }

  /** An image without alt text is not a link (when its source holds no '['). */
  lemma ImageWithoutAltIsNoLink(src: string)
    requires '[' !in src
    ensures AllMatches(RenderImage(Image.Image("", src)), 0, MatchLink) == []
  {
    MatchLinkConsumes();
    var t := RenderImage(Image.Image("", src));
    forall i | 0 <= i < |t| ensures MatchLink(t[i..]).None? {
      if i == 1 {
        assert t[i..][1] == ']';
        assert RunEnd(t[i..], 1, NotCloseBracket) == 1;
      } else if i >= 4 && i < |t| - 1 {
        assert t[i..][0] == src[i - 4];
      }
    }
    NoMatchFrom(t, 0, MatchLink);
  }

  // === Code blocks ===

  /** "\n```": the end of a fenced block. */
  const Fence: string := "```"
  const ClosingFence: string := "\n```"

  /** `/```(\w+)?\n([\s\S]*?)\n```/` at the start of `t`. `(\w+)?` can only take
      the whole word after the fence, as '\n' must follow it; the lazy body stops
      at the first "\n```" after the opening line. */
  function MatchCodeBlock(t: string): (m: Option<(CodeBlock, nat)>)
    ensures m.Some? ==> 0 < m.value.1 <= |t|
    ensures m.Some? ==> m.value.0.language != []
  {
    if !StartsWith(t, Fence) then None
    else
      var word := RunEnd(t, 3, IsWordChar);
      if word == |t| || t[word] != '\n' then None
      else MatchCodeBody(t, word)
  }

  /** The rest of the block pattern, once the opening line ends at `word`. */
  function MatchCodeBody(t: string, word: nat): (m: Option<(CodeBlock, nat)>)
    requires 3 <= word < |t|
    ensures m.Some? ==> word < m.value.1 <= |t|
    ensures m.Some? ==> m.value.0.language != []
  {
    match IndexOfFrom(t, ClosingFence, word + 1)
    case None => None
    case Some(p) =>
      var language := if word == 3 then "text" else t[3..word];
      Some((CodeBlock(language, t[word + 1..p]), p + 4))
  }

  lemma MatchCodeBlockConsumes()
    ensures Consumes(MatchCodeBlock)
  {
  }

  /** `extractCodeBlocks` */
  method ExtractCodeBlocks(markdown: string) returns (blocks: seq<CodeBlock>)
    ensures blocks == AllMatches(markdown, 0, MatchCodeBlock)
  {
    MatchCodeBlockConsumes();
    blocks := ExecAll(markdown, MatchCodeBlock);
  }

  function RenderCodeBlock(language: string, code: string): string {
    Fence + language + "\n" + code + ClosingFence
  }

  /** The body of a block ends at the first "\n```" after it starts: one that
      is not inside the body, and cannot straddle its end, since the closing
      fence starts with '\n' and the rest of the fence holds none. */
  lemma {:induction false} BodyEndsAtClosingFence(t: string, start: nat, code: string)
    requires start + |code| + 4 <= |t|
    requires t[start..start + |code|] == code
    requires t[start + |code|..start + |code| + 4] == ClosingFence
    requires !Contains(code, ClosingFence)
    ensures IndexOfFrom(t, ClosingFence, start) == Some(start + |code|)
  {
    var close := start + |code|;
    forall k: nat | start <= k < close ensures !OccursAt(t, ClosingFence, k) {
      if k + 4 <= close {
        assert t[k..k + 4] == code[k - start..k - start + 4];
        assert !OccursAt(code, ClosingFence, k - start);
      } else {
        assert t[close] == '\n';
        assert t[k..k + 4][close - k] == '\n';
      }
    }
    assert OccursAt(t, ClosingFence, close);
    IndexOfFromFirst(t, ClosingFence, start, close);
  }

  /** Where the parts of a rendered block lie in it. */
  lemma RenderedCodeBlockParts(language: string, code: string, rest: string)
    ensures var t := RenderCodeBlock(language, code) + rest;
      var word := 3 + |language|;
      var close := word + 1 + |code|;
      |RenderCodeBlock(language, code)| == close + 4 && |t| >= close + 4
      && t[..3] == Fence && t[3..word] == language && t[word] == '\n'
      && t[word + 1..close] == code && t[close..close + 4] == ClosingFence
  {
    var t := RenderCodeBlock(language, code) + rest;
    var word := 3 + |language|;
    assert t == Fence + (language + ("\n" + (code + (ClosingFence + rest))));
    assert t[3..] == language + ("\n" + (code + (ClosingFence + rest)));
    assert t[word..] == "\n" + (code + (ClosingFence + rest));
    assert t[word + 1..] == code + (ClosingFence + rest);
    assert t[word + 1 + |code|..] == ClosingFence + rest;
  }

  lemma MatchCodeBlockAt(t: string, word: nat)
    requires StartsWith(t, Fence) && 3 <= word < |t|
    requires RunEnd(t, 3, IsWordChar) == word && t[word] == '\n'
    ensures MatchCodeBlock(t) == MatchCodeBody(t, word)
  {
  }

  lemma MatchCodeBodyAt(t: string, word: nat, close: nat)
    requires 3 <= word < |t|
    requires IndexOfFrom(t, ClosingFence, word + 1) == Some(close)
    ensures MatchCodeBody(t, word) == Some((CodeBlock(if word == 3 then "text" else t[3..word], t[word + 1..close]), close + 4))
  {
  }

  /** A block laid out as fence, info word, '\n', body and closing fence is
      matched with that word and body, wherever the text comes from. */
  lemma MatchCodeBlockOfParts(t: string, language: string, code: string)
    requires forall k :: 0 <= k < |language| ==> IsWordChar(language[k])
    requires !Contains(code, ClosingFence)
    requires |t| >= 8 + |language| + |code|
    requires t[..3] == Fence && t[3..3 + |language|] == language && t[3 + |language|] == '\n'
    requires t[4 + |language|..4 + |language| + |code|] == code
    requires t[4 + |language| + |code|..8 + |language| + |code|] == ClosingFence
    ensures MatchCodeBlock(t) == Some((CodeBlock(if language == [] then "text" else language, code), 8 + |language| + |code|))
  {
    var word := 3 + |language|;
    assert forall k :: 3 <= k < word ==> t[k] == t[3..word][k - 3];
    RunEndAt(t, 3, IsWordChar, word);
    BodyEndsAtClosingFence(t, word + 1, code);
    MatchCodeBlockAt(t, word);
    MatchCodeBodyAt(t, word, word + 1 + |code|);
  }

  /** A fenced block is read back with its info word as language, or "text"
      when the fence has none. */
  lemma MatchRenderedCodeBlock(language: string, code: string, rest: string)
    requires forall k :: 0 <= k < |language| ==> IsWordChar(language[k])
    requires !Contains(code, ClosingFence)
    ensures MatchCodeBlock(RenderCodeBlock(language, code) + rest)
      == Some((CodeBlock(if language == [] then "text" else language, code), |RenderCodeBlock(language, code)|))
  {
    RenderedCodeBlockParts(language, code, rest);
    MatchCodeBlockOfParts(RenderCodeBlock(language, code) + rest, language, code);
  }
}

=== FILE: index_generator.dfy ===
/** The JSON index generator (build-system/lib/index-generator.js): parses
    every project folder, keeps the published (or, outside production, all)
    projects, counts them, sorts them newest first and assembles the index with
    its filter lists and analytics. */
module IndexGenerator {
  import opened Js
  import opened Sorting
  import opened Tally
  import opened Words
  import opened MarkdownParser

  const NoIndexMessage: string := "No index.md file found"

  /** `this.stats`: counters and the insertion-ordered category, tag and
      technology sets. */
  datatype IndexStats = IndexStats(
    totalProjects: nat,
    publishedProjects: nat,
    draftProjects: nat,
    featuredProjects: nat,
    categories: seq<string>,
    tags: seq<string>,
    techStack: seq<string>)

  const EmptyStats: IndexStats := IndexStats(0, 0, 0, 0, [], [], [])

  /** The `metadata` part of the index. */
  datatype IndexMetadata = IndexMetadata(
    generatedAt: string,
    totalProjects: nat,
    publishedProjects: nat,
    featuredProjects: nat,
    buildVersion: string,
    availableCategories: seq<string>,
    availableTags: seq<string>,
    availableTechStack: seq<string>,
    averageReadingTime: int,
    complexityDistribution: map<Value, nat>)

  datatype IndexData = IndexData(projects: seq<Record>, metadata: IndexMetadata)

  /** An entry of `index-simple.json`: exactly these five fields. */
  datatype SimpleEntry = SimpleEntry(title: Value, description: Value, image: Value, categories: Value, url: Value)

  // === Image paths ===

  const ImagesPrefix: string := "images/"
  const SiteImagesPrefix: string := "../images/"

  /** `resolveImagePath`. A truthy value that is not a string has no
      `startsWith`, so the call throws. */
  function ResolveImagePath(imagePath: Value, projectSlug: string): Result<Value> {
    if !Truthy(imagePath) then Ok(Null)
    else if !imagePath.Str? then Err("imagePath.startsWith is not a function")
    else if StartsWith(imagePath.s, SiteImagesPrefix) then Ok(imagePath)
    else if StartsWith(imagePath.s, ImagesPrefix) then
      Ok(Str("../images/projets/" + projectSlug + "/" + ReplaceFirst(imagePath.s, ImagesPrefix, "")))
    else Ok(imagePath)
  }

  /** Falsy paths give null; site paths and other strings are kept; a path
      under the project's `images/` folder is moved under the site's
      `../images/projets/<slug>/`. */
  lemma ResolveImagePathSpec(imagePath: Value, projectSlug: string)
    ensures !Truthy(imagePath) ==> ResolveImagePath(imagePath, projectSlug) == Ok(Null)
    ensures Truthy(imagePath) && !imagePath.Str? ==> ResolveImagePath(imagePath, projectSlug).Err?
    ensures imagePath.Str? && StartsWith(imagePath.s, SiteImagesPrefix)
      ==> ResolveImagePath(imagePath, projectSlug) == Ok(imagePath)
    ensures imagePath.Str? && StartsWith(imagePath.s, ImagesPrefix)
      ==> ResolveImagePath(imagePath, projectSlug)
          == Ok(Str("../images/projets/" + projectSlug + "/" + imagePath.s[|ImagesPrefix|..]))
    ensures Truthy(imagePath) && imagePath.Str? && !StartsWith(imagePath.s, SiteImagesPrefix)
            && !StartsWith(imagePath.s, ImagesPrefix)
      ==> ResolveImagePath(imagePath, projectSlug) == Ok(imagePath)
  {
    if imagePath.Str? && StartsWith(imagePath.s, ImagesPrefix) {
      ReplaceFirstAtStart(imagePath.s, ImagesPrefix, "");
      assert "" + imagePath.s[|ImagesPrefix|..] == imagePath.s[|ImagesPrefix|..];
      assert Truthy(imagePath);
      assert !StartsWith(imagePath.s, SiteImagesPrefix) by {
        assert imagePath.s[0] == 'i';
      }
    }
  }

  // === Building an index entry ===

  /** `buildProjectData`: the index entry of a parsed project. */
  function BuildProjectData(fm: Record, readingTime: nat, wordCount: nat, complexity: nat,
                            folderName: string, now: string): Result<Record>
  {
    match ResolveImagePath(fm.heroImage, folderName)
    case Err(m) => Err(m)
    case Ok(image) =>
      Ok(EmptyRecord.(
        title := fm.title,
        description := fm.description,
        image := image,
        categories := fm.categories,
        url := Str(folderName),
        slug := fm.slug,
        excerpt := fm.excerpt,
        date := fm.date,
        lastUpdated := fm.lastUpdated,
        status := fm.status,
        featured := fm.featured,
        tags := Or(fm.tags, List([])),
        techStack := Or(fm.techStack, List([])),
        seoTitle := fm.seoTitle,
        seoDescription := fm.seoDescription,
        githubUrl := fm.githubUrl,
        readingTime := Num(readingTime),
        wordCount := Num(wordCount),
        complexity := Num(complexity),
        generatedAt := Str(now),
        schemaType := fm.schemaType))
  }

  /** `frontmatter.status === 'draft' && NODE_ENV === 'production'` */
  predicate SkippedDraft(fm: Record, production: bool) {
    fm.status == Str("draft") && production
  }

  /** What `processProject` does with one folder under `projectsDir`: an
      error (thrown), no entry (a draft in production) or the folder's entry.
      A rejected or invalid frontmatter fails inside `parseFile`, which
      rethrows it with the file's path in front. */
  function Processed(env: ParserEnv, production: bool, projectsDir: string, now: string, folder: FolderSource): Result<Option<Record>> {
    match folder
    case NoIndexFile => Err(NoIndexMessage)
    case Unparseable(name, message) => Err(ParseFailure(projectsDir + "/" + name, message))
    case Source(name, fm, markdown) =>
      if FrontmatterErrors(fm, env.dateParses) != [] then
        Err(ParseFailure(projectsDir + "/" + name, ValidationFailure(Messages(FrontmatterErrors(fm, env.dateParses)))))
      else
        var enhanced := Enrich(fm, env);
        if SkippedDraft(enhanced, production) then Ok(None)
        else
          match BuildProjectData(enhanced, EstimateReadingTime(markdown), CountWords(markdown),
                                 MarkdownParser.Complexity(enhanced, markdown), name, now)
          case Err(m) => Err(m)
          case Ok(p) => Ok(Some(p))
  }

  /** The entry a processed folder adds to the list: none when it threw or
      was skipped. */
  function Pushed(r: Result<Option<Record>>): (ps: seq<Record>)
    ensures |ps| <= 1
  {
    if r.Ok? && r.value.Some? then [r.value.value] else []
  }

  /** The entries `generate` pushes, in folder order: folders that throw and
      drafts skipped in production add nothing. */
  function Built(env: ParserEnv, production: bool, projectsDir: string, now: string, folders: seq<FolderSource>): (ps: seq<Record>)
    ensures |ps| <= |folders|
  {
    if folders == [] then []
    else Built(env, production, projectsDir, now, folders[..|folders| - 1]) + Pushed(Processed(env, production, projectsDir, now, folders[|folders| - 1]))
  }

  lemma BuiltPrefix(env: ParserEnv, production: bool, projectsDir: string, now: string, folders: seq<FolderSource>, i: nat)
    requires i < |folders|
    ensures Built(env, production, projectsDir, now, folders[..i + 1])
         == Built(env, production, projectsDir, now, folders[..i]) + Pushed(Processed(env, production, projectsDir, now, folders[i]))
  {
    assert folders[..i + 1][..i] == folders[..i];
  }

  /** A draft never reaches the index of a production build, and a folder
      whose frontmatter fails validation never reaches any index. */
  lemma ProcessedSkips(env: ParserEnv, production: bool, projectsDir: string, now: string, folder: FolderSource)
    ensures folder.NoIndexFile? ==> Processed(env, production, projectsDir, now, folder) == Err(NoIndexMessage)
    ensures folder.Unparseable?
      ==> Processed(env, production, projectsDir, now, folder)
          == Err(ParseFailure(projectsDir + "/" + folder.name, folder.message))
    ensures folder.Source? && FrontmatterErrors(folder.frontmatter, env.dateParses) != []
      ==> Processed(env, production, projectsDir, now, folder)
          == Err(ParseFailure(projectsDir + "/" + folder.name,
                              ValidationFailure(Messages(FrontmatterErrors(folder.frontmatter, env.dateParses)))))
    ensures folder.Source? && FrontmatterErrors(folder.frontmatter, env.dateParses) == []
      ==> (Processed(env, production, projectsDir, now, folder) == Ok(None)
           <==> production && folder.frontmatter.status == Str("draft"))
    ensures Processed(env, production, projectsDir, now, folder).Ok? && Processed(env, production, projectsDir, now, folder).value.Some?
      ==> !(production && Processed(env, production, projectsDir, now, folder).value.value.status == Str("draft"))
  {
    if folder.Source? && FrontmatterErrors(folder.frontmatter, env.dateParses) == [] {
      var fm := folder.frontmatter;
      var e := Enrich(fm, env);
      EnrichDefaults(fm, env);
      assert e.status == Str("draft") <==> fm.status == Str("draft");
    }
  }

  // === Statistics ===

  /** `this.stats` after `updateStats(project)`. The counters always move; the
      `forEach` over categories, tags and technologies throws at the first of
      them that is not an array, leaving the later sets as they were. */
  function Counted(st: IndexStats, p: Record): IndexStats {
    WithLists(WithCounters(st, p), p)
  }

  /** The counters after `updateStats(p)`. */
  function WithCounters(st: IndexStats, p: Record): IndexStats {
    st.(totalProjects := st.totalProjects + 1,
        publishedProjects := st.publishedProjects + (if p.status == Str("published") then 1 else 0),
        draftProjects := st.draftProjects + (if p.status == Str("draft") then 1 else 0),
        featuredProjects := st.featuredProjects + (if Truthy(p.featured) then 1 else 0))
  }

  /** The sets after the `forEach` calls of `updateStats(p)`. */
  function WithLists(st: IndexStats, p: Record): IndexStats {
    if !p.categories.List? then st
    else
      var withCategories := st.(categories := AddAll(st.categories, p.categories.items));
      if !p.tags.List? then withCategories
      else
        var withTags := withCategories.(tags := AddAll(withCategories.tags, p.tags.items));
        if !p.techStack.List? then withTags
        else withTags.(techStack := AddAll(withTags.techStack, p.techStack.items))
  }

  /** The project's three lists can all be iterated. */
  predicate Iterable(p: Record) {
    p.categories.List? && p.tags.List? && p.techStack.List?
  }

  /** `updateStats` adds one project to the total and to at most one of the
      published and draft counts, and puts the project's categories, tags and
      technologies into the sets, each at most once. */
  lemma CountedSpec(st: IndexStats, p: Record)
    ensures Counted(st, p).totalProjects == st.totalProjects + 1
    ensures Counted(st, p).publishedProjects == st.publishedProjects + (if p.status == Str("published") then 1 else 0)
    ensures Counted(st, p).draftProjects == st.draftProjects + (if p.status == Str("draft") then 1 else 0)
    ensures Counted(st, p).publishedProjects + Counted(st, p).draftProjects
      <= st.publishedProjects + st.draftProjects + 1
    ensures Counted(st, p).featuredProjects <= st.featuredProjects + 1
    ensures forall c :: (c in Counted(st, p).categories
                         <==> c in st.categories || (p.categories.List? && c in p.categories.items))
    ensures forall t :: (t in Counted(st, p).tags
                         <==> t in st.tags || (p.categories.List? && p.tags.List? && t in p.tags.items))
    ensures forall t :: t in Counted(st, p).techStack <==> t in st.techStack || (Iterable(p) && t in p.techStack.items)
    ensures NoDups(st.categories) && NoDups(st.tags) && NoDups(st.techStack)
      ==> NoDups(Counted(st, p).categories) && NoDups(Counted(st, p).tags) && NoDups(Counted(st, p).techStack)
  {
    if p.categories.List? {
      AddAllSpec(st.categories, p.categories.items);
      if p.tags.List? {
        AddAllSpec(st.tags, p.tags.items);
        if p.techStack.List? {
          AddAllSpec(st.techStack, p.techStack.items);
        }
      }
    }
  }

  /** The statistics after counting `ps` in order. */
  function CountedAll(st: IndexStats, ps: seq<Record>): IndexStats {
    if ps == [] then st else Counted(CountedAll(st, ps[..|ps| - 1]), ps[|ps| - 1])
  }

  /** Counting two runs of projects one after the other counts them all. */
  lemma {:induction false} CountedAllAppend(st: IndexStats, xs: seq<Record>, ys: seq<Record>)
    ensures CountedAll(st, xs + ys) == CountedAll(CountedAll(st, xs), ys)
  {
    if ys == [] {
      assert xs + ys == xs;
    } else {
      assert (xs + ys)[..|xs + ys| - 1] == xs + ys[..|ys| - 1];
      CountedAllAppend(st, xs, ys[..|ys| - 1]);
    }
  }

  // === Ordering and selection ===

  /** The comparator `new Date(b.date) - new Date(a.date)`, with the time value
      of a date given by `dateKey`: `a` may precede `b` when it is not older. */
  function NewerFirst(dateKey: Value -> int): (Record, Record) -> bool {
    (a: Record, b: Record) => dateKey(a.date) >= dateKey(b.date)
  }

  lemma NewerFirstTotalPreorder(dateKey: Value -> int)
    ensures TotalPreorder(NewerFirst(dateKey))
  {
  }

  /** `sortProjects` yields the same projects, newest first. */
  lemma SortedNewestFirst(projects: seq<Record>, dateKey: Value -> int)
    ensures multiset(SortBy(projects, NewerFirst(dateKey))) == multiset(projects)
    ensures forall i, j :: 0 <= i < j < |projects| ==>
      dateKey(SortBy(projects, NewerFirst(dateKey))[i].date) >= dateKey(SortBy(projects, NewerFirst(dateKey))[j].date)
  {
    NewerFirstTotalPreorder(dateKey);
    SortBySorted(projects, NewerFirst(dateKey));
  }

  predicate IsPublished(p: Record) {
    p.status == Str("published")
  }

  /** `projects.filter(p => p.status === 'published')` */
  function PublishedOnly(projects: seq<Record>): (r: seq<Record>)
    ensures |r| <= |projects|
  {
    if projects == [] then []
    else (if IsPublished(projects[0]) then [projects[0]] else []) + PublishedOnly(projects[1..])
  }

  /** The filter keeps exactly the published projects, each where it was
      relative to the others. */
  lemma {:induction false} PublishedOnlySpec(xs: seq<Record>, ys: seq<Record>)
    ensures PublishedOnly(xs + ys) == PublishedOnly(xs) + PublishedOnly(ys)
    ensures forall p :: p in PublishedOnly(xs) <==> p in xs && IsPublished(p)
  {
    if xs == [] {
      assert xs + ys == ys;
    } else {
      assert (xs + ys)[1..] == xs[1..] + ys;
      PublishedOnlySpec(xs[1..], ys);
      assert xs == [xs[0]] + xs[1..];
    }
  }

  /** The projects an index shows. */
  function Visible(projects: seq<Record>, production: bool): seq<Record> {
    if production then PublishedOnly(projects) else projects
  }

  // === Analytics ===

  /** `project.reading_time || 0`, for numeric reading times. */
  function ReadingTimeOf(p: Record): int {
    if p.readingTime.Num? then p.readingTime.n else 0
  }

  function TotalReadingTime(projects: seq<Record>): int {
    if projects == [] then 0 else TotalReadingTime(projects[..|projects| - 1]) + ReadingTimeOf(projects[|projects| - 1])
  }

  /** `Math.round(total / n)`: the nearest integer, halves rounded up. */
  function RoundedMean(total: int, n: nat): (r: int)
    requires n > 0
    ensures 2 * n * r - n <= 2 * total < 2 * n * r + n
  {
    (2 * total + n) / (2 * n)
  }

  /** `calculateAverageReadingTime` */
  function AverageReadingTime(projects: seq<Record>): (avg: int)
    ensures projects == [] ==> avg == 0
    ensures projects != [] ==>
      2 * |projects| * avg - |projects| <= 2 * TotalReadingTime(projects) < 2 * |projects| * avg + |projects|
  {
    if |projects| == 0 then 0 else RoundedMean(TotalReadingTime(projects), |projects|)
  }

  /** `project.complexity || 1`: the key a project is counted under. */
  function ComplexityKey(p: Record): Value {
    Or(p.complexity, Num(1))
  }

  function ComplexityKeys(projects: seq<Record>): (ks: seq<Value>)
    ensures |ks| == |projects|
    ensures forall i :: 0 <= i < |projects| ==> ks[i] == ComplexityKey(projects[i])
  {
    seq(|projects|, i requires 0 <= i < |projects| => ComplexityKey(projects[i]))
  }

  /** The histogram counts every project once: its counts, over its keys,
      add up to the number of projects, and a project without a complexity is
      counted under 1. */
  lemma ComplexityHistogramTotal(projects: seq<Record>, keys: seq<Value>)
    requires NoDups(keys)
    requires forall k :: k in keys <==> k in Tally.Tally(ComplexityKeys(projects))
    ensures SumValues(Tally.Tally(ComplexityKeys(projects)), keys) == |projects|
    ensures forall p :: p in projects && !Truthy(p.complexity) ==> Num(1) in Tally.Tally(ComplexityKeys(projects))
  {
    var ks := ComplexityKeys(projects);
    TallySum(ks, keys);
    TallyCounts(ks);
    forall p | p in projects && !Truthy(p.complexity) ensures Num(1) in Tally.Tally(ks) {
      var i :| 0 <= i < |projects| && projects[i] == p;
      assert ks[i] == Num(1);
    }
  }

  /** `index-simple.json`: the five backward-compatible fields of each entry. */
  function SimpleIndex(projects: seq<Record>): (simple: seq<SimpleEntry>)
    ensures |simple| == |projects|
    ensures forall i :: 0 <= i < |projects| ==>
      simple[i] == SimpleEntry(projects[i].title, projects[i].description, projects[i].image,
                               projects[i].categories, projects[i].url)
  {
    seq(|projects|, i requires 0 <= i < |projects| =>
      SimpleEntry(projects[i].title, projects[i].description, projects[i].image, projects[i].categories, projects[i].url))
  }

  // === The generator ===

  class IndexGenerator {
    const env: ParserEnv
    const production: bool
    const projectsDir: string
    var projects: seq<Record>
    var stats: IndexStats

    /** Every project pushed was counted once, no more are published or
        drafts than there are projects, and the sets hold no duplicates. */
    ghost predicate Valid()
      reads this
    {
      stats.totalProjects == |projects|
      && stats.publishedProjects + stats.draftProjects <= stats.totalProjects
      && stats.featuredProjects <= stats.totalProjects
      && NoDups(stats.categories) && NoDups(stats.tags) && NoDups(stats.techStack)
    }

    constructor(env: ParserEnv, production: bool, projectsDir: string)
      ensures this.env == env && this.production == production && this.projectsDir == projectsDir
      ensures projects == [] && stats == EmptyStats
      ensures Valid()
    {
      this.env := env;
      this.production := production;
      this.projectsDir := projectsDir;
      projects := [];
      stats := EmptyStats;
    }

    /** `processProject` */
    method ProcessProject(folder: FolderSource, now: string) returns (r: Result<Option<Record>>)
      ensures r == Processed(env, production, projectsDir, now, folder)
    {
      if folder.NoIndexFile? {
        return Err(NoIndexMessage);
      }
      var folderPath := projectsDir + "/" + folder.name;
      if folder.Unparseable? {
        return Err(ParseFailure(folderPath, folder.message));
      }
      var valid := ValidateFrontmatter(folder.frontmatter, env.dateParses);
      if valid.Err? {
        return Err(ParseFailure(folderPath, valid.message));
      }
      var enhanced := EnhanceFrontmatter(folder.frontmatter, env);
      if enhanced.status == Str("draft") && production {
        return Ok(None);
      }
      var complexity := AssessComplexity(enhanced, folder.markdown);
      var built := BuildProjectData(enhanced, EstimateReadingTime(folder.markdown), CountWords(folder.markdown),
                                    complexity, folder.name, now);
      if built.Err? {
        return Err(built.message);
      }
      return Ok(Some(built.value));
    }

    /** `updateStats`: returns the error the `forEach` calls throw when a list
        is not an array. */
    method UpdateStats(project: Record) returns (r: Result<()>)
      modifies this
      ensures stats == Counted(old(stats), project)
      ensures r.Ok? <==> Iterable(project)
      ensures projects == old(projects)
    {
      var published, draft, featured := stats.publishedProjects, stats.draftProjects, stats.featuredProjects;
      if project.status == Str("published") {
        published := published + 1;
      } else if project.status == Str("draft") {
        draft := draft + 1;
      }
      if Truthy(project.featured) {
        featured := featured + 1;
      }
      stats := stats.(totalProjects := stats.totalProjects + 1, publishedProjects := published,
                      draftProjects := draft, featuredProjects := featured);
      assert stats == WithCounters(old(stats), project);
      ghost var counted := stats;
      if !project.categories.List? {
        return Err("project.categories.forEach is not a function");
      }
      var categories := AddEach(stats.categories, project.categories.items);
      stats := stats.(categories := categories);
      if !project.tags.List? {
        return Err("project.tags.forEach is not a function");
      }
      var tags := AddEach(stats.tags, project.tags.items);
      stats := stats.(tags := tags);
      if !project.techStack.List? {
        return Err("project.tech_stack.forEach is not a function");
      }
      var techStack := AddEach(stats.techStack, project.techStack.items);
      stats := stats.(techStack := techStack);
      return Ok(());
    }

    /** `sortProjects`: `Array.prototype.sort` is stable. */
    method SortProjects(dateKey: Value -> int)
      modifies this
      ensures projects == SortBy(old(projects), NewerFirst(dateKey))
      ensures stats == old(stats)
    {
      projects := SortBy(projects, NewerFirst(dateKey));
    }

    /** `getComplexityDistribution` */
    method ComplexityDistribution() returns (distribution: map<Value, nat>)
      ensures distribution == Tally.Tally(ComplexityKeys(projects))
    {
      distribution := map[];
      var keys := ComplexityKeys(projects);
      for i := 0 to |projects|
        invariant distribution == Tally.Tally(keys[..i])
      {
        assert keys[..i + 1][..i] == keys[..i];
        var complexity := ComplexityKey(projects[i]);
        distribution := distribution[complexity := (if complexity in distribution then distribution[complexity] else 0) + 1];
      }
      assert keys[..|projects|] == keys;
    }

    /** What `generateIndexData` promises about the index it builds from the
        entries and counters it holds. */
    ghost predicate DescribesIndex(data: IndexData, now: string, buildVersion: string)
      reads this
    {
      && data.projects == Visible(projects, production)
      && data.metadata.generatedAt == now && data.metadata.buildVersion == buildVersion
      && data.metadata.totalProjects == |projects|
      && data.metadata.publishedProjects == stats.publishedProjects
      && data.metadata.featuredProjects == stats.featuredProjects
      && SortedBy(data.metadata.availableCategories, LexLe) && NoDups(data.metadata.availableCategories)
      && (forall c :: c in data.metadata.availableCategories <==> c in stats.categories)
      && SortedBy(data.metadata.availableTags, LexLe) && NoDups(data.metadata.availableTags)
      && (forall t :: t in data.metadata.availableTags <==> t in stats.tags)
      && SortedBy(data.metadata.availableTechStack, LexLe) && NoDups(data.metadata.availableTechStack)
      && (forall t :: t in data.metadata.availableTechStack <==> t in stats.techStack)
      && data.metadata.averageReadingTime == AverageReadingTime(projects)
      && data.metadata.complexityDistribution == Tally.Tally(ComplexityKeys(projects))
    }

    /** `generateIndexData`: the visible projects and the metadata. The
        filter lists are the sets, sorted, each entry once. */
    method GenerateIndexData(now: string, buildVersion: string) returns (data: IndexData)
      requires Valid()
      ensures DescribesIndex(data, now, buildVersion)
    {
      var visible := if production then PublishedOnly(projects) else projects;
      SortStringsSpec(stats.categories);
      SortStringsSpec(stats.tags);
      SortStringsSpec(stats.techStack);
      var distribution := ComplexityDistribution();
      data := IndexData(visible, IndexMetadata(
        now, stats.totalProjects, stats.publishedProjects, stats.featuredProjects, buildVersion,
        SortStrings(stats.categories), SortStrings(stats.tags), SortStrings(stats.techStack),
        AverageReadingTime(projects), distribution));
    }

    /** One iteration of `generate`: process the folder and, when it yields
        an entry, push it and count it. An error is logged and dropped. */
    method AddFolder(folder: FolderSource, now: string)
      requires Valid()
      modifies this
      ensures Valid()
      ensures projects == old(projects) + Pushed(Processed(env, production, projectsDir, now, folder))
      ensures stats == CountedAll(old(stats), Pushed(Processed(env, production, projectsDir, now, folder)))
    {
      var project := ProcessProject(folder, now);
      if project.Ok? && project.value.Some? {
        var p := project.value.value;
        projects := projects + [p];
        CountedSpec(stats, p);
        var counted := UpdateStats(p);
        assert [p][..0] == [];
      }
    }

    /** The loop of `generate`: every folder is processed in turn; a folder
        that throws is skipped and the rest are still processed. */
    method AddFolders(folders: seq<FolderSource>, now: string)
      requires Valid()
      modifies this
      ensures Valid()
      ensures projects == old(projects) + Built(env, production, projectsDir, now, folders)
      ensures stats == CountedAll(old(stats), Built(env, production, projectsDir, now, folders))
    {
      ghost var start := projects;
      ghost var startStats := stats;
      for i := 0 to |folders|
        invariant Valid()
        invariant projects == start + Built(env, production, projectsDir, now, folders[..i])
        invariant stats == CountedAll(startStats, Built(env, production, projectsDir, now, folders[..i]))
      {
        ghost var before := Built(env, production, projectsDir, now, folders[..i]);
        ghost var pushed := Pushed(Processed(env, production, projectsDir, now, folders[i]));
        BuiltPrefix(env, production, projectsDir, now, folders, i);
        AddFolder(folders[i], now);
        AppendAssociative(start, before, pushed);
        CountedAllAppend(startStats, before, pushed);
      }
      assert folders[..|folders|] == folders;
    }

    /** `generate`: the folders' entries are collected and counted, sorted
        newest first, and the index assembled from them. */
    method Generate(folders: seq<FolderSource>, dateKey: Value -> int, now: string, buildVersion: string)
      returns (data: IndexData)
      requires Valid()
      modifies this
      ensures Valid()
      ensures projects == SortBy(old(projects) + Built(env, production, projectsDir, now, folders), NewerFirst(dateKey))
      ensures stats == CountedAll(old(stats), Built(env, production, projectsDir, now, folders))
      ensures DescribesIndex(data, now, buildVersion)
    {
      AddFolders(folders, now);
      SortProjects(dateKey);
      data := GenerateIndexData(now, buildVersion);
    }
  }
}

=== FILE: js.dfy ===
/** The JavaScript values and string operations the build system relies on:
    the frontmatter value union produced by gray-matter (YAML) and JSON,
    JavaScript truthiness, and the `String.prototype` methods the scripts call. */
module Js {

  datatype Option<T> = None | Some(value: T)

  /** A computation that either succeeds or throws an `Error` with a message. */
  datatype Result<T> = Ok(value: T) | Err(message: string)

  /** A frontmatter or JSON value. `Undefined` is JavaScript's `undefined`:
      what reading a missing key gives, and what a script stores when a
      fallback chain ends in a missing key. `Stamp` is a YAML timestamp, which
      gray-matter turns into a JavaScript `Date` object; `day` is its calendar
      day. */
  datatype Value =
    | Undefined
    | Null
    | Bool(b: bool)
    | Num(n: int)
    | Str(s: string)
    | List(items: seq<string>)
    | Stamp(day: string)

  /** A JavaScript object built from YAML frontmatter or JSON: the frontmatter
      of a project, an entry of the projects index. Each key the scripts read
      or write by name is a field; every other key is in `others`. A key the
      object does not have reads as `Undefined`, as in JavaScript. */
  datatype Record = Record(
    title: Value, description: Value, date: Value, status: Value,
    categories: Value, tags: Value, techStack: Value, keywords: Value,
    slug: Value, excerpt: Value, heroImage: Value, heroAlt: Value,
    image: Value, githubUrl: Value, demoUrl: Value, lastUpdated: Value,
    featured: Value, priority: Value, language: Value, seoTitle: Value,
    seoDescription: Value, canonicalUrl: Value, ogTitle: Value, ogDescription: Value,
    ogType: Value, ogImage: Value, twitterCard: Value, twitterTitle: Value,
    twitterDescription: Value, twitterImage: Value, schemaType: Value, teamSize: Value,
    client: Value, caseStudy: Value, url: Value, readingTime: Value,
    wordCount: Value, complexity: Value, generatedAt: Value,
    others: map<string, Value>)

  /** `{}` */
  const EmptyRecord: Record :=
    Record(Undefined, Undefined, Undefined, Undefined,
      Undefined, Undefined, Undefined, Undefined,
      Undefined, Undefined, Undefined, Undefined,
      Undefined, Undefined, Undefined, Undefined,
      Undefined, Undefined, Undefined, Undefined,
      Undefined, Undefined, Undefined, Undefined,
      Undefined, Undefined, Undefined, Undefined,
      Undefined, Undefined, Undefined, Undefined,
      Undefined, Undefined, Undefined, Undefined,
      Undefined, Undefined, Undefined,
      map[])

  /** The keys of such an object, for the code that reads a key chosen at run
      time (`frontmatter[field]`). */
  datatype Field =
    | Title | Description | Date | Status
    | Categories | Tags | TechStack | Keywords
    | Slug | Excerpt | HeroImage | HeroAlt
    | Image | GithubUrl | DemoUrl | LastUpdated
    | Featured | Priority | Language | SeoTitle
    | SeoDescription | CanonicalUrl | OgTitle | OgDescription
    | OgType | OgImage | TwitterCard | TwitterTitle
    | TwitterDescription | TwitterImage | SchemaType | TeamSize
    | Client | CaseStudy | Url | ReadingTime
    | WordCount | Complexity | GeneratedAt
    | Other(name: string)

  /** The key as it is spelled in YAML and JavaScript. */
  function FieldName(f: Field): string {
    match f
    case Title => "title"
    case Description => "description"
    case Date => "date"
    case Status => "status"
    case Categories => "categories"
    case Tags => "tags"
    case TechStack => "tech_stack"
    case Keywords => "keywords"
    case Slug => "slug"
    case Excerpt => "excerpt"
    case HeroImage => "hero_image"
    case HeroAlt => "hero_alt"
    case Image => "image"
    case GithubUrl => "github_url"
    case DemoUrl => "demo_url"
    case LastUpdated => "last_updated"
    case Featured => "featured"
    case Priority => "priority"
    case Language => "language"
    case SeoTitle => "seo_title"
    case SeoDescription => "seo_description"
    case CanonicalUrl => "canonical_url"
    case OgTitle => "og_title"
    case OgDescription => "og_description"
    case OgType => "og_type"
    case OgImage => "og_image"
    case TwitterCard => "twitter_card"
    case TwitterTitle => "twitter_title"
    case TwitterDescription => "twitter_description"
    case TwitterImage => "twitter_image"
    case SchemaType => "schema_type"
    case TeamSize => "team_size"
    case Client => "client"
    case CaseStudy => "case_study"
    case Url => "url"
    case ReadingTime => "reading_time"
    case WordCount => "word_count"
    case Complexity => "complexity"
    case GeneratedAt => "generated_at"
    case Other(name) => name
  }

  /** JavaScript truthiness: `!!v`. Arrays and objects are truthy even when empty. */
  predicate Truthy(v: Value) {
    match v
    case Undefined => false
    case Null => false
    case Bool(b) => b
    case Num(n) => n != 0
    case Str(s) => s != ""
    case List(_) => true
    case Stamp(_) => true
  }

  /** `r[key]` */
  function Get(r: Record, f: Field): Value {
    match f
    case Title => r.title
    case Description => r.description
    case Date => r.date
    case Status => r.status
    case Categories => r.categories
    case Tags => r.tags
    case TechStack => r.techStack
    case Keywords => r.keywords
    case Slug => r.slug
    case Excerpt => r.excerpt
    case HeroImage => r.heroImage
    case HeroAlt => r.heroAlt
    case Image => r.image
    case GithubUrl => r.githubUrl
    case DemoUrl => r.demoUrl
    case LastUpdated => r.lastUpdated
    case Featured => r.featured
    case Priority => r.priority
    case Language => r.language
    case SeoTitle => r.seoTitle
    case SeoDescription => r.seoDescription
    case CanonicalUrl => r.canonicalUrl
    case OgTitle => r.ogTitle
    case OgDescription => r.ogDescription
    case OgType => r.ogType
    case OgImage => r.ogImage
    case TwitterCard => r.twitterCard
    case TwitterTitle => r.twitterTitle
    case TwitterDescription => r.twitterDescription
    case TwitterImage => r.twitterImage
    case SchemaType => r.schemaType
    case TeamSize => r.teamSize
    case Client => r.client
    case CaseStudy => r.caseStudy
    case Url => r.url
    case ReadingTime => r.readingTime
    case WordCount => r.wordCount
    case Complexity => r.complexity
    case GeneratedAt => r.generatedAt
    case Other(name) => if name in r.others then r.others[name] else Undefined
  }

  /** `!!r[key]` */
  predicate Has(r: Record, key: Field) {
    Truthy(Get(r, key))
  }

  /** `v || w` */
  function Or(v: Value, w: Value): Value {
    if Truthy(v) then v else w
  }

  /** The text of a string value; "" for anything else. */
  function Text(v: Value): string {
    if v.Str? then v.s else ""
  }

  /** The items of an array value; none for anything else. */
  function Items(v: Value): seq<string> {
    if v.List? then v.items else []
  }

  /** `v.length`: defined for strings and arrays only. */
  function Length(v: Value): Option<nat> {
    match v
    case Str(s) => Some(|s|)
    case List(items) => Some(|items|)
    case _ => None
  }

  /** `v?.length || 0` */
  function LengthOrZero(v: Value): nat {
    match Length(v)
    case Some(n) => n
    case None => 0
  }

  // === Strings ===

  /** A UTF-16 code unit: what `charCodeAt` returns and what `length` counts. */
  type CodeUnit = x: int | 0 <= x < 0x1_0000

  /** The code units of one character: the character itself below U+10000,
      otherwise a high and a low surrogate. */
  function CharUnits(c: char): (u: seq<CodeUnit>)
    ensures 1 <= |u| <= 2
    ensures |u| == 2 <==> 0xD800 <= u[0] < 0xDC00
  {
    if c as int < 0x1_0000 then [c as int]
    else [0xD800 + (c as int - 0x1_0000) / 0x400, 0xDC00 + (c as int - 0x1_0000) % 0x400]
  }

  /** A JavaScript string as the engine stores it: its UTF-16 code units. */
  function CodeUnits(s: string): (u: seq<CodeUnit>)
    ensures |s| <= |u| <= 2 * |s|
  {
    if s == [] then [] else CharUnits(s[0]) + CodeUnits(s[1..])
  }

  /** Distinct characters have distinct code units. */
  lemma CharUnitsInjective(c: char, d: char)
    requires CharUnits(c) == CharUnits(d)
    ensures c == d
  {
  }

  /** Distinct strings have distinct code units: the first unit of each
      character says how many units it takes. */
  lemma {:induction false} CodeUnitsInjective(a: string, b: string)
    requires CodeUnits(a) == CodeUnits(b)
    ensures a == b
  {
    if a != [] && b != [] {
      var ua, ub := CharUnits(a[0]), CharUnits(b[0]);
      var u := CodeUnits(a);
      assert u[0] == ua[0] && u[0] == ub[0];
      assert u[..|ua|] == ua && u[|ua|..] == CodeUnits(a[1..]);
      assert u[..|ub|] == ub && u[|ub|..] == CodeUnits(b[1..]);
      CharUnitsInjective(a[0], b[0]);
      CodeUnitsInjective(a[1..], b[1..]);
      assert a == [a[0]] + a[1..] && b == [b[0]] + b[1..];
    }
  }


  predicate StartsWith(s: string, prefix: string) {
    |prefix| <= |s| && s[..|prefix|] == prefix
  }

  predicate EndsWith(s: string, suffix: string) {
    |suffix| <= |s| && s[|s| - |suffix|..] == suffix
  }

  /** `pattern` occurs in `s` at position `k`. */
  predicate OccursAt(s: string, pattern: string, k: nat) {
    k + |pattern| <= |s| && s[k..k + |pattern|] == pattern
  }

  /** First position at or after `from` where `pattern` occurs in `s`. */
  function IndexOfFrom(s: string, pattern: string, from: nat): (r: Option<nat>)
    ensures r.Some? ==> from <= r.value && OccursAt(s, pattern, r.value)
    ensures r.Some? ==> forall k: nat :: from <= k < r.value ==> !OccursAt(s, pattern, k)
    ensures r.None? ==> forall k: nat :: from <= k ==> !OccursAt(s, pattern, k)
    decreases |s| - from
  {
    if from + |pattern| > |s| then None
    else if OccursAt(s, pattern, from) then Some(from)
    else IndexOfFrom(s, pattern, from + 1)
  }

  /** The first occurrence at or after `from` is the one `IndexOfFrom` finds. */
  lemma {:induction false} IndexOfFromFirst(s: string, pattern: string, from: nat, at: nat)
    requires from <= at && OccursAt(s, pattern, at)
    requires forall k: nat :: from <= k < at ==> !OccursAt(s, pattern, k)
    ensures IndexOfFrom(s, pattern, from) == Some(at)
    decreases at - from
  {
    if from < at {
      IndexOfFromFirst(s, pattern, from + 1, at);
    }
  }

  /** `s.includes(pattern)` */
  predicate Contains(s: string, pattern: string) {
    IndexOfFrom(s, pattern, 0).Some?
  }

  /** `s.replace(pattern, replacement)` with a string pattern: only the first
      occurrence is replaced. */
  function ReplaceFirst(s: string, pattern: string, replacement: string): (r: string)
    ensures IndexOfFrom(s, pattern, 0).None? ==> r == s
  {
    match IndexOfFrom(s, pattern, 0)
    case None => s
    case Some(i) => s[..i] + replacement + s[i + |pattern|..]
  }

  lemma ReplaceFirstAtStart(s: string, pattern: string, replacement: string)
    requires StartsWith(s, pattern)
    ensures ReplaceFirst(s, pattern, replacement) == replacement + s[|pattern|..]
  {
    assert OccursAt(s, pattern, 0);
  }

  /** First index at or after `from` holding the character `c`. */
  function IndexOfChar(s: string, c: char, from: nat): (r: Option<nat>)
    ensures r.Some? ==> from <= r.value < |s| && s[r.value] == c
    ensures r.Some? ==> forall k :: from <= k < r.value ==> s[k] != c
    ensures r.None? ==> forall k :: from <= k < |s| ==> s[k] != c
    decreases |s| - from
  {
    if from >= |s| then None
    else if s[from] == c then Some(from)
    else IndexOfChar(s, c, from + 1)
  }

  /** End of the longest run of characters satisfying `p` that starts at `from`. */
  function RunEnd(s: string, from: nat, p: char -> bool): (r: nat)
    requires from <= |s|
    ensures from <= r <= |s|
    ensures forall k :: from <= k < r ==> p(s[k])
    ensures r < |s| ==> !p(s[r])
    decreases |s| - from
  {
    if from == |s| || !p(s[from]) then from else RunEnd(s, from + 1, p)
  }

  /** A run that ends where `p` first fails is the one `RunEnd` finds. */
  lemma RunEndAt(s: string, from: nat, p: char -> bool, end: nat)
    requires from <= end <= |s|
    requires forall k :: from <= k < end ==> p(s[k])
    requires end < |s| ==> !p(s[end])
    ensures RunEnd(s, from, p) == end
  {
  }

  /** The characters JavaScript's `\s` and `String.prototype.trim` treat as
      white space: WhiteSpace and LineTerminator of ECMA-262. */
  predicate IsSpace(c: char) {
    c == '\t' || c == '\n' || c == '\U{000B}' || c == '\U{000C}' || c == '\r' || c == ' '
    || c == '\U{00A0}' || c == '\U{1680}' || ('\U{2000}' <= c <= '\U{200A}')
    || c == '\U{2028}' || c == '\U{2029}' || c == '\U{202F}' || c == '\U{205F}'
    || c == '\U{3000}' || c == '\U{FEFF}'
  }

  predicate NotSpace(c: char) { !IsSpace(c) }

  predicate AllSpace(s: string) {
    forall k :: 0 <= k < |s| ==> IsSpace(s[k])
  }

  function TrimStart(s: string): string {
    if s != [] && IsSpace(s[0]) then TrimStart(s[1..]) else s
  }

  /** `TrimStart` removes exactly the leading white space. */
  lemma {:induction false} TrimStartSpec(s: string)
    ensures |TrimStart(s)| <= |s| && TrimStart(s) == s[|s| - |TrimStart(s)|..]
    ensures AllSpace(s[..|s| - |TrimStart(s)|])
    ensures TrimStart(s) != [] ==> !IsSpace(TrimStart(s)[0])
  {
    if s != [] && IsSpace(s[0]) {
      TrimStartSpec(s[1..]);
      var r := TrimStart(s[1..]);
      assert s[1..][..|s| - 1 - |r|] == s[1..|s| - |r|];
      var lead := s[..|s| - |r|];
      forall k | 0 <= k < |lead| ensures IsSpace(lead[k]) {
        if k > 0 { assert lead[k] == s[1..|s| - |r|][k - 1]; }
      }
    }
  }

  function TrimEnd(s: string): string {
    if s != [] && IsSpace(s[|s| - 1]) then TrimEnd(s[..|s| - 1]) else s
  }

  /** `TrimEnd` removes exactly the trailing white space. */
  lemma {:induction false} TrimEndSpec(s: string)
    ensures |TrimEnd(s)| <= |s| && TrimEnd(s) == s[..|TrimEnd(s)|]
    ensures AllSpace(s[|TrimEnd(s)|..])
    ensures TrimEnd(s) != [] ==> !IsSpace(TrimEnd(s)[|TrimEnd(s)| - 1])
  {
    if s != [] && IsSpace(s[|s| - 1]) {
      var init := s[..|s| - 1];
      TrimEndSpec(init);
      var r := TrimEnd(init);
      assert init[..|r|] == s[..|r|];
      forall k | |r| <= k < |s| ensures IsSpace(s[k]) {
        if k < |s| - 1 { assert s[k] == init[|r|..][k - |r|]; }
      }
    }
  }

  /** `s.trim()` */
  function Trim(s: string): string {
    TrimEnd(TrimStart(s))
  }

  /** The trimmed text starts and ends with a non-white-space character, and is
      empty exactly when the text is blank. */
  lemma TrimSpec(s: string)
    ensures Trim(s) != [] ==> !IsSpace(Trim(s)[0]) && !IsSpace(Trim(s)[|Trim(s)| - 1])
    ensures Trim(s) == [] <==> AllSpace(s)
  {
    TrimStartSpec(s);
    var t := TrimStart(s);
    TrimEndSpec(t);
    var r := TrimEnd(t);
    if r != [] {
      assert r[0] == t[0] == s[|s| - |t|];
      assert !IsSpace(s[|s| - |t|]);
    } else {
      assert s == s[..|s| - |t|] + t;
    }
  }

  /** `String.prototype.toLowerCase`, for the ASCII letters. */
  function LowerChar(c: char): char {
    if 'A' <= c <= 'Z' then (c as int + 32) as char else c
  }

  function Lower(s: string): string {
    if s == [] then [] else [LowerChar(s[0])] + Lower(s[1..])
  }

  /** Lower-casing maps each character on its own. */
  lemma {:induction false} LowerSpec(s: string)
    ensures |Lower(s)| == |s|
    ensures forall k :: 0 <= k < |s| ==> Lower(s)[k] == LowerChar(s[k])
  {
    if s != [] {
      LowerSpec(s[1..]);
    }
  }

  lemma {:induction false} LowerIdempotent(s: string)
    ensures Lower(Lower(s)) == Lower(s)
  {
    if s != [] {
      LowerSpec(s);
      LowerIdempotent(s[1..]);
      assert Lower(s)[1..] == Lower(s[1..]);
    }
  }

  /** `String.prototype.toUpperCase`, for the ASCII letters. */
  function UpperChar(c: char): char {
    if 'a' <= c <= 'z' then (c as int - 32) as char else c
  }

  /** `xs.join(sep)` */
  function Join(xs: seq<string>, sep: string): string {
    if xs == [] then ""
    else if |xs| == 1 then xs[0]
    else xs[0] + sep + Join(xs[1..], sep)
  }

  function Concat(xs: seq<string>): string {
    if xs == [] then "" else xs[0] + Concat(xs[1..])
  }

  lemma ConcatAppend(xs: seq<string>, x: string)
    ensures Concat(xs + [x]) == Concat(xs) + x
  {
    if xs != [] {
      assert (xs + [x])[1..] == xs[1..] + [x];
      ConcatAppend(xs[1..], x);
    }
  }

  function DigitChar(d: nat): char
    requires d < 10
  {
    ['0', '1', '2', '3', '4', '5', '6', '7', '8', '9'][d]
  }

  /** Decimal rendering of a natural number, as template literals print it. */
  function NatToString(n: nat): (r: string)
    ensures |r| >= 1
  {
    if n < 10 then [DigitChar(n)] else NatToString(n / 10) + [DigitChar(n % 10)]
  }

  /** Numbers from 10 on take at least two digits. */
  lemma NatToStringLength(n: nat)
    ensures n < 10 <==> |NatToString(n)| == 1
  {
    if n >= 10 {
      assert |NatToString(n)| == |NatToString(n / 10)| + 1;
    }
  }

  /** Distinct numbers print differently. */
  lemma {:induction false} NatToStringInjective(a: nat, b: nat)
    requires NatToString(a) == NatToString(b)
    ensures a == b
  {
    NatToStringLength(a);
    NatToStringLength(b);
    if a >= 10 && b >= 10 {
      var sa, sb := NatToString(a), NatToString(b);
      assert sa[|sa| - 1] == DigitChar(a % 10) && sb[|sb| - 1] == DigitChar(b % 10);
      assert sa[..|sa| - 1] == NatToString(a / 10) && sb[..|sb| - 1] == NatToString(b / 10);
      NatToStringInjective(a / 10, b / 10);
    } else {
      assert NatToString(a)[0] == DigitChar(a) && NatToString(b)[0] == DigitChar(b);
    }
  }

  /** `if (c) list.push(e)` */
  function AppendIf<T>(es: seq<T>, c: bool, e: T): seq<T> {
    if c then es + [e] else es
  }

  /** `${v}`: a value as a template literal shows it. A `Date` shows as its
      calendar day here, not as the time-zone dependent text of
      `Date.prototype.toString`. */
  function Interpolate(v: Value): string {
    match v
    case Undefined => "undefined"
    case Null => "null"
    case Bool(b) => if b then "true" else "false"
    case Num(n) => if n < 0 then "-" + NatToString(-n) else NatToString(n)
    case Str(s) => s
    case List(items) => Join(items, ",")
    case Stamp(day) => day
  }

  /** `xs.map(f)` where `f` may throw: the first error, or every result. */
  function MapResult<A, B>(xs: seq<A>, f: A -> Result<B>): Result<seq<B>> {
    if xs == [] then Ok([])
    else
      match MapResult(xs[..|xs| - 1], f)
      case Err(m) => Err(m)
      case Ok(init) =>
        match f(xs[|xs| - 1])
        case Err(m) => Err(m)
        case Ok(y) => Ok(init + [y])
  }

  /** The mapping succeeds exactly when `f` succeeds on every element, and
      then holds `f`'s results in order; otherwise it fails with the error of
      the first element `f` fails on. */
  lemma {:induction false} MapResultSpec<A, B>(xs: seq<A>, f: A -> Result<B>)
    ensures MapResult(xs, f).Ok? <==> forall i :: 0 <= i < |xs| ==> f(xs[i]).Ok?
    ensures MapResult(xs, f).Ok? ==>
      |MapResult(xs, f).value| == |xs| && forall i :: 0 <= i < |xs| ==> MapResult(xs, f).value[i] == f(xs[i]).value
    ensures MapResult(xs, f).Err? ==>
      exists i :: (0 <= i < |xs| && f(xs[i]) == Err(MapResult(xs, f).message)
                   && forall j :: 0 <= j < i ==> f(xs[j]).Ok?)
  {
    if xs != [] {
      var init := xs[..|xs| - 1];
      MapResultSpec(init, f);
      assert forall i :: 0 <= i < |init| ==> init[i] == xs[i];
      if MapResult(init, f).Err? {
        var i :| 0 <= i < |init| && f(init[i]) == Err(MapResult(init, f).message)
          && forall j :: 0 <= j < i ==> f(init[j]).Ok?;
        assert f(xs[i]) == Err(MapResult(xs, f).message);
      }
    }
  }

  /** One more element that maps to a value extends the mapped prefix. */
  lemma MapResultSnoc<A, B>(xs: seq<A>, i: nat, f: A -> Result<B>)
    requires i < |xs| && MapResult(xs[..i], f).Ok? && f(xs[i]).Ok?
    ensures MapResult(xs[..i + 1], f) == Ok(MapResult(xs[..i], f).value + [f(xs[i]).value])
  {
    assert xs[..i + 1][..i] == xs[..i];
  }

  /** The first element that fails decides the error. */
  lemma {:induction false} MapResultFirstErr<A, B>(xs: seq<A>, i: nat, f: A -> Result<B>)
    requires i < |xs| && MapResult(xs[..i], f).Ok? && f(xs[i]).Err?
    ensures MapResult(xs, f) == Err(f(xs[i]).message)
  {
    var init := xs[..|xs| - 1];
    if i == |xs| - 1 {
      assert xs[..i] == init;
    } else {
      assert init[..i] == xs[..i];
      MapResultFirstErr(init, i, f);
    }
  }

  /** Some element of a non-empty list satisfies `p` exactly when one before
      the last does or the last does. */
  lemma ExistsSnoc<T>(xs: seq<T>, init: seq<T>, p: T -> bool)
    requires xs != [] && init == xs[..|xs| - 1]
    ensures (exists i :: 0 <= i < |xs| && p(xs[i])) <==>
      (exists i :: 0 <= i < |init| && p(init[i])) || p(xs[|xs| - 1])
  {
    if exists i :: 0 <= i < |xs| && p(xs[i]) {
      var i :| 0 <= i < |xs| && p(xs[i]);
      if i < |init| {
        assert init[i] == xs[i];
      }
    }
  }

  /** Stated once for any element type: asserting it on a sequence of
      records directly is far more expensive for the solver. */
  lemma AppendAssociative<T>(a: seq<T>, b: seq<T>, c: seq<T>)
    ensures a + (b + c) == (a + b) + c
  {
  }

  /** `xs.forEach(x => s += f(x))`: the texts of the elements, in order. */
  function ConcatMap<T>(xs: seq<T>, f: T -> string): string {
    if xs == [] then "" else ConcatMap(xs[..|xs| - 1], f) + f(xs[|xs| - 1])
  }

  /** A string starts with its first part, and what follows that part is the rest. */
  lemma PrefixOfAppend(e: string, rest: string)
    ensures StartsWith(e + rest, e) && (e + rest)[|e|..] == rest
  {
    assert (e + rest)[..|e|] == e;
  }

  lemma ConcatMapSnoc<T>(xs: seq<T>, f: T -> string)
    requires xs != []
    ensures ConcatMap(xs, f) == ConcatMap(xs[..|xs| - 1], f) + f(xs[|xs| - 1])
  {
  }

  /** Appending the next piece to a text built so far. */
  lemma ConcatMapStep<T>(head: string, xs: seq<T>, i: nat, f: T -> string)
    requires i < |xs|
    ensures head + ConcatMap(xs[..i], f) + f(xs[i]) == head + ConcatMap(xs[..i + 1], f)
  {
    assert xs[..i + 1][..i] == xs[..i];
    ConcatMapSnoc(xs[..i + 1], f);
    AppendAssociative(head, ConcatMap(xs[..i], f), f(xs[i]));
  }

  lemma {:induction false} ConcatMapAppend<T>(xs: seq<T>, ys: seq<T>, f: T -> string)
    ensures ConcatMap(xs + ys, f) == ConcatMap(xs, f) + ConcatMap(ys, f)
  {
    if ys == [] {
      assert xs + ys == xs;
    } else {
      var init := ys[..|ys| - 1];
      assert (xs + ys)[..|xs + ys| - 1] == xs + init;
      ConcatMapAppend(xs, init, f);
      AppendAssociative(ConcatMap(xs, f), ConcatMap(init, f), f(ys[|ys| - 1]));
    }
  }

  lemma MiddleSlice<T>(a: seq<T>, b: seq<T>, c: seq<T>)
    ensures (a + b + c)[|a|..|a| + |b|] == b
  {
  }

  /** The concatenation of the lists `xss`. */
  function Flatten<T>(xss: seq<seq<T>>): (r: seq<T>) {
    if xss == [] then [] else Flatten(xss[..|xss| - 1]) + xss[|xss| - 1]
  }

  /** Mapping one more element to a list extends the flattened prefix by it. */
  lemma FlattenMapSnoc<A, B>(xs: seq<A>, i: nat, f: A -> Result<seq<B>>)
    requires i < |xs| && MapResult(xs[..i], f).Ok? && f(xs[i]).Ok?
    ensures MapResult(xs[..i + 1], f).Ok?
    ensures Flatten(MapResult(xs[..i + 1], f).value) == Flatten(MapResult(xs[..i], f).value) + f(xs[i]).value
  {
    MapResultSnoc(xs, i, f);
    var lists := MapResult(xs[..i], f).value + [f(xs[i]).value];
    assert lists[..|lists| - 1] == MapResult(xs[..i], f).value;
  }

  /** `Set.prototype.add` on a set kept in insertion order. */
  function SetAdd<T(==,!new)>(s: seq<T>, x: T): (r: seq<T>)
    ensures x in r
    ensures forall y :: y in r <==> y in s || y == x
    ensures NoDups(s) ==> NoDups(r)
  {
    if x in s then s else s + [x]
  }

  /** `xs.forEach(x => set.add(x))` on a set kept in insertion order. */
  function AddAll<T(==,!new)>(s: seq<T>, xs: seq<T>): (r: seq<T>)
  {
    if xs == [] then s else SetAdd(AddAll(s, xs[..|xs| - 1]), xs[|xs| - 1])
  }

  /** `xs.forEach(x => set.add(x))`, one element at a time. */
  method AddEach(members: seq<string>, xs: seq<string>) returns (r: seq<string>)
    ensures r == AddAll(members, xs)
  {
    r := members;
    for i := 0 to |xs|
      invariant r == AddAll(members, xs[..i])
    {
      assert xs[..i + 1][..i] == xs[..i];
      r := SetAdd(r, xs[i]);
    }
    assert xs[..|xs|] == xs;
  }

  /** Adding two lists one after the other adds their concatenation. */
  lemma {:induction false} AddAllAppend<T(!new)>(s: seq<T>, xs: seq<T>, ys: seq<T>)
    ensures AddAll(s, xs + ys) == AddAll(AddAll(s, xs), ys)
  {
    if ys == [] {
      assert xs + ys == xs;
    } else {
      assert (xs + ys)[..|xs + ys| - 1] == xs + ys[..|ys| - 1];
      AddAllAppend(s, xs, ys[..|ys| - 1]);
    }
  }

  /** Adding a list to a set gives the union, keeps what was there in front
      and keeps the set free of duplicates. */
  lemma {:induction false} AddAllSpec<T(!new)>(s: seq<T>, xs: seq<T>)
    ensures forall y :: y in AddAll(s, xs) <==> y in s || y in xs
    ensures |s| <= |AddAll(s, xs)| && AddAll(s, xs)[..|s|] == s
    ensures NoDups(s) ==> NoDups(AddAll(s, xs))
  {
    if xs != [] {
      var init := xs[..|xs| - 1];
      AddAllSpec(s, init);
      assert xs == init + [xs[|xs| - 1]];
      var r := AddAll(s, init);
      assert SetAdd(r, xs[|xs| - 1])[..|r|] == r;
    }
  }

  predicate NoDups<T(==)>(s: seq<T>) {
    forall i, j :: 0 <= i < j < |s| ==> s[i] != s[j]
  }
}

=== FILE: markdown_parser.dfy ===
/** The frontmatter half of build-system/lib/markdown-parser.js: validation,
    enrichment with defaults, the length-capped text helpers, schema-type
    inference, complexity, and `parseContent`, which ties them to the body
    scanners. gray-matter, markdown-it, slugify, `Date.parse` and the clock are
    parameters. */
module MarkdownParser {
  import opened Js
  import opened ContentScan
  import opened Words

  const DefaultBaseUrl: string := "https://antoinesmeets.com"
  const DefaultLanguage: string := "fr"

  /** What the parser takes from outside: its options, the library functions
      whose code is not part of this model, and the build day as date-fns
      formats it ('yyyy-MM-dd'). `matterExcerpt` is the excerpt gray-matter
      splits off a body at `<!-- more -->`, "" when there is none. */
  datatype ParserEnv = ParserEnv(
    baseUrl: string,
    language: string,
    slugify: string -> string,
    dateParses: string -> bool,
    render: string -> string,
    matterExcerpt: string -> string,
    today: string)

  /** The constructor: `options.baseUrl || default`, `options.language || 'fr'`. */
  function NewParserEnv(baseUrl: string, language: string, slugify: string -> string,
                        dateParses: string -> bool, render: string -> string,
                        matterExcerpt: string -> string, today: string): (env: ParserEnv)
    ensures baseUrl != "" ==> env.baseUrl == baseUrl
    ensures baseUrl == "" ==> env.baseUrl == DefaultBaseUrl
    ensures language != "" ==> env.language == language
    ensures language == "" ==> env.language == DefaultLanguage
  {
    ParserEnv(if baseUrl != "" then baseUrl else DefaultBaseUrl,
              if language != "" then language else DefaultLanguage,
              slugify, dateParses, render, matterExcerpt, today)
  }

  // === Dates ===

  predicate IsDigit(c: char) { '0' <= c <= '9' }

  /** `/^\d{4}-\d{2}-\d{2}$/` */
  predicate IsDatePattern(s: string) {
    |s| == 10 && s[4] == '-' && s[7] == '-'
    && IsDigit(s[0]) && IsDigit(s[1]) && IsDigit(s[2]) && IsDigit(s[3])
    && IsDigit(s[5]) && IsDigit(s[6]) && IsDigit(s[8]) && IsDigit(s[9])
  }

  /** `isValidDate`: a YAML timestamp (a `Date` object) is valid; a string must
      have the YYYY-MM-DD shape and be accepted by `Date.parse`; anything else
      is invalid. */
  predicate IsValidDate(v: Value, dateParses: string -> bool) {
    match v
    case Stamp(_) => true
    case Str(s) => IsDatePattern(s) && dateParses(s)
    case _ => false
  }

  // === Validation ===

  const RequiredFields: seq<Field> := [Title, Description, Date]
  const Statuses: seq<string> := ["draft", "published", "archived"]

  /** The checks `validateFrontmatter` makes, one constructor per message. */
  datatype FrontmatterError =
    | MissingField(field: Field)
    | InvalidDate
    | InvalidStatus
    | InvalidCategories

  function Message(e: FrontmatterError): string {
    match e
    case MissingField(f) => "Missing required field: " + FieldName(f)
    case InvalidDate => "Invalid date format. Use YYYY-MM-DD"
    case InvalidStatus => "Status must be: draft, published, or archived"
    case InvalidCategories => "Categories must be a non-empty array"
  }

  /** `errors.map(message)` */
  function Messages(es: seq<FrontmatterError>): (ms: seq<string>)
    ensures |ms| == |es|
  {
    if es == [] then [] else Messages(es[..|es| - 1]) + [Message(es[|es| - 1])]
  }

  lemma MessagesAppend(es: seq<FrontmatterError>, e: FrontmatterError)
    ensures Messages(es + [e]) == Messages(es) + [Message(e)]
  {
    assert (es + [e])[..|es|] == es;
  }

  predicate DateInvalid(fm: Record, dateParses: string -> bool) {
    Has(fm, Date) && !IsValidDate(Get(fm, Date), dateParses)
  }

  /** `['draft', 'published', 'archived'].includes(status)` fails. */
  predicate StatusInvalid(fm: Record) {
    Has(fm, Status) && !(Get(fm, Status).Str? && Get(fm, Status).s in Statuses)
  }

  predicate CategoriesInvalid(fm: Record) {
    Has(fm, Categories) && (!Get(fm, Categories).List? || |Get(fm, Categories).items| == 0)
  }

  /** One error per required field the frontmatter lacks, in field order. */
  function MissingFields(fm: Record, fields: seq<Field>): seq<FrontmatterError> {
    if fields == [] then []
    else
      AppendIf(MissingFields(fm, fields[..|fields| - 1]), !Has(fm, fields[|fields| - 1]),
               MissingField(fields[|fields| - 1]))
  }

  /** Every error `validateFrontmatter` collects, in the order it collects them. */
  function FrontmatterErrors(fm: Record, dateParses: string -> bool): seq<FrontmatterError> {
    var missing := MissingFields(fm, RequiredFields);
    var withDate := AppendIf(missing, DateInvalid(fm, dateParses), InvalidDate);
    var withStatus := AppendIf(withDate, StatusInvalid(fm), InvalidStatus);
    AppendIf(withStatus, CategoriesInvalid(fm), InvalidCategories)
  }

  function ValidationFailure(errors: seq<string>): string {
    "Frontmatter validation failed:\n" + Join(errors, "\n")
  }

  /** The error `parseFile` rethrows when reading or parsing the `index.md`
      of the folder at `path` fails. */
  function ParseFailure(path: string, message: string): string {
    "Failed to parse file " + path + "/index.md: " + message
  }

  /** `validateFrontmatter`: collects every error, then throws if there is
      any. The list holds the errors; their messages are made when the
      exception is thrown. */
  method ValidateFrontmatter(fm: Record, dateParses: string -> bool) returns (r: Result<()>)
    ensures r.Ok? <==> FrontmatterErrors(fm, dateParses) == []
    ensures r.Err? ==> r.message == ValidationFailure(Messages(FrontmatterErrors(fm, dateParses)))
  {
    var errors: seq<FrontmatterError> := [];
    for i := 0 to |RequiredFields|
      invariant errors == MissingFields(fm, RequiredFields[..i])
    {
      assert RequiredFields[..i + 1][..i] == RequiredFields[..i];
      if !Has(fm, RequiredFields[i]) {
        errors := errors + [MissingField(RequiredFields[i])];
      }
    }
    assert RequiredFields[..|RequiredFields|] == RequiredFields;
    if DateInvalid(fm, dateParses) {
      errors := errors + [InvalidDate];
    }
    if StatusInvalid(fm) {
      errors := errors + [InvalidStatus];
    }
    if CategoriesInvalid(fm) {
      errors := errors + [InvalidCategories];
    }
    if |errors| > 0 {
      return Err(ValidationFailure(Messages(errors)));
    }
    return Ok(());
  }

  lemma {:induction false} MissingFieldsSpec(fm: Record, fields: seq<Field>)
    ensures forall e :: e in MissingFields(fm, fields) ==> e.MissingField?
    ensures forall f :: MissingField(f) in MissingFields(fm, fields) <==> f in fields && !Has(fm, f)
  {
    if fields != [] {
      var init := fields[..|fields| - 1];
      MissingFieldsSpec(fm, init);
      assert fields == init + [fields[|fields| - 1]];
    }
  }

  /** Validation reports every failing check, not just the first one: each
      check's error is among the errors exactly when that check fails, so the
      list is empty exactly when all checks pass. */
  lemma FrontmatterErrorsSpec(fm: Record, dateParses: string -> bool)
    ensures forall f :: MissingField(f) in FrontmatterErrors(fm, dateParses) <==> f in RequiredFields && !Has(fm, f)
    ensures InvalidDate in FrontmatterErrors(fm, dateParses) <==> DateInvalid(fm, dateParses)
    ensures InvalidStatus in FrontmatterErrors(fm, dateParses) <==> StatusInvalid(fm)
    ensures InvalidCategories in FrontmatterErrors(fm, dateParses) <==> CategoriesInvalid(fm)
    ensures FrontmatterErrors(fm, dateParses) == [] <==>
      Has(fm, Title) && Has(fm, Description) && Has(fm, Date)
      && !DateInvalid(fm, dateParses) && !StatusInvalid(fm) && !CategoriesInvalid(fm)
  {
    MissingFieldsSpec(fm, RequiredFields);
    var errs := FrontmatterErrors(fm, dateParses);
    if errs == [] {
      assert MissingField(Title) !in errs;
      assert MissingField(Description) !in errs;
      assert MissingField(Date) !in errs;
    } else {
      var e := errs[0];
      assert e in errs;
      if e.MissingField? {
        assert MissingField(e.field) in errs;
      }
    }
  }

  // === Length-capped text ===

  /** `s.length > max ? s.substring(0, max - 3) + '...' : s` */
  function CapWithEllipsis(s: string, max: nat): string
    requires max >= 3
  {
    if |s| > max then s[..max - 3] + "..." else s
  }

  /** The capped text fits in `max` characters: the text itself when it fits,
      otherwise its first `max - 3` characters and "...". */
  lemma CapWithEllipsisSpec(s: string, max: nat)
    requires max >= 3
    ensures |CapWithEllipsis(s, max)| <= max
    ensures |s| <= max ==> CapWithEllipsis(s, max) == s
    ensures |s| > max ==> (|CapWithEllipsis(s, max)| == max && EndsWith(CapWithEllipsis(s, max), "...")
      && CapWithEllipsis(s, max)[..max - 3] == s[..max - 3])
  {
    if |s| > max {
      var r := CapWithEllipsis(s, max);
      assert r[max - 3..] == "...";
    }
  }

  predicate IsMarkup(c: char) { c == '#' || c == '*' || c == '`' }

  /** `text.replace(/[#*`]/g, '')` */
  function StripMarkup(s: string): string {
    if s == [] then []
    else (if IsMarkup(s[0]) then [] else [s[0]]) + StripMarkup(s[1..])
  }

  /** Stripping removes every markup character and nothing else: the result is
      no longer than the text, free of markup, and markup-free text is kept. */
  lemma {:induction false} StripMarkupSpec(s: string)
    ensures |StripMarkup(s)| <= |s|
    ensures forall k :: 0 <= k < |StripMarkup(s)| ==> !IsMarkup(StripMarkup(s)[k])
    ensures (forall k :: 0 <= k < |s| ==> !IsMarkup(s[k])) ==> StripMarkup(s) == s
  {
    if s != [] {
      StripMarkupSpec(s[1..]);
      if forall k :: 0 <= k < |s| ==> !IsMarkup(s[k]) {
        assert forall k :: 0 <= k < |s[1..]| ==> !IsMarkup(s[1..][k]) by {
          forall k | 0 <= k < |s[1..]| ensures !IsMarkup(s[1..][k]) {
            assert s[1..][k] == s[k + 1];
          }
        }
        assert s == [s[0]] + s[1..];
      }
    }
  }

  /** `generateExcerpt(text)` with its default of 120 characters. The cut is
      by character count, so it may fall inside a word. */
  function GenerateExcerpt(text: string): string {
    if text == "" then "" else CapWithEllipsis(Trim(StripMarkup(text)), 120)
  }

  /** The excerpt is at most 120 characters, free of markup and of white space
      at its start: the cleaned text itself when it fits, otherwise its first
      117 characters and "...". */
  lemma GenerateExcerptSpec(text: string)
    ensures |GenerateExcerpt(text)| <= 120
    ensures |Trim(StripMarkup(text))| <= 120 ==> GenerateExcerpt(text) == Trim(StripMarkup(text))
    ensures |Trim(StripMarkup(text))| > 120 ==>
      (|GenerateExcerpt(text)| == 120 && EndsWith(GenerateExcerpt(text), "...")
      && GenerateExcerpt(text)[..117] == Trim(StripMarkup(text))[..117])
    ensures GenerateExcerpt(text) != [] ==> !IsSpace(GenerateExcerpt(text)[0])
  {
    CapWithEllipsisSpec(Trim(StripMarkup(text)), 120);
    TrimSpec(StripMarkup(text));
  }

  /** `generateSEOTitle(title)` */
  function GenerateSEOTitle(title: string): string {
    CapWithEllipsis(title, 60)
  }

  /** The SEO title fits in 60 characters and keeps a title that already fits. */
  lemma GenerateSEOTitleSpec(title: string)
    ensures |GenerateSEOTitle(title)| <= 60
    ensures |title| <= 60 ==> GenerateSEOTitle(title) == title
    ensures |title| > 60 ==> (|GenerateSEOTitle(title)| == 60
      && EndsWith(GenerateSEOTitle(title), "...") && GenerateSEOTitle(title)[..57] == title[..57])
  {
    CapWithEllipsisSpec(title, 60);
  }

  /** `generateSEODescription(description)` */
  function GenerateSEODescription(description: string): string {
    if description == "" then "" else CapWithEllipsis(description, 160)
  }

  /** The SEO description fits in 160 characters and keeps one that already fits. */
  lemma GenerateSEODescriptionSpec(description: string)
    ensures |GenerateSEODescription(description)| <= 160
    ensures |description| <= 160 ==> GenerateSEODescription(description) == description
    ensures |description| > 160 ==> (|GenerateSEODescription(description)| == 160
      && EndsWith(GenerateSEODescription(description), "...")
      && GenerateSEODescription(description)[..157] == description[..157])
  {
    CapWithEllipsisSpec(description, 160);
  }

  // === Schema type ===

  const SoftwareCategories: seq<string> := ["automatisation", "python", "n8n", "ia", "no-code"]
  const DatasetCategories: seq<string> := ["power-bi", "sql", "analyse", "data"]
  const WebsiteCategories: seq<string> := ["vibe-coding", "portfolio"]

  /** `categories.map(c => c.toLowerCase())` */
  function LowerAll(xs: seq<string>): seq<string> {
    if xs == [] then [] else [Lower(xs[0])] + LowerAll(xs[1..])
  }

  /** `cats.some(c => keywords.includes(c))` */
  predicate AnyIn(cats: seq<string>, keywords: seq<string>) {
    cats != [] && (cats[0] in keywords || AnyIn(cats[1..], keywords))
  }

  /** Some lower-cased category is a keyword exactly when some category's
      lower-case form is. */
  lemma {:induction false} AnyInLowerAll(categories: seq<string>, keywords: seq<string>)
    ensures AnyIn(LowerAll(categories), keywords)
      <==> exists i :: 0 <= i < |categories| && Lower(categories[i]) in keywords
  {
    if categories != [] {
      AnyInLowerAll(categories[1..], keywords);
      assert LowerAll(categories)[1..] == LowerAll(categories[1..]);
      if exists i :: 0 <= i < |categories| && Lower(categories[i]) in keywords {
        var i :| 0 <= i < |categories| && Lower(categories[i]) in keywords;
        if i > 0 {
          assert categories[1..][i - 1] == categories[i];
        }
      }
      if exists i :: 0 <= i < |categories[1..]| && Lower(categories[1..][i]) in keywords {
        var i :| 0 <= i < |categories[1..]| && Lower(categories[1..][i]) in keywords;
        assert categories[i + 1] == categories[1..][i];
      }
    }
  }

  /** `inferSchemaType(categories)` */
  function InferSchemaType(categories: seq<string>): string {
    var cats := LowerAll(categories);
    if AnyIn(cats, SoftwareCategories) then "SoftwareApplication"
    else if AnyIn(cats, DatasetCategories) then "Dataset"
    else if AnyIn(cats, WebsiteCategories) then "WebSite"
    else "CreativeWork"
  }

  /** The priority of the schema type one category calls for. */
  function CategoryRank(c: string): nat {
    var l := Lower(c);
    if l in SoftwareCategories then 3
    else if l in DatasetCategories then 2
    else if l in WebsiteCategories then 1
    else 0
  }

  /** The highest priority any category calls for (0 for none). */
  function MaxRank(categories: seq<string>): nat {
    if categories == [] then 0
    else
      var rest := MaxRank(categories[1..]);
      var here := CategoryRank(categories[0]);
      if here >= rest then here else rest
  }

  /** `MaxRank` is the maximum of the categories' ranks. */
  lemma {:induction false} MaxRankSpec(categories: seq<string>)
    ensures MaxRank(categories) <= 3
    ensures forall i :: 0 <= i < |categories| ==> CategoryRank(categories[i]) <= MaxRank(categories)
    ensures categories != [] ==>
      exists i :: 0 <= i < |categories| && CategoryRank(categories[i]) == MaxRank(categories)
  {
    if categories != [] {
      MaxRankSpec(categories[1..]);
      assert forall i :: 1 <= i < |categories| ==> categories[i] == categories[1..][i - 1];
      if MaxRank(categories) != CategoryRank(categories[0]) {
        var i :| 0 <= i < |categories[1..]| && CategoryRank(categories[1..][i]) == MaxRank(categories[1..]);
        assert categories[i + 1] == categories[1..][i];
      }
    }
  }

  function SchemaName(rank: nat): string {
    if rank == 3 then "SoftwareApplication"
    else if rank == 2 then "Dataset"
    else if rank == 1 then "WebSite"
    else "CreativeWork"
  }

  /** Inference picks the highest-priority type any category calls for:
      SoftwareApplication > Dataset > WebSite > CreativeWork. */
  lemma InferSchemaTypeIsMaxRank(categories: seq<string>)
    ensures InferSchemaType(categories) == SchemaName(MaxRank(categories))
  {
    MaxRankSpec(categories);
    AnyInLowerAll(categories, SoftwareCategories);
    AnyInLowerAll(categories, DatasetCategories);
    AnyInLowerAll(categories, WebsiteCategories);
    var r := MaxRank(categories);
    if r > 0 {
      var i :| 0 <= i < |categories| && CategoryRank(categories[i]) == r;
    }
    forall i | 0 <= i < |categories| ensures CategoryRank(categories[i]) <= r {}
  }

  /** Inference ignores letter case. */
  lemma InferSchemaTypeIgnoresCase(a: seq<string>, b: seq<string>)
    requires |a| == |b|
    requires forall i :: 0 <= i < |a| ==> Lower(a[i]) == Lower(b[i])
    ensures InferSchemaType(a) == InferSchemaType(b)
  {
    InferSchemaTypeIsMaxRank(a);
    InferSchemaTypeIsMaxRank(b);
    MaxRankSpec(a);
    MaxRankSpec(b);
    forall i | 0 <= i < |a| ensures CategoryRank(a[i]) == CategoryRank(b[i]) {}
  }

  /** Adding categories never lowers the inferred type's priority. */
  lemma {:induction false} MaxRankConcat(a: seq<string>, b: seq<string>)
    ensures MaxRank(a + b) == (if MaxRank(a) >= MaxRank(b) then MaxRank(a) else MaxRank(b))
  {
    if a == [] {
      assert a + b == b;
    } else {
      assert (a + b)[1..] == a[1..] + b;
      MaxRankConcat(a[1..], b);
    }
  }

  // === Enrichment ===

  const HeroAltPrefix: string := "Aperçu du projet: "
  const DefaultCategory: string := "Général"

  /** The JavaScript types the enrichment code relies on: the text fields it
      passes to slugify, `.replace` and `.length` are strings. */
  predicate WellTyped(fm: Record) {
    (Truthy(fm.title) ==> fm.title.Str?)
    && (Truthy(fm.description) ==> fm.description.Str?)
    && (Truthy(fm.slug) ==> fm.slug.Str?)
  }

  /** What `parseContent` guarantees before it calls `enhanceFrontmatter`:
      validation passed, so there is a title and a description, and
      categories, when present, are an array. */
  predicate Enhanceable(fm: Record) {
    WellTyped(fm) && Truthy(fm.title) && Truthy(fm.description)
    && (Truthy(fm.categories) ==> fm.categories.List?)
  }

  lemma ValidIsEnhanceable(fm: Record, dateParses: string -> bool)
    requires WellTyped(fm) && FrontmatterErrors(fm, dateParses) == []
    ensures Enhanceable(fm)
  {
    FrontmatterErrorsSpec(fm, dateParses);
  }

  /** The slug: the author's, or one made from the title. */
  function SlugFor(fm: Record, env: ParserEnv): Value {
    Or(fm.slug, Str(env.slugify(Text(fm.title))))
  }

  /** The categories: the author's, or the default one. */
  function CategoriesFor(fm: Record): Value {
    Or(fm.categories, List([DefaultCategory]))
  }

  /** The excerpt: the author's, or one made from the description when there
      is one. */
  function ExcerptFor(fm: Record): Value {
    if !Truthy(fm.excerpt) && Truthy(fm.description) then Str(GenerateExcerpt(Text(fm.description)))
    else fm.excerpt
  }

  /** `case_study !== undefined ? case_study : true` */
  function CaseStudyFor(caseStudy: Value): Value {
    if caseStudy != Undefined then caseStudy else Bool(true)
  }

  /** The hero image's alt text: the author's, or one made from the title when
      there is a hero image. */
  function HeroAltFor(fm: Record): Value {
    if !Truthy(fm.heroAlt) && Truthy(fm.heroImage) then Str(HeroAltPrefix + Text(fm.title))
    else fm.heroAlt
  }

  /** What `enhanceFrontmatter(fm)` returns, every key at once in terms of the
      frontmatter: each rule reads the frontmatter, except that the canonical
      URL uses the slug and the schema type the categories the earlier rules
      settled on. Keys the rules do not name keep their values. */
  function Enrich(fm: Record, env: ParserEnv): Record {
    fm.(
      slug := SlugFor(fm, env),
      excerpt := ExcerptFor(fm),
      lastUpdated := Str(env.today),
      status := Or(fm.status, Str("published")),
      featured := Or(fm.featured, Bool(false)),
      priority := Or(fm.priority, Num(5)),
      language := Or(fm.language, Str(env.language)),
      categories := CategoriesFor(fm),
      tags := Or(fm.tags, List([])),
      techStack := Or(fm.techStack, List([])),
      keywords := Or(fm.keywords, List([])),
      seoTitle := Or(fm.seoTitle, Str(GenerateSEOTitle(Text(fm.title)))),
      seoDescription := Or(fm.seoDescription, Str(GenerateSEODescription(Text(fm.description)))),
      canonicalUrl := Or(fm.canonicalUrl, Str(env.baseUrl + "/projets/" + Text(SlugFor(fm, env)))),
      ogTitle := Or(fm.ogTitle, fm.title),
      ogDescription := Or(fm.ogDescription, fm.description),
      ogType := Or(fm.ogType, Str("article")),
      ogImage := Or(fm.ogImage, fm.heroImage),
      twitterCard := Or(fm.twitterCard, Str("summary_large_image")),
      twitterTitle := Or(fm.twitterTitle, fm.title),
      twitterDescription := Or(fm.twitterDescription, fm.description),
      twitterImage := Or(fm.twitterImage, fm.heroImage),
      schemaType := Or(fm.schemaType, Str(InferSchemaType(Items(CategoriesFor(fm))))),
      teamSize := Or(fm.teamSize, Num(1)),
      client := Or(fm.client, Str("Personnel")),
      caseStudy := CaseStudyFor(fm.caseStudy),
      heroAlt := HeroAltFor(fm))
  }

  /** `enhanceFrontmatter`: fills the gaps of a copy of the frontmatter one
      key after the other, in source order; later keys read what earlier ones
      left (the canonical URL the slug, the schema type the categories). */
  method EnhanceFrontmatter(fm: Record, env: ParserEnv) returns (enhanced: Record)
    ensures enhanced == Enrich(fm, env)
  {
    enhanced := fm;
    if !Truthy(enhanced.slug) {
      enhanced := enhanced.(slug := Str(env.slugify(Text(enhanced.title))));
    }
    if !Truthy(enhanced.excerpt) && Truthy(enhanced.description) {
      enhanced := enhanced.(excerpt := Str(GenerateExcerpt(Text(enhanced.description))));
    }
    enhanced := enhanced.(lastUpdated := Str(env.today));
    enhanced := enhanced.(status := Or(enhanced.status, Str("published")));
    enhanced := enhanced.(featured := Or(enhanced.featured, Bool(false)));
    enhanced := enhanced.(priority := Or(enhanced.priority, Num(5)));
    enhanced := enhanced.(language := Or(enhanced.language, Str(env.language)));
    enhanced := enhanced.(categories := Or(enhanced.categories, List([DefaultCategory])));
    enhanced := enhanced.(tags := Or(enhanced.tags, List([])));
    enhanced := enhanced.(techStack := Or(enhanced.techStack, List([])));
    enhanced := enhanced.(keywords := Or(enhanced.keywords, List([])));
    enhanced := enhanced.(seoTitle := Or(enhanced.seoTitle, Str(GenerateSEOTitle(Text(enhanced.title)))));
    enhanced := enhanced.(seoDescription :=
      Or(enhanced.seoDescription, Str(GenerateSEODescription(Text(enhanced.description)))));
    enhanced := enhanced.(canonicalUrl :=
      Or(enhanced.canonicalUrl, Str(env.baseUrl + "/projets/" + Text(enhanced.slug))));
    enhanced := enhanced.(ogTitle := Or(enhanced.ogTitle, enhanced.title));
    enhanced := enhanced.(ogDescription := Or(enhanced.ogDescription, enhanced.description));
    enhanced := enhanced.(ogType := Or(enhanced.ogType, Str("article")));
    enhanced := enhanced.(ogImage := Or(enhanced.ogImage, enhanced.heroImage));
    enhanced := enhanced.(twitterCard := Or(enhanced.twitterCard, Str("summary_large_image")));
    enhanced := enhanced.(twitterTitle := Or(enhanced.twitterTitle, enhanced.title));
    enhanced := enhanced.(twitterDescription := Or(enhanced.twitterDescription, enhanced.description));
    enhanced := enhanced.(twitterImage := Or(enhanced.twitterImage, enhanced.heroImage));
    enhanced := enhanced.(schemaType :=
      Or(enhanced.schemaType, Str(InferSchemaType(Items(enhanced.categories)))));
    enhanced := enhanced.(teamSize := Or(enhanced.teamSize, Num(1)));
    enhanced := enhanced.(client := Or(enhanced.client, Str("Personnel")));
    enhanced := enhanced.(caseStudy := CaseStudyFor(enhanced.caseStudy));
    if !Truthy(enhanced.heroAlt) && Truthy(enhanced.heroImage) {
      enhanced := enhanced.(heroAlt := Str(HeroAltPrefix + Text(enhanced.title)));
    }
  }

  /** The keys enrichment fills with `value || fallback`, and the keys of the
      two blocks that only fill a gap (slug and excerpt, hero_alt). */
  const DefaultedFields: set<Field> := {
    Slug, Excerpt, Status, Featured, Priority, Language, Categories, Tags, TechStack, Keywords,
    SeoTitle, SeoDescription, CanonicalUrl, OgTitle, OgDescription, OgType, OgImage,
    TwitterCard, TwitterTitle, TwitterDescription, TwitterImage,
    SchemaType, TeamSize, Client, HeroAlt}

  /** Every key enrichment may set. */
  const EnrichedFields: set<Field> := DefaultedFields + {LastUpdated, CaseStudy}

  /** Explicit values win: enrichment never replaces a truthy value the author
      gave for a key it fills. */
  lemma EnrichKeepsSupplied(fm: Record, env: ParserEnv, f: Field)
    requires f in DefaultedFields && Has(fm, f)
    ensures Get(Enrich(fm, env), f) == Get(fm, f)
  {
  }

  /** Enrichment leaves every other key as the author wrote it. */
  lemma EnrichKeepsOthers(fm: Record, env: ParserEnv, f: Field)
    requires f !in EnrichedFields
    ensures Get(Enrich(fm, env), f) == Get(fm, f)
  {
  }

  /** The defaults of a frontmatter that gives no value. */
  lemma EnrichDefaults(fm: Record, env: ParserEnv)
    ensures !Truthy(fm.status) ==> Enrich(fm, env).status == Str("published")
    ensures !Truthy(fm.featured) ==> Enrich(fm, env).featured == Bool(false)
    ensures !Truthy(fm.priority) ==> Enrich(fm, env).priority == Num(5)
    ensures !Truthy(fm.language) ==> Enrich(fm, env).language == Str(env.language)
    ensures !Truthy(fm.categories) ==> Enrich(fm, env).categories == List(["Général"])
    ensures !Truthy(fm.tags) ==> Enrich(fm, env).tags == List([])
    ensures !Truthy(fm.techStack) ==> Enrich(fm, env).techStack == List([])
    ensures !Truthy(fm.keywords) ==> Enrich(fm, env).keywords == List([])
    ensures !Truthy(fm.ogType) ==> Enrich(fm, env).ogType == Str("article")
    ensures !Truthy(fm.twitterCard) ==> Enrich(fm, env).twitterCard == Str("summary_large_image")
    ensures !Truthy(fm.teamSize) ==> Enrich(fm, env).teamSize == Num(1)
    ensures !Truthy(fm.client) ==> Enrich(fm, env).client == Str("Personnel")
    ensures fm.caseStudy == Undefined ==> Enrich(fm, env).caseStudy == Bool(true)
    ensures fm.caseStudy != Undefined ==> Enrich(fm, env).caseStudy == fm.caseStudy
  {
  }

  /** The values enrichment derives from other keys: the build date always
      replaces `last_updated`; the canonical URL is made from the slug; the
      social images fall back to the hero image; alt text is added only for a
      hero image; the schema type follows the categories. */
  lemma EnrichDerived(fm: Record, env: ParserEnv)
    ensures Enrich(fm, env).lastUpdated == Str(env.today)
    ensures Truthy(fm.slug) ==> Enrich(fm, env).slug == fm.slug
    ensures !Truthy(fm.slug) ==> Enrich(fm, env).slug == Str(env.slugify(Text(fm.title)))
    ensures !Truthy(fm.canonicalUrl) ==>
      Enrich(fm, env).canonicalUrl == Str(env.baseUrl + "/projets/" + Text(Enrich(fm, env).slug))
    ensures !Truthy(fm.ogImage) ==> Enrich(fm, env).ogImage == fm.heroImage
    ensures !Truthy(fm.twitterImage) ==> Enrich(fm, env).twitterImage == fm.heroImage
    ensures !Truthy(fm.ogTitle) ==> Enrich(fm, env).ogTitle == fm.title
    ensures !Truthy(fm.twitterTitle) ==> Enrich(fm, env).twitterTitle == fm.title
    ensures Has(Enrich(fm, env), HeroAlt) <==> Has(fm, HeroAlt) || Has(fm, HeroImage)
    ensures !Truthy(fm.heroImage) ==> Enrich(fm, env).heroAlt == fm.heroAlt
    ensures !Truthy(fm.schemaType) ==>
      Enrich(fm, env).schemaType == Str(InferSchemaType(Items(Enrich(fm, env).categories)))
  {
  }

  /** The generated texts respect their length caps: an excerpt of at most 120
      characters, an SEO title of at most 60 (the title itself when it fits),
      an SEO description of at most 160 (the description itself when it fits). */
  lemma EnrichTextBounds(fm: Record, env: ParserEnv)
    requires Enhanceable(fm)
    ensures !Truthy(fm.excerpt) ==> Enrich(fm, env).excerpt.Str? && |Enrich(fm, env).excerpt.s| <= 120
    ensures !Truthy(fm.seoTitle) ==> Enrich(fm, env).seoTitle.Str? && |Enrich(fm, env).seoTitle.s| <= 60
    ensures !Truthy(fm.seoTitle) && |fm.title.s| <= 60 ==> Enrich(fm, env).seoTitle == fm.title
    ensures !Truthy(fm.seoDescription) ==>
      Enrich(fm, env).seoDescription.Str? && |Enrich(fm, env).seoDescription.s| <= 160
    ensures !Truthy(fm.seoDescription) && |fm.description.s| <= 160 ==>
      Enrich(fm, env).seoDescription == fm.description
  {
    GenerateExcerptSpec(fm.description.s);
    GenerateSEOTitleSpec(fm.title.s);
    GenerateSEODescriptionSpec(fm.description.s);
  }

  /** A frontmatter that passed validation ends up with one of the three
      statuses. */
  lemma EnrichedStatusIsKnown(fm: Record, env: ParserEnv, dateParses: string -> bool)
    requires FrontmatterErrors(fm, dateParses) == []
    ensures Enrich(fm, env).status.Str? && Enrich(fm, env).status.s in Statuses
  {
    FrontmatterErrorsSpec(fm, dateParses);
  }

  /** Enriching twice gives what enriching once gives: every value enrichment
      writes is one it would keep. */
  lemma EnrichIdempotent(fm: Record, env: ParserEnv)
    ensures Enrich(Enrich(fm, env), env) == Enrich(fm, env)
  {
  }

  // === Complexity ===
  // The score is kept in integer tenths: 0.2 per category, 0.3 per
  // technology, 0.5 per code block and 0.1 per external link.

  /** `links.filter(l => l.isExternal)` */
  function ExternalLinks(links: seq<Link>): (ext: seq<Link>)
    ensures |ext| <= |links|
    ensures forall l :: l in ext <==> l in links && l.isExternal
  {
    if links == [] then []
    else (if links[0].isExternal then [links[0]] else []) + ExternalLinks(links[1..])
  }

  /** `+2` above 2000 words, `+1` above 1000, in tenths. */
  function LengthTenths(words: nat): nat {
    if words > 2000 then 20 else if words > 1000 then 10 else 0
  }

  /** The score before rounding, in tenths. */
  function ComplexityTenths(fm: Record, markdown: string): nat {
    10 + 2 * LengthOrZero(fm.categories) + 3 * LengthOrZero(fm.techStack)
    + LengthTenths(CountWords(markdown))
    + 5 * |AllMatches(markdown, 0, MatchCodeBlock)|
    + |ExternalLinks(AllMatches(markdown, 0, MatchLink))|
  }

  /** `Math.min(Math.ceil(tenths / 10), 10)` */
  function CappedCeiling(tenths: nat): (score: nat)
    ensures score <= 10
    ensures score < 10 ==> 10 * score >= tenths && (score == 0 || 10 * (score - 1) < tenths)
    ensures score == 10 ==> tenths > 90
  {
    var up := (tenths + 9) / 10;
    if up < 10 then up else 10
  }

  /** `assessComplexity`, as a value. */
  function Complexity(fm: Record, markdown: string): nat {
    CappedCeiling(ComplexityTenths(fm, markdown))
  }

  /** `assessComplexity`: starts at 1 and adds each factor in turn. */
  method AssessComplexity(fm: Record, markdown: string) returns (score: nat)
    ensures score == Complexity(fm, markdown)
  {
    var tenths := 10;
    tenths := tenths + 2 * LengthOrZero(fm.categories);
    tenths := tenths + 3 * LengthOrZero(fm.techStack);
    var wordCount := CountWords(markdown);
    if wordCount > 2000 {
      tenths := tenths + 20;
    } else if wordCount > 1000 {
      tenths := tenths + 10;
    }
    var codeBlocks := ExtractCodeBlocks(markdown);
    tenths := tenths + 5 * |codeBlocks|;
    var links := ExtractLinks(markdown);
    var externalLinks := ExternalLinks(links);
    tenths := tenths + |externalLinks|;
    score := if (tenths + 9) / 10 < 10 then (tenths + 9) / 10 else 10;
  }

  /** The score is an integer from 1 to 10. It is 1 exactly when nothing adds
      to the base: no categories or technologies, at most 1000 words, no code
      block and no external link. */
  lemma ComplexitySpec(fm: Record, markdown: string)
    ensures 1 <= Complexity(fm, markdown) <= 10
    ensures Complexity(fm, markdown) == 1 <==>
      LengthOrZero(fm.categories) == 0 && LengthOrZero(fm.techStack) == 0
      && CountWords(markdown) <= 1000
      && AllMatches(markdown, 0, MatchCodeBlock) == []
      && ExternalLinks(AllMatches(markdown, 0, MatchLink)) == []
  {
    var t := ComplexityTenths(fm, markdown);
    assert t >= 10;
    assert Complexity(fm, markdown) == 1 <==> t == 10;
  }

  // === Parsing ===

  /** What a project folder holds: no `index.md`, an `index.md` whose
      frontmatter gray-matter rejects (with the YAML error's message), or the
      frontmatter and body that gray-matter split it into. `name` is the
      folder's own name, its `path.basename`. */
  datatype FolderSource =
    | NoIndexFile
    | Unparseable(name: string, message: string)
    | Source(name: string, frontmatter: Record, markdown: string)

  /** The object `extractMetadata` returns. */
  datatype PageMetadata = PageMetadata(
    headings: seq<Heading>, links: seq<Link>, images: seq<Image>,
    codeBlocks: seq<CodeBlock>, readingTime: nat)

  /** The object `generateStats` returns. */
  datatype PageStats = PageStats(
    wordCount: nat, characterCount: nat, readingTime: nat,
    lastModified: Value, complexity: nat)

  /** The object `parseContent` returns. */
  datatype Parsed = Parsed(
    frontmatter: Record, content: string, html: string, excerpt: string,
    metadata: PageMetadata, stats: PageStats)

  function ExtractMetadata(markdown: string, slugify: string -> string): PageMetadata {
    MatchLinkConsumes();
    MatchImageConsumes();
    MatchCodeBlockConsumes();
    PageMetadata(HeadingsOf(SplitLines(markdown), slugify),
      AllMatches(markdown, 0, MatchLink), AllMatches(markdown, 0, MatchImage),
      AllMatches(markdown, 0, MatchCodeBlock), EstimateReadingTime(markdown))
  }

  function GenerateStats(markdown: string, fm: Record): PageStats {
    PageStats(CountWords(markdown), |markdown|, EstimateReadingTime(markdown),
      fm.lastUpdated, Complexity(fm, markdown))
  }

  /** `parseContent` on the frontmatter and body gray-matter split the file
      into: validation throws with every failing check, and otherwise the
      enriched frontmatter, the rendered body and what was measured in it. */
  function ParseContent(fm: Record, markdown: string, env: ParserEnv): Result<Parsed> {
    var errors := FrontmatterErrors(fm, env.dateParses);
    if errors != [] then Err(ValidationFailure(Messages(errors)))
    else
      var enhanced := Enrich(fm, env);
      var excerpt := if env.matterExcerpt(markdown) != "" then env.matterExcerpt(markdown) else GenerateExcerpt(markdown);
      Ok(Parsed(enhanced, markdown, env.render(markdown), excerpt,
        ExtractMetadata(markdown, env.slugify), GenerateStats(markdown, enhanced)))
  }

  /** Parsing fails exactly when validation does, and the parsed status is
      "draft" exactly when the frontmatter's is. */
  lemma ParseContentStatus(fm: Record, markdown: string, env: ParserEnv)
    ensures ParseContent(fm, markdown, env).Ok? <==> FrontmatterErrors(fm, env.dateParses) == []
    ensures ParseContent(fm, markdown, env).Ok? ==>
      (ParseContent(fm, markdown, env).value.frontmatter.status == Str("draft") <==> fm.status == Str("draft"))
  {
    EnrichDefaults(fm, env);
  }

  /** The page's excerpt is the one gray-matter split off when there is one,
      and otherwise one generated from the body: at most 120 characters, and
      the whole plain text when that fits. */
  lemma ParseContentExcerpt(fm: Record, markdown: string, env: ParserEnv)
    ensures ParseContent(fm, markdown, env).Ok? ==>
      var e := ParseContent(fm, markdown, env).value.excerpt;
      && (env.matterExcerpt(markdown) != "" ==> e == env.matterExcerpt(markdown))
      && (env.matterExcerpt(markdown) == "" ==> |e| <= 120)
      && (env.matterExcerpt(markdown) == "" && |Trim(StripMarkup(markdown))| <= 120 ==> e == Trim(StripMarkup(markdown)))
  {
    GenerateExcerptSpec(markdown);
  }
}

=== FILE: migrate_projects.dfy ===
/** The one-off migration of flat project files (`projets/name.md`) into
    the folder layout (`projets/slug/index.md`): which files it picks, how it
    finds a project's entry in the old index, how it completes the
    frontmatter, and the list of migrated projects it keeps. */
module MigrateProjects {
  import opened Js
  import MarkdownParser

  // === Finding the files ===

  /** The names `findProjectFiles` leaves out, compared with the file name
      minus its `.md` extension. */
  const ExcludedStems: seq<string> := ["template", "README", "index"]

  /** `path.basename(file, '.md')` for a file name that ends in `.md`. */
  function Stem(name: string): string {
    if EndsWith(name, ".md") then name[..|name| - 3] else name
  }

  /** A directory entry the migration treats as a project. */
  predicate IsProjectFile(name: string) {
    EndsWith(name, ".md") && Stem(name) !in ExcludedStems
  }

  /** The two `filter` calls of `findProjectFiles`, over the entries of the
      projects directory in the order `readdir` gives them. */
  function ProjectFiles(names: seq<string>): seq<string> {
    if names == [] then []
    else if IsProjectFile(names[0]) then [names[0]] + ProjectFiles(names[1..])
    else ProjectFiles(names[1..])
  }

  /** The kept names are exactly the project files, in their directory order. */
  lemma {:induction false} ProjectFilesSpec(names: seq<string>)
    ensures forall x :: x in ProjectFiles(names) <==> x in names && IsProjectFile(x)
    ensures |ProjectFiles(names)| <= |names|
    ensures (forall i :: 0 <= i < |names| ==> IsProjectFile(names[i])) ==> ProjectFiles(names) == names
  {
    if names != [] {
      var rest := names[1..];
      ProjectFilesSpec(rest);
      assert names == [names[0]] + rest;
      forall x ensures x in ProjectFiles(names) <==> x in names && IsProjectFile(x) {
        assert x in names <==> x == names[0] || x in rest;
      }
      if forall i :: 0 <= i < |names| ==> IsProjectFile(names[i]) {
        forall i | 0 <= i < |rest| ensures IsProjectFile(rest[i]) {
          assert rest[i] == names[i + 1];
        }
      }
    }
  }

  /** `findProjectFiles`: a directory that cannot be read gives no files. */
  function FindProjectFiles(listing: Option<seq<string>>): (files: seq<string>)
    ensures listing.None? ==> files == []
  {
    match listing
    case None => []
    case Some(names) => ProjectFiles(names)
  }

  /** Neither the template, the README nor an index page is ever migrated. */
  lemma ExcludedNeverMigrated(listing: Option<seq<string>>, name: string)
    requires Stem(name) in ExcludedStems || !EndsWith(name, ".md")
    ensures name !in FindProjectFiles(listing)
  {
    if listing.Some? {
      ProjectFilesSpec(listing.value);
    }
  }

  /** `path.join(dir, name)` for a plain name. */
  function PathJoin(dir: string, name: string): string {
    dir + "/" + name
  }

  // === The old index ===

  /** What `loadExistingIndex` finds at `projets/index.json`. */
  datatype IndexFile =
    | NoIndexFile
    | Malformed(error: string)
    /** The JSON literal `null`. */
    | NullIndex
    | ArrayIndex(entries: seq<Record>)
    /** Any other value; `projects` is its `projects` key when that is an
        array. */
    | ObjectIndex(projects: Option<seq<Record>>)

  const NullIndexMessage: string := "Cannot read properties of null (reading 'projects')"

  /** `loadExistingIndex`: an array is the index itself, an object gives its
      `projects` or nothing, and a missing file gives an empty index. A file
      that is not JSON throws, and so does `null`, whose `projects` cannot be
      read. */
  function LoadedIndex(file: IndexFile): (r: Result<seq<Record>>)
    ensures r.Err? <==> file.Malformed? || file.NullIndex?
    ensures file.NullIndex? ==> r == Err(NullIndexMessage)
    ensures file.ArrayIndex? ==> r == Ok(file.entries)
    ensures file.NoIndexFile? || (file.ObjectIndex? && file.projects.None?) ==> r == Ok([])
  {
    match file
    case NoIndexFile => Ok([])
    case Malformed(error) => Err(error)
    case NullIndex => Err(NullIndexMessage)
    case ArrayIndex(entries) => Ok(entries)
    case ObjectIndex(projects) => Ok(if projects.Some? then projects.value else [])
  }

  /** The callback of `existingIndex.find` for the project file `filename`
      whose slug is `slug`: the entry's URL names the file or the slug, or its
      title contains the file name, ignoring case. The title test throws on an
      entry whose title is not a string. */
  function EntryMatches(p: Record, filename: string, slug: string): Result<bool> {
    if p.url == Str("projets/" + filename) || p.url == Str("projets/" + slug) then Ok(true)
    else match p.title
      case Str(t) => Ok(Contains(Lower(t), Lower(filename)))
      case Undefined => Err("Cannot read properties of undefined (reading 'toLowerCase')")
      case Null => Err("Cannot read properties of null (reading 'toLowerCase')")
      case _ => Err("p.title.toLowerCase is not a function")
  }

  /** An entry matches when its URL names the file or the slug, whatever its
      title; otherwise its title decides, and must be a string. */
  lemma EntryMatchesSpec(p: Record, filename: string, slug: string)
    ensures p.url == Str("projets/" + filename) || p.url == Str("projets/" + slug) ==>
      EntryMatches(p, filename, slug) == Ok(true)
    ensures EntryMatches(p, filename, slug).Err? <==>
      p.url != Str("projets/" + filename) && p.url != Str("projets/" + slug) && !p.title.Str?
    ensures EntryMatches(p, filename, slug) == Ok(false) <==>
      p.url != Str("projets/" + filename) && p.url != Str("projets/" + slug)
        && p.title.Str? && !Contains(Lower(p.title.s), Lower(filename))
  {
  }

  /** `existingIndex.find(...)` from position `from`: the position of the
      first matching entry, nothing when none matches, or the error of the
      first entry whose test throws. */
  function FindEntry(entries: seq<Record>, filename: string, slug: string, from: nat): Result<Option<nat>>
    requires from <= |entries|
    decreases |entries| - from
  {
    if from == |entries| then Ok(None)
    else match EntryMatches(entries[from], filename, slug)
      case Err(m) => Err(m)
      case Ok(true) => Ok(Some(from))
      case Ok(false) => FindEntry(entries, filename, slug, from + 1)
  }

  /** `find` gives the first entry that matches, or the error of the first
      whose test throws, or nothing when every test says no. */
  lemma {:induction false} FindEntrySpec(entries: seq<Record>, filename: string, slug: string, from: nat)
    requires from <= |entries|
    ensures var r := FindEntry(entries, filename, slug, from);
      && (r.Ok? && r.value.Some? ==>
          from <= r.value.value < |entries| && EntryMatches(entries[r.value.value], filename, slug) == Ok(true)
          && forall j :: from <= j < r.value.value ==> EntryMatches(entries[j], filename, slug) == Ok(false))
      && (r == Ok(None) ==> forall j :: from <= j < |entries| ==> EntryMatches(entries[j], filename, slug) == Ok(false))
      && (r.Err? ==>
          exists k :: from <= k < |entries| && EntryMatches(entries[k], filename, slug).Err?
            && forall j :: from <= j < k ==> EntryMatches(entries[j], filename, slug) == Ok(false))
    decreases |entries| - from
  {
    if from < |entries| {
      var here := EntryMatches(entries[from], filename, slug);
      if here.Err? {
        assert from <= from < |entries| && EntryMatches(entries[from], filename, slug).Err?;
      } else if here == Ok(false) {
        FindEntrySpec(entries, filename, slug, from + 1);
        if FindEntry(entries, filename, slug, from + 1).Err? {
          var k :| from + 1 <= k < |entries| && EntryMatches(entries[k], filename, slug).Err?
            && forall j :: from + 1 <= j < k ==> EntryMatches(entries[j], filename, slug) == Ok(false);
          assert forall j :: from <= j < k ==> EntryMatches(entries[j], filename, slug) == Ok(false);
        }
      }
    }
  }

  /** `this.existingIndex?.find(...)`: an index that was never loaded gives
      `undefined`. */
  function IndexDataFor(index: Option<seq<Record>>, filename: string, slug: string): Result<Option<Record>> {
    match index
    case None => Ok(None)
    case Some(entries) =>
      FindEntrySpec(entries, filename, slug, 0);
      match FindEntry(entries, filename, slug, 0)
      case Err(m) => Err(m)
      case Ok(None) => Ok(None)
      case Ok(Some(k)) => Ok(Some(entries[k]))
  }

  /** An entry whose URL names the project file is found, unless an earlier
      entry matches or throws first. */
  lemma {:induction false} FindEntryByUrl(entries: seq<Record>, filename: string, slug: string, from: nat, k: nat)
    requires from <= k < |entries|
    requires entries[k].url == Str("projets/" + filename)
    requires forall j :: from <= j < k ==> EntryMatches(entries[j], filename, slug) == Ok(false)
    ensures FindEntry(entries, filename, slug, from) == Ok(Some(k))
    decreases k - from
  {
    if from < k {
      FindEntryByUrl(entries, filename, slug, from + 1, k);
    }
  }

  // === Completing the frontmatter ===

  /** `indexData?.key` */
  function IndexField(indexData: Option<Record>, f: Field): Value {
    if indexData.Some? then Get(indexData.value, f) else Undefined
  }

  /** `generateExcerpt(description)`. A long array has no `substring`; any
      other value without a length is returned as it is. */
  function GenerateExcerpt(description: Value): Result<Value> {
    if !Truthy(description) then Ok(Str(""))
    else match description
      case Str(s) => Ok(Str(if |s| > 120 then s[..117] + "..." else s))
      case List(items) =>
        if |items| > 120 then Err("description.substring is not a function") else Ok(description)
      case _ => Ok(description)
  }

  /** A string excerpt fits in 120 characters: a short description is kept,
      a long one is cut to 117 characters and marked with an ellipsis. */
  lemma GenerateExcerptSpec(description: Value)
    ensures !Truthy(description) ==> GenerateExcerpt(description) == Ok(Str(""))
    ensures GenerateExcerpt(description).Err? <==> description.List? && |description.items| > 120
    ensures description.Str? ==>
      GenerateExcerpt(description).Ok? && GenerateExcerpt(description).value.Str?
        && |GenerateExcerpt(description).value.s| <= 120
    ensures description.Str? && |description.s| <= 120 ==> GenerateExcerpt(description) == Ok(description)
    ensures description.Str? && |description.s| > 120 ==>
      var e := GenerateExcerpt(description).value.s;
      |e| == 120 && e[..117] == description.s[..117] && EndsWith(e, "...")
  {
  }

  /** The categories that make a project a `SoftwareApplication`, then a
      `Dataset`, in the migration's own inference. */
  const SoftwareKeywords: seq<string> := ["automatisation", "python", "n8n", "ia"]
  const DatasetKeywords: seq<string> := ["power-bi", "sql", "analyse"]

  /** `inferSchemaType(categories)`: `map` exists on arrays only, so any
      other truthy value throws. */
  function InferSchemaType(categories: Value): Result<string> {
    if !Truthy(categories) || categories.List? then
      var cats := MarkdownParser.LowerAll(Items(categories));
      if MarkdownParser.AnyIn(cats, SoftwareKeywords) then Ok("SoftwareApplication")
      else if MarkdownParser.AnyIn(cats, DatasetKeywords) then Ok("Dataset")
      else Ok("CreativeWork")
    else Err("(categories || []).map is not a function")
  }

  /** Some category's lower-case form is one of `keywords`. */
  predicate SomeCategoryIn(categories: seq<string>, keywords: seq<string>) {
    exists i :: 0 <= i < |categories| && Lower(categories[i]) in keywords
  }

  /** Schema inference, by priority: any software category wins, then any
      data category, and everything else is a creative work; missing
      categories count as none, and a non-array throws. */
  lemma InferSchemaTypeSpec(categories: Value)
    ensures InferSchemaType(categories).Err? <==> Truthy(categories) && !categories.List?
    ensures InferSchemaType(categories) == Ok("SoftwareApplication") <==>
      (!Truthy(categories) || categories.List?) && SomeCategoryIn(Items(categories), SoftwareKeywords)
    ensures InferSchemaType(categories) == Ok("Dataset") <==>
      (!Truthy(categories) || categories.List?) && !SomeCategoryIn(Items(categories), SoftwareKeywords)
        && SomeCategoryIn(Items(categories), DatasetKeywords)
    ensures !Truthy(categories) ==> InferSchemaType(categories) == Ok("CreativeWork")
  {
    MarkdownParser.AnyInLowerAll(Items(categories), SoftwareKeywords);
    MarkdownParser.AnyInLowerAll(Items(categories), DatasetKeywords);
  }

  /** Where the migration infers a software application the page builder
      does too. */
  lemma InferSchemaTypeAgreesOnSoftware(categories: seq<string>)
    ensures InferSchemaType(List(categories)) == Ok("SoftwareApplication") ==>
      MarkdownParser.InferSchemaType(categories) == "SoftwareApplication"
  {
    MarkdownParser.AnyInLowerAll(categories, SoftwareKeywords);
    MarkdownParser.AnyInLowerAll(categories, MarkdownParser.SoftwareCategories);
  }

  /** Otherwise the two disagree: the page builder knows more keywords than
      the migration, `data` among them. */
  lemma InferSchemaTypeMissesData()
    ensures InferSchemaType(List(["data"])) == Ok("CreativeWork")
    ensures MarkdownParser.InferSchemaType(["data"]) == "Dataset"
  {
    assert Lower("data") == "data";
    assert MarkdownParser.LowerAll(["data"]) == ["data"];
  }

  const CanonicalBase: string := "https://antoinesmeets.com/projets/"

  /** The object literal of `enhanceFrontmatter`, before the custom fields
      are spread over it; `excerpt` and `schemaType` are the values its two
      helper calls gave. */
  function Enhanced(existing: Record, indexData: Option<Record>, slug: string, today: string,
                    excerpt: Value, schemaType: string): Record {
    Record(
      /* title */ Or(Or(existing.title, IndexField(indexData, Title)), Str("Untitled Project")),
      /* description */ Or(Or(existing.description, IndexField(indexData, Description)), Str("")),
      /* date */ Or(Or(existing.date, IndexField(indexData, Date)), Str(today)),
      /* status */ Or(existing.status, Str("published")),
      /* categories */ Or(Or(existing.categories, IndexField(indexData, Categories)), List(["Général"])),
      /* tags */ Or(existing.tags, List([])),
      /* tech_stack */ Or(existing.techStack, List([])),
      Undefined,
      /* slug */ Str(slug),
      /* excerpt */ Or(existing.excerpt, excerpt),
      /* hero_image */ Or(Or(existing.image, IndexField(indexData, Image)), Str("images/hero.png")),
      Undefined, Undefined,
      /* github_url */ Or(existing.githubUrl, Null),
      /* demo_url */ Or(existing.demoUrl, Null),
      Undefined,
      /* featured */ Or(existing.featured, Bool(false)),
      Undefined, Undefined,
      /* seo_title */ Or(existing.seoTitle, Null),
      Undefined,
      /* canonical_url */ Str(CanonicalBase + slug),
      Undefined, Undefined, Undefined, Undefined, Undefined, Undefined, Undefined, Undefined,
      /* schema_type */ Str(schemaType),
      /* team_size */ Or(existing.teamSize, Num(1)),
      /* client */ Or(existing.client, Str("Personnel")),
      /* case_study */ Or(existing.caseStudy, Bool(true)),
      Undefined, Undefined, Undefined, Undefined, Undefined,
      map["duration" := Or(if "duration" in existing.others then existing.others["duration"] else Undefined, Null)])
  }

  /** The keys whose existing values are not spread back over the result. */
  predicate Rebuilt(f: Field) {
    f == Title || f == Description || f == Image || f == Date || f == Categories
  }

  /** `{...enhanced, ...custom}` where `custom` holds every key of `existing`
      but the rebuilt ones: a key `existing` has replaces the computed value,
      whatever that value is. */
  function KeepExisting(computed: Value, existing: Value): Value {
    if existing.Undefined? then computed else existing
  }

  function PreserveCustomFields(enhanced: Record, existing: Record): Record {
    Record(
      enhanced.title, enhanced.description, enhanced.date, KeepExisting(enhanced.status, existing.status),
      enhanced.categories, KeepExisting(enhanced.tags, existing.tags),
      KeepExisting(enhanced.techStack, existing.techStack), KeepExisting(enhanced.keywords, existing.keywords),
      KeepExisting(enhanced.slug, existing.slug), KeepExisting(enhanced.excerpt, existing.excerpt),
      KeepExisting(enhanced.heroImage, existing.heroImage), KeepExisting(enhanced.heroAlt, existing.heroAlt),
      enhanced.image, KeepExisting(enhanced.githubUrl, existing.githubUrl),
      KeepExisting(enhanced.demoUrl, existing.demoUrl), KeepExisting(enhanced.lastUpdated, existing.lastUpdated),
      KeepExisting(enhanced.featured, existing.featured), KeepExisting(enhanced.priority, existing.priority),
      KeepExisting(enhanced.language, existing.language), KeepExisting(enhanced.seoTitle, existing.seoTitle),
      KeepExisting(enhanced.seoDescription, existing.seoDescription),
      KeepExisting(enhanced.canonicalUrl, existing.canonicalUrl),
      KeepExisting(enhanced.ogTitle, existing.ogTitle), KeepExisting(enhanced.ogDescription, existing.ogDescription),
      KeepExisting(enhanced.ogType, existing.ogType), KeepExisting(enhanced.ogImage, existing.ogImage),
      KeepExisting(enhanced.twitterCard, existing.twitterCard),
      KeepExisting(enhanced.twitterTitle, existing.twitterTitle),
      KeepExisting(enhanced.twitterDescription, existing.twitterDescription),
      KeepExisting(enhanced.twitterImage, existing.twitterImage),
      KeepExisting(enhanced.schemaType, existing.schemaType), KeepExisting(enhanced.teamSize, existing.teamSize),
      KeepExisting(enhanced.client, existing.client), KeepExisting(enhanced.caseStudy, existing.caseStudy),
      KeepExisting(enhanced.url, existing.url), KeepExisting(enhanced.readingTime, existing.readingTime),
      KeepExisting(enhanced.wordCount, existing.wordCount), KeepExisting(enhanced.complexity, existing.complexity),
      KeepExisting(enhanced.generatedAt, existing.generatedAt),
      enhanced.others + map k | k in existing.others && !existing.others[k].Undefined? :: existing.others[k])
  }

  /** Every key but the rebuilt ones takes the existing value when the
      existing frontmatter has that key, and the computed one otherwise. */
  lemma PreserveCustomFieldsSpec(enhanced: Record, existing: Record, f: Field)
    requires !f.Other? && !Rebuilt(f)
    ensures Get(PreserveCustomFields(enhanced, existing), f) == KeepExisting(Get(enhanced, f), Get(existing, f))
  {
  }

  /** The same for the keys the model keeps in `others`. */
  lemma PreserveCustomOthersSpec(enhanced: Record, existing: Record, name: string)
    ensures Get(PreserveCustomFields(enhanced, existing), Other(name)) ==
      KeepExisting(Get(enhanced, Other(name)), Get(existing, Other(name)))
  {
  }

  /** `enhanceFrontmatter(existing, indexData, slug)`, with `today` the date
      `new Date()` gives. It throws when the excerpt or the schema type
      cannot be computed. */
  function EnhanceFrontmatter(existing: Record, indexData: Option<Record>, slug: string, today: string): Result<Record> {
    var excerpt :=
      if Truthy(existing.excerpt) then Ok(existing.excerpt)
      else GenerateExcerpt(Or(existing.description, IndexField(indexData, Description)));
    if excerpt.Err? then Err(excerpt.message)
    else
      var schemaType := InferSchemaType(Or(Or(existing.categories, IndexField(indexData, Categories)), List([])));
      if schemaType.Err? then Err(schemaType.message)
      else Ok(PreserveCustomFields(Enhanced(existing, indexData, slug, today, excerpt.value, schemaType.value), existing))
  }

  /** Enhancement fails only for a long array description with no excerpt, or
      categories that are neither missing nor an array. */
  lemma EnhanceFrontmatterErrors(existing: Record, indexData: Option<Record>, slug: string, today: string)
    ensures EnhanceFrontmatter(existing, indexData, slug, today).Err? <==>
      (!Truthy(existing.excerpt) && Or(existing.description, IndexField(indexData, Description)).List?
        && |Or(existing.description, IndexField(indexData, Description)).items| > 120)
      || (Truthy(Or(existing.categories, IndexField(indexData, Categories)))
        && !Or(existing.categories, IndexField(indexData, Categories)).List?)
  {
    GenerateExcerptSpec(Or(existing.description, IndexField(indexData, Description)));
    InferSchemaTypeSpec(Or(Or(existing.categories, IndexField(indexData, Categories)), List([])));
  }

  /** The fallback chains of `enhanceFrontmatter`: title, description, date
      and categories come from the file, then from the index entry, then from
      a default, and are never copied back from the file as they were; the
      file's `image` becomes `hero_image` and the `image` key is dropped. */
  lemma EnhanceFrontmatterFallbacks(existing: Record, indexData: Option<Record>, slug: string, today: string)
    requires EnhanceFrontmatter(existing, indexData, slug, today).Ok?
    ensures var r := EnhanceFrontmatter(existing, indexData, slug, today).value;
      && r.title == (if Truthy(existing.title) then existing.title
          else if Truthy(IndexField(indexData, Title)) then IndexField(indexData, Title)
          else Str("Untitled Project"))
      && Truthy(r.title)
      && r.description == Or(Or(existing.description, IndexField(indexData, Description)), Str(""))
      && r.date == (if Truthy(existing.date) then existing.date
          else if Truthy(IndexField(indexData, Date)) then IndexField(indexData, Date)
          else Str(today))
      && r.categories == (if Truthy(existing.categories) then existing.categories
          else if Truthy(IndexField(indexData, Categories)) then IndexField(indexData, Categories)
          else List(["Général"]))
      && r.image == Undefined
      && r.heroImage == (if existing.heroImage != Undefined then existing.heroImage
          else if Truthy(existing.image) then existing.image
          else if Truthy(IndexField(indexData, Image)) then IndexField(indexData, Image)
          else Str("images/hero.png"))
  {
  }

  /** A key the file already has survives the migration unchanged (the slug
      and canonical URL included); only a key it lacks gets the computed
      value, such as the slug from the file name, the canonical URL built
      from it, or the `published` status. */
  lemma EnhanceFrontmatterKeepsExisting(existing: Record, indexData: Option<Record>, slug: string, today: string)
    requires EnhanceFrontmatter(existing, indexData, slug, today).Ok?
    ensures var r := EnhanceFrontmatter(existing, indexData, slug, today).value;
      && (forall f :: !Rebuilt(f) && Get(existing, f) != Undefined ==> Get(r, f) == Get(existing, f))
      && r.slug == KeepExisting(Str(slug), existing.slug)
      && r.canonicalUrl == KeepExisting(Str(CanonicalBase + slug), existing.canonicalUrl)
      && r.status == KeepExisting(Str("published"), existing.status)
      && r.caseStudy == KeepExisting(Bool(true), existing.caseStudy)
      && r.featured == KeepExisting(Bool(false), existing.featured)
      && r.teamSize == KeepExisting(Num(1), existing.teamSize)
      && r.client == KeepExisting(Str("Personnel"), existing.client)
  {
    var r := EnhanceFrontmatter(existing, indexData, slug, today).value;
    forall f | !Rebuilt(f) && Get(existing, f) != Undefined
      ensures Get(r, f) == Get(existing, f)
    {
      var excerpt :=
        if Truthy(existing.excerpt) then existing.excerpt
        else GenerateExcerpt(Or(existing.description, IndexField(indexData, Description))).value;
      var schemaType := InferSchemaType(Or(Or(existing.categories, IndexField(indexData, Categories)), List([]))).value;
      var enhanced := Enhanced(existing, indexData, slug, today, excerpt, schemaType);
      if f.Other? {
        PreserveCustomOthersSpec(enhanced, existing, f.name);
      } else {
        PreserveCustomFieldsSpec(enhanced, existing, f);
      }
    }
  }

  /** The excerpt and schema type: the file's own when it has the key,
      otherwise generated from the description and inferred from the
      categories the file or the index entry gives. */
  lemma EnhanceFrontmatterDerived(existing: Record, indexData: Option<Record>, slug: string, today: string)
    requires EnhanceFrontmatter(existing, indexData, slug, today).Ok?
    ensures var r := EnhanceFrontmatter(existing, indexData, slug, today).value;
      && (existing.excerpt == Undefined ==>
          r.excerpt == GenerateExcerpt(Or(existing.description, IndexField(indexData, Description))).value)
      && (existing.excerpt != Undefined ==> r.excerpt == existing.excerpt)
      && (existing.schemaType == Undefined ==>
          r.schemaType == Str(InferSchemaType(Or(existing.categories, IndexField(indexData, Categories))).value))
      && (existing.schemaType != Undefined ==> r.schemaType == existing.schemaType)
  {
  }

  // === Migrating one project ===

  /** An entry of `migratedProjects`. */
  datatype MigratedProject = MigratedProject(original: string, migrated: string, slug: string, title: Value)

  /** A project file as gray-matter splits it, or the message of the YAML
      error it throws on a frontmatter it rejects. */
  datatype Source =
    | Unparseable(message: string)
    | Source(frontmatter: Record, markdown: string)

  /** The file `migrateProject` writes: its path, frontmatter and body. */
  datatype Page = Page(path: string, frontmatter: Record, markdown: string)

  /** What migrating one file gives: its entry and the page written. */
  datatype Step = Step(entry: MigratedProject, page: Page)

  /** `migrateProject(path.join(dir, name))`, given the readable files, the
      `slugify` of the library and today's date. */
  function MigrateOne(index: Option<seq<Record>>, dir: string, name: string, files: map<string, Source>,
                      slugify: string -> string, today: string): Result<Step> {
    var filename := Stem(name);
    if name !in files then Err("ENOENT: no such file or directory, open '" + PathJoin(dir, name) + "'")
    else if files[name].Unparseable? then Err(files[name].message)
    else
      var slug := slugify(filename);
      match IndexDataFor(index, filename, slug)
      case Err(m) => Err(m)
      case Ok(indexData) =>
        match EnhanceFrontmatter(files[name].frontmatter, indexData, slug, today)
        case Err(m) => Err(m)
        case Ok(enhanced) =>
          var newPath := PathJoin(PathJoin(dir, slug), "index.md");
          Ok(Step(MigratedProject(PathJoin(dir, name), newPath, slug, enhanced.title),
                  Page(newPath, enhanced, files[name].markdown)))
  }

  /** A migrated project lands in `slug/index.md`, keeps its markdown body,
      records the frontmatter's title, and that title is never empty. */
  lemma MigrateOneSpec(index: Option<seq<Record>>, dir: string, name: string, files: map<string, Source>,
                       slugify: string -> string, today: string)
    requires MigrateOne(index, dir, name, files, slugify, today).Ok?
    ensures var s := MigrateOne(index, dir, name, files, slugify, today).value;
      && name in files && files[name].Source?
      && s.entry.slug == slugify(Stem(name))
      && s.entry.original == PathJoin(dir, name)
      && s.entry.migrated == dir + "/" + slugify(Stem(name)) + "/index.md"
      && s.page.path == s.entry.migrated
      && s.page.markdown == files[name].markdown
      && s.entry.title == s.page.frontmatter.title
      && Truthy(s.entry.title)
  {
    var s := MigrateOne(index, dir, name, files, slugify, today).value;
    var slug := slugify(Stem(name));
    var indexData := IndexDataFor(index, Stem(name), slug).value;
    EnhanceFrontmatterFallbacks(files[name].frontmatter, indexData, slug, today);
  }

  /** A file that cannot be read, or whose frontmatter gray-matter rejects,
      fails with that error before anything else is looked at. */
  lemma MigrateOneFails(index: Option<seq<Record>>, dir: string, name: string, files: map<string, Source>,
                        slugify: string -> string, today: string)
    ensures name !in files ==>
      MigrateOne(index, dir, name, files, slugify, today) == Err("ENOENT: no such file or directory, open '" + PathJoin(dir, name) + "'")
    ensures name in files && files[name].Unparseable? ==>
      MigrateOne(index, dir, name, files, slugify, today) == Err(files[name].message)
  {
  }

  /** The outcome of migrating the first files of a run: the projects
      migrated, and the error that stopped it, if any. */
  datatype Run = Run(steps: seq<Step>, failure: Option<string>)

  /** What migrating each of the first `n` files on its own would give. */
  function Outcomes(index: Option<seq<Record>>, dir: string, names: seq<string>, n: nat,
                    files: map<string, Source>, slugify: string -> string, today: string): (outcomes: seq<Result<Step>>)
    requires n <= |names|
    ensures |outcomes| == n
  {
    if n == 0 then []
    else Outcomes(index, dir, names, n - 1, files, slugify, today) + [MigrateOne(index, dir, names[n - 1], files, slugify, today)]
  }

  lemma {:induction false} OutcomesAt(index: Option<seq<Record>>, dir: string, names: seq<string>, n: nat,
                                     files: map<string, Source>, slugify: string -> string, today: string, i: nat)
    requires i < n <= |names|
    ensures Outcomes(index, dir, names, n, files, slugify, today)[i] == MigrateOne(index, dir, names[i], files, slugify, today)
  {
    if i < n - 1 {
      OutcomesAt(index, dir, names, n - 1, files, slugify, today, i);
    }
  }

  /** The loop of `migrate` over the first `n` files: the first error ends it. */
  function MigrateFiles(outcomes: seq<Result<Step>>, n: nat): Run
    requires n <= |outcomes|
  {
    if n == 0 then Run([], None)
    else
      var before := MigrateFiles(outcomes, n - 1);
      if before.failure.Some? then before
      else match outcomes[n - 1]
        case Ok(step) => Run(before.steps + [step], None)
        case Err(m) => Run(before.steps, Some(m))
  }

  /** A run migrates the files in order and stops at the first that fails:
      without a failure every file is migrated; with one, exactly the files
      before it are. */
  lemma {:induction false} MigrateFilesSpec(outcomes: seq<Result<Step>>, n: nat)
    requires n <= |outcomes|
    ensures var run := MigrateFiles(outcomes, n);
      && |run.steps| <= n
      && (forall i :: 0 <= i < |run.steps| ==> outcomes[i] == Ok(run.steps[i]))
      && (run.failure.None? ==> |run.steps| == n)
      && (run.failure.Some? ==>
            |run.steps| < n && outcomes[|run.steps|] == Err(run.failure.value))
  {
    if n > 0 {
      MigrateFilesSpec(outcomes, n - 1);
    }
  }

  /** Once a run has failed, migrating more files changes nothing. */
  lemma {:induction false} FailureIsFinal(outcomes: seq<Result<Step>>, n: nat)
    requires n <= |outcomes|
    requires MigrateFiles(outcomes, n).failure.Some?
    ensures MigrateFiles(outcomes, |outcomes|) == MigrateFiles(outcomes, n)
    decreases |outcomes| - n
  {
    if n < |outcomes| {
      FailureIsFinal(outcomes, n + 1);
    }
  }

  /** The entries a run adds to `migratedProjects`. */
  function Entries(steps: seq<Step>): (entries: seq<MigratedProject>)
    ensures |entries| == |steps|
    ensures forall i :: 0 <= i < |steps| ==> entries[i] == steps[i].entry
  {
    seq(|steps|, i requires 0 <= i < |steps| => steps[i].entry)
  }

  /** The pages a run writes. */
  function Pages(steps: seq<Step>): (pages: seq<Page>)
    ensures |pages| == |steps|
    ensures forall i :: 0 <= i < |steps| ==> pages[i] == steps[i].page
  {
    seq(|steps|, i requires 0 <= i < |steps| => steps[i].page)
  }

  lemma StepsSnoc(steps: seq<Step>, step: Step)
    ensures Entries(steps + [step]) == Entries(steps) + [step.entry]
    ensures Pages(steps + [step]) == Pages(steps) + [step.page]
  {
    assert Entries(steps + [step]) == Entries(steps) + [step.entry];
    assert Pages(steps + [step]) == Pages(steps) + [step.page];
  }

  /** `ProjectMigrator`: the old index it consults and the projects it has
      migrated so far. */
  class ProjectMigrator {
    const projectsDir: string
    /** `null` until `loadExistingIndex` runs. */
    var existingIndex: Option<seq<Record>>
    var migratedProjects: seq<MigratedProject>

    constructor (projectsDir: string)
      ensures this.projectsDir == projectsDir
      ensures existingIndex == None && migratedProjects == []
    {
      this.projectsDir := projectsDir;
      existingIndex := None;
      migratedProjects := [];
    }

    /** `loadExistingIndex`; an index file that cannot be parsed throws. */
    method LoadExistingIndex(file: IndexFile) returns (r: Result<()>)
      modifies this
      ensures r == if LoadedIndex(file).Err? then Err(LoadedIndex(file).message) else Ok(())
      ensures r.Ok? ==> existingIndex == Some(LoadedIndex(file).value)
      ensures r.Err? ==> existingIndex == old(existingIndex)
      ensures migratedProjects == old(migratedProjects)
    {
      match LoadedIndex(file)
      case Err(m) => r := Err(m);
      case Ok(entries) =>
        existingIndex := Some(entries);
        r := Ok(());
    }

    /** `migrateProject`: writes the page (returned here) and records the
        project; nothing is recorded when it throws. */
    method MigrateProject(name: string, files: map<string, Source>, slugify: string -> string, today: string)
      returns (r: Result<Page>)
      modifies this
      ensures existingIndex == old(existingIndex)
      ensures var one := MigrateOne(existingIndex, projectsDir, name, files, slugify, today);
        && (one.Ok? ==> r == Ok(one.value.page) && migratedProjects == old(migratedProjects) + [one.value.entry])
        && (one.Err? ==> r == Err(one.message) && migratedProjects == old(migratedProjects))
    {
      match MigrateOne(existingIndex, projectsDir, name, files, slugify, today)
      case Err(m) => r := Err(m);
      case Ok(step) =>
        migratedProjects := migratedProjects + [step.entry];
        r := Ok(step.page);
    }

    /** `migrate`: load the index, find the project files and migrate them one
        by one; an error ends the migration, which reports it. Returns the
        pages written and the error, if any. */
    method Migrate(indexFile: IndexFile, listing: Option<seq<string>>, files: map<string, Source>,
                   slugify: string -> string, today: string)
      returns (pages: seq<Page>, failure: Option<string>)
      modifies this
      ensures LoadedIndex(indexFile).Err? ==>
        pages == [] && failure == Some(LoadedIndex(indexFile).message)
        && existingIndex == old(existingIndex) && migratedProjects == old(migratedProjects)
      ensures LoadedIndex(indexFile).Ok? ==> existingIndex == Some(LoadedIndex(indexFile).value)
      ensures LoadedIndex(indexFile).Ok? ==>
        var outcomes := Outcomes(Some(LoadedIndex(indexFile).value), projectsDir, FindProjectFiles(listing),
          |FindProjectFiles(listing)|, files, slugify, today);
        var run := MigrateFiles(outcomes, |outcomes|);
        && failure == run.failure
        && migratedProjects == old(migratedProjects) + Entries(run.steps)
        && pages == Pages(run.steps)
    {
      pages := [];
      var loaded := LoadExistingIndex(indexFile);
      if loaded.Err? {
        failure := Some(loaded.message);
        return;
      }
      pages, failure := MigrateEach(FindProjectFiles(listing), files, slugify, today);
    }

    /** The loop of `migrate` over the project files, which stops at the first
        that throws. */
    method MigrateEach(names: seq<string>, files: map<string, Source>, slugify: string -> string, today: string)
      returns (pages: seq<Page>, failure: Option<string>)
      modifies this
      ensures existingIndex == old(existingIndex)
      ensures var run := MigrateFiles(Outcomes(existingIndex, projectsDir, names, |names|, files, slugify, today), |names|);
        && failure == run.failure
        && migratedProjects == old(migratedProjects) + Entries(run.steps)
        && pages == Pages(run.steps)
    {
      ghost var outcomes := Outcomes(existingIndex, projectsDir, names, |names|, files, slugify, today);
      ghost var steps: seq<Step> := [];
      pages := [];
      failure := None;
      var i := 0;
      while i < |names| && failure.None?
        invariant 0 <= i <= |names|
        invariant existingIndex == old(existingIndex)
        invariant MigrateFiles(outcomes, i) == Run(steps, failure)
        invariant migratedProjects == old(migratedProjects) + Entries(steps)
        invariant pages == Pages(steps)
        invariant failure.Some? ==>
          MigrateFiles(outcomes, |outcomes|) == Run(steps, failure)
      {
        var r := MigrateProject(names[i], files, slugify, today);
        OutcomesAt(existingIndex, projectsDir, names, |names|, files, slugify, today, i);
        if r.Ok? {
          StepsSnoc(steps, outcomes[i].value);
          AppendAssociative(old(migratedProjects), Entries(steps), [outcomes[i].value.entry]);
          steps := steps + [outcomes[i].value];
          pages := pages + [r.value];
        } else {
          failure := Some(r.message);
        }
        i := i + 1;
        if failure.Some? {
          FailureIsFinal(outcomes, i);
        }
      }
    }
  }
}

=== FILE: seo_optimizer.dfy ===
/** The SEO package (build-system/lib/seo-optimizer.js), computed from the
    list of index entries: the sitemap's URL list and its XML, the ItemList
    structured data, the per-project social-media tags, and the report with
    its counts, averages, distributions and recommendations. */
module SeoOptimizer {
  import opened Js
  import opened Tally
  import IndexGenerator

  // === The sitemap's URL list ===

  /** An entry of the sitemap: `image` is missing on the four site pages and
      null on a project without a hero image. */
  datatype SitemapUrl = SitemapUrl(loc: string, lastmod: Value, changefreq: string, priority: string, image: Option<string>)

  /** The four pages of the site, dated `today`. */
  function FixedUrls(baseUrl: string, today: string): seq<SitemapUrl> {
    [SitemapUrl(baseUrl, Str(today), "weekly", "1.0", None),
     SitemapUrl(baseUrl + "/#projets", Str(today), "weekly", "0.9", None),
     SitemapUrl(baseUrl + "/#a-propos", Str(today), "monthly", "0.7", None),
     SitemapUrl(baseUrl + "/#contact", Str(today), "monthly", "0.6", None)]
  }

  /** `${baseUrl}/projets/${project.slug || project.url}` */
  function ProjectPage(baseUrl: string, p: Record): string {
    baseUrl + "/projets/" + Interpolate(Or(p.slug, p.url))
  }

  /** `path ? `${baseUrl}/${path.replace('../', '')}` : null`: a truthy value
      that is not a string has no `replace`, so the call throws. */
  function SiteImage(baseUrl: string, path: Value): Result<Option<string>> {
    if !Truthy(path) then Ok(None)
    else if !path.Str? then Err("replace is not a function")
    else Ok(Some(baseUrl + "/" + ReplaceFirst(path.s, "../", "")))
  }

  /** The sitemap entry of a published project, given the value read as its
      hero image. */
  function ProjectUrlWith(baseUrl: string, p: Record, heroImage: Value): Result<SitemapUrl> {
    match SiteImage(baseUrl, heroImage)
    case Err(m) => Err(m)
    case Ok(image) =>
      Ok(SitemapUrl(ProjectPage(baseUrl, p), Or(p.lastUpdated, p.date),
                    if Truthy(p.featured) then "monthly" else "yearly",
                    if Truthy(p.featured) then "0.8" else "0.6",
                    image))
  }

  /** The entry as written: it reads `hero_image`, which index entries do not
      carry. */
  function ProjectUrlAsWritten(baseUrl: string, p: Record): Result<SitemapUrl> {
    ProjectUrlWith(baseUrl, p, p.heroImage)
  }

  /** The entry reading the index entry's resolved `image`. */
  function ProjectUrl(baseUrl: string, p: Record): Result<SitemapUrl> {
    ProjectUrlWith(baseUrl, p, p.image)
  }

  function ProjectUrlAt(baseUrl: string): Record -> Result<SitemapUrl> {
    p => ProjectUrl(baseUrl, p)
  }

  /** The URL list `generateSitemap` builds: the site pages, then one entry
      per published project. */
  function SitemapUrls(baseUrl: string, today: string, projects: seq<Record>): Result<seq<SitemapUrl>> {
    match MapResult(IndexGenerator.PublishedOnly(projects), ProjectUrlAt(baseUrl))
    case Err(m) => Err(m)
    case Ok(entries) => Ok(FixedUrls(baseUrl, today) + entries)
  }

  /** A project's entry: featured projects are crawled monthly at priority
      0.8, the others yearly at 0.6; its address is under `/projets/`; it has
      an image exactly when the entry's resolved `image` is truthy, with its
      first `../` dropped. */
  lemma ProjectUrlSpec(baseUrl: string, p: Record)
    ensures ProjectUrl(baseUrl, p).Ok? <==> !Truthy(p.image) || p.image.Str?
    ensures ProjectUrl(baseUrl, p).Ok? ==>
      var u := ProjectUrl(baseUrl, p).value;
      && StartsWith(u.loc, baseUrl + "/projets/")
      && u.lastmod == (if Truthy(p.lastUpdated) then p.lastUpdated else p.date)
      && (Truthy(p.featured) ==> u.changefreq == "monthly" && u.priority == "0.8")
      && (!Truthy(p.featured) ==> u.changefreq == "yearly" && u.priority == "0.6")
      && (u.image.None? <==> !Truthy(p.image))
    ensures p.image.Str? && StartsWith(p.image.s, "../")
      ==> ProjectUrl(baseUrl, p).value.image == Some(baseUrl + "/" + p.image.s[3..])
    ensures p.image.Str? && p.image.s != [] && !Contains(p.image.s, "../")
      ==> ProjectUrl(baseUrl, p).value.image == Some(baseUrl + "/" + p.image.s)
  {
    var loc := baseUrl + "/projets/" + Interpolate(Or(p.slug, p.url));
    assert loc[..|baseUrl + "/projets/"|] == baseUrl + "/projets/";
    if p.image.Str? && StartsWith(p.image.s, "../") {
      ReplaceFirstAtStart(p.image.s, "../", "");
      assert "" + p.image.s[3..] == p.image.s[3..];
    }
  }

  /** The list can only fail on a published project whose image is truthy
      but not a string. */
  lemma SitemapUrlsDefined(baseUrl: string, today: string, projects: seq<Record>)
    ensures SitemapUrls(baseUrl, today, projects).Ok?
      <==> forall p :: p in projects && IndexGenerator.IsPublished(p) ==> !Truthy(p.image) || p.image.Str?
  {
    var published := IndexGenerator.PublishedOnly(projects);
    IndexGenerator.PublishedOnlySpec(projects, []);
    assert projects + [] == projects;
    MapResultSpec(published, ProjectUrlAt(baseUrl));
    forall p | p in published ensures ProjectUrl(baseUrl, p).Ok? <==> !Truthy(p.image) || p.image.Str? {
      ProjectUrlSpec(baseUrl, p);
    }
  }

  /** The list is the four site pages followed by one entry per published
      project, in order. */
  lemma SitemapUrlsSpec(baseUrl: string, today: string, projects: seq<Record>)
    requires SitemapUrls(baseUrl, today, projects).Ok?
    ensures |SitemapUrls(baseUrl, today, projects).value| == 4 + |IndexGenerator.PublishedOnly(projects)|
    ensures SitemapUrls(baseUrl, today, projects).value[..4] == FixedUrls(baseUrl, today)
    ensures forall i :: 0 <= i < |IndexGenerator.PublishedOnly(projects)| ==>
      ProjectUrl(baseUrl, IndexGenerator.PublishedOnly(projects)[i]).Ok?
      && SitemapUrls(baseUrl, today, projects).value[4 + i]
         == ProjectUrl(baseUrl, IndexGenerator.PublishedOnly(projects)[i]).value
  {
    var published := IndexGenerator.PublishedOnly(projects);
    MapResultSpec(published, ProjectUrlAt(baseUrl));
    var entries := MapResult(published, ProjectUrlAt(baseUrl)).value;
    var urls := FixedUrls(baseUrl, today) + entries;
    assert urls[..4] == FixedUrls(baseUrl, today);
    forall i | 0 <= i < |published|
      ensures ProjectUrl(baseUrl, published[i]).Ok? && urls[4 + i] == ProjectUrl(baseUrl, published[i]).value
    {
      assert urls[4 + i] == entries[i];
    }
  }

  /** As written, an entry built by the index generator never has a sitemap
      image and always counts as missing its hero image, whatever image its
      frontmatter names: the index keeps the resolved path under `image`. */
  lemma IndexEntryImageLostAsWritten(fm: Record, readingTime: nat, wordCount: nat, complexity: nat,
                                     folderName: string, now: string, baseUrl: string)
    requires IndexGenerator.BuildProjectData(fm, readingTime, wordCount, complexity, folderName, now).Ok?
    ensures var e := IndexGenerator.BuildProjectData(fm, readingTime, wordCount, complexity, folderName, now).value;
      && ProjectUrlAsWritten(baseUrl, e).Ok?
      && ProjectUrlAsWritten(baseUrl, e).value.image.None?
      && MissingImageAsWritten(e)
      && (Truthy(fm.heroImage) ==> Truthy(e.image))
  {
    IndexGenerator.ResolveImagePathSpec(fm.heroImage, folderName);
  }

  /** Reading the resolved `image`, an index entry has a sitemap image and
      does not count as missing one exactly when its frontmatter names a hero
      image. */
  lemma IndexEntryImageKept(fm: Record, readingTime: nat, wordCount: nat, complexity: nat,
                            folderName: string, now: string, baseUrl: string)
    requires IndexGenerator.BuildProjectData(fm, readingTime, wordCount, complexity, folderName, now).Ok?
    ensures var e := IndexGenerator.BuildProjectData(fm, readingTime, wordCount, complexity, folderName, now).value;
      && ProjectUrl(baseUrl, e).Ok?
      && (HasImage(ProjectUrl(baseUrl, e).value) <==> Truthy(fm.heroImage))
      && (MissingImage(e) <==> !Truthy(fm.heroImage))
  {
    IndexGenerator.ResolveImagePathSpec(fm.heroImage, folderName);
  }

  // === The sitemap's XML ===

  const XmlDeclaration: string := "<?xml version=\"1.0\" encoding=\"UTF-8\"?>\n"
  const UrlsetOpen: string := "<urlset xmlns=\"http://www.sitemaps.org/schemas/sitemap/0.9\""
  const ImageNamespace: string := " " + "xmlns:image=\"http://www.google.com/schemas/sitemap-image/1.1\""
  const UrlsetClose: string := "</urlset>"
  const UrlClose: string := "  </url>\n"
  const ImageClose: string := "    </image:image>\n"
  const PriorityClose: string := "</priority>\n"

  /** `url.image` is truthy. */
  predicate HasImage(u: SitemapUrl) {
    u.image.Some? && u.image.value != ""
  }

  predicate AnyImage(urls: seq<SitemapUrl>) {
    exists u :: u in urls && HasImage(u)
  }

  /** The `<url>` element of one entry. */
  function UrlElement(u: SitemapUrl): string {
    var fields := "  <url>\n"
      + "    <loc>" + EscapeXml(u.loc) + "</loc>\n"
      + "    <lastmod>" + Interpolate(u.lastmod) + "</lastmod>\n"
      + "    <changefreq>" + u.changefreq + "</changefreq>\n"
      + "    <priority>" + u.priority;
    var withImage :=
      if HasImage(u) then
        fields + PriorityClose
        + "    <image:image>\n"
        + "      <image:loc>" + EscapeXml(u.image.value) + "</image:loc>\n"
        + ImageClose
      else fields + PriorityClose;
    withImage + UrlClose
  }

  /** The elements, one per entry, in order. */
  function UrlElements(urls: seq<SitemapUrl>): string {
    ConcatMap(urls, UrlElement)
  }

  /** The opening of the document, up to the `<url>` elements. */
  function SitemapHead(hasImages: bool): string {
    XmlDeclaration + UrlsetOpen + (if hasImages then ImageNamespace else "") + ">\n"
  }

  /** `generateSitemapXML` */
  function SitemapXml(urls: seq<SitemapUrl>): string {
    SitemapHead(AnyImage(urls)) + UrlElements(urls) + UrlsetClose
  }

  lemma StartsWithAppend(a: string, b: string, c: string)
    ensures StartsWith(a + b + c, a + b)
  {
    assert (a + b + c)[..|a + b|] == a + b;
  }

  lemma NotStartsWithAt(a: string, b: string, c: string)
    requires b != [] && c != [] && b[0] != c[0]
    ensures !StartsWith(a + c, a + b)
  {
    if |a + b| <= |a + c| {
      assert (a + c)[|a|] != (a + b)[|a|];
    }
  }

  lemma Regroup<T>(a: seq<T>, b: seq<T>, c: seq<T>, d: seq<T>, e: seq<T>)
    ensures a + b + c + d + e == a + b + (c + (d + e))
    ensures b == [] ==> a + b + c + d + e == a + (c + (d + e))
  {
  }

  /** The document declares the image namespace exactly when some entry has
      an image. */
  lemma SitemapDeclaresImages(urls: seq<SitemapUrl>)
    ensures StartsWith(SitemapXml(urls), XmlDeclaration + UrlsetOpen + ImageNamespace) <==> AnyImage(urls)
  {
    var open := XmlDeclaration + UrlsetOpen;
    var namespace := if AnyImage(urls) then ImageNamespace else "";
    var rest := ">\n" + (UrlElements(urls) + UrlsetClose);
    Regroup(open, namespace, ">\n", UrlElements(urls), UrlsetClose);
    if AnyImage(urls) {
      StartsWithAppend(open, ImageNamespace, rest);
    } else {
      assert rest[0] == '>' && ImageNamespace[0] == ' ';
      NotStartsWithAt(open, ImageNamespace, rest);
    }
  }

  lemma EndsWithAppend(a: string, b: string, c: string)
    ensures EndsWith(a + b + c, b + c)
  {
    assert (a + b + c)[|a + b + c| - |b + c|..] == b + c;
  }

  lemma NotEndsWithAt(a: string, b: string, c: string, d: string)
    requires |b| >= 3 && |d| >= 3 && b[|b| - 3] != d[|d| - 3]
    ensures !EndsWith(a + b + c, d + c)
  {
    var s := a + b + c;
    if |d + c| <= |s| {
      var k := |s| - |d + c|;
      assert s[k + |d| - 3] == b[|b| - 3];
      assert s[k..][|d| - 3] == s[k + |d| - 3];
      assert (d + c)[|d| - 3] == d[|d| - 3];
    }
  }

  /** An element ends in a closed `<image:image>` child exactly when its entry
      has an image. */
  lemma UrlElementImage(u: SitemapUrl)
    ensures EndsWith(UrlElement(u), ImageClose + UrlClose) <==> HasImage(u)
  {
    var fields := "  <url>\n"
      + "    <loc>" + EscapeXml(u.loc) + "</loc>\n"
      + "    <lastmod>" + Interpolate(u.lastmod) + "</lastmod>\n"
      + "    <changefreq>" + u.changefreq + "</changefreq>\n"
      + "    <priority>" + u.priority;
    if HasImage(u) {
      var withLoc := fields + PriorityClose
        + "    <image:image>\n"
        + "      <image:loc>" + EscapeXml(u.image.value) + "</image:loc>\n";
      EndsWithAppend(withLoc, ImageClose, UrlClose);
    } else {
      assert PriorityClose[|PriorityClose| - 3] == 'y';
      assert ImageClose[|ImageClose| - 3] == 'e';
      NotEndsWithAt(fields, PriorityClose, UrlClose, ImageClose);
    }
  }

  /** `generateSitemapXML`: the header, then each entry's element appended in
      turn, then the closing tag. */
  method GenerateSitemapXml(urls: seq<SitemapUrl>) returns (xml: string)
    ensures xml == SitemapXml(urls)
  {
    xml := XmlDeclaration;
    xml := xml + UrlsetOpen;
    var hasImages := exists u :: u in urls && HasImage(u);
    if hasImages {
      xml := xml + ImageNamespace;
    }
    xml := xml + ">\n";
    ghost var head := SitemapHead(AnyImage(urls));
    assert xml == head;
    for i := 0 to |urls|
      invariant xml == head + UrlElements(urls[..i])
    {
      assert urls[..i + 1][..i] == urls[..i];
      ConcatMapSnoc(urls[..i + 1], UrlElement);
      AppendAssociative(head, UrlElements(urls[..i]), UrlElement(urls[i]));
      xml := xml + UrlElement(urls[i]);
    }
    assert urls[..|urls|] == urls;
    xml := xml + UrlsetClose;
  }

  /** `generateSitemap`: the URL list, its XML, and the number of URLs. */
  datatype Sitemap = Sitemap(urls: nat, xml: string)

  method GenerateSitemap(baseUrl: string, today: string, projects: seq<Record>) returns (r: Result<Sitemap>)
    ensures r.Ok? <==> SitemapUrls(baseUrl, today, projects).Ok?
    ensures r.Ok? ==>
      r.value.urls == |SitemapUrls(baseUrl, today, projects).value|
      && r.value.xml == SitemapXml(SitemapUrls(baseUrl, today, projects).value)
  {
    var urls: seq<SitemapUrl> := [];
    urls := urls + [SitemapUrl(baseUrl, Str(today), "weekly", "1.0", None)];
    urls := urls + [SitemapUrl(baseUrl + "/#projets", Str(today), "weekly", "0.9", None)];
    urls := urls + [SitemapUrl(baseUrl + "/#a-propos", Str(today), "monthly", "0.7", None)];
    urls := urls + [SitemapUrl(baseUrl + "/#contact", Str(today), "monthly", "0.6", None)];
    var published := IndexGenerator.PublishedOnly(projects);
    for i := 0 to |published|
      invariant MapResult(published[..i], ProjectUrlAt(baseUrl)).Ok?
      invariant urls == FixedUrls(baseUrl, today) + MapResult(published[..i], ProjectUrlAt(baseUrl)).value
    {
      assert published[..i + 1][..i] == published[..i];
      var entry := ProjectUrl(baseUrl, published[i]);
      if entry.Err? {
        MapResultSpec(published, ProjectUrlAt(baseUrl));
        return Err(entry.message);
      }
      urls := urls + [entry.value];
    }
    assert published[..|published|] == published;
    var xml := GenerateSitemapXml(urls);
    return Ok(Sitemap(|urls|, xml));
  }

  // === Escaping ===

  /** The replacement `escapeXml` makes for one character. */
  function EscapeChar(c: char): string {
    match c
    case '<' => "&lt;"
    case '>' => "&gt;"
    case '&' => "&amp;"
    case '\'' => "&apos;"
    case '"' => "&quot;"
    case _ => [c]
  }

  /** `escapeXml`: the five markup characters become entities. */
  function EscapeXml(s: string): string {
    if s == [] then "" else EscapeChar(s[0]) + EscapeXml(s[1..])
  }

  predicate Markup(c: char) {
    c == '<' || c == '>' || c == '&' || c == '\'' || c == '"'
  }

  /** `i` is the start of one of the five entities. */
  predicate EntityAt(s: string, i: nat) {
    OccursAt(s, "&lt;", i) || OccursAt(s, "&gt;", i) || OccursAt(s, "&amp;", i)
    || OccursAt(s, "&apos;", i) || OccursAt(s, "&quot;", i)
  }

  /** Decoding of the five entities, the inverse of `EscapeXml`. */
  function UnescapeXml(s: string): string
    decreases |s|
  {
    if s == [] then ""
    else if StartsWith(s, "&lt;") then "<" + UnescapeXml(s[4..])
    else if StartsWith(s, "&gt;") then ">" + UnescapeXml(s[4..])
    else if StartsWith(s, "&amp;") then "&" + UnescapeXml(s[5..])
    else if StartsWith(s, "&apos;") then "'" + UnescapeXml(s[6..])
    else if StartsWith(s, "&quot;") then "\"" + UnescapeXml(s[6..])
    else [s[0]] + UnescapeXml(s[1..])
  }

  lemma NotPrefix(s: string, p: string, k: nat)
    requires k < |p| && k < |s| && s[k] != p[k]
    ensures !StartsWith(s, p)
  {
    if |p| <= |s| {
      assert s[..|p|][k] == s[k];
    }
  }

  lemma UnescapeLt(rest: string)
    ensures UnescapeXml("&lt;" + rest) == "<" + UnescapeXml(rest)
  {
    PrefixOfAppend("&lt;", rest);
  }

  lemma UnescapeGt(rest: string)
    ensures UnescapeXml("&gt;" + rest) == ">" + UnescapeXml(rest)
  {
    var s := "&gt;" + rest;
    assert s[1] == 'g';
    NotPrefix(s, "&lt;", 1);
    PrefixOfAppend("&gt;", rest);
  }

  lemma UnescapeAmp(rest: string)
    ensures UnescapeXml("&amp;" + rest) == "&" + UnescapeXml(rest)
  {
    var s := "&amp;" + rest;
    assert s[1] == 'a';
    NotPrefix(s, "&lt;", 1);
    NotPrefix(s, "&gt;", 1);
    PrefixOfAppend("&amp;", rest);
  }

  lemma UnescapeApos(rest: string)
    ensures UnescapeXml("&apos;" + rest) == "'" + UnescapeXml(rest)
  {
    var s := "&apos;" + rest;
    assert s[1] == 'a' && s[2] == 'p';
    NotPrefix(s, "&lt;", 1);
    NotPrefix(s, "&gt;", 1);
    NotPrefix(s, "&amp;", 2);
    PrefixOfAppend("&apos;", rest);
  }

  lemma UnescapeQuot(rest: string)
    ensures UnescapeXml("&quot;" + rest) == "\"" + UnescapeXml(rest)
  {
    var s := "&quot;" + rest;
    assert s[1] == 'q';
    NotPrefix(s, "&lt;", 1);
    NotPrefix(s, "&gt;", 1);
    NotPrefix(s, "&amp;", 1);
    NotPrefix(s, "&apos;", 1);
    PrefixOfAppend("&quot;", rest);
  }

  lemma UnescapePlain(c: char, rest: string)
    requires !Markup(c)
    ensures UnescapeXml([c] + rest) == [c] + UnescapeXml(rest)
  {
    var s := [c] + rest;
    assert s[0] == c && s[1..] == rest;
    NotPrefix(s, "&lt;", 0);
    NotPrefix(s, "&gt;", 0);
    NotPrefix(s, "&amp;", 0);
    NotPrefix(s, "&apos;", 0);
    NotPrefix(s, "&quot;", 0);
  }

  lemma UnescapeChar(c: char, rest: string)
    ensures UnescapeXml(EscapeChar(c) + rest) == [c] + UnescapeXml(rest)
  {
    match c
    case '<' => UnescapeLt(rest);
    case '>' => UnescapeGt(rest);
    case '&' => UnescapeAmp(rest);
    case '\'' => UnescapeApos(rest);
    case '"' => UnescapeQuot(rest);
    case _ => UnescapePlain(c, rest);
  }

  /** Escaping loses nothing: unescaping gives the text back. */
  lemma {:induction false} EscapeXmlRoundTrip(s: string)
    ensures UnescapeXml(EscapeXml(s)) == s
  {
    if s != [] {
      UnescapeChar(s[0], EscapeXml(s[1..]));
      EscapeXmlRoundTrip(s[1..]);
      assert [s[0]] + s[1..] == s;
    }
  }

  lemma EntityAtShift(a: string, b: string, i: nat)
    requires EntityAt(b, i)
    ensures EntityAt(a + b, |a| + i)
  {
    var ab := a + b;
    forall e: string | OccursAt(b, e, i) ensures OccursAt(ab, e, |a| + i) {
      assert ab[|a| + i..|a| + i + |e|] == b[i..i + |e|];
    }
  }

  lemma OccursAtStart(e: string, rest: string)
    ensures OccursAt(e + rest, e, 0)
  {
    assert (e + rest)[0..|e|] == e;
  }

  /** One character's replacement: no markup but a leading `&`, which starts
      an entity whatever follows. */
  lemma EscapeCharSpec(c: char, rest: string)
    ensures forall i :: 0 <= i < |EscapeChar(c)| ==> !Markup(EscapeChar(c)[i]) || (i == 0 && EscapeChar(c)[i] == '&')
    ensures |EscapeChar(c)| >= 1
    ensures EscapeChar(c)[0] == '&' ==> EntityAt(EscapeChar(c) + rest, 0)
  {
    if Markup(c) {
      OccursAtStart(EscapeChar(c), rest);
    }
  }

  /** The escaped text has no `<`, `>`, `'` or `"`. */
  lemma {:induction false} EscapeXmlNoMarkup(s: string)
    ensures forall i :: 0 <= i < |EscapeXml(s)| ==> !Markup(EscapeXml(s)[i]) || EscapeXml(s)[i] == '&'
  {
    if s != [] {
      EscapeXmlNoMarkup(s[1..]);
      var e := EscapeChar(s[0]);
      var rest := EscapeXml(s[1..]);
      var r := e + rest;
      EscapeCharSpec(s[0], rest);
      forall i | 0 <= i < |r| ensures !Markup(r[i]) || r[i] == '&' {
        if i >= |e| {
          assert r[i] == rest[i - |e|];
        } else {
          assert r[i] == e[i];
        }
      }
    }
  }

  /** Each `&` in the escaped text starts an entity. */
  lemma {:induction false} EscapeXmlEntities(s: string)
    ensures forall i :: 0 <= i < |EscapeXml(s)| && EscapeXml(s)[i] == '&' ==> EntityAt(EscapeXml(s), i)
  {
    if s != [] {
      EscapeXmlEntities(s[1..]);
      var e := EscapeChar(s[0]);
      var rest := EscapeXml(s[1..]);
      var r := e + rest;
      EscapeCharSpec(s[0], rest);
      forall i | 0 <= i < |r| && r[i] == '&' ensures EntityAt(r, i) {
        if i < |e| {
          assert r[i] == e[i];
          assert i == 0;
        } else {
          assert r[i] == rest[i - |e|];
          EntityAtShift(e, rest, i - |e|);
        }
      }
    }
  }

  /** Text without markup characters is left as it is. */
  lemma {:induction false} EscapeXmlPlain(s: string)
    requires forall i :: 0 <= i < |s| ==> !Markup(s[i])
    ensures EscapeXml(s) == s
  {
    if s != [] {
      assert !Markup(s[0]);
      forall i | 0 <= i < |s[1..]| ensures !Markup(s[1..][i]) {
        assert s[1..][i] == s[i + 1];
      }
      EscapeXmlPlain(s[1..]);
      assert [s[0]] + s[1..] == s;
    }
  }

  // === Structured data ===

  /** An element of the portfolio's ItemList. */
  datatype ListItem = ListItem(position: nat, url: string, name: Value, description: Value)

  datatype ItemList = ItemList(numberOfItems: nat, itemListElement: seq<ListItem>)

  const MaxListItems: nat := 10

  /** The portfolio ItemList of `generateMainSiteStructuredData`. */
  function PortfolioList(baseUrl: string, projects: seq<Record>): (list: ItemList)
    ensures list.numberOfItems == |IndexGenerator.PublishedOnly(projects)|
    ensures |list.itemListElement| == if list.numberOfItems < MaxListItems then list.numberOfItems else MaxListItems
    ensures forall i :: 0 <= i < |list.itemListElement| ==>
      var p := IndexGenerator.PublishedOnly(projects)[i];
      list.itemListElement[i] == ListItem(i + 1, ProjectPage(baseUrl, p), p.title, p.description)
  {
    var published := IndexGenerator.PublishedOnly(projects);
    var top := if |published| <= MaxListItems then published else published[..MaxListItems];
    ItemList(|published|, seq(|top|, i requires 0 <= i < |top| =>
      ListItem(i + 1, ProjectPage(baseUrl, top[i]), top[i].title, top[i].description)))
  }

  // === Social media ===

  datatype OpenGraph = OpenGraph(
    title: Value, description: Value, ogType: string, url: string, image: Option<string>,
    publishedTime: Value, modifiedTime: Value, author: string, section: Value, tags: seq<string>)

  datatype TwitterTags = TwitterTags(card: Value, title: Value, description: Value, image: Option<string>)

  datatype SocialProject = SocialProject(slug: Value, og: OpenGraph, twitter: TwitterTags)

  const Author: string := "Antoine Smeets"

  /** `...(v || [])`: an array spreads its items and a string its characters;
      anything else truthy is not iterable and throws. */
  function Spread(v: Value): Result<seq<string>> {
    if !Truthy(v) then Ok([])
    else
      match v
      case List(items) => Ok(items)
      case Str(s) => Ok(seq(|s|, i requires 0 <= i < |s| => [s[i]]))
      case _ => Err("is not iterable")
  }

  /** `v?.[0]` */
  function First(v: Value): Value {
    match v
    case List(items) => if items == [] then Undefined else Str(items[0])
    case Str(s) => if s == [] then Undefined else Str([s[0]])
    case _ => Undefined
  }

  /** The social entry of a published project, its properties evaluated in
      the order the object literal lists them. */
  function SocialOf(baseUrl: string, p: Record): Result<SocialProject> {
    match SiteImage(baseUrl, p.ogImage)
    case Err(m) => Err(m)
    case Ok(ogImage) =>
      match Spread(p.categories)
      case Err(m) => Err(m)
      case Ok(categories) =>
        match Spread(p.tags)
        case Err(m) => Err(m)
        case Ok(tags) =>
          match SiteImage(baseUrl, p.twitterImage)
          case Err(m) => Err(m)
          case Ok(twitterImage) =>
            Ok(SocialProject(
              Or(p.slug, p.url),
              OpenGraph(Or(p.ogTitle, p.title), Or(p.ogDescription, p.description), "article",
                        ProjectPage(baseUrl, p), ogImage, p.date, p.lastUpdated, Author,
                        First(p.categories), categories + tags),
              TwitterTags(Or(p.twitterCard, Str("summary_large_image")), Or(p.twitterTitle, p.title),
                          Or(p.twitterDescription, p.description), twitterImage)))
  }

  function SocialAt(baseUrl: string): Record -> Result<SocialProject> {
    p => SocialOf(baseUrl, p)
  }

  /** The `projects` part of `generateSocialMediaOptimization`. */
  function SocialProjects(baseUrl: string, projects: seq<Record>): Result<seq<SocialProject>> {
    MapResult(IndexGenerator.PublishedOnly(projects), SocialAt(baseUrl))
  }

  /** A project's article tags are its categories followed by its tags; its
      Open Graph and Twitter titles fall back to the title, and its section
      is its first category. */
  lemma SocialOfSpec(baseUrl: string, p: Record)
    ensures p.categories.List? && p.tags.List? && (!Truthy(p.ogImage) || p.ogImage.Str?)
            && (!Truthy(p.twitterImage) || p.twitterImage.Str?)
      ==> SocialOf(baseUrl, p).Ok?
    ensures SocialOf(baseUrl, p).Ok? && p.categories.List? && p.tags.List? ==>
      SocialOf(baseUrl, p).value.og.tags == p.categories.items + p.tags.items
    ensures SocialOf(baseUrl, p).Ok? ==>
      var s := SocialOf(baseUrl, p).value;
      && s.og.title == (if Truthy(p.ogTitle) then p.ogTitle else p.title)
      && s.twitter.title == (if Truthy(p.twitterTitle) then p.twitterTitle else p.title)
      && s.og.url == ProjectPage(baseUrl, p)
      && (p.categories.List? && p.categories.items != [] ==> s.og.section == Str(p.categories.items[0]))
      && (s.og.image.None? <==> !Truthy(p.ogImage))
    ensures SocialOf(baseUrl, p).Ok? ==> |SocialOf(baseUrl, p).value.og.tags| == LengthOrZero(Or(p.categories, List([]))) + LengthOrZero(Or(p.tags, List([])))
  {
  }

  /** One social entry per published project, in order. */
  lemma SocialProjectsSpec(baseUrl: string, projects: seq<Record>)
    ensures SocialProjects(baseUrl, projects).Ok? ==>
      |SocialProjects(baseUrl, projects).value| == |IndexGenerator.PublishedOnly(projects)|
      && forall i :: 0 <= i < |IndexGenerator.PublishedOnly(projects)| ==>
           SocialOf(baseUrl, IndexGenerator.PublishedOnly(projects)[i]).Ok?
           && SocialProjects(baseUrl, projects).value[i] == SocialOf(baseUrl, IndexGenerator.PublishedOnly(projects)[i]).value
  {
    MapResultSpec(IndexGenerator.PublishedOnly(projects), SocialAt(baseUrl));
  }

  // === Recommendations ===

  /** The four checks, in the order they are made. */
  datatype Check = MetaDescription | Images | TitleLength | GithubLinks

  /** The recommendation's `type`. */
  function CheckName(c: Check): string {
    match c
    case MetaDescription => "meta_description"
    case Images => "images"
    case TitleLength => "title_length"
    case GithubLinks => "github_links"
  }

  /** The position of a check in the order they are made. */
  function Rank(c: Check): nat {
    match c
    case MetaDescription => 0
    case Images => 1
    case TitleLength => 2
    case GithubLinks => 3
  }

  datatype Recommendation = Recommendation(check: Check, priority: string, count: nat, message: string)

  /** The number of projects that satisfy `test`: `projects.filter(test).length`. */
  function CountWhere(projects: seq<Record>, test: Record -> bool): (n: nat)
    ensures n <= |projects|
  {
    if projects == [] then 0
    else CountWhere(projects[..|projects| - 1], test) + (if test(projects[|projects| - 1]) then 1 else 0)
  }

  /** `v.length < n`: false when `v` has no length. */
  predicate ShorterThan(v: Value, n: nat) {
    Length(v).Some? && Length(v).value < n
  }

  /** `v.length > n` */
  predicate LongerThan(v: Value, n: nat) {
    Length(v).Some? && Length(v).value > n
  }

  predicate NeedsMetaDescription(p: Record) {
    !Truthy(p.seoDescription) || ShorterThan(p.seoDescription, 120)
  }

  /** `!p.hero_image` as written: true of every index entry. */
  predicate MissingImageAsWritten(p: Record) {
    !Truthy(p.heroImage)
  }

  /** The entry has no resolved image. */
  predicate MissingImage(p: Record) {
    !Truthy(p.image)
  }

  predicate LongTitle(p: Record) {
    Truthy(p.title) && LongerThan(p.title, 60)
  }

  predicate MissingGitHub(p: Record) {
    !Truthy(p.githubUrl)
  }

  function MetaDescriptionAdvice(n: nat): Recommendation {
    Recommendation(MetaDescription, "high", n, NatToString(n) + " projects need better meta descriptions (120-160 characters)")
  }

  function ImagesAdvice(n: nat): Recommendation {
    Recommendation(Images, "medium", n, NatToString(n) + " projects are missing hero images")
  }

  function TitleLengthAdvice(n: nat): Recommendation {
    Recommendation(TitleLength, "medium", n, NatToString(n) + " projects have titles longer than 60 characters")
  }

  function GithubLinksAdvice(n: nat): Recommendation {
    Recommendation(GithubLinks, "low", n, NatToString(n) + " projects could benefit from GitHub links")
  }

  /** The four checks, in the order they are made, with their counts. */
  function Candidates(projects: seq<Record>): seq<Recommendation> {
    [MetaDescriptionAdvice(CountWhere(projects, NeedsMetaDescription)),
     ImagesAdvice(CountWhere(projects, MissingImage)),
     TitleLengthAdvice(CountWhere(projects, LongTitle)),
     GithubLinksAdvice(CountWhere(projects, MissingGitHub))]
  }

  /** The candidates with a positive count, in order. */
  function Positive(rs: seq<Recommendation>): seq<Recommendation> {
    if rs == [] then [] else AppendIf(Positive(rs[..|rs| - 1]), rs[|rs| - 1].count > 0, rs[|rs| - 1])
  }

  /** `generateSEORecommendations` */
  function Recommendations(projects: seq<Record>): seq<Recommendation> {
    Positive(Candidates(projects))
  }

  lemma {:induction false} PositiveSpec(rs: seq<Recommendation>)
    requires forall i, j :: 0 <= i < j < |rs| ==> Rank(rs[i].check) < Rank(rs[j].check)
    ensures forall r :: r in Positive(rs) <==> r in rs && r.count > 0
    ensures forall i, j :: 0 <= i < j < |Positive(rs)| ==> Rank(Positive(rs)[i].check) < Rank(Positive(rs)[j].check)
  {
    if rs != [] {
      var init := rs[..|rs| - 1];
      var last := rs[|rs| - 1];
      PositiveSpec(init);
      assert rs == init + [last];
      forall r | r in Positive(init) ensures Rank(r.check) < Rank(last.check) {
        var k :| 0 <= k < |init| && init[k] == r;
      }
    }
  }

  /** A recommendation is made exactly for each check that some project
      fails, with the number of such projects, in the fixed order
      meta_description, images, title_length, github_links. */
  lemma RecommendationsSpec(projects: seq<Record>)
    ensures forall r :: r in Recommendations(projects) <==> r in Candidates(projects) && r.count > 0
    ensures forall i, j :: 0 <= i < j < |Recommendations(projects)| ==>
      Rank(Recommendations(projects)[i].check) < Rank(Recommendations(projects)[j].check)
    ensures forall k :: 0 <= k < 4 ==> Rank(Candidates(projects)[k].check) == k
    ensures Candidates(projects)[0].count == CountWhere(projects, NeedsMetaDescription)
    ensures Candidates(projects)[1].count == CountWhere(projects, MissingImage)
    ensures Candidates(projects)[2].count == CountWhere(projects, LongTitle)
    ensures Candidates(projects)[3].count == CountWhere(projects, MissingGitHub)
  {
    PositiveSpec(Candidates(projects));
  }

  /** `generateSEORecommendations`, pushing one recommendation per failed check. */
  method GenerateRecommendations(projects: seq<Record>) returns (recommendations: seq<Recommendation>)
    ensures recommendations == Recommendations(projects)
  {
    ghost var c := Candidates(projects);
    assert c[..1][..0] == [] && c[..2][..1] == c[..1] && c[..3][..2] == c[..2] && c[..4][..3] == c[..3] && c[..4] == c;
    recommendations := [];
    var missingDescriptions := CountWhere(projects, NeedsMetaDescription);
    if missingDescriptions > 0 {
      recommendations := recommendations + [MetaDescriptionAdvice(missingDescriptions)];
    }
    assert recommendations == Positive(c[..1]);
    var missingImages := CountWhere(projects, MissingImage);
    if missingImages > 0 {
      recommendations := recommendations + [ImagesAdvice(missingImages)];
    }
    assert recommendations == Positive(c[..2]);
    var longTitles := CountWhere(projects, LongTitle);
    if longTitles > 0 {
      recommendations := recommendations + [TitleLengthAdvice(longTitles)];
    }
    assert recommendations == Positive(c[..3]);
    var missingGitHub := CountWhere(projects, MissingGitHub);
    if missingGitHub > 0 {
      recommendations := recommendations + [GithubLinksAdvice(missingGitHub)];
    }
  }

  // === Averages and distributions ===

  /** `items.map(item => item[field])` */
  function FieldValues(items: seq<Record>, field: Field): (vs: seq<Value>)
    ensures |vs| == |items|
  {
    if items == [] then [] else FieldValues(items[..|items| - 1], field) + [Get(items[|items| - 1], field)]
  }

  /** `.filter(val => val && !isNaN(val))` over numbers: zero is falsy and
      dropped with every missing value. */
  function Averaged(vs: seq<Value>): seq<int> {
    if vs == [] then []
    else
      var last := vs[|vs| - 1];
      Averaged(vs[..|vs| - 1]) + (if last.Num? && last.n != 0 then [last.n] else [])
  }

  function Sum(xs: seq<int>): int {
    if xs == [] then 0 else Sum(xs[..|xs| - 1]) + xs[|xs| - 1]
  }

  /** `calculateAverage(items, field)` */
  function CalculateAverage(items: seq<Record>, field: Field): (avg: int)
    ensures Averaged(FieldValues(items, field)) == [] ==> avg == 0
    ensures var vals := Averaged(FieldValues(items, field));
      vals != [] ==> 2 * |vals| * avg - |vals| <= 2 * Sum(vals) < 2 * |vals| * avg + |vals|
  {
    var vals := Averaged(FieldValues(items, field));
    if |vals| > 0 then IndexGenerator.RoundedMean(Sum(vals), |vals|) else 0
  }

  /** An item whose value is falsy (missing, null, 0, false, "") does not move
      the average. */
  lemma AverageIgnoresFalsy(items: seq<Record>, item: Record, field: Field)
    requires !Truthy(Get(item, field))
    ensures CalculateAverage(items + [item], field) == CalculateAverage(items, field)
  {
    var vs := FieldValues(items, field);
    assert (items + [item])[..|items|] == items;
    assert FieldValues(items + [item], field) == vs + [Get(item, field)];
    assert (vs + [Get(item, field)])[..|vs|] == vs;
    assert Averaged(vs + [Get(item, field)]) == Averaged(vs);
  }

  /** `item[field] || []`, iterated with `forEach`: only an array can be. */
  function EntriesOf(field: Field): Record -> Result<seq<string>> {
    item =>
      var values := Or(Get(item, field), List([]));
      if values.List? then Ok(values.items) else Err("values.forEach is not a function")
  }

  /** `getDistribution(items, field)`: how many times each value occurs in
      the items' lists. */
  function Distribution(items: seq<Record>, field: Field): Result<map<string, nat>> {
    match MapResult(items, EntriesOf(field))
    case Err(m) => Err(m)
    case Ok(lists) => Ok(Tally.Tally(Flatten(lists)))
  }

  /** The total number of entries in the items' lists. */
  function ListEntries(items: seq<Record>, field: Field): nat {
    if items == [] then 0
    else ListEntries(items[..|items| - 1], field) + |Items(Get(items[|items| - 1], field))|
  }

  lemma {:induction false} FlattenedEntries(items: seq<Record>, field: Field)
    requires MapResult(items, EntriesOf(field)).Ok?
    ensures |Flatten(MapResult(items, EntriesOf(field)).value)| == ListEntries(items, field)
  {
    if items != [] {
      FlattenedEntries(items[..|items| - 1], field);
    }
  }

  /** The distribution's counts add up to the number of list entries, and a
      value is a key exactly when some list holds it. */
  lemma DistributionTotal(items: seq<Record>, field: Field, keys: seq<string>)
    requires Distribution(items, field).Ok?
    requires NoDups(keys)
    requires forall k :: k in keys <==> k in Distribution(items, field).value
    ensures SumValues(Distribution(items, field).value, keys) == ListEntries(items, field)
    ensures forall k :: k in Distribution(items, field).value <==> k in Flatten(MapResult(items, EntriesOf(field)).value)
  {
    var all := Flatten(MapResult(items, EntriesOf(field)).value);
    TallySum(all, keys);
    TallyCounts(all);
    FlattenedEntries(items, field);
  }

  /** `getDistribution`: a count per value, bumped in a nested loop. */
  method GetDistribution(items: seq<Record>, field: Field) returns (r: Result<map<string, nat>>)
    ensures r == Distribution(items, field)
  {
    var distribution: map<string, nat> := map[];
    for i := 0 to |items|
      invariant MapResult(items[..i], EntriesOf(field)).Ok?
      invariant distribution == Tally.Tally(Flatten(MapResult(items[..i], EntriesOf(field)).value))
    {
      ghost var before := Flatten(MapResult(items[..i], EntriesOf(field)).value);
      var values := Or(Get(items[i], field), List([]));
      if !values.List? {
        MapResultFirstErr(items, i, EntriesOf(field));
        return Err("values.forEach is not a function");
      }
      assert EntriesOf(field)(items[i]) == Ok(values.items);
      FlattenMapSnoc(items, i, EntriesOf(field));
      assert before + values.items[..0] == before;
      for j := 0 to |values.items|
        invariant distribution == Tally.Tally(before + values.items[..j])
      {
        var value := values.items[j];
        TallyExtend(before, values.items, j);
        distribution := Bump(distribution, value);
      }
      assert values.items[..|values.items|] == values.items;
    }
    assert items[..|items|] == items;
    return Ok(distribution);
  }

  // === The report ===

  datatype ReportSummary = ReportSummary(
    totalProjects: nat, publishedProjects: nat, featuredProjects: nat,
    averageReadingTime: int, averageComplexity: int)

  datatype ContentAnalysis = ContentAnalysis(
    missingDescriptions: nat, missingImages: nat, longTitles: nat, shortDescriptions: nat,
    categoriesDistribution: map<string, nat>, tagsUsage: map<string, nat>)

  datatype SeoReport = SeoReport(
    summary: ReportSummary, sitemapUrls: nat, contentAnalysis: ContentAnalysis,
    recommendations: seq<Recommendation>)

  predicate IsFeatured(p: Record) {
    Truthy(p.featured)
  }

  predicate MissingDescription(p: Record) {
    !Truthy(p.description) || ShorterThan(p.description, 50)
  }

  predicate ShortDescription(p: Record) {
    Truthy(p.description) && ShorterThan(p.description, 120)
  }

  /** `generateSEOReport`: everything is counted over the published
      projects; the sitemap size is taken to be the published count plus the
      four site pages. */
  function Report(projects: seq<Record>): Result<SeoReport> {
    var published := IndexGenerator.PublishedOnly(projects);
    match Distribution(published, Categories)
    case Err(m) => Err(m)
    case Ok(categories) =>
      match Distribution(published, Tags)
      case Err(m) => Err(m)
      case Ok(tags) =>
        Ok(SeoReport(
          ReportSummary(|projects|, |published|, CountWhere(published, IsFeatured),
                        CalculateAverage(published, ReadingTime), CalculateAverage(published, Complexity)),
          |published| + 4,
          ContentAnalysis(CountWhere(published, MissingDescription), CountWhere(published, MissingImage),
                          CountWhere(published, LongTitle), CountWhere(published, ShortDescription),
                          categories, tags),
          Recommendations(published)))
  }

  method GenerateReport(projects: seq<Record>) returns (r: Result<SeoReport>)
    ensures r == Report(projects)
  {
    var published := IndexGenerator.PublishedOnly(projects);
    var categories := GetDistribution(published, Categories);
    if categories.Err? {
      return Err(categories.message);
    }
    var tags := GetDistribution(published, Tags);
    if tags.Err? {
      return Err(tags.message);
    }
    var recommendations := GenerateRecommendations(published);
    var summary := ReportSummary(|projects|, |published|, CountWhere(published, IsFeatured),
                                 CalculateAverage(published, ReadingTime), CalculateAverage(published, Complexity));
    var analysis := ContentAnalysis(CountWhere(published, MissingDescription), CountWhere(published, MissingImage),
                                    CountWhere(published, LongTitle), CountWhere(published, ShortDescription),
                                    categories.value, tags.value);
    return Ok(SeoReport(summary, |published| + 4, analysis, recommendations));
  }

  /** The sitemap size the report states is the size of the sitemap that is
      generated: the published projects plus the four static pages. */
  lemma ReportMatchesSitemap(baseUrl: string, today: string, projects: seq<Record>)
    requires Report(projects).Ok? && SitemapUrls(baseUrl, today, projects).Ok?
    ensures Report(projects).value.sitemapUrls == |SitemapUrls(baseUrl, today, projects).value|
    ensures Report(projects).value.summary.publishedProjects + 4 == |SitemapUrls(baseUrl, today, projects).value|
  {
    SitemapUrlsSpec(baseUrl, today, projects);
  }

  /** No more projects are published, featured or flagged than there are. */
  lemma ReportBounds(projects: seq<Record>)
    requires Report(projects).Ok?
    ensures Report(projects).value.summary.publishedProjects <= Report(projects).value.summary.totalProjects
    ensures Report(projects).value.summary.featuredProjects <= Report(projects).value.summary.publishedProjects
    ensures forall r :: r in Report(projects).value.recommendations ==>
      0 < r.count <= Report(projects).value.summary.publishedProjects
  {
    RecommendationsSpec(IndexGenerator.PublishedOnly(projects));
  }
}

=== FILE: sorting.dfy ===
/** `Array.prototype.sort`: a stable sort under a comparator. The scripts sort
    with three comparators: date-descending (index generator), count then name
    (tag filters), and the default `.sort()` on strings, which compares UTF-16
    code units (`Js.CodeUnits`). The sort is modelled as insertion sort, which
    is stable. */
module Sorting {
  import opened Js

  /** `le(a, b)`: the comparator does not place `b` strictly before `a`. */
  ghost predicate Total<T(!new)>(le: (T, T) -> bool) {
    forall a, b :: le(a, b) || le(b, a)
  }

  ghost predicate Transitive<T(!new)>(le: (T, T) -> bool) {
    forall a, b, c :: le(a, b) && le(b, c) ==> le(a, c)
  }

  /** A consistent comparator, as `Array.prototype.sort` requires. */
  ghost predicate TotalPreorder<T(!new)>(le: (T, T) -> bool) {
    Total(le) && Transitive(le)
  }

  predicate SortedBy<T>(xs: seq<T>, le: (T, T) -> bool) {
    forall i, j :: 0 <= i < j < |xs| ==> le(xs[i], xs[j])
  }

  /** Places `x` in front of the first element it may precede. */
  function Insert<T>(x: T, xs: seq<T>, le: (T, T) -> bool): (r: seq<T>)
    ensures |r| == |xs| + 1
    ensures multiset(r) == multiset(xs) + multiset{x}
  {
    if xs == [] then [x]
    else if le(x, xs[0]) then [x] + xs
    else
      assert xs == [xs[0]] + xs[1..];
      [xs[0]] + Insert(x, xs[1..], le)
  }

  /** The sorted permutation of `xs`; equal elements keep their input order. */
  function SortBy<T>(xs: seq<T>, le: (T, T) -> bool): (r: seq<T>)
    ensures |r| == |xs|
    ensures multiset(r) == multiset(xs)
  {
    if xs == [] then []
    else
      assert xs == [xs[0]] + xs[1..];
      Insert(xs[0], SortBy(xs[1..], le), le)
  }

  lemma {:induction false} InsertSorted<T(!new)>(x: T, xs: seq<T>, le: (T, T) -> bool)
    requires TotalPreorder(le)
    requires SortedBy(xs, le)
    ensures SortedBy(Insert(x, xs, le), le)
  {
    if xs != [] && !le(x, xs[0]) {
      InsertSorted(x, xs[1..], le);
      var rest := Insert(x, xs[1..], le);
      assert le(xs[0], x);
      forall y | y in rest ensures le(xs[0], y) {
        assert y in multiset(rest);
        if y != x {
          assert y in multiset(xs[1..]);
        }
      }
    }
  }

  /** The output of `SortBy` is ordered by the comparator. */
  lemma {:induction false} SortBySorted<T(!new)>(xs: seq<T>, le: (T, T) -> bool)
    requires TotalPreorder(le)
    ensures SortedBy(SortBy(xs, le), le)
  {
    if xs != [] {
      SortBySorted(xs[1..], le);
      InsertSorted(xs[0], SortBy(xs[1..], le), le);
    }
  }

  /** Sorting a duplicate-free list gives a duplicate-free list. */
  lemma {:induction false} SortByNoDups<T(!new)>(xs: seq<T>, le: (T, T) -> bool)
    requires NoDups(xs)
    ensures NoDups(SortBy(xs, le))
  {
    if xs != [] {
      var tail := xs[1..];
      assert NoDups(tail) by {
        forall i, j | 0 <= i < j < |tail| ensures tail[i] != tail[j] {
          assert tail[i] == xs[i + 1] && tail[j] == xs[j + 1];
        }
      }
      SortByNoDups(tail, le);
      var sorted := SortBy(tail, le);
      assert xs[0] !in tail by {
        forall k | 0 <= k < |tail| ensures tail[k] != xs[0] {
          assert tail[k] == xs[k + 1];
        }
      }
      assert xs[0] !in multiset(sorted);
      InsertNoDups(xs[0], sorted, le);
    }
  }

  lemma {:induction false} InsertNoDups<T(!new)>(x: T, xs: seq<T>, le: (T, T) -> bool)
    requires NoDups(xs) && x !in xs
    ensures NoDups(Insert(x, xs, le))
  {
    if xs != [] && !le(x, xs[0]) {
      var tail := xs[1..];
      assert NoDups(tail) by {
        forall i, j | 0 <= i < j < |tail| ensures tail[i] != tail[j] {
          assert tail[i] == xs[i + 1] && tail[j] == xs[j + 1];
        }
      }
      InsertNoDups(x, tail, le);
      var rest := Insert(x, tail, le);
      assert xs[0] !in tail by {
        forall k | 0 <= k < |tail| ensures tail[k] != xs[0] {
          assert tail[k] == xs[k + 1];
        }
      }
      assert xs[0] !in multiset(rest);
      var r := [xs[0]] + rest;
      forall i, j | 0 <= i < j < |r| ensures r[i] != r[j] {
        if i > 0 {
          assert r[i] == rest[i - 1] && r[j] == rest[j - 1];
        } else {
          assert r[j] in rest;
        }
      }
    }
  }

  /** Lexicographic order on code units, with a proper prefix first. */
  predicate UnitsLe(a: seq<CodeUnit>, b: seq<CodeUnit>) {
    if a == [] then true
    else if b == [] then false
    else if a[0] != b[0] then a[0] < b[0]
    else UnitsLe(a[1..], b[1..])
  }

  /** The order of the default `.sort()` on strings: by UTF-16 code unit, with a
      proper prefix first. A character beyond U+FFFF is compared by its high
      surrogate, so it sorts before U+E000 to U+FFFF. */
  predicate LexLe(a: string, b: string) {
    UnitsLe(CodeUnits(a), CodeUnits(b))
  }

  lemma {:induction false} UnitsLeTotal(a: seq<CodeUnit>, b: seq<CodeUnit>)
    ensures UnitsLe(a, b) || UnitsLe(b, a)
  {
    if a != [] && b != [] && a[0] == b[0] {
      UnitsLeTotal(a[1..], b[1..]);
    }
  }

  lemma {:induction false} UnitsLeTransitive(a: seq<CodeUnit>, b: seq<CodeUnit>, c: seq<CodeUnit>)
    requires UnitsLe(a, b) && UnitsLe(b, c)
    ensures UnitsLe(a, c)
  {
    if a != [] && b != [] && c != [] && a[0] == b[0] && b[0] == c[0] {
      UnitsLeTransitive(a[1..], b[1..], c[1..]);
    }
  }

  lemma {:induction false} UnitsLeAntisymmetric(a: seq<CodeUnit>, b: seq<CodeUnit>)
    requires UnitsLe(a, b) && UnitsLe(b, a)
    ensures a == b
  {
    if a != [] && b != [] {
      UnitsLeAntisymmetric(a[1..], b[1..]);
      assert a == [a[0]] + a[1..] && b == [b[0]] + b[1..];
    }
  }

  /** Two strings that sort before each other are equal, because distinct
      strings have distinct code units. */
  lemma LexLeAntisymmetric(a: string, b: string)
    requires LexLe(a, b) && LexLe(b, a)
    ensures a == b
  {
    UnitsLeAntisymmetric(CodeUnits(a), CodeUnits(b));
    CodeUnitsInjective(a, b);
  }

  /** An emoji (U+1F600, two code units starting with a high surrogate)
      sorts before U+FFFD, although its code point is larger. */
  lemma SurrogatesSortLow()
    ensures LexLe(['\U{1F600}'], ['\U{FFFD}']) && !LexLe(['\U{FFFD}'], ['\U{1F600}'])
  {
    assert CodeUnits(['\U{1F600}']) == [0xD83D, 0xDE00];
    assert CodeUnits(['\U{FFFD}']) == [0xFFFD];
  }

  /** The default string order is a comparator `Array.prototype.sort` can use. */
  lemma LexLeTotalPreorder()
    ensures TotalPreorder(LexLe)
  {
    forall a, b ensures LexLe(a, b) || LexLe(b, a) {
      UnitsLeTotal(CodeUnits(a), CodeUnits(b));
    }
    forall a, b, c | LexLe(a, b) && LexLe(b, c) ensures LexLe(a, c) {
      UnitsLeTransitive(CodeUnits(a), CodeUnits(b), CodeUnits(c));
    }
  }

  /** `Array.from(set).sort()`: the set's members, sorted, each once. */
  function SortStrings(xs: seq<string>): (r: seq<string>)
    ensures |r| == |xs|
    ensures multiset(r) == multiset(xs)
  {
    SortBy(xs, LexLe)
  }

  /** Sorting a set of strings yields a duplicate-free, strictly increasing list
      holding exactly the set's members. */
  lemma SortStringsSpec(xs: seq<string>)
    requires NoDups(xs)
    ensures SortedBy(SortStrings(xs), LexLe)
    ensures NoDups(SortStrings(xs))
    ensures forall s :: s in SortStrings(xs) <==> s in xs
  {
    LexLeTotalPreorder();
    SortBySorted(xs, LexLe);
    SortByNoDups(xs, LexLe);
    var r := SortStrings(xs);
    forall s ensures s in r <==> s in xs {
      assert s in r <==> s in multiset(r);
      assert s in xs <==> s in multiset(xs);
    }
  }
}

=== FILE: tag_manager.dfy ===
/** Tag management (build-system/lib/tag-manager.js): the sets and occurrence
    counts of the categories, tags and technologies the projects list, the
    filter configuration drawn from them, the colour of a label, and the
    filter buttons, CSS rules and metadata generated from the configuration.
    `slugify` and `localeCompare` are parameters. */
module TagManager {
  import opened Js
  import opened Tally
  import opened Sorting

  // === Extraction ===

  /** The three kinds of label a project lists. */
  datatype Kind = Category | Tag | Tech

  /** The list a project gives for a kind: `categories`, `tags`, `tech_stack`. */
  function KindValue(p: Record, k: Kind): Value {
    match k
    case Category => p.categories
    case Tag => p.tags
    case Tech => p.techStack
  }

  /** `if (list) list.forEach(...)`: a falsy value is skipped, and only an
      array has `forEach`. */
  predicate Iterable(v: Value) {
    !Truthy(v) || v.List?
  }

  /** The key of a kind's list in a project's front matter. */
  function ListKey(k: Kind): string {
    match k
    case Category => "categories"
    case Tag => "tags"
    case Tech => "tech_stack"
  }

  /** Extraction gets through the project without a `TypeError`. */
  predicate Extractable(p: Record) {
    Iterable(p.categories) && Iterable(p.tags) && Iterable(p.techStack)
  }

  /** Every label of kind `k` the projects list, in order, repeats included. */
  function Entries(projects: seq<Record>, k: Kind): seq<string> {
    if projects == [] then []
    else Entries(projects[..|projects| - 1], k) + Items(KindValue(projects[|projects| - 1], k))
  }

  lemma EntriesSnoc(projects: seq<Record>, i: nat, k: Kind)
    requires i < |projects|
    ensures Entries(projects[..i + 1], k) == Entries(projects[..i], k) + Items(KindValue(projects[i], k))
  {
    assert projects[..i + 1][..i] == projects[..i];
  }

  /** A set kept in insertion order holds exactly the keys of its counts. */
  ghost predicate Consistent(members: seq<string>, stats: map<string, nat>) {
    NoDups(members) && forall x :: x in members <==> x in stats
  }

  /** Adding a label to the set and counting it keeps the two in step. */
  lemma ConsistentAdd(members: seq<string>, stats: map<string, nat>, x: string)
    requires Consistent(members, stats)
    ensures Consistent(SetAdd(members, x), Bump(stats, x))
  {
  }

  /** Starting from nothing, extraction leaves each kind's set holding every
      label listed once, in order of first appearance, and each label's count
      equal to its number of occurrences across the projects. */
  lemma ExtractedFromNothing(projects: seq<Record>, k: Kind)
    ensures Consistent(AddAll([], Entries(projects, k)), BumpAll(map[], Entries(projects, k)))
    ensures forall x :: x in AddAll([], Entries(projects, k)) <==> x in Entries(projects, k)
    ensures forall x :: x in BumpAll(map[], Entries(projects, k)) ==>
      BumpAll(map[], Entries(projects, k))[x] == Count(Entries(projects, k), x)
  {
    var xs := Entries(projects, k);
    AddAllSpec([], xs);
    BumpAllTally(xs);
    TallyCounts(xs);
  }

  /** Extending by the entries of the projects so far and then by those of
      the next project is extending by the entries of both. */
  lemma AccumulatedStep(projects: seq<Record>, i: nat, k: Kind, before: seq<string>, beforeStats: map<string, nat>)
    requires i < |projects|
    ensures AddAll(AddAll(before, Entries(projects[..i], k)), Items(KindValue(projects[i], k)))
      == AddAll(before, Entries(projects[..i + 1], k))
    ensures BumpAll(BumpAll(beforeStats, Entries(projects[..i], k)), Items(KindValue(projects[i], k)))
      == BumpAll(beforeStats, Entries(projects[..i + 1], k))
  {
    EntriesSnoc(projects, i, k);
    AddAllAppend(before, Entries(projects[..i], k), Items(KindValue(projects[i], k)));
    BumpAllAppend(beforeStats, Entries(projects[..i], k), Items(KindValue(projects[i], k)));
  }

  // === Filters ===

  /** `m.get(x) || 0` */
  function CountIn(m: map<string, nat>, x: string): nat {
    if x in m then m[x] else 0
  }

  /** The technologies counted at least twice, in order. */
  function Popular(techs: seq<string>, techStats: map<string, nat>): seq<string> {
    if techs == [] then []
    else
      var last := techs[|techs| - 1];
      AppendIf(Popular(techs[..|techs| - 1], techStats), CountIn(techStats, last) >= 2, last)
  }

  lemma {:induction false} PopularSpec(techs: seq<string>, techStats: map<string, nat>)
    ensures forall x :: x in Popular(techs, techStats) <==> x in techs && CountIn(techStats, x) >= 2
  {
    if techs != [] {
      PopularSpec(techs[..|techs| - 1], techStats);
      assert techs == techs[..|techs| - 1] + [techs[|techs| - 1]];
    }
  }

  /** The number of uses a filter is ranked by: its category count plus its
      technology count. */
  function Usage(categoryStats: map<string, nat>, techStats: map<string, nat>, x: string): nat {
    CountIn(categoryStats, x) + CountIn(techStats, x)
  }

  /** The filters' order: more used first, then by `localeCompare`. */
  function FilterLe(categoryStats: map<string, nat>, techStats: map<string, nat>,
                    localeLe: (string, string) -> bool): (string, string) -> bool {
    (a: string, b: string) =>
      Usage(categoryStats, techStats, a) > Usage(categoryStats, techStats, b)
      || (Usage(categoryStats, techStats, a) == Usage(categoryStats, techStats, b) && localeLe(a, b))
  }

  lemma FilterLeTotalPreorder(categoryStats: map<string, nat>, techStats: map<string, nat>,
                              localeLe: (string, string) -> bool)
    requires TotalPreorder(localeLe)
    ensures TotalPreorder(FilterLe(categoryStats, techStats, localeLe))
  {
  }

  datatype Stats = Stats(categoryStats: map<string, nat>, tagStats: map<string, nat>, techStats: map<string, nat>)

  datatype FilterConfig = FilterConfig(
    filters: seq<string>, categories: seq<string>, tags: seq<string>, techStack: seq<string>, stats: Stats)

  /** `generateFilterConfig` on the manager's sets and counts. */
  function FilterConfigOf(allCategories: seq<string>, allTags: seq<string>, allTechStack: seq<string>,
                          stats: Stats, localeLe: (string, string) -> bool): FilterConfig
  {
    var items := AddAll(allCategories, Popular(allTechStack, stats.techStats));
    FilterConfig(SortBy(items, FilterLe(stats.categoryStats, stats.techStats, localeLe)),
                 SortStrings(allCategories), SortStrings(allTags), SortStrings(allTechStack), stats)
  }

  /** The filters are every category and every technology counted at least
      twice, without duplicates, more used first and then in `localeCompare`
      order; the three label lists are sorted, without duplicates, and hold
      exactly the labels of their sets. */
  lemma FilterConfigSpec(allCategories: seq<string>, allTags: seq<string>, allTechStack: seq<string>,
                         stats: Stats, localeLe: (string, string) -> bool)
    requires NoDups(allCategories) && NoDups(allTags) && NoDups(allTechStack)
    requires TotalPreorder(localeLe)
    ensures var config := FilterConfigOf(allCategories, allTags, allTechStack, stats, localeLe);
      && NoDups(config.filters)
      && (forall x :: x in config.filters
            <==> x in allCategories || (x in allTechStack && CountIn(stats.techStats, x) >= 2))
      && SortedBy(config.filters, FilterLe(stats.categoryStats, stats.techStats, localeLe))
      && (forall i, j :: 0 <= i < j < |config.filters| ==>
            Usage(stats.categoryStats, stats.techStats, config.filters[i])
            >= Usage(stats.categoryStats, stats.techStats, config.filters[j]))
      && SortedBy(config.categories, LexLe) && NoDups(config.categories)
      && (forall x :: x in config.categories <==> x in allCategories)
      && SortedBy(config.tags, LexLe) && NoDups(config.tags)
      && (forall x :: x in config.tags <==> x in allTags)
      && SortedBy(config.techStack, LexLe) && NoDups(config.techStack)
      && (forall x :: x in config.techStack <==> x in allTechStack)
  {
    var le := FilterLe(stats.categoryStats, stats.techStats, localeLe);
    var items := AddAll(allCategories, Popular(allTechStack, stats.techStats));
    PopularSpec(allTechStack, stats.techStats);
    AddAllSpec(allCategories, Popular(allTechStack, stats.techStats));
    FilterLeTotalPreorder(stats.categoryStats, stats.techStats, localeLe);
    SortBySorted(items, le);
    SortByNoDups(items, le);
    var filters := SortBy(items, le);
    assert forall x :: x in filters <==> x in multiset(filters);
    SortStringsSpec(allCategories);
    SortStringsSpec(allTags);
    SortStringsSpec(allTechStack);
  }

  // === Colours ===

  const TwoTo31: int := 0x8000_0000
  const TwoTo32: int := 0x1_0000_0000

  /** `ToInt32`: an integer wrapped into the signed 32-bit range. */
  function ToInt32(x: int): (r: int)
    ensures -TwoTo31 <= r < TwoTo31
    ensures Congruent(r, x)
  {
    var r := (x + TwoTo31) % TwoTo32 - TwoTo31;
    CongruentMultiple(-((x + TwoTo31) / TwoTo32), r - x);
    r
  }

  /** `hash << 5`: shifts the 32-bit value of `hash`, dropping the bits that
      leave the 32-bit range. */
  function ShiftLeft5(hash: int): int {
    ToInt32(ToInt32(hash) * 32)
  }

  /** One turn of the loop: `hash = str.charCodeAt(i) + ((hash << 5) - hash)`.
      The subtraction and addition are on doubles, which are exact at these
      magnitudes (see `UnitsHashBound`). */
  function HashStep(hash: int, c: CodeUnit): int {
    c + (ShiftLeft5(hash) - hash)
  }

  /** The hash of a run of code units, unit by unit from 0. */
  function UnitsHash(u: seq<CodeUnit>): int {
    if u == [] then 0 else HashStep(UnitsHash(u[..|u| - 1]), u[|u| - 1])
  }

  /** The hash of a string: the loop runs over `str.length` code units. */
  function StringHash(s: string): int {
    UnitsHash(CodeUnits(s))
  }

  /** The largest growth of the hash per code unit: a 32-bit shift result
      plus a code unit. */
  const HashGrowth: int := 0x8001_0000

  /** One code unit moves the hash by at most `HashGrowth`. */
  lemma HashStepBound(hash: int, c: CodeUnit)
    ensures Abs(HashStep(hash, c)) <= Abs(hash) + HashGrowth
  {
  }

  /** The hash grows by at most `HashGrowth` per code unit, so it stays below
      2^53, where doubles are exact, for any string of up to four million code
      units. */
  lemma {:induction false} UnitsHashBound(u: seq<CodeUnit>)
    ensures -|u| * HashGrowth <= UnitsHash(u) <= |u| * HashGrowth
    ensures |u| <= 4_000_000 ==> -0x20_0000_0000_0000 < UnitsHash(u) < 0x20_0000_0000_0000
  {
    if u != [] {
      var n := |u| - 1;
      UnitsHashBound(u[..n]);
      HashStepBound(UnitsHash(u[..n]), u[n]);
      assert |u| * HashGrowth == n * HashGrowth + HashGrowth;
    }
    if |u| <= 4_000_000 {
      assert |u| * HashGrowth <= 4_000_000 * HashGrowth;
    }
  }

  /** The textbook 31-multiplier string hash, `h * 31 + c`, over code units. */
  function PolynomialHash(u: seq<CodeUnit>): int {
    if u == [] then 0 else PolynomialHash(u[..|u| - 1]) * 31 + u[|u| - 1]
  }

  /** Equal modulo 2^32. */
  predicate Congruent(a: int, b: int) {
    (a - b) % TwoTo32 == 0
  }

  lemma CongruentMultiple(q: int, d: int)
    requires d == q * TwoTo32
    ensures d % TwoTo32 == 0
  {
  }

  lemma CongruentSum(a: int, b: int, c: int, d: int)
    requires Congruent(a, b) && Congruent(c, d)
    ensures Congruent(a + c, b + d)
  {
    var q1, q2 := (a - b) / TwoTo32, (c - d) / TwoTo32;
    CongruentMultiple(q1 + q2, (a + c) - (b + d));
  }

  lemma CongruentScaled(a: int, b: int, c: int)
    requires Congruent(a, b)
    ensures Congruent(c * a, c * b)
  {
    var q := (a - b) / TwoTo32;
    assert a - b == q * TwoTo32;
    assert c * a - c * b == c * (a - b);
    assert c * (a - b) == (c * q) * TwoTo32;
    CongruentMultiple(c * q, c * a - c * b);
  }

  lemma CongruentTrans(a: int, b: int, c: int)
    requires Congruent(a, b) && Congruent(b, c)
    ensures Congruent(a, c)
  {
    CongruentSum(a, b, b, c);
    assert (a + b) - (b + c) == a - c;
  }

  /** Congruent values wrap to the same 32-bit value. */
  lemma ToInt32Congruent(a: int, b: int)
    requires Congruent(a, b)
    ensures ToInt32(a) == ToInt32(b)
  {
    CongruentTrans(ToInt32(a), a, b);
    CongruentTrans(ToInt32(a), b, ToInt32(b));
  }

  /** `(hash << 5) - hash` is `31 * hash` modulo 2^32. */
  lemma ShiftStep(h: int)
    ensures Congruent(ShiftLeft5(h) - h, 31 * h)
  {
    CongruentScaled(ToInt32(h), h, 32);
    CongruentTrans(ShiftLeft5(h), 32 * ToInt32(h), 32 * h);
    CongruentSum(ShiftLeft5(h), 32 * h, -h, -h);
  }

  /** The hash agrees with the textbook one modulo 2^32, so their 32-bit
      values are equal. */
  lemma {:induction false} UnitsHashIsPolynomial(u: seq<CodeUnit>)
    ensures Congruent(UnitsHash(u), PolynomialHash(u))
    ensures ToInt32(UnitsHash(u)) == ToInt32(PolynomialHash(u))
  {
    if u != [] {
      var h := UnitsHash(u[..|u| - 1]);
      var p := PolynomialHash(u[..|u| - 1]);
      var c := u[|u| - 1];
      UnitsHashIsPolynomial(u[..|u| - 1]);
      ShiftStep(h);
      CongruentScaled(h, p, 31);
      CongruentTrans(ShiftLeft5(h) - h, 31 * h, 31 * p);
      CongruentSum(ShiftLeft5(h) - h, 31 * p, c, c);
    }
    ToInt32Congruent(UnitsHash(u), PolynomialHash(u));
  }

  function Abs(x: int): nat {
    if x < 0 then -x else x
  }

  /** A colour as hue, saturation and lightness. */
  datatype Hsl = Hsl(hue: nat, saturation: nat, lightness: nat)

  /** The colour a hash picks: neither too dark nor too light. */
  function HslOf(hash: int): (c: Hsl)
    ensures c.hue < 360
    ensures 60 <= c.saturation < 90
    ensures 45 <= c.lightness < 65
    ensures c.hue == Abs(hash) % 360
  {
    Hsl(Abs(hash) % 360, 60 + Abs(hash) % 30, 45 + Abs(hash) % 20)
  }

  /** `hsl(${hue}, ${saturation}%, ${lightness}%)` */
  function HslText(c: Hsl): string {
    "hsl(" + NatToString(c.hue) + ", " + NatToString(c.saturation) + "%, " + NatToString(c.lightness) + "%)"
  }

  /** `generateColorFromString` */
  function ColorFromString(s: string): string {
    HslText(HslOf(StringHash(s)))
  }

  /** `generateColorFromString`: the hash is updated code unit by code unit. */
  method GenerateColorFromString(str: string) returns (color: string)
    ensures color == ColorFromString(str)
  {
    var units := CodeUnits(str);
    var hash := 0;
    for i := 0 to |units|
      invariant hash == UnitsHash(units[..i])
    {
      assert units[..i + 1][..i] == units[..i];
      hash := units[i] + (ShiftLeft5(hash) - hash);
    }
    assert units[..|units|] == units;
    var hue := Abs(hash) % 360;
    var saturation := 60 + (Abs(hash) % 30);
    var lightness := 45 + (Abs(hash) % 20);
    color := "hsl(" + NatToString(hue) + ", " + NatToString(saturation) + "%, " + NatToString(lightness) + "%)";
  }

  /** The predefined colours, by slug. */
  const TagColors: map<string, string> := map[
    "automatisation" := "#4a6cf7", "python" := "#3776ab", "n8n" := "#8a2be2",
    "power-bi" := "#f2c811", "ia" := "#ff6b6b", "no-code" := "#51cf66",
    "sql" := "#336791", "vibe-coding" := "#ff8787", "javascript" := "#f7df1e",
    "css" := "#1572b6", "html" := "#e34f26", "nodejs" := "#339933",
    "react" := "#61dafb", "docker" := "#2496ed", "git" := "#f05032"]

  /** A colour as CSS writes it: a predefined `#rrggbb` code or one generated
      from a hash. */
  datatype Color = Hex(code: string) | Generated(hsl: Hsl)

  function ColorText(c: Color): string {
    match c
    case Hex(code) => code
    case Generated(hsl) => HslText(hsl)
  }

  /** `getTagColor`: the colour `colors` gives the label's slug, if any, else
      the colour of its hash. */
  function TagColor(colors: map<string, string>, slugify: string -> string, tag: string): Color {
    var slug := slugify(tag);
    if slug in colors then Hex(colors[slug]) else Generated(HslOf(StringHash(tag)))
  }

  /** `getContrastColor`: white, whatever the background. */
  function ContrastColor(background: string): string {
    "#ffffff"
  }

  /** A label gets its predefined colour when its slug has one, and otherwise
      the same `hsl(...)` colour every time, with its hue, saturation and
      lightness in range. */
  lemma TagColorSpec(colors: map<string, string>, slugify: string -> string, tag: string)
    ensures slugify(tag) in colors ==> ColorText(TagColor(colors, slugify, tag)) == colors[slugify(tag)]
    ensures slugify(tag) !in colors ==>
      var c := TagColor(colors, slugify, tag);
      && c.Generated? && ColorText(c) == ColorFromString(tag)
      && c.hsl.hue < 360 && 60 <= c.hsl.saturation < 90 && 45 <= c.hsl.lightness < 65
  {
  }

  // === Buttons and CSS ===

  const AllButton: string :=
    "\n" + "                <button class=\"filter-btn active\" data-filter=\"all\" role=\"tab\" aria-selected=\"true\" aria-controls=\"projects-container\">Tous</button>\n"

  /** The button of one filter. */
  function FilterButton(filter: string): string {
    "                <button class=\"filter-btn\" data-filter=\"" + filter
    + "\" role=\"tab\" aria-selected=\"false\" aria-controls=\"projects-container\">" + filter + "</button>\n"
  }

  /** `generateFilterButtonsHtml` */
  function FilterButtonsHtml(filters: seq<string>): string {
    AllButton + ConcatMap(filters, FilterButton)
  }

  /** The active "all" button comes first, then the buttons of the filters,
      one each and in order: the buttons of a list split at any point are the
      buttons of the two parts. */
  lemma FilterButtonsSpec(filters: seq<string>, more: seq<string>)
    ensures StartsWith(FilterButtonsHtml(filters), AllButton)
    ensures FilterButtonsHtml(filters + more) == FilterButtonsHtml(filters) + ConcatMap(more, FilterButton)
    ensures FilterButtonsHtml([]) == AllButton
  {
    var rest := ConcatMap(filters, FilterButton);
    PrefixOfAppend(AllButton, rest);
    ConcatMapAppend(filters, more, FilterButton);
    AppendAssociative(AllButton, rest, ConcatMap(more, FilterButton));
  }

  /** `generateFilterButtonsHtml`: one button appended per filter. */
  method GenerateFilterButtonsHtml(filters: seq<string>) returns (html: string)
    ensures html == FilterButtonsHtml(filters)
  {
    html := AllButton;
    for i := 0 to |filters|
      invariant html == AllButton + ConcatMap(filters[..i], FilterButton)
    {
      ConcatMapStep(AllButton, filters, i, FilterButton);
      html := html + FilterButton(filters[i]);
    }
    assert filters[..|filters|] == filters;
  }

  const CssHeader: string := "/* Auto-generated tag styles */"

  /** The five lines of one label's rule. */
  function RuleLines(slug: string, color: string): seq<string> {
    [".tag-" + slug + " {", "    background-color: " + color + ";", "    color: " + ContrastColor(color) + ";", "}", ""]
  }

  /** The slug and colour text of a styled label. */
  datatype Style = Style(slug: string, color: string)

  /** The slugs and `getTagColor` colours of the labels, in order. */
  function Styles(items: seq<string>, colors: map<string, string>, slugify: string -> string): seq<Style> {
    if items == [] then []
    else
      var item := items[|items| - 1];
      Styles(items[..|items| - 1], colors, slugify) + [Style(slugify(item), ColorText(TagColor(colors, slugify, item)))]
  }

  /** The rules of the styled labels, five lines each, in order. */
  function Rules(styles: seq<Style>): seq<string> {
    if styles == [] then []
    else
      var style := styles[|styles| - 1];
      Rules(styles[..|styles| - 1]) + RuleLines(style.slug, style.color)
  }

  /** The labels `generateTagCSS` styles: the categories, then the technologies. */
  function StyledLabels(config: FilterConfig): seq<string> {
    config.categories + config.techStack
  }

  /** The lines `generateTagCSS` joins: the header, then a rule per category
      and per technology. */
  function CssLines(config: FilterConfig, colors: map<string, string>, slugify: string -> string): seq<string> {
    [CssHeader] + Rules(Styles(StyledLabels(config), colors, slugify))
  }

  lemma {:induction false} StylesLength(items: seq<string>, colors: map<string, string>, slugify: string -> string)
    ensures |Styles(items, colors, slugify)| == |items|
  {
    if items != [] {
      StylesLength(items[..|items| - 1], colors, slugify);
    }
  }

  /** Each label is styled with its slug and the colour `getTagColor` gives it. */
  lemma {:induction false} StylesSpec(items: seq<string>, colors: map<string, string>, slugify: string -> string)
    ensures |Styles(items, colors, slugify)| == |items|
    ensures forall i :: 0 <= i < |items| ==>
      Styles(items, colors, slugify)[i] == Style(slugify(items[i]), ColorText(TagColor(colors, slugify, items[i])))
  {
    if items != [] {
      var init, last := items[..|items| - 1], items[|items| - 1];
      var style := Style(slugify(last), ColorText(TagColor(colors, slugify, last)));
      StylesSpec(init, colors, slugify);
      assert Styles(items, colors, slugify) == Styles(init, colors, slugify) + [style];
      forall i | 0 <= i < |items|
        ensures Styles(items, colors, slugify)[i] == Style(slugify(items[i]), ColorText(TagColor(colors, slugify, items[i])))
      {
        if i < |init| {
          assert items[i] == init[i];
        }
      }
    }
  }

  lemma StylesSnoc(items: seq<string>, i: nat, colors: map<string, string>, slugify: string -> string)
    requires i < |items|
    ensures Styles(items[..i + 1], colors, slugify) == Styles(items[..i], colors, slugify) + [Style(slugify(items[i]), ColorText(TagColor(colors, slugify, items[i])))]
  {
    var prefix := items[..i + 1];
    assert prefix[..|prefix| - 1] == items[..i];
  }

  lemma {:induction false} RulesLength(styles: seq<Style>)
    ensures |Rules(styles)| == 5 * |styles|
  {
    if styles != [] {
      RulesLength(styles[..|styles| - 1]);
    }
  }

  lemma RulesSnoc(styles: seq<Style>, style: Style)
    ensures Rules(styles + [style]) == Rules(styles) + RuleLines(style.slug, style.color)
  {
    assert (styles + [style])[..|styles|] == styles;
  }

  /** The rules of two lists one after the other. */
  lemma {:induction false} RulesAppend(xs: seq<Style>, ys: seq<Style>)
    ensures Rules(xs + ys) == Rules(xs) + Rules(ys)
  {
    if ys == [] {
      assert xs + ys == xs;
    } else {
      var init, last := ys[..|ys| - 1], ys[|ys| - 1];
      assert xs + ys == (xs + init) + [last];
      RulesSnoc(xs + init, last);
      RulesAppend(xs, init);
      AppendAssociative(Rules(xs), Rules(init), RuleLines(last.slug, last.color));
    }
  }

  lemma ShiftedSlice<T>(a: seq<T>, b: seq<T>, lo: nat, hi: nat)
    requires lo <= hi <= |b|
    ensures (a + b)[|a| + lo..|a| + hi] == b[lo..hi]
  {
  }

  /** Lines `5 * i` to `5 * i + 4` are the rule of the `i`-th style. */
  lemma RuleAt(styles: seq<Style>, i: nat)
    requires i < |styles|
    ensures 5 * i + 5 <= |Rules(styles)|
    ensures Rules(styles)[5 * i..5 * i + 5] == RuleLines(styles[i].slug, styles[i].color)
  {
    assert styles == styles[..i] + [styles[i]] + styles[i + 1..];
    RulesAppend(styles[..i] + [styles[i]], styles[i + 1..]);
    RulesSnoc(styles[..i], styles[i]);
    RulesLength(styles[..i]);
    MiddleSlice(Rules(styles[..i]), RuleLines(styles[i].slug, styles[i].color), Rules(styles[i + 1..]));
  }

  /** Behind the header, line `1 + 5 * i` on is the rule of the `i`-th style. */
  lemma HeaderedRuleAt(styles: seq<Style>, i: nat)
    requires i < |styles|
    ensures |[CssHeader] + Rules(styles)| == 1 + 5 * |styles|
    ensures ([CssHeader] + Rules(styles))[1 + 5 * i..6 + 5 * i] == RuleLines(styles[i].slug, styles[i].color)
  {
    RulesLength(styles);
    RuleAt(styles, i);
    ShiftedSlice([CssHeader], Rules(styles), 5 * i, 5 * i + 5);
  }

  /** The CSS is a header line and then five lines per category and
      technology, in order: the rule giving that label's slug the colour
      `getTagColor` picks for it. */
  lemma CssLinesSpec(config: FilterConfig, colors: map<string, string>, slugify: string -> string)
    ensures |CssLines(config, colors, slugify)| == 1 + 5 * (|config.categories| + |config.techStack|)
    ensures CssLines(config, colors, slugify)[0] == CssHeader
    ensures forall i :: 0 <= i < |StyledLabels(config)| ==>
      CssLines(config, colors, slugify)[1 + 5 * i..6 + 5 * i]
        == RuleLines(slugify(StyledLabels(config)[i]), ColorText(TagColor(colors, slugify, StyledLabels(config)[i])))
  {
    var labels := StyledLabels(config);
    var styles := Styles(labels, colors, slugify);
    StylesSpec(labels, colors, slugify);
    RulesLength(styles);
    forall i | 0 <= i < |labels|
      ensures CssLines(config, colors, slugify)[1 + 5 * i..6 + 5 * i]
        == RuleLines(slugify(labels[i]), ColorText(TagColor(colors, slugify, labels[i])))
    {
      HeaderedRuleAt(styles, i);
    }
  }

  lemma PushFive<T>(s: seq<T>, a: T, b: T, c: T, d: T, e: T)
    ensures s + [a] + [b] + [c] + [d] + [e] == s + [a, b, c, d, e]
  {
  }

  /** One turn of `generateTagCSS`: pushing the five lines of the next
      label's rule extends the lines by that rule. */
  lemma CssStep(lines: seq<string>, items: seq<string>, i: nat, colors: map<string, string>, slugify: string -> string, color: string)
    requires i < |items|
    requires lines == [CssHeader] + Rules(Styles(items[..i], colors, slugify))
    requires color == ColorText(TagColor(colors, slugify, items[i]))
    ensures lines + [".tag-" + slugify(items[i]) + " {"] + ["    background-color: " + color + ";"]
      + ["    color: " + ContrastColor(color) + ";"] + ["}"] + [""]
      == [CssHeader] + Rules(Styles(items[..i + 1], colors, slugify))
  {
    var block := RuleLines(slugify(items[i]), color);
    PushFive(lines, block[0], block[1], block[2], block[3], block[4]);
    StylesSnoc(items, i, colors, slugify);
    RulesSnoc(Styles(items[..i], colors, slugify), Style(slugify(items[i]), color));
    AppendAssociative([CssHeader], Rules(Styles(items[..i], colors, slugify)), block);
  }

  // === Metadata ===

  /** A label's entry; tags have no colour. */
  datatype LabelInfo = LabelInfo(name: string, slug: string, count: nat, color: Option<string>)

  datatype FilterKind = CategoryFilter | TechnologyFilter

  /** A filter's entry. */
  datatype FilterInfo = FilterInfo(name: string, slug: string, filterType: FilterKind, count: nat)

  datatype TagSummary = TagSummary(totalCategories: nat, totalTags: nat, totalTechStack: nat, totalFilters: nat)

  datatype TagMetadata = TagMetadata(
    generatedAt: string, version: string, summary: TagSummary,
    categories: seq<LabelInfo>, tags: seq<LabelInfo>, techStack: seq<LabelInfo>, filters: seq<FilterInfo>)

  /** The `type` written for a filter kind. */
  function FilterKindName(k: FilterKind): string {
    match k
    case CategoryFilter => "category"
    case TechnologyFilter => "technology"
  }

  /** The records `generateTagMetadata` writes, given the categories the
      manager has seen. */
  function Metadata(config: FilterConfig, allCategories: seq<string>, colors: map<string, string>, slugify: string -> string, now: string): TagMetadata {
    var stats := config.stats;
    TagMetadata(
      now, "1.0.0",
      TagSummary(|config.categories|, |config.tags|, |config.techStack|, |config.filters|),
      seq(|config.categories|, i requires 0 <= i < |config.categories| =>
        LabelInfo(config.categories[i], slugify(config.categories[i]),
                  CountIn(stats.categoryStats, config.categories[i]), Some(ColorText(TagColor(colors, slugify, config.categories[i]))))),
      seq(|config.tags|, i requires 0 <= i < |config.tags| =>
        LabelInfo(config.tags[i], slugify(config.tags[i]), CountIn(stats.tagStats, config.tags[i]), None)),
      seq(|config.techStack|, i requires 0 <= i < |config.techStack| =>
        LabelInfo(config.techStack[i], slugify(config.techStack[i]),
                  CountIn(stats.techStats, config.techStack[i]), Some(ColorText(TagColor(colors, slugify, config.techStack[i]))))),
      seq(|config.filters|, i requires 0 <= i < |config.filters| =>
        FilterInfo(config.filters[i], slugify(config.filters[i]),
                   if config.filters[i] in allCategories then CategoryFilter else TechnologyFilter,
                   Usage(stats.categoryStats, stats.techStats, config.filters[i]))))
  }

  /** One record per label and per filter, in order; a filter is a category
      exactly when the manager has seen it as one, and it counts its uses as a
      category and as a technology together. */
  lemma MetadataSpec(config: FilterConfig, allCategories: seq<string>, colors: map<string, string>, slugify: string -> string, now: string)
    ensures var m := Metadata(config, allCategories, colors, slugify, now);
      && |m.categories| == m.summary.totalCategories == |config.categories|
      && |m.tags| == m.summary.totalTags == |config.tags|
      && |m.techStack| == m.summary.totalTechStack == |config.techStack|
      && |m.filters| == m.summary.totalFilters == |config.filters|
      && (forall i :: 0 <= i < |config.filters| ==>
            && m.filters[i].name == config.filters[i]
            && (m.filters[i].filterType == CategoryFilter <==> config.filters[i] in allCategories)
            && m.filters[i].count
               == CountIn(config.stats.categoryStats, config.filters[i]) + CountIn(config.stats.techStats, config.filters[i]))
      && (forall i :: 0 <= i < |config.tags| ==>
            m.tags[i].name == config.tags[i] && m.tags[i].color.None?
            && m.tags[i].count == CountIn(config.stats.tagStats, config.tags[i]))
      && (forall i :: 0 <= i < |config.categories| ==>
            m.categories[i].name == config.categories[i]
            && m.categories[i].color == Some(ColorText(TagColor(colors, slugify, config.categories[i]))))
  {
  }

  // === The manager ===

  datatype TagResult = TagResult(filterConfig: FilterConfig, metadata: TagMetadata, summary: TagSummary)

  class TagManager {
    var allTags: seq<string>
    var allCategories: seq<string>
    var allTechStack: seq<string>
    var tagStats: map<string, nat>
    var categoryStats: map<string, nat>
    var techStats: map<string, nat>
    /** The predefined colours, by slug. */
    const tagColors: map<string, string>

    /** The set of a kind, in insertion order. */
    function SetOf(k: Kind): seq<string>
      reads this
    {
      match k
      case Category => allCategories
      case Tag => allTags
      case Tech => allTechStack
    }

    /** The counts of a kind. */
    function StatsOf(k: Kind): map<string, nat>
      reads this
    {
      match k
      case Category => categoryStats
      case Tag => tagStats
      case Tech => techStats
    }

    /** Each set holds exactly the keys of its counts. */
    ghost predicate Valid()
      reads this
    {
      Consistent(allCategories, categoryStats) && Consistent(allTags, tagStats) && Consistent(allTechStack, techStats)
    }

    constructor()
      ensures Valid()
      ensures allTags == [] && allCategories == [] && allTechStack == []
      ensures tagStats == map[] && categoryStats == map[] && techStats == map[]
      ensures tagColors == TagColors
    {
      tagColors := TagColors;
      allTags := [];
      allCategories := [];
      allTechStack := [];
      tagStats := map[];
      categoryStats := map[];
      techStats := map[];
    }

    /** The `forEach` over one project's list of a kind: each label is added
        to that kind's set and counted in its map; the other kinds are left
        as they were. */
    method AddItems(k: Kind, items: seq<string>)
      requires Valid()
      modifies this
      ensures Valid()
      ensures SetOf(k) == AddAll(old(SetOf(k)), items)
      ensures StatsOf(k) == BumpAll(old(StatsOf(k)), items)
      ensures k != Category ==> allCategories == old(allCategories) && categoryStats == old(categoryStats)
      ensures k != Tag ==> allTags == old(allTags) && tagStats == old(tagStats)
      ensures k != Tech ==> allTechStack == old(allTechStack) && techStats == old(techStats)
    {
      var members, stats := SetOf(k), StatsOf(k);
      ghost var before, beforeStats := members, stats;
      for i := 0 to |items|
        modifies {}
        invariant Consistent(members, stats)
        invariant members == AddAll(before, items[..i])
        invariant stats == BumpAll(beforeStats, items[..i])
      {
        assert items[..i + 1][..i] == items[..i];
        ConsistentAdd(members, stats, items[i]);
        members := SetAdd(members, items[i]);
        stats := Bump(stats, items[i]);
      }
      assert items[..|items|] == items;
      match k
      case Category =>
        allCategories, categoryStats := members, stats;
      case Tag =>
        allTags, tagStats := members, stats;
      case Tech =>
        allTechStack, techStats := members, stats;
    }

    /** One of the three guarded `forEach` calls of `extractTagsFromProjects`:
        a falsy list is skipped, an array's labels are added and counted, and
        anything else throws; the other kinds are left as they were. */
    method AddListOf(p: Record, k: Kind) returns (r: Result<()>)
      requires Valid()
      modifies this
      ensures Valid()
      ensures r.Ok? <==> Iterable(KindValue(p, k))
      ensures r.Ok? ==> SetOf(k) == AddAll(old(SetOf(k)), Items(KindValue(p, k)))
      ensures r.Ok? ==> StatsOf(k) == BumpAll(old(StatsOf(k)), Items(KindValue(p, k)))
      ensures k != Category ==> allCategories == old(allCategories) && categoryStats == old(categoryStats)
      ensures k != Tag ==> allTags == old(allTags) && tagStats == old(tagStats)
      ensures k != Tech ==> allTechStack == old(allTechStack) && techStats == old(techStats)
    {
      var list := KindValue(p, k);
      if Truthy(list) {
        if !list.List? {
          return Err("project." + ListKey(k) + ".forEach is not a function");
        }
        AddItems(k, list.items);
      }
      return Ok(());
    }

    /** One turn of `extractTagsFromProjects`: the project's categories, tags
        and technologies are added and counted, and a list that is truthy but
        not an array throws. */
    method ExtractProject(p: Record) returns (r: Result<()>)
      requires Valid()
      modifies this
      ensures Valid()
      ensures r.Ok? <==> Extractable(p)
      ensures r.Ok? ==> allCategories == AddAll(old(allCategories), Items(p.categories))
      ensures r.Ok? ==> categoryStats == BumpAll(old(categoryStats), Items(p.categories))
      ensures r.Ok? ==> allTags == AddAll(old(allTags), Items(p.tags))
      ensures r.Ok? ==> tagStats == BumpAll(old(tagStats), Items(p.tags))
      ensures r.Ok? ==> allTechStack == AddAll(old(allTechStack), Items(p.techStack))
      ensures r.Ok? ==> techStats == BumpAll(old(techStats), Items(p.techStack))
      ensures r.Ok? ==> forall k ::
        SetOf(k) == AddAll(old(SetOf(k)), Items(KindValue(p, k)))
        && StatsOf(k) == BumpAll(old(StatsOf(k)), Items(KindValue(p, k)))
    {
      r := AddListOf(p, Category);
      if r.Err? {
        return;
      }
      r := AddListOf(p, Tag);
      if r.Err? {
        return;
      }
      r := AddListOf(p, Tech);
      if r.Ok? {
        forall k ensures SetOf(k) == AddAll(old(SetOf(k)), Items(KindValue(p, k)))
          && StatsOf(k) == BumpAll(old(StatsOf(k)), Items(KindValue(p, k)))
        {
          match k
          case Category =>
          case Tag =>
          case Tech =>
        }
      }
    }

    /** `extractTagsFromProjects`: every project's categories, tags and
        technologies are added and counted, in order; it stops at the first
        project with a list that is truthy but not an array. */
    method ExtractTagsFromProjects(projects: seq<Record>) returns (r: Result<()>)
      requires Valid()
      modifies this
      ensures Valid()
      ensures r.Ok? <==> forall p :: p in projects ==> Extractable(p)
      ensures r.Ok? ==> forall k ::
        SetOf(k) == AddAll(old(SetOf(k)), Entries(projects, k))
        && StatsOf(k) == BumpAll(old(StatsOf(k)), Entries(projects, k))
    {
      for i := 0 to |projects|
        invariant Valid()
        invariant forall j :: 0 <= j < i ==> Extractable(projects[j])
        invariant forall k ::
          SetOf(k) == AddAll(old(SetOf(k)), Entries(projects[..i], k))
          && StatsOf(k) == BumpAll(old(StatsOf(k)), Entries(projects[..i], k))
      {
        r := ExtractProject(projects[i]);
        if r.Err? {
          assert projects[i] in projects;
          return;
        }
        forall k ensures SetOf(k) == AddAll(old(SetOf(k)), Entries(projects[..i + 1], k))
          && StatsOf(k) == BumpAll(old(StatsOf(k)), Entries(projects[..i + 1], k))
        {
          AccumulatedStep(projects, i, k, old(SetOf(k)), old(StatsOf(k)));
        }
      }
      assert projects[..|projects|] == projects;
      return Ok(());
    }

    /** `generateFilterConfig`: the categories plus each technology counted at
        least twice, sorted by use and then by `localeLe`, with the three
        sorted label lists and the counts. */
    method GenerateFilterConfig(localeLe: (string, string) -> bool) returns (config: FilterConfig)
      ensures config == FilterConfigOf(allCategories, allTags, allTechStack,
                                       Stats(categoryStats, tagStats, techStats), localeLe)
    {
      var filterItems := allCategories;
      for i := 0 to |allTechStack|
        invariant filterItems == AddAll(allCategories, Popular(allTechStack[..i], techStats))
      {
        assert allTechStack[..i + 1][..i] == allTechStack[..i];
        var tech := allTechStack[i];
        var count := CountIn(techStats, tech);
        if count >= 2 {
          filterItems := SetAdd(filterItems, tech);
        }
      }
      assert allTechStack[..|allTechStack|] == allTechStack;
      var sortedFilters := SortBy(filterItems, FilterLe(categoryStats, techStats, localeLe));
      config := FilterConfig(sortedFilters, SortStrings(allCategories), SortStrings(allTags),
                             SortStrings(allTechStack), Stats(categoryStats, tagStats, techStats));
    }

    /** `getTagColor`, computing the hash colour only when no colour is predefined. */
    method GetTagColor(slugify: string -> string, tag: string) returns (color: string)
      ensures color == ColorText(TagColor(tagColors, slugify, tag))
    {
      var normalized := slugify(tag);
      if normalized in tagColors {
        return tagColors[normalized];
      }
      color := GenerateColorFromString(tag);
    }

    /** `generateTagCSS`: five lines pushed per label, then joined. */
    method GenerateTagCss(config: FilterConfig, slugify: string -> string) returns (css: string)
      ensures css == Join(CssLines(config, tagColors, slugify), "\n")
    {
      var lines := [CssHeader];
      var items := StyledLabels(config);
      for i := 0 to |items|
        invariant lines == [CssHeader] + Rules(Styles(items[..i], tagColors, slugify))
      {
        var item := items[i];
        var normalizedName := slugify(item);
        var color := GetTagColor(slugify, item);
        var open := ".tag-" + normalizedName + " {";
        var background := "    background-color: " + color + ";";
        var foreground := "    color: " + ContrastColor(color) + ";";
        CssStep(lines, items, i, tagColors, slugify, color);
        lines := lines + [open];
        lines := lines + [background];
        lines := lines + [foreground];
        lines := lines + ["}"];
        lines := lines + [""];
      }
      assert items[..|items|] == items;
      css := Join(lines, "\n");
    }

    /** `manageTagsFromProjects` without the file updates: extraction, the
        filter configuration, the metadata and the summary of set sizes. */
    method ManageTagsFromProjects(projects: seq<Record>, slugify: string -> string,
                                  localeLe: (string, string) -> bool, now: string)
      returns (r: Result<TagResult>)
      requires Valid()
      modifies this
      ensures Valid()
      ensures r.Ok? <==> forall p :: p in projects ==> Extractable(p)
      ensures r.Ok? ==> forall k ::
        SetOf(k) == AddAll(old(SetOf(k)), Entries(projects, k))
        && StatsOf(k) == BumpAll(old(StatsOf(k)), Entries(projects, k))
      ensures r.Ok? ==>
        var config := FilterConfigOf(allCategories, allTags, allTechStack,
                                     Stats(categoryStats, tagStats, techStats), localeLe);
        && r.value.filterConfig == config
        && r.value.metadata == Metadata(config, allCategories, tagColors, slugify, now)
        && r.value.summary == TagSummary(|allCategories|, |allTags|, |allTechStack|, |config.filters|)
    {
      var extracted := ExtractTagsFromProjects(projects);
      if extracted.Err? {
        return Err(extracted.message);
      }
      var filterConfig := GenerateFilterConfig(localeLe);
      var metadata := Metadata(filterConfig, allCategories, tagColors, slugify, now);
      var summary := TagSummary(|allCategories|, |allTags|, |allTechStack|, |filterConfig.filters|);
      return Ok(TagResult(filterConfig, metadata, summary));
    }
  }
}

=== FILE: tally.dfy ===
/** Counting occurrences: the `obj[key] = (obj[key] || 0) + 1` idiom the
    generators use to build category, tag and complexity distributions. */
module Tally {
  import opened Js

  /** Number of occurrences of `k` in `xs`. */
  function Count<K(==)>(xs: seq<K>, k: K): (n: nat)
    ensures n <= |xs|
    ensures n == 0 <==> k !in xs
  {
    if xs == [] then 0
    else Count(xs[..|xs| - 1], k) + (if xs[|xs| - 1] == k then 1 else 0)
  }

  /** `m[k] = (m[k] || 0) + 1` */
  function Bump<K(==)>(m: map<K, nat>, k: K): (r: map<K, nat>)
    ensures r.Keys == m.Keys + {k}
    ensures r[k] == (if k in m then m[k] else 0) + 1
    ensures forall j :: j in m && j != k ==> r[j] == m[j]
  {
    m[k := (if k in m then m[k] else 0) + 1]
  }

  /** The distribution built by bumping every element of `xs` in turn. */
  function Tally<K(==)>(xs: seq<K>): map<K, nat> {
    if xs == [] then map[] else Bump(Tally(xs[..|xs| - 1]), xs[|xs| - 1])
  }

  /** Tallying one more element bumps its count. */
  lemma TallySnoc<K>(xs: seq<K>, x: K)
    ensures Tally(xs + [x]) == Bump(Tally(xs), x)
  {
    assert (xs + [x])[..|xs|] == xs;
  }

  /** Tallying a run one element further bumps that element's count. */
  lemma TallyExtend<K>(before: seq<K>, xs: seq<K>, j: nat)
    requires j < |xs|
    ensures Tally(before + xs[..j + 1]) == Bump(Tally(before + xs[..j]), xs[j])
  {
    assert before + xs[..j + 1] == (before + xs[..j]) + [xs[j]];
    TallySnoc(before + xs[..j], xs[j]);
  }

  /** `xs.forEach(x => updateStats(m, x))`: the counts `m` bumped once per element. */
  function BumpAll<K(==)>(m: map<K, nat>, xs: seq<K>): map<K, nat> {
    if xs == [] then m else Bump(BumpAll(m, xs[..|xs| - 1]), xs[|xs| - 1])
  }

  /** Counting two runs one after the other counts their concatenation. */
  lemma {:induction false} BumpAllAppend<K>(m: map<K, nat>, xs: seq<K>, ys: seq<K>)
    ensures BumpAll(m, xs + ys) == BumpAll(BumpAll(m, xs), ys)
  {
    if ys == [] {
      assert xs + ys == xs;
    } else {
      assert (xs + ys)[..|xs + ys| - 1] == xs + ys[..|ys| - 1];
      BumpAllAppend(m, xs, ys[..|ys| - 1]);
    }
  }

  /** Counting from no counts at all is the tally. */
  lemma {:induction false} BumpAllTally<K>(xs: seq<K>)
    ensures BumpAll(map[], xs) == Tally(xs)
  {
    if xs != [] {
      BumpAllTally(xs[..|xs| - 1]);
    }
  }

  /** Every element of `xs` is a key of its tally, and each key counts its occurrences. */
  lemma {:induction false} TallyCounts<K>(xs: seq<K>)
    ensures forall k :: k in Tally(xs) <==> k in xs
    ensures forall k :: k in Tally(xs) ==> Tally(xs)[k] == Count(xs, k)
  {
    if xs != [] {
      var init := xs[..|xs| - 1];
      TallyCounts(init);
      assert xs == init + [xs[|xs| - 1]];
      forall k ensures k in xs <==> k in init || k == xs[|xs| - 1] {
        if k in xs {
          var i :| 0 <= i < |xs| && xs[i] == k;
          if i < |xs| - 1 { assert init[i] == k; }
        }
      }
    }
  }

  /** Counting distributes over concatenation. */
  lemma {:induction false} CountSplit<K>(xs: seq<K>, ys: seq<K>, k: K)
    ensures Count(xs + ys, k) == Count(xs, k) + Count(ys, k)
    decreases |ys|
  {
    if ys == [] {
      assert xs + ys == xs;
    } else {
      assert (xs + ys)[..|xs + ys| - 1] == xs + ys[..|ys| - 1];
      CountSplit(xs, ys[..|ys| - 1], k);
    }
  }

  /** The sum of the counts of the keys `ks`. */
  function SumCounts<K(==)>(xs: seq<K>, ks: seq<K>): nat {
    if ks == [] then 0 else Count(xs, ks[0]) + SumCounts(xs, ks[1..])
  }

  lemma {:induction false} SumCountsSnoc<K>(xs: seq<K>, x: K, ks: seq<K>)
    ensures SumCounts(xs + [x], ks) == SumCounts(xs, ks) + Count(ks, x)
  {
    if ks != [] {
      SumCountsSnoc(xs, x, ks[1..]);
      assert (xs + [x])[..|xs|] == xs;
      CountSplit([ks[0]], ks[1..], x);
      assert [ks[0]] + ks[1..] == ks;
    }
  }

  lemma {:induction false} CountOfDistinct<K>(ks: seq<K>, x: K)
    requires NoDups(ks) && x in ks
    ensures Count(ks, x) == 1
  {
    var init := ks[..|ks| - 1];
    var last := ks[|ks| - 1];
    assert NoDups(init);
    if x == last {
      assert x !in init;
    } else {
      assert x in init;
      CountOfDistinct(init, x);
    }
  }

  /** Counting every element under exactly one key accounts for every element:
      the counts over a duplicate-free list of keys covering `xs` add up to |xs|. */
  lemma {:induction false} SumCountsTotal<K>(xs: seq<K>, ks: seq<K>)
    requires NoDups(ks)
    requires forall x :: x in xs ==> x in ks
    ensures SumCounts(xs, ks) == |xs|
  {
    if xs == [] {
      ZeroCounts(ks);
    } else {
      var init := xs[..|xs| - 1];
      var x := xs[|xs| - 1];
      assert xs == init + [x];
      SumCountsTotal(init, ks);
      SumCountsSnoc(init, x, ks);
      CountOfDistinct(ks, x);
    }
  }

  lemma {:induction false} ZeroCounts<K>(ks: seq<K>)
    ensures SumCounts([], ks) == 0
  {
    if ks != [] {
      ZeroCounts(ks[1..]);
    }
  }

  /** The sum of `m[k]` over the keys `ks` that `m` holds. */
  function SumValues<K(==)>(m: map<K, nat>, ks: seq<K>): nat {
    if ks == [] then 0 else (if ks[0] in m then m[ks[0]] else 0) + SumValues(m, ks[1..])
  }

  /** A distribution's counts add up to the number of elements tallied. */
  lemma TallySum<K>(xs: seq<K>, ks: seq<K>)
    requires NoDups(ks)
    requires forall k :: k in ks <==> k in Tally(xs)
    ensures SumValues(Tally(xs), ks) == |xs|
  {
    TallyCounts(xs);
    SumValuesIsSumCounts(xs, ks);
    SumCountsTotal(xs, ks);
  }

  lemma {:induction false} SumValuesIsSumCounts<K>(xs: seq<K>, ks: seq<K>)
    requires forall k :: k in Tally(xs) ==> Tally(xs)[k] == Count(xs, k)
    requires forall k :: k in Tally(xs) <==> k in xs
    ensures SumValues(Tally(xs), ks) == SumCounts(xs, ks)
  {
    if ks != [] {
      SumValuesIsSumCounts(xs, ks[1..]);
    }
  }
}

=== FILE: template_engine.dfy ===
/** The template engine's data preparation: the Handlebars helpers with logic
    of their own, keyword building, social image URLs, the object handed to
    the project template, the compiled-template cache and the batch that
    sorts project folders into generated, skipped and failed pages. */
module TemplateEngine {
  import opened Js
  import opened ContentScan
  import opened MarkdownParser
  import IndexGenerator

  // === Helpers ===

  const LessThanAMinute: string := "Moins d'1 min"

  /** The `readingTime` helper on a number of minutes: 0, negative numbers
      and everything below 1 read as less than a minute. */
  function ReadingTimeLabel(minutes: int): string {
    if minutes < 1 then LessThanAMinute
    else if minutes == 1 then "1 min"
    else NatToString(minutes) + " min"
  }

  /** Below one minute the label is the fixed text; from one minute on it is
      the number followed by " min", the special case for 1 included, so
      different durations get different labels. */
  lemma ReadingTimeLabelSpec(minutes: int, other: int)
    ensures minutes < 1 ==> ReadingTimeLabel(minutes) == LessThanAMinute
    ensures minutes >= 1 ==> ReadingTimeLabel(minutes) == NatToString(minutes) + " min"
    ensures minutes >= 1 && other >= 1 && ReadingTimeLabel(minutes) == ReadingTimeLabel(other) ==> minutes == other
  {
    if minutes >= 1 && other >= 1 && ReadingTimeLabel(minutes) == ReadingTimeLabel(other) {
      var a, b := NatToString(minutes), NatToString(other);
      assert a + " min" == b + " min";
      NatToStringLength(minutes);
      NatToStringLength(other);
      assert |a| == |b|;
      assert a == (a + " min")[..|a|];
      assert b == (b + " min")[..|b|];
      NatToStringInjective(minutes, other);
    }
  }

  /** The `truncate` helper: text longer than `length` keeps its first
      `length` characters and gains "...". */
  function Truncate(text: string, length: nat): string {
    if text == "" then ""
    else if |text| > length then text[..length] + "..."
    else text
  }

  /** Text within the length is returned as it is; longer text is cut to
      exactly `length` characters followed by "...", three more than the
      length; truncating twice changes nothing more. */
  lemma TruncateSpec(text: string, length: nat)
    ensures |text| <= length ==> Truncate(text, length) == text
    ensures |text| > length ==>
      |Truncate(text, length)| == length + 3
      && Truncate(text, length)[..length] == text[..length]
      && EndsWith(Truncate(text, length), "...")
    ensures Truncate(Truncate(text, length), length) == Truncate(text, length)
  {
    if |text| > length {
      var r := Truncate(text, length);
      assert r[..length] == text[..length];
      assert r[length..] == "...";
    }
  }

  /** The `capitalize` helper: the first character upper-cased. */
  function Capitalize(text: string): string {
    if text == "" then "" else [UpperChar(text[0])] + text[1..]
  }

  /** Only the first character changes, and capitalizing again changes
      nothing. */
  lemma CapitalizeSpec(text: string)
    ensures |Capitalize(text)| == |text|
    ensures text != "" ==> Capitalize(text)[0] == UpperChar(text[0]) && Capitalize(text)[1..] == text[1..]
    ensures Capitalize(Capitalize(text)) == Capitalize(text)
  {
    if text != "" {
      var r := Capitalize(text);
      assert r[1..] == text[1..];
      assert UpperChar(r[0]) == r[0];
    }
  }

  // === Keywords ===

  const FixedKeywords: seq<string> := ["antoine smeets", "portfolio", "développeur"]

  /** The `TypeError` of `list.forEach` on a truthy value that is not an array. */
  function NotIterable(key: string): string {
    "frontmatter." + key + ".forEach is not a function"
  }

  /** The set `generateKeywords` fills from lists it was given. */
  function KeywordSet(explicit: seq<string>, categories: seq<string>, techStack: seq<string>): seq<string> {
    var chosen := AddAll(AddAll(AddAll([], explicit), categories), techStack);
    SetAdd(SetAdd(SetAdd(chosen, FixedKeywords[0]), FixedKeywords[1]), FixedKeywords[2])
  }

  /** `generateKeywords`: a set, in insertion order, of the explicit
      keywords, the lower-cased categories, the lower-cased technologies and
      three fixed keywords. */
  function ProjectKeywords(fm: Record): Result<seq<string>> {
    if Truthy(fm.keywords) && !fm.keywords.List? then Err(NotIterable("keywords"))
    else if Truthy(fm.categories) && !fm.categories.List? then Err(NotIterable("categories"))
    else if Truthy(fm.techStack) && !fm.techStack.List? then Err(NotIterable("tech_stack"))
    else Ok(KeywordSet(Items(fm.keywords), LowerAll(Items(fm.categories)), LowerAll(Items(fm.techStack))))
  }

  /** `generateKeywords`, adding to the set list by list. */
  method GenerateKeywords(fm: Record) returns (r: Result<seq<string>>)
    ensures r == ProjectKeywords(fm)
  {
    var keywords: seq<string> := [];
    if Truthy(fm.keywords) {
      if !fm.keywords.List? {
        return Err(NotIterable("keywords"));
      }
      keywords := AddEach(keywords, fm.keywords.items);
    }
    if Truthy(fm.categories) {
      if !fm.categories.List? {
        return Err(NotIterable("categories"));
      }
      keywords := AddEach(keywords, LowerAll(fm.categories.items));
    }
    if Truthy(fm.techStack) {
      if !fm.techStack.List? {
        return Err(NotIterable("tech_stack"));
      }
      keywords := AddEach(keywords, LowerAll(fm.techStack.items));
    }
    keywords := SetAdd(keywords, "antoine smeets");
    keywords := SetAdd(keywords, "portfolio");
    keywords := SetAdd(keywords, "développeur");
    return Ok(keywords);
  }

  /** Adding the fixed keywords keeps what was there in front. */
  lemma AddFixedSpec(chosen: seq<string>)
    ensures var k := SetAdd(SetAdd(SetAdd(chosen, FixedKeywords[0]), FixedKeywords[1]), FixedKeywords[2]);
      (forall w :: w in k <==> w in chosen || w in FixedKeywords)
      && (NoDups(chosen) ==> NoDups(k))
      && |chosen| <= |k| && k[..|chosen|] == chosen
  {
    var k1 := SetAdd(chosen, FixedKeywords[0]);
    var k2 := SetAdd(k1, FixedKeywords[1]);
    var k3 := SetAdd(k2, FixedKeywords[2]);
    assert k1[..|chosen|] == chosen;
    assert k2[..|k1|] == k1;
    assert k3[..|k2|] == k2;
  }

  /** The set holds no duplicate; a word is in it exactly when it is in one
      of the three lists or is one of the fixed keywords; the explicit
      keywords come first, then the new category words. */
  lemma KeywordSetSpec(explicit: seq<string>, categories: seq<string>, techStack: seq<string>)
    ensures NoDups(KeywordSet(explicit, categories, techStack))
    ensures forall w :: w in KeywordSet(explicit, categories, techStack) <==>
      w in explicit || w in categories || w in techStack || w in FixedKeywords
    ensures var first := AddAll([], explicit);
      var second := AddAll(first, categories);
      |first| <= |second| <= |KeywordSet(explicit, categories, techStack)|
      && second[..|first|] == first
      && KeywordSet(explicit, categories, techStack)[..|second|] == second
  {
    var first := AddAll([], explicit);
    var second := AddAll(first, categories);
    var chosen := AddAll(second, techStack);
    AddAllSpec([], explicit);
    AddAllSpec(first, categories);
    AddAllSpec(second, techStack);
    AddFixedSpec(chosen);
    var k := KeywordSet(explicit, categories, techStack);
    assert k[..|chosen|][..|second|] == k[..|second|];
  }

  /** The keywords fail exactly when one of the three lists is truthy but
      not an array, and otherwise are the set of the lists' words. */
  lemma KeywordsSpec(fm: Record)
    ensures ProjectKeywords(fm).Ok? <==>
      (!Truthy(fm.keywords) || fm.keywords.List?)
      && (!Truthy(fm.categories) || fm.categories.List?)
      && (!Truthy(fm.techStack) || fm.techStack.List?)
    ensures ProjectKeywords(fm).Ok? ==> forall w :: w in ProjectKeywords(fm).value <==>
      w in Items(fm.keywords) || w in LowerAll(Items(fm.categories))
      || w in LowerAll(Items(fm.techStack)) || w in FixedKeywords
  {
    KeywordSetSpec(Items(fm.keywords), LowerAll(Items(fm.categories)), LowerAll(Items(fm.techStack)));
  }

  // === Social images ===

  const ProjectImages: string := "images/"
  const SiteImages: string := "../images/"

  /** `resolveSocialImage`: the absolute URL of an image path. A truthy value
      that is not a string has no `startsWith`, so the call throws. */
  function ResolveSocialImage(baseUrl: string, imagePath: Value, projectSlug: string): Result<Value> {
    if !Truthy(imagePath) then Ok(Null)
    else if !imagePath.Str? then Err("imagePath.startsWith is not a function")
    else
      var path := imagePath.s;
      if StartsWith(path, "http") then Ok(imagePath)
      else if StartsWith(path, ProjectImages) then
        Ok(Str(baseUrl + "/images/projets/" + projectSlug + "/" + ReplaceFirst(path, ProjectImages, "")))
      else if StartsWith(path, SiteImages) || StartsWith(path, ProjectImages) then
        Ok(Str(baseUrl + "/" + ReplaceFirst(path, "../", "")))
      else Ok(Str(baseUrl + "/images/projets/" + projectSlug + "/" + path))
  }

  /** Falsy paths give null and non-strings throw; URLs starting "http" are
      kept; a path in the project's `images/` folder, or any other relative
      path, goes under the project's folder of the site's images; a site path
      `../images/...` goes under the site root. */
  lemma ResolveSocialImageSpec(baseUrl: string, imagePath: Value, projectSlug: string)
    ensures !Truthy(imagePath) ==> ResolveSocialImage(baseUrl, imagePath, projectSlug) == Ok(Null)
    ensures Truthy(imagePath) && !imagePath.Str? ==> ResolveSocialImage(baseUrl, imagePath, projectSlug).Err?
    ensures imagePath.Str? && StartsWith(imagePath.s, "http")
      ==> ResolveSocialImage(baseUrl, imagePath, projectSlug) == Ok(imagePath)
    ensures imagePath.Str? && StartsWith(imagePath.s, ProjectImages)
      ==> ResolveSocialImage(baseUrl, imagePath, projectSlug)
          == Ok(Str(baseUrl + "/images/projets/" + projectSlug + "/" + imagePath.s[|ProjectImages|..]))
    ensures imagePath.Str? && StartsWith(imagePath.s, SiteImages)
      ==> ResolveSocialImage(baseUrl, imagePath, projectSlug) == Ok(Str(baseUrl + "/" + imagePath.s[3..]))
    ensures imagePath.Str? && imagePath.s != "" && !StartsWith(imagePath.s, "http")
      && !StartsWith(imagePath.s, ProjectImages) && !StartsWith(imagePath.s, SiteImages)
      ==> ResolveSocialImage(baseUrl, imagePath, projectSlug)
          == Ok(Str(baseUrl + "/images/projets/" + projectSlug + "/" + imagePath.s))
  {
    if imagePath.Str? {
      var path := imagePath.s;
      if StartsWith(path, ProjectImages) {
        ReplaceFirstAtStart(path, ProjectImages, "");
        assert "" + path[|ProjectImages|..] == path[|ProjectImages|..];
        assert !StartsWith(path, "http") by {
          assert path[0] == 'i';
        }
        assert !StartsWith(path, SiteImages) by {
          assert path[0] == 'i';
        }
      } else if StartsWith(path, SiteImages) {
        assert StartsWith(path, "../");
        ReplaceFirstAtStart(path, "../", "");
        assert "" + path[3..] == path[3..];
        assert !StartsWith(path, "http") by {
          assert path[0] == '.';
        }
      }
    }
  }

  /** A path in the project's `images/` folder and the same path without the
      folder name give the same URL. */
  lemma ProjectImagesFolderIsImplied(baseUrl: string, name: string, projectSlug: string)
    requires name != "" && !StartsWith(name, "http") && !StartsWith(name, ProjectImages) && !StartsWith(name, SiteImages)
    ensures ResolveSocialImage(baseUrl, Str(ProjectImages + name), projectSlug)
         == ResolveSocialImage(baseUrl, Str(name), projectSlug)
  {
    PrefixOfAppend(ProjectImages, name);
    ResolveSocialImageSpec(baseUrl, Str(ProjectImages + name), projectSlug);
    ResolveSocialImageSpec(baseUrl, Str(name), projectSlug);
  }

  lemma ProjectImageMatchesIndex(baseUrl: string, path: string, projectSlug: string)
    requires StartsWith(path, ProjectImages)
    ensures var tail := "images/projets/" + projectSlug + "/" + path[|ProjectImages|..];
      IndexGenerator.ResolveImagePath(Str(path), projectSlug) == Ok(Str("../" + tail))
      && ResolveSocialImage(baseUrl, Str(path), projectSlug) == Ok(Str(baseUrl + "/" + tail))
  {
    IndexGenerator.ResolveImagePathSpec(Str(path), projectSlug);
    ResolveSocialImageSpec(baseUrl, Str(path), projectSlug);
    var rest := path[|ProjectImages|..];
    assert "../images/projets/" == "../" + "images/projets/";
    assert "/images/projets/" == "/" + "images/projets/";
    PrependedPath("../", "images/projets/", projectSlug, "/", rest);
    PrependedPath(baseUrl + "/", "images/projets/", projectSlug, "/", rest);
    AppendAssociative(baseUrl, "/", "images/projets/");
  }

  lemma PrependedPath<T>(p: seq<T>, m: seq<T>, x: seq<T>, sep: seq<T>, y: seq<T>)
    ensures p + m + x + sep + y == p + (m + x + sep + y)
  {
  }

  lemma SiteImageMatchesIndex(baseUrl: string, path: string, projectSlug: string)
    requires StartsWith(path, SiteImages)
    ensures StartsWith(path, "../")
    ensures IndexGenerator.ResolveImagePath(Str(path), projectSlug) == Ok(Str(path))
    ensures ResolveSocialImage(baseUrl, Str(path), projectSlug) == Ok(Str(baseUrl + "/" + path[3..]))
  {
    assert path[..3] == path[..|SiteImages|][..3];
    IndexGenerator.ResolveImagePathSpec(Str(path), projectSlug);
    ResolveSocialImageSpec(baseUrl, Str(path), projectSlug);
  }

  /** The social image URL of a project image is the site root followed by
      the path the projects index gives the same image, less its leading
      "../": both point at the same file. */
  lemma SocialImageMatchesIndexImage(baseUrl: string, path: string, projectSlug: string)
    requires StartsWith(path, ProjectImages) || StartsWith(path, SiteImages)
    ensures IndexGenerator.ResolveImagePath(Str(path), projectSlug).Ok?
    ensures var indexPath := Text(IndexGenerator.ResolveImagePath(Str(path), projectSlug).value);
      StartsWith(indexPath, "../")
      && ResolveSocialImage(baseUrl, Str(path), projectSlug) == Ok(Str(baseUrl + "/" + indexPath[3..]))
  {
    if StartsWith(path, ProjectImages) {
      ProjectImageMatchesIndex(baseUrl, path, projectSlug);
      var tail := "images/projets/" + projectSlug + "/" + path[|ProjectImages|..];
      PrefixOfAppend("../", tail);
    } else {
      SiteImageMatchesIndex(baseUrl, path, projectSlug);
    }
  }

  // === Template data ===

  /** The keys of the later spreads (`...metadata`, `...stats` and the
      context) that hide the frontmatter's keys of the same name; their
      values are the template data's own fields. */
  const ShadowedKeys: set<string> := {
    "content", "headings", "links", "images", "codeBlocks", "readingTime",
    "wordCount", "characterCount", "lastModified", "baseUrl", "projectSlug", "NODE_ENV"}

  /** The frontmatter keys `prepareTemplateData` sets itself. */
  const OverriddenFields: set<Field> := {
    Field.Keywords, HeroAlt, OgImage, TwitterImage, Language, ReadingTime, WordCount, Field.Complexity}

  /** The object `prepareTemplateData` hands to the template: the frontmatter
      with the keys it overrides (`page`), then the keys the later spreads
      add. */
  datatype TemplateData = TemplateData(
    page: Record,
    content: string,
    headings: seq<Heading>, links: seq<Link>, images: seq<Image>, codeBlocks: seq<CodeBlock>,
    readingTime: nat, wordCount: nat, characterCount: nat, lastModified: Value,
    baseUrl: string, projectSlug: string, nodeEnv: string)

  /** `prepareTemplateData`. Keys spread later win over keys spread earlier,
      and the keys set by name win over all of them. The keywords and the
      two social images are computed in that order; the first that throws
      ends the call. */
  function PrepareTemplateData(baseUrl: string, nodeEnv: string, parsed: Parsed, projectSlug: string): Result<TemplateData> {
    var fm := parsed.frontmatter;
    match ProjectKeywords(fm)
    case Err(m) => Err(m)
    case Ok(keywords) =>
      match ResolveSocialImage(baseUrl, Or(fm.ogImage, fm.heroImage), projectSlug)
      case Err(m) => Err(m)
      case Ok(ogImage) =>
        match ResolveSocialImage(baseUrl, Or(fm.twitterImage, fm.heroImage), projectSlug)
        case Err(m) => Err(m)
        case Ok(twitterImage) =>
          var stats := parsed.stats;
          var page := fm.(
            complexity := Num(stats.complexity),
            keywords := List(keywords),
            heroAlt := Or(fm.heroAlt, Str(HeroAltPrefix + Interpolate(fm.title))),
            ogImage := ogImage,
            twitterImage := twitterImage,
            language := Or(fm.language, Str(DefaultLanguage)),
            readingTime := Num(stats.readingTime),
            wordCount := Num(stats.wordCount),
            others := fm.others - ShadowedKeys);
          Ok(TemplateData(page, parsed.html,
            parsed.metadata.headings, parsed.metadata.links, parsed.metadata.images, parsed.metadata.codeBlocks,
            stats.readingTime, stats.wordCount, stats.characterCount, stats.lastModified,
            baseUrl, projectSlug, if nodeEnv != "" then nodeEnv else "development"))
  }

  /** The data fails exactly when the keywords or one of the social images
      throws. Otherwise it sets the keywords, the image description, both
      social images, the language, the reading time, the word count and the
      complexity whatever the frontmatter said, keeping the frontmatter's
      description, language and `og_image`/`twitter_image` (resolved) only as
      the first choice of a fallback. */
  lemma PrepareTemplateDataOverrides(baseUrl: string, nodeEnv: string, parsed: Parsed, projectSlug: string)
    ensures var fm := parsed.frontmatter;
      PrepareTemplateData(baseUrl, nodeEnv, parsed, projectSlug).Ok? <==>
        ProjectKeywords(fm).Ok?
        && ResolveSocialImage(baseUrl, Or(fm.ogImage, fm.heroImage), projectSlug).Ok?
        && ResolveSocialImage(baseUrl, Or(fm.twitterImage, fm.heroImage), projectSlug).Ok?
    ensures var fm := parsed.frontmatter;
      var r := PrepareTemplateData(baseUrl, nodeEnv, parsed, projectSlug);
      r.Ok? ==>
        var page := r.value.page;
        page.keywords == List(ProjectKeywords(fm).value)
        && (Truthy(fm.heroAlt) ==> page.heroAlt == fm.heroAlt)
        && (!Truthy(fm.heroAlt) ==> page.heroAlt == Str(HeroAltPrefix + Interpolate(fm.title)))
        && (Truthy(fm.ogImage) ==> Ok(page.ogImage) == ResolveSocialImage(baseUrl, fm.ogImage, projectSlug))
        && (!Truthy(fm.ogImage) ==> Ok(page.ogImage) == ResolveSocialImage(baseUrl, fm.heroImage, projectSlug))
        && (Truthy(fm.twitterImage) ==> Ok(page.twitterImage) == ResolveSocialImage(baseUrl, fm.twitterImage, projectSlug))
        && (!Truthy(fm.twitterImage) ==> Ok(page.twitterImage) == ResolveSocialImage(baseUrl, fm.heroImage, projectSlug))
        && (Truthy(fm.language) ==> page.language == fm.language)
        && (!Truthy(fm.language) ==> page.language == Str(DefaultLanguage))
        && page.readingTime == Num(parsed.stats.readingTime)
        && page.wordCount == Num(parsed.stats.wordCount)
        && page.complexity == Num(parsed.stats.complexity)
  {
  }

  /** Every other frontmatter key reaches the template unchanged, except the
      keys a later spread hides. */
  lemma PrepareTemplateDataKeeps(baseUrl: string, nodeEnv: string, parsed: Parsed, projectSlug: string, f: Field)
    requires PrepareTemplateData(baseUrl, nodeEnv, parsed, projectSlug).Ok?
    requires f !in OverriddenFields
    ensures f.Other? && f.name in ShadowedKeys
      ==> Get(PrepareTemplateData(baseUrl, nodeEnv, parsed, projectSlug).value.page, f) == Undefined
    ensures !(f.Other? && f.name in ShadowedKeys)
      ==> Get(PrepareTemplateData(baseUrl, nodeEnv, parsed, projectSlug).value.page, f) == Get(parsed.frontmatter, f)
  {
  }

  // === Pages ===

  /** What the engine works from: its options, the parser it built, and the
      template files of its templates directory by path. A compiled template
      is represented by its source, since Handlebars is not part of this
      model. */
  datatype Site = Site(baseUrl: string, templatesDir: string, templates: map<string, string>, env: ParserEnv)

  datatype Template = Compiled(source: string)

  /** A folder handed to `generateProjectPage`: its path and what it holds. */
  datatype ProjectFolder = ProjectFolder(path: string, source: FolderSource)

  /** The object `generateProjectPage` returns for a written page. */
  datatype PageResult = PageResult(projectFolder: string, outputPath: string, title: Value, status: Value)

  datatype Skip = Skip(projectFolder: string, reason: string)

  datatype Failure = Failure(projectFolder: string, error: string)

  /** The `results` of `generateAllPages`. */
  datatype PageResults = PageResults(generated: seq<PageResult>, skipped: seq<Skip>, errors: seq<Failure>)

  const DraftReason: string := "Draft project"

  /** `path.join(templatesDir, name + '.hbs')` */
  function TemplatePath(dir: string, name: string): string {
    dir + "/" + name + ".hbs"
  }

  /** What loading a template from disk gives. */
  function Loaded(site: Site, name: string): Result<Template> {
    var path := TemplatePath(site.templatesDir, name);
    if path in site.templates then Ok(Compiled(site.templates[path]))
    else Err("Template not found: " + path)
  }

  /** `generateProjectPage` on one folder: it throws when the folder has no
      `index.md`, when parsing fails, when the project template is missing or
      when the template data throws; a draft in production is skipped
      (null); otherwise the page is written. */
  function PageOutcome(site: Site, folder: ProjectFolder, nodeEnv: string): Result<Option<PageResult>> {
    match folder.source
    case NoIndexFile => Err("No index.md found in " + folder.path)
    case Unparseable(_, m) => Err(ParseFailure(folder.path, m))
    case Source(name, fm, markdown) =>
      match ParseContent(fm, markdown, site.env)
      case Err(m) => Err(ParseFailure(folder.path, m))
      case Ok(parsed) =>
        if parsed.frontmatter.status == Str("draft") && nodeEnv == "production" then Ok(None)
        else
          match Loaded(site, "project")
          case Err(m) => Err(m)
          case Ok(_) =>
            match PrepareTemplateData(site.baseUrl, nodeEnv, parsed, name)
            case Err(m) => Err(m)
            case Ok(_) =>
              Ok(Some(PageResult(folder.path, folder.path + "/index.html",
                parsed.frontmatter.title, parsed.frontmatter.status)))
  }

  /** A folder is skipped exactly when its frontmatter is valid, its status
      is "draft" and the build is a production one. */
  lemma PageOutcomeSkips(site: Site, folder: ProjectFolder, nodeEnv: string)
    ensures PageOutcome(site, folder, nodeEnv) == Ok(None) <==>
      folder.source.Source?
      && FrontmatterErrors(folder.source.frontmatter, site.env.dateParses) == []
      && folder.source.frontmatter.status == Str("draft") && nodeEnv == "production"
    ensures folder.source.NoIndexFile? ==> PageOutcome(site, folder, nodeEnv).Err?
    ensures folder.source.Unparseable? ==> PageOutcome(site, folder, nodeEnv) == Err(ParseFailure(folder.path, folder.source.message))
  {
    if folder.source.Source? {
      ParseContentStatus(folder.source.frontmatter, folder.source.markdown, site.env);
    }
  }

  /** `generateProjectPage` gets as far as loading the project template: the
      folder has an `index.md` that parses and is not a draft skipped in
      production. */
  predicate ReachesLoad(site: Site, folder: ProjectFolder, nodeEnv: string) {
    match folder.source
    case NoIndexFile => false
    case Unparseable(_, _) => false
    case Source(_, fm, markdown) =>
      match ParseContent(fm, markdown, site.env)
      case Err(_) => false
      case Ok(parsed) => !(parsed.frontmatter.status == Str("draft") && nodeEnv == "production")
  }

  /** The cache after `generateProjectPage`: the project template is added
      when the page gets as far as loading it and it exists on disk. */
  function CacheAfterPage(site: Site, cache: map<string, Template>, folder: ProjectFolder, nodeEnv: string): map<string, Template> {
    if ReachesLoad(site, folder, nodeEnv) && Loaded(site, "project").Ok? then cache["project" := Loaded(site, "project").value]
    else cache
  }

  /** The cache after `generateProjectPage` on each folder in turn. */
  function CacheAfterPages(site: Site, cache: map<string, Template>, folders: seq<ProjectFolder>, nodeEnv: string): map<string, Template> {
    if folders == [] then cache
    else CacheAfterPage(site, CacheAfterPages(site, cache, folders[..|folders| - 1], nodeEnv), folders[|folders| - 1], nodeEnv)
  }

  /** Some folder of the run gets as far as loading the project template. */
  predicate AnyReachesLoad(site: Site, folders: seq<ProjectFolder>, nodeEnv: string) {
    folders != [] &&
    (AnyReachesLoad(site, folders[..|folders| - 1], nodeEnv) || ReachesLoad(site, folders[|folders| - 1], nodeEnv))
  }

  /** `AnyReachesLoad` holds exactly when some folder reaches the load. */
  lemma {:induction false} AnyReachesLoadSpec(site: Site, folders: seq<ProjectFolder>, nodeEnv: string)
    ensures AnyReachesLoad(site, folders, nodeEnv) <==> exists i :: 0 <= i < |folders| && ReachesLoad(site, folders[i], nodeEnv)
  {
    if folders != [] {
      AnyReachesLoadSpec(site, folders[..|folders| - 1], nodeEnv);
      ExistsSnoc(folders, folders[..|folders| - 1], f => ReachesLoad(site, f, nodeEnv));
    }
  }

  /** A run of pages caches the project template, and nothing else, exactly
      when some folder gets as far as loading it and it exists on disk. */
  lemma {:induction false} CacheAfterPagesSpec(site: Site, cache: map<string, Template>, folders: seq<ProjectFolder>, nodeEnv: string)
    ensures CacheAfterPages(site, cache, folders, nodeEnv) ==
      if AnyReachesLoad(site, folders, nodeEnv) && Loaded(site, "project").Ok? then cache["project" := Loaded(site, "project").value]
      else cache
  {
    if folders != [] {
      CacheAfterPagesSpec(site, cache, folders[..|folders| - 1], nodeEnv);
    }
  }

  /** A folder and what `generateProjectPage` did with it. */
  datatype Attempt = Attempt(folder: ProjectFolder, outcome: Result<Option<PageResult>>)

  /** The attempts `generateAllPages` makes, one per folder and in order. */
  function Attempts(site: Site, folders: seq<ProjectFolder>, nodeEnv: string): (r: seq<Attempt>)
    ensures |r| == |folders|
  {
    if folders == [] then []
    else Attempts(site, folders[..|folders| - 1], nodeEnv)
         + [Attempt(folders[|folders| - 1], PageOutcome(site, folders[|folders| - 1], nodeEnv))]
  }

  /** `results` after one more attempt: its outcome goes to the end of the
      list it belongs in. */
  function Filed(results: PageResults, attempt: Attempt): PageResults {
    match attempt.outcome
    case Err(m) => results.(errors := results.errors + [Failure(attempt.folder.path, m)])
    case Ok(None) => results.(skipped := results.skipped + [Skip(attempt.folder.path, DraftReason)])
    case Ok(Some(page)) => results.(generated := results.generated + [page])
  }

  /** The `results` of a run of attempts, filed in order. */
  function Partition(attempts: seq<Attempt>): PageResults {
    if attempts == [] then PageResults([], [], [])
    else Filed(Partition(attempts[..|attempts| - 1]), attempts[|attempts| - 1])
  }

  function Merged(a: PageResults, b: PageResults): PageResults {
    PageResults(a.generated + b.generated, a.skipped + b.skipped, a.errors + b.errors)
  }

  lemma FiledMerged(a: PageResults, b: PageResults, attempt: Attempt)
    ensures Filed(Merged(a, b), attempt) == Merged(a, Filed(b, attempt))
  {
    match attempt.outcome
    case Err(m) => AppendAssociative(a.errors, b.errors, [Failure(attempt.folder.path, m)]);
    case Ok(None) => AppendAssociative(a.skipped, b.skipped, [Skip(attempt.folder.path, DraftReason)]);
    case Ok(Some(page)) => AppendAssociative(a.generated, b.generated, [page]);
  }

  /** The results of two runs are the results of the first run followed,
      list by list, by those of the second: later folders are filed the same
      whatever happened to the earlier ones. */
  lemma {:induction false} PartitionAppend(xs: seq<Attempt>, ys: seq<Attempt>)
    ensures Partition(xs + ys) == Merged(Partition(xs), Partition(ys))
  {
    if ys == [] {
      assert xs + ys == xs;
    } else {
      var init, last := ys[..|ys| - 1], ys[|ys| - 1];
      assert (xs + ys)[..|xs + ys| - 1] == xs + init;
      PartitionAppend(xs, init);
      FiledMerged(Partition(xs), Partition(init), last);
    }
  }

  /** Every attempt lands in exactly one of the three lists: there are as
      many entries as attempts. */
  lemma {:induction false} PartitionSize(attempts: seq<Attempt>)
    ensures |Partition(attempts).generated| + |Partition(attempts).skipped| + |Partition(attempts).errors| == |attempts|
  {
    if attempts != [] {
      PartitionSize(attempts[..|attempts| - 1]);
    }
  }

  /** The `i`-th attempt's entry sits in the list its outcome names, right
      after the entries of the attempts before it. */
  lemma PartitionEntry(attempts: seq<Attempt>, i: nat)
    requires i < |attempts|
    ensures var before := Partition(attempts[..i]);
      var all := Partition(attempts);
      match attempts[i].outcome
      case Err(m) => |before.errors| < |all.errors| && all.errors[|before.errors|] == Failure(attempts[i].folder.path, m)
      case Ok(None) => |before.skipped| < |all.skipped| && all.skipped[|before.skipped|] == Skip(attempts[i].folder.path, DraftReason)
      case Ok(Some(page)) => |before.generated| < |all.generated| && all.generated[|before.generated|] == page
  {
    assert attempts == attempts[..i + 1] + attempts[i + 1..];
    assert attempts[..i + 1][..i] == attempts[..i];
    PartitionAppend(attempts[..i + 1], attempts[i + 1..]);
  }

  /** `TemplateEngine`: the options and the compiled-template cache. */
  class TemplateEngine {
    const site: Site
    var templateCache: map<string, Template>

    /** The cache only holds what loading the template from disk gives. */
    ghost predicate Valid()
      reads this
    {
      forall name :: name in templateCache ==> Loaded(site, name) == Ok(templateCache[name])
    }

    /** `new TemplateEngine(options)`: the base URL defaults to the site's,
        the parser is built with that base URL and an empty cache. */
    constructor(templatesDir: string, baseUrl: string, templates: map<string, string>,
                slugify: string -> string, dateParses: string -> bool, render: string -> string,
                matterExcerpt: string -> string, today: string)
      ensures baseUrl != "" ==> site.baseUrl == baseUrl
      ensures baseUrl == "" ==> site.baseUrl == DefaultBaseUrl
      ensures site.templatesDir == templatesDir && site.templates == templates
      ensures site.env == NewParserEnv(site.baseUrl, "", slugify, dateParses, render, matterExcerpt, today)
      ensures templateCache == map[]
      ensures Valid()
    {
      var url := if baseUrl != "" then baseUrl else DefaultBaseUrl;
      site := Site(url, templatesDir, templates, NewParserEnv(url, "", slugify, dateParses, render, matterExcerpt, today));
      templateCache := map[];
    }

    /** `loadTemplate`: a cached template is returned without reading the
        disk; a template loaded from disk is cached; a missing one throws and
        leaves the cache alone. Either way the result is what loading from
        disk gives. */
    method LoadTemplate(name: string) returns (r: Result<Template>)
      requires Valid()
      modifies this
      ensures Valid()
      ensures r == Loaded(site, name)
      ensures old(name in templateCache) ==> r == Ok(old(templateCache)[name]) && templateCache == old(templateCache)
      ensures r.Ok? ==> templateCache == old(templateCache)[name := r.value]
      ensures r.Err? ==> templateCache == old(templateCache)
    {
      if name in templateCache {
        return Ok(templateCache[name]);
      }
      var path := TemplatePath(site.templatesDir, name);
      if path !in site.templates {
        return Err("Template not found: " + path);
      }
      var compiled := Compiled(site.templates[path]);
      templateCache := templateCache[name := compiled];
      return Ok(compiled);
    }

    /** `clearCache` */
    method ClearCache()
      modifies this
      ensures templateCache == map[]
      ensures Valid()
    {
      templateCache := map[];
    }

    /** `generateProjectPage`. Rendering the template and writing
        `index.html` are not part of this model. */
    method GenerateProjectPage(folder: ProjectFolder, nodeEnv: string) returns (r: Result<Option<PageResult>>)
      requires Valid()
      modifies this
      ensures Valid()
      ensures r == PageOutcome(site, folder, nodeEnv)
      ensures templateCache == CacheAfterPage(site, old(templateCache), folder, nodeEnv)
    {
      if folder.source.NoIndexFile? {
        return Err("No index.md found in " + folder.path);
      }
      if folder.source.Unparseable? {
        return Err(ParseFailure(folder.path, folder.source.message));
      }
      var parsed := ParseContent(folder.source.frontmatter, folder.source.markdown, site.env);
      if parsed.Err? {
        return Err(ParseFailure(folder.path, parsed.message));
      }
      var fm := parsed.value.frontmatter;
      if fm.status == Str("draft") && nodeEnv == "production" {
        return Ok(None);
      }
      var template := LoadTemplate("project");
      if template.Err? {
        return Err(template.message);
      }
      var data := PrepareTemplateData(site.baseUrl, nodeEnv, parsed.value, folder.source.name);
      if data.Err? {
        return Err(data.message);
      }
      return Ok(Some(PageResult(folder.path, folder.path + "/index.html", fm.title, fm.status)));
    }

    /** `generateAllPages`: every folder is tried in turn, and a folder that
        throws is recorded without stopping the ones after it. */
    method GenerateAllPages(folders: seq<ProjectFolder>, nodeEnv: string) returns (results: PageResults)
      requires Valid()
      modifies this
      ensures Valid()
      ensures results == Partition(Attempts(site, folders, nodeEnv))
      ensures templateCache == CacheAfterPages(site, old(templateCache), folders, nodeEnv)
    {
      results := PageResults([], [], []);
      for i := 0 to |folders|
        invariant Valid()
        invariant results == Partition(Attempts(site, folders[..i], nodeEnv))
        invariant templateCache == CacheAfterPages(site, old(templateCache), folders[..i], nodeEnv)
      {
        assert folders[..i + 1][..i] == folders[..i];
        var folder := folders[i];
        var outcome := GenerateProjectPage(folder, nodeEnv);
        assert Attempts(site, folders[..i + 1], nodeEnv) == Attempts(site, folders[..i], nodeEnv) + [Attempt(folder, outcome)];
        match outcome
        case Err(m) =>
          results := results.(errors := results.errors + [Failure(folder.path, m)]);
        case Ok(None) =>
          results := results.(skipped := results.skipped + [Skip(folder.path, DraftReason)]);
        case Ok(Some(page)) =>
          results := results.(generated := results.generated + [page]);
      }
      assert folders[..|folders|] == folders;
    }
  }
}

=== FILE: validate_projects.dfy ===
/** The project validator (build-system/scripts/validate-projects.js): a
    rule engine that walks the project folders and appends errors, warnings
    and suggestions to three lists, then summarises them in a report. Each
    check is a function from the frontmatter or the markdown to the entries
    it adds; the validator's methods append exactly those entries. */
module ValidateProjects {
  import opened Js
  import opened Words
  import opened ContentScan
  import MarkdownParser

  /** What an entry of a list reports, one constructor per message the
      validator writes. */
  datatype Check =
    | MissingRequired(f: Field)
    | MissingRecommended(f: Field)
    | InvalidDateFormat
    | InvalidStatus
    | DescriptionTooShort(length: nat)
    | DescriptionTooLong(length: nat)
    | TitleTooLong(length: nat)
    | ShortContent(words: nat)
    | LocalLink(url: string)
    | MissingAlt(src: string)
    | NoSeoFields
    | NoSocialFields
    | NoCategories
    | TooManyCategories(count: nat)
    | HeroNotFound(path: string)
    | EmptyImagesDir
    | NoHeroImage
    | MissingIndex
    | ParseFailed(error: string)
    | Critical(error: string)

  /** The entry's `type`. */
  function Kind(c: Check): string {
    match c
    case MissingRequired(_) => "missing_required"
    case MissingRecommended(_) => "missing_recommended"
    case InvalidDateFormat => "invalid_format"
    case InvalidStatus => "invalid_value"
    case DescriptionTooShort(_) => "seo_warning"
    case DescriptionTooLong(_) => "seo_warning"
    case TitleTooLong(_) => "seo_warning"
    case ShortContent(_) => "content_warning"
    case LocalLink(_) => "suggestion"
    case MissingAlt(_) => "accessibility_warning"
    case NoSeoFields => "seo_suggestion"
    case NoSocialFields => "social_suggestion"
    case NoCategories => "categorization_warning"
    case TooManyCategories(_) => "categorization_warning"
    case HeroNotFound(_) => "missing_image"
    case EmptyImagesDir => "empty_images"
    case NoHeroImage => "image_suggestion"
    case MissingIndex => "missing_file"
    case ParseFailed(_) => "parse_error"
    case Critical(_) => "critical"
  }

  /** The entry's `field`, present on the frontmatter checks only. */
  function FieldOf(c: Check): Option<string> {
    match c
    case MissingRequired(f) => Some(FieldName(f))
    case MissingRecommended(f) => Some(FieldName(f))
    case InvalidDateFormat => Some("date")
    case InvalidStatus => Some("status")
    case DescriptionTooShort(_) => Some("description")
    case DescriptionTooLong(_) => Some("description")
    case TitleTooLong(_) => Some("title")
    case _ => None
  }

  /** The entry's `message`. */
  function MessageOf(c: Check): string {
    match c
    case MissingRequired(f) => "Missing required field: " + FieldName(f)
    case MissingRecommended(f) => "Missing recommended field: " + FieldName(f)
    case InvalidDateFormat => "Invalid date format. Use YYYY-MM-DD"
    case InvalidStatus => "Status must be: draft, published, or archived"
    case DescriptionTooShort(n) => "Description too short (" + NatToString(n) + " chars). Recommended: 120-160 chars"
    case DescriptionTooLong(n) => "Description too long (" + NatToString(n) + " chars). Recommended: 120-160 chars"
    case TitleTooLong(n) => "Title too long (" + NatToString(n) + " chars). Recommended: < 60 chars"
    case ShortContent(n) => "Very short content (" + NatToString(n) + " words). Consider adding more detail"
    case LocalLink(url) => "Consider verifying local link: " + url
    case MissingAlt(src) => "Image missing alt text: " + src
    case NoSeoFields => "Consider adding custom SEO fields for better search optimization"
    case NoSocialFields => "Consider adding Open Graph/Twitter fields for better social sharing"
    case NoCategories => "Project has no categories - will be hard to discover"
    case TooManyCategories(n) => "Too many categories (" + NatToString(n) + "). Recommended: 1-5"
    case HeroNotFound(path) => "Hero image not found: " + path
    case EmptyImagesDir => "Images directory exists but is empty"
    case NoHeroImage => "Consider adding a hero image for better visual appeal"
    case MissingIndex => "Missing index.md file"
    case ParseFailed(e) => "Failed to parse markdown: " + e
    case Critical(e) => "Failed to validate: " + e
  }

  /** One entry of a list: `{project, type, field, message}`, with the last
      three given by `check`. */
  datatype Issue = Issue(project: string, check: Check)

  /** Entries for the errors, warnings and suggestions lists. */
  datatype Issues = Issues(errors: seq<Issue>, warnings: seq<Issue>, suggestions: seq<Issue>)
  {
    /** These entries, then `more`'s, list by list. */
    function Then(more: Issues): Issues {
      Issues(errors + more.errors, warnings + more.warnings, suggestions + more.suggestions)
    }
  }

  const NoIssues: Issues := Issues([], [], [])

  lemma ThenAssociative(a: Issues, b: Issues, c: Issues)
    ensures a.Then(b).Then(c) == a.Then(b.Then(c))
  {
    AppendAssociative(a.errors, b.errors, c.errors);
    AppendAssociative(a.warnings, b.warnings, c.warnings);
    AppendAssociative(a.suggestions, b.suggestions, c.suggestions);
  }

  // === Frontmatter ===

  const Required: seq<Field> := [Title, Description, Date]
  const Recommended: seq<Field> := [Categories, HeroImage, Slug]

  /** The entry for a required (an error) or recommended (a warning) field
      the frontmatter lacks. */
  function MissingIssue(project: string, required: bool, f: Field): Issue {
    Issue(project, if required then MissingRequired(f) else MissingRecommended(f))
  }

  /** One entry per field among the first `n` of `fields` the frontmatter
      lacks, in field order. */
  function MissingIssues(project: string, fm: Record, fields: seq<Field>, n: nat, required: bool): seq<Issue>
    requires n <= |fields|
  {
    if n == 0 then []
    else
      AppendIf(MissingIssues(project, fm, fields, n - 1, required), !Has(fm, fields[n - 1]),
               MissingIssue(project, required, fields[n - 1]))
  }

  /** How many of the first `n` fields of `fields` the frontmatter lacks. */
  function MissingCount(fm: Record, fields: seq<Field>, n: nat): nat
    requires n <= |fields|
  {
    if n == 0 then 0
    else MissingCount(fm, fields, n - 1) + (if Has(fm, fields[n - 1]) then 0 else 1)
  }

  /** One entry per missing field and nothing else: an entry for every field
      the frontmatter lacks, and every entry names such a field. */
  lemma {:induction false} MissingIssuesSpec(project: string, fm: Record, fields: seq<Field>, n: nat, required: bool)
    requires n <= |fields|
    ensures |MissingIssues(project, fm, fields, n, required)| == MissingCount(fm, fields, n)
    ensures forall i :: 0 <= i < n && !Has(fm, fields[i]) ==>
              MissingIssue(project, required, fields[i]) in MissingIssues(project, fm, fields, n, required)
    ensures forall e :: e in MissingIssues(project, fm, fields, n, required) ==>
              exists i :: 0 <= i < n && !Has(fm, fields[i]) && e == MissingIssue(project, required, fields[i])
  {
    if n != 0 {
      MissingIssuesSpec(project, fm, fields, n - 1, required);
    }
  }

  /** Every field is missing exactly when the count reaches the number of
      fields, and none is exactly when it is 0. */
  lemma {:induction false} MissingCountAll(fm: Record, fields: seq<Field>, n: nat)
    requires n <= |fields|
    ensures MissingCount(fm, fields, n) <= n
    ensures MissingCount(fm, fields, n) == n <==> forall i :: 0 <= i < n ==> !Has(fm, fields[i])
    ensures MissingCount(fm, fields, n) == 0 <==> forall i :: 0 <= i < n ==> Has(fm, fields[i])
  {
    if n != 0 {
      MissingCountAll(fm, fields, n - 1);
    }
  }

  /** `isValidDate` as written: `regex.test` and `Date.parse` turn their
      argument into a string first, and a `Date` object (what YAML makes of
      an unquoted `2024-01-15`) turns into text like "Mon Jan 15 2024 ...",
      which never has the YYYY-MM-DD shape. */
  predicate IsValidDateAsWritten(v: Value, dateParses: string -> bool) {
    match v
    case Stamp(_) => false
    case _ =>
      var s := Interpolate(v);
      MarkdownParser.IsDatePattern(s) && dateParses(s)
  }

  /** `isValidDate` accepting a `Date` object, as the parser does. */
  predicate IsValidDate(v: Value, dateParses: string -> bool) {
    v.Stamp? || IsValidDateAsWritten(v, dateParses)
  }

  /** A YAML date is rejected by the check as written and accepted by the
      parser and by the corrected check. */
  lemma YamlDateRejectedAsWritten(dateParses: string -> bool)
    ensures !IsValidDateAsWritten(Stamp("2024-01-15"), dateParses)
    ensures MarkdownParser.IsValidDate(Stamp("2024-01-15"), dateParses)
    ensures IsValidDate(Stamp("2024-01-15"), dateParses)
  {
  }

  lemma {:induction false} NatToStringDigits(n: nat)
    ensures forall i :: 0 <= i < |NatToString(n)| ==> MarkdownParser.IsDigit(NatToString(n)[i])
  {
    if n >= 10 {
      NatToStringDigits(n / 10);
    }
  }

  /** The corrected check agrees with the parser's on every value but an
      array, whose comma-joined text the validator tests. In particular a
      number never passes: its text has no '-' after the first character. */
  lemma IsValidDateAgreesWithParser(v: Value, dateParses: string -> bool)
    requires !v.List?
    ensures IsValidDate(v, dateParses) == MarkdownParser.IsValidDate(v, dateParses)
  {
    if v.Num? {
      NatToStringDigits(if v.n < 0 then -v.n else v.n);
    }
  }

  function DateIssues(project: string, fm: Record, dateParses: string -> bool): seq<Issue> {
    if Has(fm, Date) && !IsValidDate(Get(fm, Date), dateParses) then [Issue(project, InvalidDateFormat)] else []
  }

  function StatusIssues(project: string, fm: Record): seq<Issue> {
    if MarkdownParser.StatusInvalid(fm) then [Issue(project, InvalidStatus)] else []
  }

  /** The description's length warning. A description with no `length`
      (a number, a date) compares as `undefined` and draws none. */
  function DescriptionIssues(project: string, fm: Record): seq<Issue> {
    var desc := Get(fm, Description);
    if !Truthy(desc) || Length(desc).None? then []
    else if Length(desc).value < 50 then [Issue(project, DescriptionTooShort(Length(desc).value))]
    else if Length(desc).value > 160 then [Issue(project, DescriptionTooLong(Length(desc).value))]
    else []
  }

  function TitleIssues(project: string, fm: Record): seq<Issue> {
    var title := Get(fm, Title);
    if Truthy(title) && Length(title).Some? && Length(title).value > 60 then
      [Issue(project, TitleTooLong(Length(title).value))]
    else []
  }

  /** Everything `validateFrontmatter` adds. */
  function FrontmatterIssues(project: string, fm: Record, dateParses: string -> bool): Issues {
    Issues(MissingIssues(project, fm, Required, 3, true) + DateIssues(project, fm, dateParses)
             + StatusIssues(project, fm),
           MissingIssues(project, fm, Recommended, 3, false) + DescriptionIssues(project, fm)
             + TitleIssues(project, fm),
           [])
  }

  /** A description draws a warning exactly when it is shorter than 50 or
      longer than 160 characters, and at most one. */
  lemma DescriptionIssuesSpec(project: string, fm: Record)
    ensures |DescriptionIssues(project, fm)| <= 1
    ensures DescriptionIssues(project, fm) != [] <==>
              Has(fm, Description) && Length(Get(fm, Description)).Some?
              && (Length(Get(fm, Description)).value < 50 || Length(Get(fm, Description)).value > 160)
    ensures forall n: nat :: Has(fm, Description) && Length(Get(fm, Description)) == Some(n) ==>
              (n < 50 ==> DescriptionIssues(project, fm) == [Issue(project, DescriptionTooShort(n))])
              && (n > 160 ==> DescriptionIssues(project, fm) == [Issue(project, DescriptionTooLong(n))])
  {
  }

  /** The number of entries the frontmatter checks add: an error per
      missing required field, one for a date that is present but invalid,
      one for a status outside draft, published and archived; a warning per
      missing recommended field, one for a description out of range and one
      for a title over 60 characters. */
  lemma FrontmatterIssueCount(project: string, fm: Record, dateParses: string -> bool)
    ensures |FrontmatterIssues(project, fm, dateParses).errors| ==
              MissingCount(fm, Required, 3)
              + (if Has(fm, Date) && !IsValidDate(Get(fm, Date), dateParses) then 1 else 0)
              + (if MarkdownParser.StatusInvalid(fm) then 1 else 0)
    ensures |FrontmatterIssues(project, fm, dateParses).warnings| ==
              MissingCount(fm, Recommended, 3) + |DescriptionIssues(project, fm)|
              + (if Has(fm, Title) && Length(Get(fm, Title)).Some? && Length(Get(fm, Title)).value > 60
                 then 1 else 0)
  {
    MissingIssuesSpec(project, fm, Required, 3, true);
    MissingIssuesSpec(project, fm, Recommended, 3, false);
  }

  // === Content ===

  predicate IsLocal(url: string) {
    StartsWith(url, "./") || StartsWith(url, "../")
  }

  /** One suggestion per link to a local path, in document order. */
  function LocalLinkSuggestions(project: string, links: seq<Link>): seq<Issue> {
    if links == [] then []
    else
      var l := links[|links| - 1];
      AppendIf(LocalLinkSuggestions(project, links[..|links| - 1]), IsLocal(l.url), Issue(project, LocalLink(l.url)))
  }

  /** A suggestion for every local link and for nothing else. */
  lemma {:induction false} LocalLinkSuggestionsSpec(project: string, links: seq<Link>)
    ensures |LocalLinkSuggestions(project, links)| <= |links|
    ensures forall l :: l in links && IsLocal(l.url) ==>
              Issue(project, LocalLink(l.url)) in LocalLinkSuggestions(project, links)
    ensures forall e :: e in LocalLinkSuggestions(project, links) ==>
              exists l :: l in links && IsLocal(l.url) && e == Issue(project, LocalLink(l.url))
  {
    if links != [] {
      var init := links[..|links| - 1];
      LocalLinkSuggestionsSpec(project, init);
      assert links == init + [links[|links| - 1]];
    }
  }

  /** One warning per image whose alt text is empty or white space only. */
  function MissingAltWarnings(project: string, images: seq<Image>): seq<Issue> {
    if images == [] then []
    else
      var img := images[|images| - 1];
      AppendIf(MissingAltWarnings(project, images[..|images| - 1]), Trim(img.alt) == "", Issue(project, MissingAlt(img.src)))
  }

  /** A warning for every image with a blank alt text and for nothing else. */
  lemma {:induction false} MissingAltWarningsSpec(project: string, images: seq<Image>)
    ensures |MissingAltWarnings(project, images)| <= |images|
    ensures forall img :: img in images && AllSpace(img.alt) ==>
              Issue(project, MissingAlt(img.src)) in MissingAltWarnings(project, images)
    ensures forall e :: e in MissingAltWarnings(project, images) ==>
              exists img :: img in images && AllSpace(img.alt) && e == Issue(project, MissingAlt(img.src))
  {
    if images != [] {
      var init := images[..|images| - 1];
      MissingAltWarningsSpec(project, init);
      TrimSpec(images[|images| - 1].alt);
      assert images == init + [images[|images| - 1]];
    }
  }

  function ShortContentWarnings(project: string, markdown: string): seq<Issue> {
    if CountTokens(markdown) < 100 then [Issue(project, ShortContent(CountTokens(markdown)))] else []
  }

  /** Everything `validateContent` adds. */
  function ContentIssues(project: string, markdown: string): Issues {
    Issues([],
           ShortContentWarnings(project, markdown) + MissingAltWarnings(project, AllMatches(markdown, 0, MatchImage)),
           LocalLinkSuggestions(project, AllMatches(markdown, 0, MatchLink)))
  }

  /** Blank content always draws the short-content warning, counting 0
      words; content with 100 words or more never does. */
  lemma ShortContentSpec(project: string, markdown: string)
    ensures AllSpace(markdown) ==> ShortContentWarnings(project, markdown) == [Issue(project, ShortContent(0))]
    ensures WordStarts(markdown, true) >= 100 <==> ShortContentWarnings(project, markdown) == []
  {
    CountTokensIsWordCount(markdown);
  }

  /** In a document made of well-formed links, every local one draws a
      suggestion and every suggestion comes from one of them. */
  lemma LinksInDocumentSuggested(project: string, links: seq<Link>)
    requires forall l :: l in links ==> WellFormedLink(l)
    ensures forall l :: l in links && IsLocal(l.url) ==>
              Issue(project, LocalLink(l.url)) in ContentIssues(project, RenderLinks(links)).suggestions
    ensures forall e :: e in ContentIssues(project, RenderLinks(links)).suggestions ==>
              exists l :: l in links && IsLocal(l.url) && e == Issue(project, LocalLink(l.url))
  {
    LinksOfRenderedLinks(links);
    LocalLinkSuggestionsSpec(project, links);
  }

  // === SEO ===

  const SeoFields: seq<Field> := [SeoTitle, SeoDescription, CanonicalUrl]
  const SocialFields: seq<Field> := [OgTitle, OgDescription, TwitterCard]

  /** Missing or empty categories, or more than five. A value with no
      `length` compares as `undefined` and draws no warning. */
  function CategoryWarnings(project: string, fm: Record): seq<Issue> {
    var c := Get(fm, Categories);
    if !Truthy(c) || Length(c) == Some(0) then [Issue(project, NoCategories)]
    else if Length(c).Some? && Length(c).value > 5 then [Issue(project, TooManyCategories(Length(c).value))]
    else []
  }

  /** The suggestions `validateSEO` adds, given how many SEO and social
      fields are missing. */
  function SeoSuggestions(project: string, missingSeo: nat, missingSocial: nat): seq<Issue> {
    AppendIf(AppendIf([], missingSeo == |SeoFields|, Issue(project, NoSeoFields)),
             missingSocial == |SocialFields|, Issue(project, NoSocialFields))
  }

  /** Everything `validateSEO` adds. */
  function SeoIssues(project: string, fm: Record): Issues {
    Issues([], CategoryWarnings(project, fm),
           SeoSuggestions(project, MissingCount(fm, SeoFields, 3), MissingCount(fm, SocialFields, 3)))
  }

  /** All three of three fields are missing exactly when each is. */
  lemma ThreeMissing(fm: Record, fields: seq<Field>)
    requires |fields| == 3
    ensures MissingCount(fm, fields, 3) == 3 <==> !Has(fm, fields[0]) && !Has(fm, fields[1]) && !Has(fm, fields[2])
  {
    MissingCountAll(fm, fields, 3);
  }

  lemma SeoSuggestionsCount(project: string, missingSeo: nat, missingSocial: nat)
    ensures Issue(project, NoSeoFields) in SeoSuggestions(project, missingSeo, missingSocial) <==> missingSeo == 3
    ensures Issue(project, NoSocialFields) in SeoSuggestions(project, missingSeo, missingSocial) <==> missingSocial == 3
    ensures |SeoSuggestions(project, missingSeo, missingSocial)| <= 2
  {
  }

  /** The SEO suggestion comes exactly when all three SEO fields are
      missing, and the social one exactly when all three social fields are. */
  lemma SeoSuggestionsSpec(project: string, fm: Record)
    ensures Issue(project, NoSeoFields) in SeoIssues(project, fm).suggestions <==>
              !Has(fm, SeoTitle) && !Has(fm, SeoDescription) && !Has(fm, CanonicalUrl)
    ensures Issue(project, NoSocialFields) in SeoIssues(project, fm).suggestions <==>
              !Has(fm, OgTitle) && !Has(fm, OgDescription) && !Has(fm, TwitterCard)
    ensures |SeoIssues(project, fm).suggestions| <= 2
  {
    ThreeMissing(fm, SeoFields);
    ThreeMissing(fm, SocialFields);
    SeoSuggestionsCount(project, MissingCount(fm, SeoFields, 3), MissingCount(fm, SocialFields, 3));
  }

  /** At most one categories warning, drawn exactly when the categories are
      missing, empty or more than five. */
  lemma CategoryWarningsSpec(project: string, fm: Record)
    ensures |CategoryWarnings(project, fm)| <= 1
    ensures CategoryWarnings(project, fm) != [] <==>
              !Has(fm, Categories) || Length(Get(fm, Categories)) == Some(0)
              || (Length(Get(fm, Categories)).Some? && Length(Get(fm, Categories)).value > 5)
    ensures forall k: nat :: 1 <= k <= 5 && Length(Get(fm, Categories)) == Some(k) ==>
              CategoryWarnings(project, fm) == []
  {
  }

  // === Images ===

  /** What the file system says about a project folder: whether the hero
      image's resolved path exists, and the number of entries of its
      `images` directory when there is one. */
  datatype ImageFacts = ImageFacts(heroExists: bool, imagesDir: Option<nat>)

  /** The TypeError a truthy hero image that is not a string raises. */
  const HeroNotAString := "frontmatter.hero_image.startsWith is not a function"

  /** Everything `validateImages` adds, or the error it throws. */
  function ImageIssues(project: string, fm: Record, facts: ImageFacts): Result<Issues> {
    var hero := Get(fm, HeroImage);
    if Truthy(hero) && !hero.Str? then Err(HeroNotAString)
    else
      Ok(Issues(if Truthy(hero) && !facts.heroExists then [Issue(project, HeroNotFound(hero.s))] else [],
                if facts.imagesDir == Some(0) then [Issue(project, EmptyImagesDir)] else [],
                if facts.imagesDir.None? && !Truthy(hero) then [Issue(project, NoHeroImage)] else []))
  }

  // === Projects ===

  /** What reading a project folder gives. */
  datatype Entry =
    | PathCheckFails(message: string)   // fs.pathExists on index.md throws
    | NoIndexFile
    | Unreadable(message: string)       // reading index.md or its YAML throws
    | Parsed(frontmatter: Record, markdown: string, images: ImageFacts)

  datatype ProjectFolder = ProjectFolder(name: string, entry: Entry)

  /** An entry of `validatedProjects`. */
  datatype ValidatedProject = ValidatedProject(name: string, frontmatter: Record, wordCount: nat, status: Value)

  /** The errors the image check adds, or the parse error its throw is
      caught as. */
  function ImageErrors(project: string, fm: Record, facts: ImageFacts): seq<Issue> {
    match ImageIssues(project, fm, facts)
    case Ok(images) => images.errors
    case Err(m) => [Issue(project, ParseFailed(m))]
  }

  /** Everything `validateProject` adds for a parsed index.md; the checks
      before a throwing image check keep what they added. */
  function ParsedIssues(project: string, fm: Record, markdown: string, facts: ImageFacts,
                        dateParses: string -> bool): Issues
  {
    var checked := FrontmatterIssues(project, fm, dateParses).Then(ContentIssues(project, markdown))
                     .Then(SeoIssues(project, fm));
    match ImageIssues(project, fm, facts)
    case Ok(images) => checked.Then(images)
    case Err(m) => checked.Then(Issues([Issue(project, ParseFailed(m))], [], []))
  }

  /** Everything `validateProject` adds when it returns. */
  function ProjectIssues(folder: ProjectFolder, dateParses: string -> bool): Issues {
    match folder.entry
    case PathCheckFails(_) => NoIssues
    case NoIndexFile => Issues([Issue(folder.name, MissingIndex)], [], [])
    case Unreadable(m) => Issues([Issue(folder.name, ParseFailed(m))], [], [])
    case Parsed(fm, markdown, facts) => ParsedIssues(folder.name, fm, markdown, facts, dateParses)
  }

  /** The `validatedProjects` entry a folder adds: one exactly when every
      check returned. */
  function ProjectValidated(folder: ProjectFolder): seq<ValidatedProject> {
    match folder.entry
    case Parsed(fm, markdown, facts) =>
      if ImageIssues(folder.name, fm, facts).Ok? then
        [ValidatedProject(folder.name, fm, CountTokens(markdown), Or(Get(fm, Status), Str("unknown")))]
      else []
    case _ => []
  }

  /** What `validate` adds for one folder: the critical error when
      `validateProject` throws. */
  function FolderIssues(folder: ProjectFolder, dateParses: string -> bool): Issues {
    match folder.entry
    case PathCheckFails(m) => Issues([Issue(folder.name, Critical(m))], [], [])
    case _ => ProjectIssues(folder, dateParses)
  }

  /** The entries of the first `n` logs, in order. */
  function ConcatIssues(logs: seq<Issues>, n: nat): Issues
    requires n <= |logs|
  {
    if n == 0 then NoIssues else ConcatIssues(logs, n - 1).Then(logs[n - 1])
  }

  /** What `validate` adds for each folder. */
  function FolderLogs(folders: seq<ProjectFolder>, dateParses: string -> bool): (logs: seq<Issues>)
    ensures |logs| == |folders|
  {
    seq(|folders|, i requires 0 <= i < |folders| => FolderIssues(folders[i], dateParses))
  }

  function RunIssues(folders: seq<ProjectFolder>, dateParses: string -> bool): Issues {
    ConcatIssues(FolderLogs(folders, dateParses), |folders|)
  }

  /** The `validatedProjects` entries of the first `n` folders. */
  function RunValidated(folders: seq<ProjectFolder>, n: nat): seq<ValidatedProject>
    requires n <= |folders|
  {
    if n == 0 then [] else RunValidated(folders, n - 1) + ProjectValidated(folders[n - 1])
  }

  /** The errors of a parsed project are the frontmatter's, then the image
      check's: the content and SEO checks add none. */
  lemma ParsedErrors(project: string, fm: Record, markdown: string, facts: ImageFacts,
                     dateParses: string -> bool)
    ensures ParsedIssues(project, fm, markdown, facts, dateParses).errors ==
              FrontmatterIssues(project, fm, dateParses).errors + ImageErrors(project, fm, facts)
  {
  }

  /** The frontmatter adds no error exactly when it has a title, a
      description and a valid date, and no status or a valid one. */
  lemma FrontmatterPasses(project: string, fm: Record, dateParses: string -> bool)
    ensures FrontmatterIssues(project, fm, dateParses).errors == [] <==>
              Has(fm, Title) && Has(fm, Description) && Has(fm, Date)
              && IsValidDate(Get(fm, Date), dateParses) && !MarkdownParser.StatusInvalid(fm)
  {
    FrontmatterIssueCount(project, fm, dateParses);
    MissingCountAll(fm, Required, 3);
    assert Required[0] == Title && Required[1] == Description && Required[2] == Date;
  }

  /** A project adds no error exactly when its index.md was read, its
      frontmatter passes, and its hero image, if any, is a string naming a
      file that exists. */
  lemma FolderPasses(folder: ProjectFolder, dateParses: string -> bool)
    ensures FolderIssues(folder, dateParses).errors == [] <==>
              folder.entry.Parsed?
              && FrontmatterIssues(folder.name, folder.entry.frontmatter, dateParses).errors == []
              && (Has(folder.entry.frontmatter, HeroImage) ==>
                    Get(folder.entry.frontmatter, HeroImage).Str? && folder.entry.images.heroExists)
  {
    if folder.entry.Parsed? {
      ParsedErrors(folder.name, folder.entry.frontmatter, folder.entry.markdown, folder.entry.images, dateParses);
    }
  }

  lemma {:induction false} ConcatIssuesNoErrors(logs: seq<Issues>, n: nat)
    requires n <= |logs|
    ensures ConcatIssues(logs, n).errors == [] <==> forall i :: 0 <= i < n ==> logs[i].errors == []
  {
    if n != 0 {
      ConcatIssuesNoErrors(logs, n - 1);
    }
  }

  /** A run adds no error exactly when no folder does. */
  lemma RunPasses(folders: seq<ProjectFolder>, dateParses: string -> bool)
    ensures RunIssues(folders, dateParses).errors == [] <==>
              forall i :: 0 <= i < |folders| ==> FolderIssues(folders[i], dateParses).errors == []
  {
    var logs := FolderLogs(folders, dateParses);
    ConcatIssuesNoErrors(logs, |folders|);
    forall i | 0 <= i < |folders|
      ensures logs[i].errors == FolderIssues(folders[i], dateParses).errors
    {
    }
  }

  /** Every listed project comes from a folder that parsed and whose image
      check returned, in folder order. */
  lemma {:induction false} RunValidatedSpec(folders: seq<ProjectFolder>, n: nat)
    requires n <= |folders|
    ensures |RunValidated(folders, n)| <= n
    ensures forall p :: p in RunValidated(folders, n) ==>
              exists i :: 0 <= i < n && ProjectValidated(folders[i]) == [p]
  {
    if n != 0 {
      RunValidatedSpec(folders, n - 1);
    }
  }

  // === Report ===

  datatype Summary = Summary(totalProjects: nat, errors: nat, warnings: nat, suggestions: nat)

  /** A project in the report. `categoryCount` and `descriptionLength` are
      absent when the value has no `length`. */
  datatype ProjectSummary = ProjectSummary(
    name: string, status: Value, wordCount: nat, hasHeroImage: bool,
    categoryCount: Option<nat>, descriptionLength: Option<nat>)

  datatype Report = Report(generated: string, summary: Summary, projects: seq<ProjectSummary>, issues: Issues)

  function Summarize(p: ValidatedProject): (s: ProjectSummary)
    ensures s.name == p.name && s.status == p.status && s.wordCount == p.wordCount
    ensures s.hasHeroImage <==> Has(p.frontmatter, HeroImage)
    ensures !Has(p.frontmatter, Categories) ==> s.categoryCount == Some(0)
    ensures Get(p.frontmatter, Categories).List? ==> s.categoryCount == Some(|Get(p.frontmatter, Categories).items|)
    ensures !Has(p.frontmatter, Description) ==> s.descriptionLength == Some(0)
  {
    var fm := p.frontmatter;
    ProjectSummary(p.name, p.status, p.wordCount, Has(fm, HeroImage),
                   Length(Or(Get(fm, Categories), List([]))),
                   if Has(fm, Description) then Length(Get(fm, Description)) else Some(0))
  }

  // === The validator ===

  class ProjectValidator {
    var errors: seq<Issue>
    var warnings: seq<Issue>
    var suggestions: seq<Issue>
    var validatedProjects: seq<ValidatedProject>

    /** The three lists. */
    function Log(): Issues
      reads this
    {
      Issues(errors, warnings, suggestions)
    }

    constructor()
      ensures Log() == NoIssues && validatedProjects == []
    {
      errors, warnings, suggestions := [], [], [];
      validatedProjects := [];
    }

    /** `validateFrontmatter` */
    method ValidateFrontmatter(project: string, fm: Record, dateParses: string -> bool)
      modifies this
      ensures Log() == old(Log()).Then(FrontmatterIssues(project, fm, dateParses))
      ensures validatedProjects == old(validatedProjects)
    {
      for i := 0 to |Required|
        invariant errors == old(errors) + MissingIssues(project, fm, Required, i, true)
        invariant warnings == old(warnings) && suggestions == old(suggestions)
        invariant validatedProjects == old(validatedProjects)
      {
        if !Has(fm, Required[i]) {
          errors := errors + [MissingIssue(project, true, Required[i])];
        }
      }
      for i := 0 to |Recommended|
        invariant errors == old(errors) + MissingIssues(project, fm, Required, 3, true)
        invariant warnings == old(warnings) + MissingIssues(project, fm, Recommended, i, false)
        invariant suggestions == old(suggestions)
        invariant validatedProjects == old(validatedProjects)
      {
        if !Has(fm, Recommended[i]) {
          warnings := warnings + [MissingIssue(project, false, Recommended[i])];
        }
      }
      errors := errors + DateIssues(project, fm, dateParses);
      errors := errors + StatusIssues(project, fm);
      warnings := warnings + DescriptionIssues(project, fm);
      warnings := warnings + TitleIssues(project, fm);
      ghost var missing := MissingIssues(project, fm, Required, 3, true);
      AppendAssociative(old(errors), missing, DateIssues(project, fm, dateParses));
      AppendAssociative(old(errors), missing + DateIssues(project, fm, dateParses), StatusIssues(project, fm));
      ghost var unset := MissingIssues(project, fm, Recommended, 3, false);
      AppendAssociative(old(warnings), unset, DescriptionIssues(project, fm));
      AppendAssociative(old(warnings), unset + DescriptionIssues(project, fm), TitleIssues(project, fm));
      assert suggestions == old(suggestions) + [];
    }

    /** `validateContent`'s link loop, over the list of all matches. */
    method SuggestLocalLinks(project: string, links: seq<Link>)
      modifies this
      ensures suggestions == old(suggestions) + LocalLinkSuggestions(project, links)
      ensures errors == old(errors) && warnings == old(warnings)
      ensures validatedProjects == old(validatedProjects)
    {
      for i := 0 to |links|
        invariant suggestions == old(suggestions) + LocalLinkSuggestions(project, links[..i])
        invariant errors == old(errors) && warnings == old(warnings)
        invariant validatedProjects == old(validatedProjects)
      {
        assert links[..i + 1][..i] == links[..i];
        if IsLocal(links[i].url) {
          suggestions := suggestions + [Issue(project, LocalLink(links[i].url))];
        }
      }
      assert links[..|links|] == links;
    }

    /** `validateContent`'s image loop, over the list of all matches. */
    method WarnMissingAlts(project: string, images: seq<Image>)
      modifies this
      ensures warnings == old(warnings) + MissingAltWarnings(project, images)
      ensures errors == old(errors) && suggestions == old(suggestions)
      ensures validatedProjects == old(validatedProjects)
    {
      for i := 0 to |images|
        invariant warnings == old(warnings) + MissingAltWarnings(project, images[..i])
        invariant errors == old(errors) && suggestions == old(suggestions)
        invariant validatedProjects == old(validatedProjects)
      {
        assert images[..i + 1][..i] == images[..i];
        if Trim(images[i].alt) == "" {
          warnings := warnings + [Issue(project, MissingAlt(images[i].src))];
        }
      }
      assert images[..|images|] == images;
    }

    /** `validateContent` */
    method ValidateContent(project: string, markdown: string)
      modifies this
      ensures Log() == old(Log()).Then(ContentIssues(project, markdown))
      ensures validatedProjects == old(validatedProjects)
    {
      var wordCount := CountTokens(markdown);
      if wordCount < 100 {
        warnings := warnings + [Issue(project, ShortContent(wordCount))];
      }
      assert warnings == old(warnings) + ShortContentWarnings(project, markdown);
      var links := ExtractLinks(markdown);
      SuggestLocalLinks(project, links);
      var images := ExtractImages(markdown);
      WarnMissingAlts(project, images);
      AppendAssociative(old(warnings), ShortContentWarnings(project, markdown), MissingAltWarnings(project, images));
      assert errors == old(errors) + [];
      assert warnings == old(warnings) + (ShortContentWarnings(project, markdown) + MissingAltWarnings(project, images));
      assert ContentIssues(project, markdown)
          == Issues([], ShortContentWarnings(project, markdown) + MissingAltWarnings(project, images),
                    LocalLinkSuggestions(project, links));
    }

    /** `validateSEO`: counts the missing SEO and social fields, then adds
        the suggestions and the categories warning. */
    method ValidateSeo(project: string, fm: Record)
      modifies this
      ensures Log() == old(Log()).Then(SeoIssues(project, fm))
      ensures validatedProjects == old(validatedProjects)
    {
      var missingSeo := 0;
      for i := 0 to |SeoFields|
        modifies {}
        invariant missingSeo == MissingCount(fm, SeoFields, i)
      {
        if !Has(fm, SeoFields[i]) {
          missingSeo := missingSeo + 1;
        }
      }
      if missingSeo == |SeoFields| {
        suggestions := suggestions + [Issue(project, NoSeoFields)];
      }
      var missingSocial := 0;
      for i := 0 to |SocialFields|
        modifies {}
        invariant missingSocial == MissingCount(fm, SocialFields, i)
      {
        if !Has(fm, SocialFields[i]) {
          missingSocial := missingSocial + 1;
        }
      }
      if missingSocial == |SocialFields| {
        suggestions := suggestions + [Issue(project, NoSocialFields)];
      }
      warnings := warnings + CategoryWarnings(project, fm);
    }

    /** `validateImages`, with the file system's answers as `facts`. */
    method ValidateImages(project: string, fm: Record, facts: ImageFacts) returns (r: Result<()>)
      modifies this
      ensures ImageIssues(project, fm, facts).Err? ==>
                r == Err(ImageIssues(project, fm, facts).message) && Log() == old(Log())
      ensures ImageIssues(project, fm, facts).Ok? ==>
                r == Ok(()) && Log() == old(Log()).Then(ImageIssues(project, fm, facts).value)
      ensures validatedProjects == old(validatedProjects)
    {
      var hero := Get(fm, HeroImage);
      if Truthy(hero) {
        if !hero.Str? {
          return Err(HeroNotAString);
        }
        if !facts.heroExists {
          errors := errors + [Issue(project, HeroNotFound(hero.s))];
        }
      }
      if facts.imagesDir.Some? {
        if facts.imagesDir.value == 0 {
          warnings := warnings + [Issue(project, EmptyImagesDir)];
        }
      } else if !Truthy(hero) {
        suggestions := suggestions + [Issue(project, NoHeroImage)];
      }
      r := Ok(());
    }

    /** `validateProject` on a parsed index.md: the checks in order, a
        throw of the image check caught as a parse error. */
    method ValidateParsed(project: string, fm: Record, markdown: string, facts: ImageFacts,
                          dateParses: string -> bool)
      modifies this
      ensures Log() == old(Log()).Then(ParsedIssues(project, fm, markdown, facts, dateParses))
      ensures validatedProjects == old(validatedProjects)
                + ProjectValidated(ProjectFolder(project, Parsed(fm, markdown, facts)))
    {
      ValidateFrontmatter(project, fm, dateParses);
      ValidateContent(project, markdown);
      ThenAssociative(old(Log()), FrontmatterIssues(project, fm, dateParses), ContentIssues(project, markdown));
      ValidateSeo(project, fm);
      var checked := FrontmatterIssues(project, fm, dateParses).Then(ContentIssues(project, markdown));
      ThenAssociative(old(Log()), checked, SeoIssues(project, fm));
      var images := ValidateImages(project, fm, facts);
      if images.Err? {
        errors := errors + [Issue(project, ParseFailed(images.message))];
      } else {
        validatedProjects := validatedProjects
          + [ValidatedProject(project, fm, CountTokens(markdown), Or(Get(fm, Status), Str("unknown")))];
      }
      ThenAssociative(old(Log()), checked.Then(SeoIssues(project, fm)),
                      if images.Err? then Issues([Issue(project, ParseFailed(images.message))], [], [])
                      else ImageIssues(project, fm, facts).value);
    }

    /** `validateProject`: throws only when the existence check of
        index.md does; every later failure is caught as a parse error. */
    method ValidateProject(folder: ProjectFolder, dateParses: string -> bool) returns (r: Result<()>)
      modifies this
      ensures r.Err? <==> folder.entry.PathCheckFails?
      ensures r.Err? ==> r.message == folder.entry.message
      ensures Log() == old(Log()).Then(ProjectIssues(folder, dateParses))
      ensures validatedProjects == old(validatedProjects) + ProjectValidated(folder)
    {
      match folder.entry {
        case PathCheckFails(m) =>
          return Err(m);
        case NoIndexFile =>
          errors := errors + [Issue(folder.name, MissingIndex)];
        case Unreadable(m) =>
          errors := errors + [Issue(folder.name, ParseFailed(m))];
        case Parsed(fm, markdown, facts) =>
          ValidateParsed(folder.name, fm, markdown, facts, dateParses);
      }
      r := Ok(());
    }

    /** One round of `validate`'s loop: `validateProject`, with a throw
        recorded as a critical error. */
    method ValidateFolder(folder: ProjectFolder, dateParses: string -> bool)
      modifies this
      ensures Log() == old(Log()).Then(FolderIssues(folder, dateParses))
      ensures validatedProjects == old(validatedProjects) + ProjectValidated(folder)
    {
      var r := ValidateProject(folder, dateParses);
      if r.Err? {
        errors := errors + [Issue(folder.name, Critical(r.message))];
      }
    }

    /** `generateReport`, with the clock's reading as `now`; the file it
        writes is not part of this model. */
    function GenerateReport(now: string): (report: Report)
      reads this
      ensures report.summary == Summary(|report.projects|, |report.issues.errors|,
                                        |report.issues.warnings|, |report.issues.suggestions|)
      ensures report.issues == Log() && report.generated == now
      ensures |report.projects| == |validatedProjects|
      ensures forall i :: 0 <= i < |validatedProjects| ==> report.projects[i] == Summarize(validatedProjects[i])
    {
      Report(now, Summary(|validatedProjects|, |errors|, |warnings|, |suggestions|),
             seq(|validatedProjects|, i requires 0 <= i < |validatedProjects| reads this => Summarize(validatedProjects[i])),
             Log())
    }

    /** `printSummary`'s result; what it prints is not part of this model. */
    method PrintSummary() returns (passed: bool)
      ensures passed <==> errors == []
    {
      passed := |errors| == 0;
    }

    /** `validate`: validates every folder, recording a folder whose
        validation throws as a critical error and going on. Resolves to the
        report when there is no folder and to nothing otherwise. */
    method Validate(folders: seq<ProjectFolder>, dateParses: string -> bool, now: string)
      returns (resolved: Option<Report>)
      modifies this
      ensures Log() == old(Log()).Then(RunIssues(folders, dateParses))
      ensures validatedProjects == old(validatedProjects) + RunValidated(folders, |folders|)
      ensures folders == [] ==> resolved == Some(GenerateReport(now))
      ensures folders != [] ==> resolved == None
    {
      if |folders| == 0 {
        return Some(GenerateReport(now));
      }
      ghost var logs := FolderLogs(folders, dateParses);
      for i := 0 to |folders|
        invariant Log() == old(Log()).Then(ConcatIssues(logs, i))
        invariant validatedProjects == old(validatedProjects) + RunValidated(folders, i)
      {
        ValidateFolder(folders[i], dateParses);
        ThenAssociative(old(Log()), ConcatIssues(logs, i), logs[i]);
        AppendAssociative(old(validatedProjects), RunValidated(folders, i), ProjectValidated(folders[i]));
      }
      var passed := PrintSummary();
      resolved := None;
    }
  }
}

=== FILE: words.dfy ===
/** Word counting and reading time. The parser counts
    `text.trim().split(/\s+/).length` (build-system/lib/markdown-parser.js), the
    validator the same list with empty strings filtered out
    (build-system/scripts/validate-projects.js). Both are related here to an
    independent count: the number of places where a word starts. */
module Words {
  import opened Js

  /** `s.split(/\s+/)`: the pieces between maximal runs of white space. */
  function SplitWs(s: string): (parts: seq<string>)
    ensures |parts| >= 1
    decreases |s|
  {
    var e := RunEnd(s, 0, NotSpace);
    if e == |s| then [s]
    else
      var f := RunEnd(s, e, IsSpace);
      [s[..e]] + SplitWs(s[f..])
  }

  /** `.filter(word => word.length > 0)` */
  function NonEmpty(parts: seq<string>): (r: seq<string>)
    ensures |r| <= |parts|
    ensures forall i :: 0 <= i < |r| ==> r[i] != []
  {
    if parts == [] then []
    else (if parts[0] == [] then [] else [parts[0]]) + NonEmpty(parts[1..])
  }

  lemma NonEmptyCons(x: string, xs: seq<string>)
    ensures |NonEmpty([x] + xs)| == (if x == [] then 0 else 1) + |NonEmpty(xs)|
  {
    assert ([x] + xs)[1..] == xs;
  }

  /** The number of words in `s`: positions holding a non-white-space character
      that is first or follows white space. `afterSpace` says whether the text
      before `s` ended in white space (or there was none). */
  function WordStarts(s: string, afterSpace: bool): nat {
    if s == [] then 0
    else (if afterSpace && !IsSpace(s[0]) then 1 else 0) + WordStarts(s[1..], IsSpace(s[0]))
  }

  function EndsInSpace(s: string, afterSpace: bool): bool {
    if s == [] then afterSpace else IsSpace(s[|s| - 1])
  }

  /** The parser's `countWords`. */
  function CountWords(text: string): nat {
    |SplitWs(Trim(text))|
  }

  /** The validator's `countWords`. */
  function CountTokens(text: string): nat {
    |NonEmpty(SplitWs(Trim(text)))|
  }

  lemma {:induction false} WordStartsConcat(a: string, b: string, afterSpace: bool)
    ensures WordStarts(a + b, afterSpace) == WordStarts(a, afterSpace) + WordStarts(b, EndsInSpace(a, afterSpace))
  {
    if a != [] {
      assert (a + b)[0] == a[0];
      assert (a + b)[1..] == a[1..] + b;
      WordStartsConcat(a[1..], b, IsSpace(a[0]));
      if |a| > 1 {
        assert a[1..][|a| - 2] == a[|a| - 1];
      }
      assert EndsInSpace(a[1..], IsSpace(a[0])) == EndsInSpace(a, afterSpace);
      var c := if afterSpace && !IsSpace(a[0]) then 1 else 0;
      assert WordStarts(a + b, afterSpace) == c + WordStarts(a[1..] + b, IsSpace(a[0]));
      assert WordStarts(a, afterSpace) == c + WordStarts(a[1..], IsSpace(a[0]));
    } else {
      assert a + b == b;
    }
  }

  lemma {:induction false} WordStartsOfSpaces(s: string, afterSpace: bool)
    requires AllSpace(s)
    ensures WordStarts(s, afterSpace) == 0
  {
    if s != [] {
      WordStartsOfSpaces(s[1..], true);
    }
  }

  lemma {:induction false} WordStartsOfWord(s: string, afterSpace: bool)
    requires forall k :: 0 <= k < |s| ==> !IsSpace(s[k])
    ensures WordStarts(s, afterSpace) == (if s != [] && afterSpace then 1 else 0)
  {
    if s != [] {
      WordStartsOfWord(s[1..], false);
    }
  }

  /** A word (possibly empty) followed by white space contributes at most the
      one word start. */
  lemma WordStartsAfterFirstSplit(s: string, e: nat, f: nat)
    requires e < f <= |s|
    requires forall k :: 0 <= k < e ==> !IsSpace(s[k])
    requires forall k :: e <= k < f ==> IsSpace(s[k])
    ensures WordStarts(s, true) == (if e == 0 then 0 else 1) + WordStarts(s[f..], true)
  {
    assert s == s[..e] + (s[e..f] + s[f..]);
    WordStartsConcat(s[..e], s[e..f] + s[f..], true);
    WordStartsConcat(s[e..f], s[f..], EndsInSpace(s[..e], true));
    WordStartsOfWord(s[..e], true);
    WordStartsOfSpaces(s[e..f], EndsInSpace(s[..e], true));
  }

  /** Dropping the empty pieces of the split leaves one piece per word. */
  lemma {:induction false} NonEmptySplitCountsWords(s: string)
    ensures |NonEmpty(SplitWs(s))| == WordStarts(s, true)
    decreases |s|
  {
    var e := RunEnd(s, 0, NotSpace);
    if e == |s| {
      assert SplitWs(s) == [s];
      assert NonEmpty([s]) == (if s == [] then [] else [s]) + NonEmpty([]);
      WordStartsOfWord(s, true);
    } else {
      var f := RunEnd(s, e, IsSpace);
      var rest := SplitWs(s[f..]);
      assert SplitWs(s) == [s[..e]] + rest;
      NonEmptyCons(s[..e], rest);
      NonEmptySplitCountsWords(s[f..]);
      WordStartsAfterFirstSplit(s, e, f);
    }
  }

  /** Without white space at either end every piece of the split is a word. */
  lemma {:induction false} SplitCountsWords(s: string)
    requires s != [] && !IsSpace(s[0]) && !IsSpace(s[|s| - 1])
    ensures |SplitWs(s)| == WordStarts(s, true)
    decreases |s|
  {
    var e := RunEnd(s, 0, NotSpace);
    if e == |s| {
      WordStartsOfWord(s, true);
    } else {
      var f := RunEnd(s, e, IsSpace);
      assert f < |s|;
      SplitCountsWords(s[f..]);
      WordStartsAfterFirstSplit(s, e, f);
    }
  }

  /** White space around the text starts no word. */
  lemma TrimKeepsWords(s: string)
    ensures WordStarts(Trim(s), true) == WordStarts(s, true)
  {
    TrimStartSpec(s);
    var t := TrimStart(s);
    var d := |s| - |t|;
    assert s == s[..d] + t;
    WordStartsConcat(s[..d], t, true);
    WordStartsOfSpaces(s[..d], true);
    assert EndsInSpace(s[..d], true);
    TrimEndSpec(t);
    var r := TrimEnd(t);
    assert t == r + t[|r|..];
    WordStartsConcat(r, t[|r|..], true);
    WordStartsOfSpaces(t[|r|..], EndsInSpace(r, true));
  }

  lemma {:induction false} NoWordsIffBlank(s: string, afterSpace: bool)
    requires afterSpace
    ensures WordStarts(s, afterSpace) == 0 <==> AllSpace(s)
  {
    if s != [] {
      if IsSpace(s[0]) {
        NoWordsIffBlank(s[1..], true);
        if AllSpace(s[1..]) {
          forall k | 1 <= k < |s| ensures IsSpace(s[k]) {
            assert s[k] == s[1..][k - 1];
          }
        }
      }
    }
  }

  /** The validator counts the words: 0 exactly for blank text. */
  lemma CountTokensIsWordCount(text: string)
    ensures CountTokens(text) == WordStarts(text, true)
    ensures CountTokens(text) == 0 <==> AllSpace(text)
  {
    NonEmptySplitCountsWords(Trim(text));
    TrimKeepsWords(text);
    NoWordsIffBlank(text, true);
  }

  /** The parser agrees with the validator on text with a word in it, and
      counts blank text as one word, so it never returns 0. */
  lemma CountWordsIsWordCount(text: string)
    ensures AllSpace(text) ==> CountWords(text) == 1
    ensures !AllSpace(text) ==> CountWords(text) == WordStarts(text, true) == CountTokens(text)
    ensures CountWords(text) >= 1
  {
    CountTokensIsWordCount(text);
    TrimSpec(text);
    var t := Trim(text);
    if !AllSpace(text) {
      SplitCountsWords(t);
      TrimKeepsWords(text);
    } else {
      assert t == [];
      assert SplitWs(t) == [t];
    }
  }

  /** `Math.ceil(words / 200)` */
  function MinutesFor(words: nat): (minutes: nat)
    ensures 200 * minutes >= words
    ensures minutes > 0 ==> 200 * (minutes - 1) < words
  {
    (words + 199) / 200
  }

  /** More words never take less time to read. */
  lemma MinutesForMonotone(w1: nat, w2: nat)
    requires w1 <= w2
    ensures MinutesFor(w1) <= MinutesFor(w2)
  {
  }

  /** `estimateReadingTime`: at least one minute for every text, blank or not. */
  function EstimateReadingTime(text: string): (minutes: nat)
    ensures minutes >= 1
    ensures 200 * (minutes - 1) < CountWords(text) <= 200 * minutes
  {
    CountWordsIsWordCount(text);
    MinutesFor(CountWords(text))
  }
}
